=== FILE: README.md ===
# china-beancount-importers, modelled in Dafny

china-beancount-importers is a set of beangulp importers, and one beancount.ingest importer
(WeChat, an `ImporterProtocol` subclass). They turn statements exported by
Chinese banks and payment apps into beancount ledger entries. The sources are:

- WeChat Pay and Alipay CSV bills;
- China Merchants Bank (CMB) and China Construction Bank (CCB) debit-card exports;
- CMB and CCB credit-card statements, as PDF text or as HTML e-mail.

This project models the part of each importer that works on content already read from the
file: text lines, decoded CSV records, spreadsheet rows or table cells. It proves what each
importer makes of that content, as ledger transactions and balance assertions.

Modules:

- Shared modules:
  - `Base`: errors, `Option`/`Result`, and the two loop shapes the importers use.
  - `Text`: Python's string operations.
  - `Numbers`: `int()`, `Decimal()`, beancount's `D()` and the amount readers.
  - `Dates`: `datetime.date`, the next day, the date slices and `strptime`.
  - `Ledger`: transactions, postings and balances.
  - `Dicts`: Python dicts, as ordered association lists.
  - `DailyBalance`: the "one balance assertion per date, dated the next day" loop that three
    importers share.
- One module per importer:
  - `Alipay`
  - `Wechat`
  - `CmbDebit`
  - `CcbDebit`
  - `CcbCreditPdf`
  - `CmbCreditPdf`
  - `CcbCreditEml`
  - `CmbCreditEml`

Representation choices:

- Amounts are decimals, kept as a mantissa and a scale.
- Dates are year/month/day triples with a validity predicate covering years 1 to 9999.
- Every exception the source raises becomes an `Err` of the structured `Error` type.
- A regular expression becomes a character-level predicate.
- A scan over regex matches becomes a "first position where the predicate holds" function.
- Where the source loops and appends, the model has a method whose postcondition ties its
  result to a specification function. The lemmas then state what the source promises about
  that function.

## Model

| member | source | states |
|---|---|---|
| Base.MapAllOk | china_beancount_importers/wechat.py:62-104 | a loop that appends one entry per element and finishes gives as many entries as elements, entry k being the conversion of element k |
| Base.MapAllErr | china_beancount_importers/wechat.py:62-104 | such a loop fails exactly with the error of the first element that raises |
| Base.MapAllFails | china_beancount_importers/wechat.py:62-104 | a loop that fails stopped at some element, the first that raises, and fails with its error |
| Base.CollectOk | china_beancount_importers/cmb_credit_eml.py:56-104 | a loop that skips some elements and appends the others' entries gives one entry per element not skipped, in order |
| Base.CollectErr | china_beancount_importers/cmb_credit_eml.py:56-104 | such a loop fails exactly with the error of the first element that raises |
| Text.SplitJoin | china_beancount_importers/cmb_credit_pdf.py:163-188 | `split()` recovers tokens joined by single spaces, so the summary rebuilt from a line's tokens splits back into them |
| Text.JoinSplitOn | china_beancount_importers/cmb_credit_eml.py:61-72 | `"-".join(s.split("-"))` gives back `s` |
| Text.RemoveChar | china_beancount_importers/ccb_credit_pdf.py:35 | `s.replace(c, "")` leaves no copy of `c` and keeps every other character in order |
| Text.StripTwice | china_beancount_importers/cmb_debeit.py:65 | stripping is idempotent |
| Text.Strip | china_beancount_importers/cmb_debeit.py:65 | `strip()` leaves no whitespace at either end, is empty exactly when the text is all whitespace, and leaves stripped text unchanged |
| Text.StripFrom | china_beancount_importers/cmb_debeit.py:65 | every character `strip()` keeps comes from the text |
| Text.ReplaceAbsent | china_beancount_importers/wechat.py:75 | `replace` changes nothing in a text holding no occurrence of the pattern |
| Text.ReplaceAfter | china_beancount_importers/wechat.py:75 | `replace` keeps a piece in which no occurrence starts, then replaces the occurrence after it |
| Text.ReplaceJoined | china_beancount_importers/wechat.py:75 | `sep.join(parts).replace(sep, "")` is `"".join(parts)` when no copy of sep starts inside a piece |
| Text.Split | china_beancount_importers/ccb_credit_pdf.py:86 | `split()` gives non-empty tokens without whitespace |
| Text.Find | china_beancount_importers/ccb_credit_eml.py:61 | `str.find` gives the first position where the substring occurs, and none exactly when it occurs nowhere |
| Text.SplitOn | china_beancount_importers/cmb_credit_eml.py:61-72 | `s.split(c)` gives at least one part and no part holds `c` |
| Text.AsciiLower | china_beancount_importers/ccb_debeit.py:45 | `lower()` on ASCII letters: each of A–Z becomes its lower-case letter, every other character is kept, and the length is unchanged |
| Text.AfterLast | china_beancount_importers/cmb_credit_pdf.py:70 | `s.split(c)[-1]` holds no `c`; it is the tail after the last `c`, or the whole text without one |
| Text.GlobStarNamed | china_beancount_importers/cmb_debeit.py:41-43 | a file named prefix, anything, suffix, in any directory, matches the one-star `fnmatch` pattern |
| Text.AfterLastOf | china_beancount_importers/cmb_credit_pdf.py:70 | `s.split(c)[-1]` is the text after the last `c` |
| Numbers.ParseInt | china_beancount_importers/cmb_credit_pdf.py:55 | `int()` on ASCII digits: succeeds exactly on an optionally signed string of ASCII digits once stripped, fails otherwise with the text, and reads digits as their value |
| Numbers.ParseZeroPad | china_beancount_importers/ccb_credit_pdf.py:157 | `int()` reads back a number printed with `:0Nd` |
| Numbers.ParseDecimal | china_beancount_importers/cmb_debeit.py:81 | `Decimal()` on plain literals: succeeds exactly on an optionally signed literal of ASCII digits with at most one point once stripped, and fails otherwise with the text |
| Numbers.ParseRender | china_beancount_importers/cmb_debeit.py:81 | `Decimal()` reads back every amount from its printed text |
| Numbers.ParenAmountNegates | china_beancount_importers/ccb_credit_pdf.py:34-38 | an amount in parentheses is the negation of the amount inside, and reads exactly when the inside reads |
| Numbers.ParenAmountCommas | china_beancount_importers/ccb_credit_eml.py:37-46 | thousands separators never change the amount read |
| Numbers.ParenAmountRender | china_beancount_importers/ccb_credit_eml.py:37-46 | the amount reader reads back a printed amount, and its parenthesised form as the negation |
| Numbers.D | china_beancount_importers/alipay.py:75 | `D("")` is zero; any other text loses its commas and spaces and is read by `Decimal()` |
| Numbers.DRender | china_beancount_importers/cmb_credit_eml.py:82 | `D()` reads back every printed amount |
| Numbers.NatDigits | china_beancount_importers/cmb_credit_eml.py:69 | `str(n)` is never empty and has no leading zero |
| Numbers.NatDigitsValue | china_beancount_importers/cmb_credit_eml.py:69 | `str(n)` is made of digits only and reads back as `n` |
| Dates.MakeDate | china_beancount_importers/cmb_debeit.py:74-78 | `date(y, m, d)` succeeds exactly on a calendar date of years 1 to 9999 and otherwise fails naming the fields |
| Dates.NextDay | china_beancount_importers/alipay.py:95 | `date + timedelta(days=1)` is the least valid date after the date, and overflows only after 9999-12-31 |
| Dates.FromCompactDigits | china_beancount_importers/cmb_debeit.py:74-78 | on an eight-digit field, the slices `[:4]`, `[4:6]` and `[6:8]` give year, month and day |
| Dates.FromCompactText | china_beancount_importers/ccb_debeit.py:79-83 | slicing the YYYYMMDD text of a date reads the date back |
| Dates.FromIsoText | china_beancount_importers/ccb_credit_eml.py:49-50 | `parse_date` reads a date back from its ISO text |
| Dates.StrptimeCompactText | china_beancount_importers/wechat.py:50-54 | `strptime` with `%Y%m%d` and a literal reads back a date from its YYYYMMDD text and that literal |
| Dates.StrptimeYear | china_beancount_importers/cmb_credit_eml.py:68-70 | `strptime` takes the year from the first four characters |
| Ledger.TxnsReverse | china_beancount_importers/cmb_debeit.py:118 | the transactions of a reversed list are the reversed transactions |
| Ledger.Reverse | china_beancount_importers/cmb_debeit.py:118 | `list(reversed(xs))` has element k equal to the k-th element from the end |
| Dicts.Get | china_beancount_importers/alipay.py:76 | `d.get(k)` is absent exactly when `k` is not a key, and is otherwise the value stored under `k` |
| Dicts.Field | china_beancount_importers/cmb_debeit.py:66 | a required column is present exactly when its name is a key, and a missing one is an error naming it |
| Dicts.Put | china_beancount_importers/wechat.py:29-34 | `d[k] = v` stores `v` under `k`, changes no other key, keeps an existing key's place and appends a new one |
| Dicts.PutAllGet | china_beancount_importers/wechat.py:29-34 | after `update(pairs)`, a key takes the value of its last pair, and keys not among the pairs keep their values |
| Dicts.SortedKeys | china_beancount_importers/ccb_credit_pdf.py:191 | `sorted(d)` is the keys of `d` in ascending order, the same keys with the same counts |
| Dicts.Keys | china_beancount_importers/wechat.py:80 | iterating a dict gives its keys in insertion order |
| Dicts.Sort | china_beancount_importers/ccb_credit_pdf.py:191 | `sorted()` gives an ascending list with the same elements and counts |
| Dicts.SortedUnique | china_beancount_importers/cmb_credit_pdf.py:63 | two sorted lists with the same elements are equal, so the known-labels list of the error is determined |
| DailyBalance.Piece | china_beancount_importers/alipay.py:85-113 | a row whose date is already reported, or which offers no balance, adds only its transaction; otherwise a balance dated the next day comes first, then the transaction |
| DailyBalance.Row | china_beancount_importers/cmb_debeit.py:92-116 | the loop body appends the row's piece and records the row's date in `day_balance` when it offers a balance, keeping every earlier entry |
| DailyBalance.Run | china_beancount_importers/alipay.py:61-113 | the row loop with the `day_balance` dict and the results list computes the fold `Emit` |
| DailyBalance.FoldSticky | china_beancount_importers/alipay.py:61-113 | once a row raises, the run fails with that error |
| DailyBalance.EmitTxns | china_beancount_importers/alipay.py:61-113 | a successful run decoded every row, and its transactions are the rows' transactions in row order |
| DailyBalance.EmitTxnAt | china_beancount_importers/cmb_debeit.py:64-116 | the j-th transaction posted is the j-th row's |
| DailyBalance.EmitBalances | china_beancount_importers/alipay.py:85-101 | each balance is dated the day after the transaction right after it, and no two balances share a date |
| DailyBalance.NextDayInjective | china_beancount_importers/alipay.py:95 | distinct dates have distinct next days |
| DailyBalance.BalancesReversed | china_beancount_importers/cmb_debeit.py:118 | after reversal each balance comes right after the transaction of the day before it |
| DailyBalance.ClaimedMember | china_beancount_importers/ccb_debeit.py:85-86 | a date is in `day_balance` exactly when some earlier row of that date offered a balance |
| DailyBalance.FirstIffUnclaimed | china_beancount_importers/alipay.py:86-91 | a row reports its date's balance exactly when it is the first row of that date to offer one |
| DailyBalance.EmitLayout | china_beancount_importers/alipay.py:61-113 | on decoded rows the run succeeds exactly when every first-of-date balance has a next day and a readable amount; the output then holds each row's transaction, preceded by its date's balance when the row is the first of its date |
| DailyBalance.LaterRowNoBalance | china_beancount_importers/alipay.py:86-91 | a later row of a reported date adds no balance |
| Alipay.FirstMarker | china_beancount_importers/alipay.py:48-55 | the index of the first line holding the start marker, and none exactly when no line holds it |
| Alipay.KeepAfterMarker | china_beancount_importers/alipay.py:47-55 | the read loop with its `start` flag keeps exactly what the reference filter `AfterMarker` keeps |
| Alipay.AfterMarkerLines | china_beancount_importers/alipay.py:48-55 | nothing is kept without a marker line; no kept line holds the marker; every kept line comes after the first marker line |
| Alipay.DropMarkersMember | china_beancount_importers/alipay.py:51-53 | after the first marker line, a line is kept exactly when it holds no marker |
| Alipay.AmountText | china_beancount_importers/alipay.py:75 | the expense cell when it is not empty, else the income cell, and an error when the expense column is missing |
| Alipay.PayeeText | china_beancount_importers/alipay.py:76 | the goods cell when present and not empty, else the remark cell, else the name cell |
| Alipay.CleanPayee | china_beancount_importers/alipay.py:77-79 | the comment prefix is removed once; a payee of "/", or of the prefix and "/", becomes empty; the result is never "/" |
| Alipay.BalanceText | china_beancount_importers/alipay.py:85 | the balance cell without commas, stripped, or empty when the column is missing |
| Alipay.RowStep | china_beancount_importers/alipay.py:61-112 | a record's transaction has flag OKAY, tag "alipay", no narration, the cleaned payee, the record's date and one posting of `D(amount)`, never negated, to the own account; it offers its balance exactly when the balance text is not empty |
| Alipay.ExtractRecords | china_beancount_importers/alipay.py:44-114 | extract computes the daily-balance fold of the records' steps |
| Alipay.ExtractOrder | china_beancount_importers/alipay.py:61-113 | a successful extract holds every record's transaction in file order; each balance precedes the transaction of the day before it, with no date reported twice |
| Alipay.Steps | china_beancount_importers/alipay.py:61-113 | the loop visits one step per record in file order |
| Alipay.IdentifyNamed | china_beancount_importers/alipay.py:40-42 | a file named `<anything>_ACCLOG.csv` is identified |
| Wechat.WechatImporter.constructor | china_beancount_importers/wechat.py:21-36 | the table is the caller's dict updated with "零钱" and "/" mapped to the wallet account |
| Wechat.WechatImporter.WithDefaultAccount | china_beancount_importers/wechat.py:21-36 | without an account argument the wallet account is "Assets:WeChat", and the table is built the same way |
| Wechat.ConstructorTable | china_beancount_importers/wechat.py:28-34 | after construction both wallet keys map to the wallet account, overriding the caller, and every other key keeps the caller's value |
| Wechat.LastMatchNone | china_beancount_importers/wechat.py:78-83 | the lookup finds nothing exactly when no key occurs in the payment method |
| Wechat.LastMatchAt | china_beancount_importers/wechat.py:78-83 | when key j is the last key, in dict order, that occurs in the payment method, the lookup gives its value |
| Wechat.Choice | china_beancount_importers/wechat.py:78-83 | a match gives its account and flag OKAY; no match gives "Assets:FIXME" and flag WARNING |
| Wechat.ChooseAccount | china_beancount_importers/wechat.py:78-83 | the lookup loop over the table computes `Choice` |
| Wechat.SignedAmount | china_beancount_importers/wechat.py:68-71 | `D` of the cell without leading "¥", negated exactly when the direction is "支出" or "/" |
| Wechat.CleanNarration | china_beancount_importers/wechat.py:73-77 | a goods text without the prefix and other than "/" is kept; "/" becomes empty; the result is never "/" |
| Wechat.CleanNarrationPrefixed | china_beancount_importers/wechat.py:73-77 | a remark behind the prefix, holding no further copy of it, is kept as written with the prefix removed; a lone "/" behind it becomes empty |
| Wechat.CleanNarrationJoined | china_beancount_importers/wechat.py:73-77 | `replace` removes every copy of the prefix, not only the leading one: the prefix followed by pieces joined with it reads as the pieces run together, when no copy starts inside a piece |
| Wechat.Build | china_beancount_importers/wechat.py:85-103 | a top-up has the wallet posting of minus the amount first, narration "微信零钱充值" and no payee; any other row has one posting and the cleaned narration |
| Wechat.RowTxnShape | china_beancount_importers/wechat.py:62-104 | a converted record carries its date, the tag "wechat", the signed amount on its last posting, flag OKAY exactly when the lookup matched, and the top-up rule |
| Wechat.ConvertRow | china_beancount_importers/wechat.py:63-104 | the loop body, cells read in the source's order, computes `RowTxn` |
| Wechat.ConvertRows | china_beancount_importers/wechat.py:62-104 | the row loop gives one transaction per record, transaction k converting record k, or else the error of the first record that fails, every record before it converting |
| Wechat.WechatImporter.Extract | china_beancount_importers/wechat.py:56-105 | with the importer's account and table, one transaction per record, in order, or the first failing record's error |
| Wechat.FileDate | china_beancount_importers/wechat.py:50-54 | the file date, when read, is a valid date |
| Wechat.BillName | china_beancount_importers/wechat.py:38-54 | a bill named for a period is identified, and its file date is the period's last day |
| Wechat.TopUpUnits | tests/wechat_test.py:30-62 | the test's top-up record gives one transaction with the wallet posting first and amounts 1 and -1 in CNY |
| Wechat.TopUpTxn | tests/wechat_test.py:30-49 | the test's top-up record converts to the recharge built from its fields |
| CmbDebit.DropFrame | china_beancount_importers/cmb_debeit.py:56 | `lines[7:-3]` drops the seven preamble and three trailer lines, and is empty for a file of fewer than ten lines |
| CmbDebit.StripValues | china_beancount_importers/cmb_debeit.py:65 | every value of a record is stripped and the keys are kept |
| CmbDebit.Decode | china_beancount_importers/cmb_debeit.py:19-30 | validation succeeds exactly when every column is present, and otherwise names a missing column |
| CmbDebit.SignedAmount | china_beancount_importers/cmb_debeit.py:80-83 | the income when not empty, else minus the outcome |
| CmbDebit.RowEntry | china_beancount_importers/cmb_debeit.py:74-116 | a row converts exactly when its date and amount read; it offers its balance, is dated by the YYYYMMDD slices, and posts the signed amount with flag "*" and the remark as payee |
| CmbDebit.ExtractRecords | china_beancount_importers/cmb_debeit.py:54-118 | extract computes the reversed daily-balance fold of the records |
| CmbDebit.ExtractOrder | china_beancount_importers/cmb_debeit.py:64-118 | the returned list holds every record's transaction, last record first; each balance comes right after the transaction of the day before it |
| CmbDebit.Steps | china_beancount_importers/cmb_debeit.py:64-116 | the loop visits one step per record in file order |
| CmbDebit.FirstRecordOfDate | china_beancount_importers/cmb_debeit.py:92-93 | every record offers its balance, so a date's balance comes from its first record |
| CmbDebit.IdentifyNamed | china_beancount_importers/cmb_debeit.py:41-43 | a file named `CMB_<anything>.csv` is identified |
| CcbDebit.Header | china_beancount_importers/ccb_debeit.py:65 | the header is `df.values[2]`, the sheet's fourth row, and a table of fewer rows has none |
| CcbDebit.Body | china_beancount_importers/ccb_debeit.py:68 | the data rows are `df.values[3:]`, the rows from the sheet's fifth on |
| CcbDebit.ZipRow | china_beancount_importers/ccb_debeit.py:67 | the strict zip succeeds exactly when the row is as long as the header, and otherwise fails with both lengths |
| CcbDebit.ZipRowLast | china_beancount_importers/ccb_debeit.py:67 | a header name maps to the cell under its last occurrence |
| CcbDebit.RecordsShape | china_beancount_importers/ccb_debeit.py:65-69 | a successful zipping gives one record per data row, each the zip of the header with that row |
| CcbDebit.Records | china_beancount_importers/ccb_debeit.py:65-69 | a table without `df.values[2]` (a sheet of three rows or fewer) has no header row and fails |
| CcbDebit.Decode | china_beancount_importers/ccb_debeit.py:18-28 | validation succeeds exactly when every column is present, and otherwise names a missing column |
| CcbDebit.ParseGrouped | china_beancount_importers/ccb_debeit.py:77 | the amount is `Decimal` of the cell without commas, sign kept as written |
| CcbDebit.RowEntry | china_beancount_importers/ccb_debeit.py:77-113 | a row converts exactly when its amount and date read; it offers its balance and posts the amount with flag "*" |
| CcbDebit.Steps | china_beancount_importers/ccb_debeit.py:71 | rows are visited last to first |
| CcbDebit.ExtractSheet | china_beancount_importers/ccb_debeit.py:56-115 | extract computes the daily-balance fold over the rows, last row first |
| CcbDebit.ExtractOrder | china_beancount_importers/ccb_debeit.py:71-115 | the returned list holds every row's transaction in reverse file order, and each balance precedes the transaction of the day before it |
| CcbDebit.ExtractOrderAt | china_beancount_importers/ccb_debeit.py:71-115 | the k-th file row decodes, and its transaction is the k-th from the end of the output |
| CcbDebit.LastRowOfDate | china_beancount_importers/ccb_debeit.py:85-86 | the row that reports a date's balance is the last file row of that date |
| CcbDebit.IdentifyAnyCase | china_beancount_importers/ccb_debeit.py:43-45 | a file named `hqmx_<anything>.xls` is identified whatever the case of prefix and extension |
| CcbCreditPdf.IsoTokenFields | china_beancount_importers/ccb_credit_pdf.py:94-95 | `fromisoformat` on a date token reads its three digit fields |
| CcbCreditPdf.IsoTextToken | china_beancount_importers/ccb_credit_pdf.py:18 | the ISO text of a date is a date token and reads back as the date |
| CcbCreditPdf.ParseRecordLine | china_beancount_importers/ccb_credit_pdf.py:85-120 | a record read from a line keeps that line as its raw line |
| CcbCreditPdf.RecordLineNone | china_beancount_importers/ccb_credit_pdf.py:86-98 | a line is dropped exactly when it has fewer than seven tokens, a first or second token that is not YYYY-MM-DD, or a third token not four long |
| CcbCreditPdf.RecordLineSeven | china_beancount_importers/ccb_credit_pdf.py:100-101 | a line passing those checks with exactly seven tokens raises |
| CcbCreditPdf.RecordLineErrors | china_beancount_importers/ccb_credit_pdf.py:85-120 | every failure is a date outside the calendar, a seven-token line or an unreadable amount |
| CcbCreditPdf.DescriptionPresent | china_beancount_importers/ccb_credit_pdf.py:105-108 | with eight tokens or more the description is never empty, so the empty-description raise cannot happen |
| CcbCreditPdf.RecordLineFields | china_beancount_importers/ccb_credit_pdf.py:103-119 | the record's dates, card digits, middle tokens joined as description, currencies and amounts sit at the documented token positions, and the raw line is the line |
| CcbCreditPdf.RecordLineAmountOrder | china_beancount_importers/ccb_credit_pdf.py:116-118 | when both amounts are unreadable, the transaction amount's error is raised |
| CcbCreditPdf.LineAction | china_beancount_importers/ccb_credit_pdf.py:126-143 | before the table only the header matters; in the table a stop line ends the loop, a skip line is passed, and any other line is kept, passed or raised as the reader says |
| CcbCreditPdf.ExtractRecords | china_beancount_importers/ccb_credit_pdf.py:122-145 | the loop with its `in_table` flag computes the scan `Scan` |
| CcbCreditPdf.ScanFromHeader | china_beancount_importers/ccb_credit_pdf.py:127-132 | no line up to and including the first header is read; without a header nothing is found |
| CcbCreditPdf.ScanStopsAt | china_beancount_importers/ccb_credit_pdf.py:134-135 | a stop line ends the scan for good |
| CcbCreditPdf.ScanPassesOver | china_beancount_importers/ccb_credit_pdf.py:137-142 | a skipped or dropped table line can be removed without changing the result |
| CcbCreditPdf.ScanFailsOnlyOnRaise | china_beancount_importers/ccb_credit_pdf.py:140-143 | the scan fails only with the error of a line that raises |
| CcbCreditPdf.ScanFailsOnRaise | china_beancount_importers/ccb_credit_pdf.py:134-143 | a table line that raises, with no stop line before it, makes the scan fail |
| CcbCreditPdf.ScanSubseq | china_beancount_importers/ccb_credit_pdf.py:122-145 | the records come from distinct lines, in the order of those lines |
| CcbCreditPdf.RecordsFound | china_beancount_importers/ccb_credit_pdf.py:122-145 | the records are readings of table lines after the first header, in line order |
| CcbCreditPdf.YearMonth | china_beancount_importers/ccb_credit_pdf.py:152-156 | the year and month are found exactly when the name ends in six digits and ".pdf", and otherwise extraction raises naming the path |
| CcbCreditPdf.PeriodTagOfPath | china_beancount_importers/ccb_credit_pdf.py:153-157 | the period tag is "credit-ccb-" and the name's six digits with a hyphen after the year |
| CcbCreditPdf.PeriodTag | china_beancount_importers/ccb_credit_pdf.py:157 | the tag starts with "credit-ccb-" |
| CcbCreditPdf.CurrencyMap | china_beancount_importers/ccb_credit_pdf.py:51 | the given map, or `{"CNY": "CNY"}` when none or an empty one is given |
| CcbCreditPdf.RecordTxn | china_beancount_importers/ccb_credit_pdf.py:189-220 | an unknown settlement currency raises listing the sorted labels; otherwise one posting of minus the settlement amount in the mapped currency, dated by the trade date, flag "*", tags {period tag} |
| CcbCreditPdf.RecordTxnCredit | china_beancount_importers/ccb_credit_pdf.py:196 | a settlement amount in parentheses is posted as a positive amount |
| CcbCreditPdf.RecordTxns | china_beancount_importers/ccb_credit_pdf.py:166-220 | the loop gives one transaction per record, in order, or the first error |
| CcbCreditPdf.ExtractStatement | china_beancount_importers/ccb_credit_pdf.py:147-222 | extract computes the period tag, then the records, then their transactions |
| CcbCreditPdf.ExtractTxns | china_beancount_importers/ccb_credit_pdf.py:147-222 | a successful extract has one transaction per record, in record order, each tagged with the period |
| CcbCreditPdf.IdentifyNamed | china_beancount_importers/ccb_credit_pdf.py:56-59 | a file named `ccb-credit-<anything>.pdf` is identified |
| CmbCreditPdf.ParseMmddSpec | china_beancount_importers/cmb_credit_pdf.py:80-91 | empty text or text without "/" raises; otherwise month and day are read around the first "/", in the year before exactly when the month exceeds the statement month |
| CmbCreditPdf.ParseMmdd | china_beancount_importers/cmb_credit_pdf.py:80-91 | a date read from MM/DD is a valid calendar date |
| CmbCreditPdf.ParseMmddToken | china_beancount_importers/cmb_credit_pdf.py:80-89 | on an MM/DD token the date is that month and day in the inferred year |
| CmbCreditPdf.ParseDate | china_beancount_importers/cmb_credit_pdf.py:53-57 | `parse_date` fails when `int()` does; a date it gives is valid, and its YYYYMMDD number is the integer read |
| CmbCreditPdf.DateOfNumberOf | china_beancount_importers/cmb_credit_pdf.py:56 | the floor-division split gives a date back from its YYYYMMDD number |
| CmbCreditPdf.ParseDateCompact | china_beancount_importers/cmb_credit_pdf.py:53-57 | `parse_date` reads back every date from its YYYYMMDD text |
| CmbCreditPdf.SummaryStart | china_beancount_importers/cmb_credit_pdf.py:170-177 | the summary starts after one date token, or after two when the second token is MM/DD |
| CmbCreditPdf.FieldError | china_beancount_importers/cmb_credit_pdf.py:192-199 | the first of the amount, original-amount and card-digit checks that fails, in the source's order |
| CmbCreditPdf.ParseTxnLine | china_beancount_importers/cmb_credit_pdf.py:163-217 | a candidate line parses exactly when it is well formed, and the row then holds the line's tokens in their places; the too-few-trailing-tokens error never happens |
| CmbCreditPdf.BookingDefaultsToTrade | china_beancount_importers/cmb_credit_pdf.py:173-177 | without a second date token the booking date is the trade date |
| CmbCreditPdf.TxnParserRejects | china_beancount_importers/cmb_credit_pdf.py:163-199 | a line that is not well formed raises under every section |
| CmbCreditPdf.LineAction | china_beancount_importers/cmb_credit_pdf.py:136-199 | empty lines are skipped; before the table only the header matters; in the table a footer stops, a section marker sets the section, and a candidate line is parsed under the current section |
| CmbCreditPdf.ParseRowsWith | china_beancount_importers/cmb_credit_pdf.py:125-219 | the loop with `in_table` and `current_section` computes the scan `Scan` |
| CmbCreditPdf.ParseRows | china_beancount_importers/cmb_credit_pdf.py:125-219 | `_parse_rows` is that loop with the importer's line parser |
| CmbCreditPdf.ScanFromHeader | china_beancount_importers/cmb_credit_pdf.py:140-143 | no line before the header line, and not the header line itself, yields a row |
| CmbCreditPdf.ScanStopsAtFooter | china_beancount_importers/cmb_credit_pdf.py:145-151 | after a footer line no later line yields a row or raises |
| CmbCreditPdf.ScanSections | china_beancount_importers/cmb_credit_pdf.py:159-161 | a row's section is the last section marker before its line, or the starting section when none |
| CmbCreditPdf.ScanRows | china_beancount_importers/cmb_credit_pdf.py:163-217 | every row is the parse of its own line under its recorded section |
| CmbCreditPdf.ScanSubseq | china_beancount_importers/cmb_credit_pdf.py:125-219 | the rows come from distinct lines, in the order of those lines |
| CmbCreditPdf.ScanFailsOnBadLine | china_beancount_importers/cmb_credit_pdf.py:163-199 | an in-table candidate line that no section lets parse, before any footer, makes the scan fail |
| CmbCreditPdf.ParseRowsFound | china_beancount_importers/cmb_credit_pdf.py:125-219 | the rows are in line order, each the parse of a candidate line under the last marker before it; without a header there are none |
| CmbCreditPdf.ParseRowsFails | china_beancount_importers/cmb_credit_pdf.py:163-199 | after the header, a malformed candidate line before any footer fails the statement |
| CmbCreditPdf.FirstNumber | china_beancount_importers/cmb_credit_pdf.py:71 | `re.search` finds the leftmost start of a number, and nothing exactly when no number starts anywhere |
| CmbCreditPdf.MatchIsLiteral | china_beancount_importers/cmb_credit_pdf.py:71-74 | the matched text is always a decimal literal, so `Decimal()` of the match cannot fail |
| CmbCreditPdf.Cleaned | china_beancount_importers/cmb_credit_pdf.py:70 | the cleaned text has no comma and no slash |
| CmbCreditPdf.ExtractAmount | china_beancount_importers/cmb_credit_pdf.py:68-77 | it raises exactly when no number occurs in the cleaned text; otherwise it is the leftmost number, negated exactly when the cleaned text is parenthesised |
| CmbCreditPdf.ExtractPlain | china_beancount_importers/cmb_credit_pdf.py:68-77 | a plain amount with thousands separators reads as its value, and in parentheses as its negation |
| CmbCreditPdf.ExtractAfterSlash | china_beancount_importers/cmb_credit_pdf.py:69-70 | only the text after the last slash counts |
| CmbCreditPdf.CurrencyMap | china_beancount_importers/cmb_credit_pdf.py:104 | the given map, or `{"人民币元": "CNY"}` when none or an empty one is given |
| CmbCreditPdf.NormalizeCurrency | china_beancount_importers/cmb_credit_pdf.py:60-65 | the stripped label before the first slash is looked up; a missing label raises naming it and the sorted known labels |
| CmbCreditPdf.NormalizeCurrencyLabel | china_beancount_importers/cmb_credit_pdf.py:61 | whatever follows the first slash does not matter |
| CmbCreditPdf.LastYearMonth | china_beancount_importers/cmb_credit_pdf.py:222 | the greedy `.*` makes the year and month groups the last place where the rest of the pattern matches |
| CmbCreditPdf.YearMonth | china_beancount_importers/cmb_credit_pdf.py:222-227 | it fails, naming the path, exactly when the pattern matches nowhere |
| CmbCreditPdf.PeriodTagOfPath | china_beancount_importers/cmb_credit_pdf.py:222-228 | the period tag is "credit-cmb-" and the year and month as written in the path |
| CmbCreditPdf.RowTxn | china_beancount_importers/cmb_credit_pdf.py:269-302 | one posting of minus the extracted amount in CNY, the summary as payee; a "分期" row is dated by its booking date with flag "!" and tags {period, "installment"}; any other row by its trade date with flag "*" and tags {period} |
| CmbCreditPdf.RowTxnCharge | china_beancount_importers/cmb_credit_pdf.py:269 | a charge written as a plain amount posts its negation |
| CmbCreditPdf.RowTxnCredit | china_beancount_importers/cmb_credit_pdf.py:269 | an amount in parentheses posts the amount itself |
| CmbCreditPdf.RowTxns | china_beancount_importers/cmb_credit_pdf.py:245-302 | the loop gives one transaction per row, in order, or the first error |
| CmbCreditPdf.ExtractStatement | china_beancount_importers/cmb_credit_pdf.py:221-304 | extract computes the period, then the rows, then their transactions |
| CmbCreditPdf.ExtractTxns | china_beancount_importers/cmb_credit_pdf.py:221-304 | a successful extract has one transaction per parsed row, in row order, each tagged with the period |
| CmbCreditPdf.IdentifyNamed | china_beancount_importers/cmb_credit_pdf.py:109-111 | a file named `CreditCardReckoning<anything>.pdf` is identified whatever the extension's case |
| CcbCreditEml.FirstIsoDate | china_beancount_importers/ccb_credit_eml.py:63 | the search finds the first position where an ISO date with word boundaries matches |
| CcbCreditEml.Haystack | china_beancount_importers/ccb_credit_eml.py:61-62 | the whole text without "Statement Date", else at most the 300 characters from its first occurrence |
| CcbCreditEml.StatementDate | china_beancount_importers/ccb_credit_eml.py:60-66 | None exactly when the searched text holds no ISO date; a date found is valid; the only failure is a date outside the calendar |
| CcbCreditEml.DateInFirst | china_beancount_importers/ccb_credit_eml.py:63-66 | the date found is the first ISO date in the searched text, read as a date |
| CcbCreditEml.StatementDateOf | china_beancount_importers/ccb_credit_eml.py:60-66 | a page whose "Statement Date" is followed within the window by a date's ISO text gives that date |
| CcbCreditEml.ParseCnDate | china_beancount_importers/ccb_credit_eml.py:53-57 | the first YYYY年M月D日 in the text, raising when there is none or it is not a calendar date |
| CcbCreditEml.ParseCnText | china_beancount_importers/ccb_credit_eml.py:53-57 | a date written YYYY年MM月DD日 reads back |
| CcbCreditEml.Candidates | china_beancount_importers/ccb_credit_eml.py:71-76 | the list is built exactly when every match reads as two dates, and keeps only ranges with start not after end |
| CcbCreditEml.CandidatesErr | china_beancount_importers/ccb_credit_eml.py:71-76 | the error is that of the first match whose dates do not read |
| CcbCreditEml.CandidatesFails | china_beancount_importers/ccb_credit_eml.py:71-76 | a list that is not built fails with the error of the first match whose dates do not read |
| CcbCreditEml.OrderedOnlyIndex | china_beancount_importers/ccb_credit_eml.py:74-76 | the kept ranges are exactly the ordered ones, each once, in their order |
| CcbCreditEml.CandidatesIndex | china_beancount_importers/ccb_credit_eml.py:71-76 | candidate i is the range of match idx[i], the indices increase, and every match read as an ordered range is among them |
| CcbCreditEml.CandidatesEmpty | china_beancount_importers/ccb_credit_eml.py:71-79 | no candidate survives exactly when no match reads as an ordered range |
| CcbCreditEml.ParseRange | china_beancount_importers/ccb_credit_eml.py:73-74 | a match reads exactly when both its dates do, and gives valid dates |
| CcbCreditEml.EndingAt | china_beancount_importers/ccb_credit_eml.py:81-84 | the first candidate ending on the date, and none exactly when no candidate does |
| CcbCreditEml.FirstPlain | china_beancount_importers/ccb_credit_eml.py:86-90 | the first match not preceded within 24 characters by "上一", and none exactly when every match is |
| CcbCreditEml.Choose | china_beancount_importers/ccb_credit_eml.py:81-92 | the first candidate ending on the statement date; else the first match not preceded within 24 characters by "上一"; else the first candidate |
| CcbCreditEml.BillingPeriodRaises | china_beancount_importers/ccb_credit_eml.py:69-92 | the period search raises exactly when the statement date or a match's date does |
| CcbCreditEml.Decide | china_beancount_importers/ccb_credit_eml.py:69-92 | the statement date's error comes first, then a candidate's; no candidate gives None; otherwise the choice among the candidates |
| CcbCreditEml.BillingPeriodNone | china_beancount_importers/ccb_credit_eml.py:72-79 | the period is None exactly when every match reads and none has start not after end |
| CcbCreditEml.BillingPeriodStatement | china_beancount_importers/ccb_credit_eml.py:81-84 | with a statement date, the period is the first ordered match ending on it |
| CcbCreditEml.BillingPeriodPlain | china_beancount_importers/ccb_credit_eml.py:86-90 | otherwise it is the first match not preceded by "上一", whether or not that range is ordered |
| CcbCreditEml.BillingPeriodFirst | china_beancount_importers/ccb_credit_eml.py:92 | when every match is preceded by "上一", it is the first ordered match |
| CcbCreditEml.ExtractBillingPeriod | china_beancount_importers/ccb_credit_eml.py:69-92 | the candidate loop and the two searches compute `BillingPeriod` |
| CcbCreditEml.CollectCandidates | china_beancount_importers/ccb_credit_eml.py:71-76 | the candidate loop computes `Candidates` |
| CcbCreditEml.FindEnding | china_beancount_importers/ccb_credit_eml.py:81-84 | the loop finds the first candidate ending on the statement date |
| CcbCreditEml.Fallback | china_beancount_importers/ccb_credit_eml.py:86-90 | the loop reads the first match not preceded by "上一", and finds none exactly when every match is |
| CcbCreditEml.PeriodTagFor | china_beancount_importers/ccb_credit_eml.py:95-104 | there is no tag exactly when there is no period and the name does not end in "-YYYY-MM.eml" |
| CcbCreditEml.PeriodTagOfStart | china_beancount_importers/ccb_credit_eml.py:96-98 | the tag reads back as the year and month of the period's start |
| CcbCreditEml.PeriodTagOfName | china_beancount_importers/ccb_credit_eml.py:100-104 | without a period the tag repeats the name's year and month digits |
| CcbCreditEml.EightCellRows | china_beancount_importers/ccb_credit_eml.py:194 | the rows read are exactly those with eight cells |
| CcbCreditEml.EightCellRowsConcat | china_beancount_importers/ccb_credit_eml.py:194 | the filter works row by row, so rows keep their table order |
| CcbCreditEml.RowRecord | china_beancount_importers/ccb_credit_eml.py:198-211 | a row reads exactly when its date and amount do; the description is cell 3 and an empty currency cell gives "CNY" |
| CcbCreditEml.ParseRecords | china_beancount_importers/ccb_credit_eml.py:193-213 | the loop gives one record per eight-cell row, in order, or the first error |
| CcbCreditEml.TagSet | china_beancount_importers/ccb_credit_eml.py:175-177 | no tags exactly when the tag is missing or empty, else the one tag |
| CcbCreditEml.Extract | china_beancount_importers/ccb_credit_eml.py:134-191 | a subject without the bank's name raises; then the period's error; then a missing table raises |
| CcbCreditEml.Entries | china_beancount_importers/ccb_credit_eml.py:165-189 | one transaction per record, in order, or the records' error |
| CcbCreditEml.ExtractEmail | china_beancount_importers/ccb_credit_eml.py:134-191 | extract computes `Extract` |
| CcbCreditEml.RecordTxns | china_beancount_importers/ccb_credit_eml.py:165-189 | the loop computes `Entries` |
| CcbCreditEml.ExtractTxns | china_beancount_importers/ccb_credit_eml.py:134-191 | each eight-cell row gives one transaction, in order, with the row's date, description, negated amount and currency, tagged with the period tag |
| CcbCreditEml.RecordTxnOf | china_beancount_importers/ccb_credit_eml.py:173-188 | a record's transaction has flag OKAY, its description as payee and minus its amount; it has no tags exactly when the tag is missing or empty |
| CcbCreditEml.TaggedTxns | china_beancount_importers/ccb_credit_eml.py:165-189 | one transaction per eight-cell row, dated, described and posted from its cells; untagged exactly when there is no period and no dated file name |
| CcbCreditEml.Suffix | china_beancount_importers/ccb_credit_eml.py:132 | `Path.suffix` is the name's tail from its last dot, when that dot is neither first nor last |
| CcbCreditEml.IdentifyIff | china_beancount_importers/ccb_credit_eml.py:130-132 | a file is identified exactly when its name ends in ".eml" in any case after a stem, and holds "中国建设银行信用卡" |
| CmbCreditEml.IdentifyIff | china_beancount_importers/cmb_credit_eml.py:24-26 | a file is identified exactly when its name holds "招商银行信用卡电子账单" and "eml" |
| CmbCreditEml.IdentifyNamed | china_beancount_importers/cmb_credit_eml.py:24-26 | a file named `<anything>招商银行信用卡电子账单<anything>.eml` is identified |
| CmbCreditEml.EndDateText | china_beancount_importers/cmb_credit_eml.py:53 | the text between the first "-" and the next "-" or "(" is found exactly when "-" occurs |
| CmbCreditEml.EndDateTextOf | china_beancount_importers/cmb_credit_eml.py:53 | a range "start-end" followed by nothing, "-" or a parenthesised note gives "end" |
| CmbCreditEml.SlashDateOf | china_beancount_importers/cmb_credit_eml.py:53 | "Y/M/D" with four year digits and one or two month and day digits reads as that calendar date |
| CmbCreditEml.ParseSlashText | china_beancount_importers/cmb_credit_eml.py:53 | every date reads back from its YYYY/MM/DD text |
| CmbCreditEml.TransactionDate | china_beancount_importers/cmb_credit_eml.py:46-53 | a page without a date range raises; a closing date found is valid |
| CmbCreditEml.TransactionDateOf | china_beancount_importers/cmb_credit_eml.py:46-53 | a range whose end is a date's YYYY/MM/DD text closes on that date |
| CmbCreditEml.DescriptionParts | china_beancount_importers/cmb_credit_eml.py:61-72 | the payee holds no "-"; with a "-", description = payee + "-" + narration; without one, the payee is the whole text and the narration empty |
| CmbCreditEml.DescriptionOf | china_beancount_importers/cmb_credit_eml.py:61-72 | a description "payee-narration" splits back into both |
| CmbCreditEml.BandTxn | china_beancount_importers/cmb_credit_eml.py:56-104 | a band without cells is skipped; one with three cells or fewer raises; a transaction needs at least five cells |
| CmbCreditEml.BandTxnFields | china_beancount_importers/cmb_credit_eml.py:61-102 | a band's transaction is dated by `strptime` of the year and the chosen date cell, with the split description, flag OKAY, no tags and one posting of minus `D` of the cleaned price in CNY |
| CmbCreditEml.BandYear | china_beancount_importers/cmb_credit_eml.py:68-70 | for a four-digit year the transaction keeps that year |
| CmbCreditEml.BandDate | china_beancount_importers/cmb_credit_eml.py:64-70 | an MMDD date cell gives that day of the year |
| CmbCreditEml.InstalmentDate | china_beancount_importers/cmb_credit_eml.py:64-66 | an instalment ("消费分期") is dated by cell 2 whatever cell 1 holds |
| CmbCreditEml.TradeDate | china_beancount_importers/cmb_credit_eml.py:64-66 | any other band with a trade date is dated by cell 1 |
| CmbCreditEml.CleanPriceUndecorated | china_beancount_importers/cmb_credit_eml.py:74-80 | the cleaning drops exactly "￥", no-break spaces and "¥", then strips |
| CmbCreditEml.CleanPriceOf | china_beancount_importers/cmb_credit_eml.py:74-82 | an amount printed between currency signs and no-break spaces reads back as itself |
| CmbCreditEml.BandTxnOf | china_beancount_importers/cmb_credit_eml.py:56-104 | a band written from a date, payee, narration and amount reads back as the transaction of those |
| CmbCreditEml.KeptBands | china_beancount_importers/cmb_credit_eml.py:57-59 | the loop skips exactly the bands without cells |
| CmbCreditEml.BandsOk | china_beancount_importers/cmb_credit_eml.py:56-104 | a successful loop gives one transaction per band with cells, in order |
| CmbCreditEml.Extract | china_beancount_importers/cmb_credit_eml.py:46-104 | a page without a date range raises; a result has at most one transaction per band |
| CmbCreditEml.ExtractYears | china_beancount_importers/cmb_credit_eml.py:53-70 | every transaction carries the closing date's year |
| CmbCreditEml.ScanBands | china_beancount_importers/cmb_credit_eml.py:56-104 | the band loop computes `Collect` of its body over the bands |
| CmbCreditEml.ExtractEmail | china_beancount_importers/cmb_credit_eml.py:31-106 | extract computes `Extract` |
| CmbCreditEml.DatedAfterClose | china_beancount_importers/cmb_credit_eml.py:68-70 | as written, a band whose month and day fall after the closing date's is dated after the statement closed |
| CmbCreditEml.BandTxnInPeriod | china_beancount_importers/cmb_credit_eml.py:68-70 | corrected: each band is dated at or before the closing date and no earlier than the year before |
| CmbCreditEml.BandTxnIn | china_beancount_importers/cmb_credit_eml.py:56-104 | corrected: a band is skipped exactly when it has no cells |
| CmbCreditEml.ExtractInPeriodDates | china_beancount_importers/cmb_credit_eml.py:53-104 | corrected: no transaction of the extract is dated after the statement closed or more than a year before |
| CmbCreditEml.ExtractInPeriod | china_beancount_importers/cmb_credit_eml.py:46-53 | corrected: a page without a date range still raises |
| CmbCreditEml.ExtractEmailInPeriod | china_beancount_importers/cmb_credit_eml.py:31-106 | corrected: the same loop computes `ExtractInPeriod` |

## Left out

- Reading files is not modelled: opening and decoding CSV files, `pandas.read_excel`, PDF text extraction with pdfplumber, MIME parsing and BeautifulSoup. Each importer takes the lines, records, spreadsheet table (`df.values`), page text or table cells as input.
- CcbDebit's table is `df.values` as `pd.read_excel(filepath, dtype=str).fillna("")` gives it: the sheet without its first row, which pandas takes as column labels, every cell read as a string and blanks filled with "". Reading the workbook is not modelled; that table is the input.
- Selectors are not modelled. The table cells of the CMB e-mail (`#fixBand29 …`) and the CCB e-mail's transaction table are inputs. A missing CCB table is modelled as `None`.
- The CCB e-mail's "No HTML part found" error needs the MIME structure, which is not modelled.
- The CMB e-mail's date-range search (`d.find(string=…)`) is not modelled. The first matching text, or none, is an input to `CmbCreditEml.TransactionDate`.
- `cast_checked` is a runtime type check. Its failure on a page without a date range is the `NoDateRange` error.
- CmbCreditEml.ParseSlashDate: models dateutil's `parse` only on the "YYYY/M/D" text the page pattern guarantees. Any other text is an error, where dateutil would try other formats.
- Alipay.RowStep: takes `parse_time` (`strptime` plus a time-zone conversion) as a parameter. Only its date is used.
- Wechat.ConvertRow: takes dateutil's `parse` as a parameter.
- Wechat.CleanNarrationJoined: asks that no copy of the prefix starts inside a piece, where it could run on into the next copy. No proper beginning of "收款方备注:二维码收款付款方留言:" is also an ending of it, so for this prefix the condition only says that no piece holds the prefix. That fact about the constant is not proved.
- Wechat.WechatImporter.constructor: the source updates the caller's non-empty dict in place, so the caller sees the two wallet keys added. The model builds a new table and does not capture that aliasing.
- The beancount library itself (`D`, `Amount`, `data.Transaction`) is not part of this model. `D` follows beancount's documented behaviour: empty text is zero, and commas and spaces are dropped.
- `Decimal` contexts and precision, exponents, NaN and infinities are not modelled. Amounts are exact mantissa/scale pairs read from plain literals.
- Metadata is left out: `data.new_metadata`, the `row_data` dicts and the time strings carried in it.
- Also left out: `deduplicate`, `mark_duplicate_entries`, logging, the `print` in the CCB PDF `identify`, `file_name` and `file_account`.
- Transaction links are always empty in the source, so they are not represented.
- Regular expressions are modelled as character predicates. `\d` is ASCII digits only, where Python also accepts other Unicode digits. `\w` covers ASCII letters and digits, `_`, the Latin-1 letters U+00C0–U+00FF other than × and ÷, and the CJK ideographs U+4E00–U+9FFF; Python also accepts other Unicode letters and digits. `\s` is Python's whitespace set.
- Text.AsciiLower: lowers ASCII letters only. Python's `str.lower()` also lowers non-ASCII letters, such as Latin-1, Greek or full-width ones.
- Numbers.ParseInt: accepts ASCII digits only. Python's `int()` also accepts `_` between digits and non-ASCII decimal digits; the model rejects both.
- Numbers.ParseDecimal: accepts ASCII digits only. Python's `Decimal()` also accepts `_` between digits (`Decimal("1_000")`) and non-ASCII decimal digits; the model rejects both.
- The CCB e-mail's date-range scan (`finditer`) is an input: a list of matches with their position and two date texts.
- CmbCreditEml.BandYear: needs a four-digit year. For a year below 1000, `str(year)` has fewer digits and `strptime` would read the month into the year.
- The concrete counterexample to the CCB e-mail fallback re-check is not included. `CcbCreditEml.BillingPeriodPlain` states the same behaviour for all inputs.

## Findings

| source | as written | input that shows it | evidently intended | confidence | as-written member | corrected member |
|---|---|---|---|---|---|---|
| china_beancount_importers/cmb_credit_eml.py:68-70 | every band takes the year of the statement's closing date | period 2023/12/20-2024/01/19 with trade date "1225" is dated 2024-12-25, after the statement closed | a band whose month and day fall after the closing date belongs to the year before | not executed | CmbCreditEml.DatedAfterClose | CmbCreditEml.ExtractInPeriodDates |

=== FILE: alipay.dfy ===
/** The Alipay account-log CSV importer: the lines after the statement's list marker are the
    CSV, and every decoded record becomes a transaction, with one balance per date. */
module Alipay {

  import opened Base
  import opened Text
  import opened Numbers
  import opened Dates
  import opened Ledger
  import opened Dicts
  import opened DailyBalance

  const Start: string := "-------收支明细列表-----"

  /** The remark prefix the exporter puts in front of payer messages. */
  const CommentsPrefix: string := "收款方备注:二维码收款付款方留言:"

  const Tags: set<string> := {"alipay"}

  const Currency: string := "CNY"

  predicate IsMarker(line: string) {
    Contains(line, Start)
  }

  // The line filter.

  /** The index of the first marker line. */
  function FirstMarker(lines: seq<string>): (r: Option<nat>)
    ensures r.Some? ==>
      && r.value < |lines| && IsMarker(lines[r.value])
      && forall i :: 0 <= i < r.value ==> !IsMarker(lines[i])
    ensures r.None? ==> forall i :: 0 <= i < |lines| ==> !IsMarker(lines[i])
  {
    if lines == [] then None
    else if IsMarker(lines[0]) then Some(0)
    else
      match FirstMarker(lines[1..])
      case None => None
      case Some(i) => Some(i + 1)
  }

  /** The lines that are not marker lines, in order. */
  function DropMarkers(lines: seq<string>): seq<string>
    decreases |lines|
  {
    if lines == [] then []
    else DropMarkers(lines[..|lines| - 1]) + (if IsMarker(lines[|lines| - 1]) then [] else [lines[|lines| - 1]])
  }

  /** Reference definition of the filter: nothing up to the first marker line, then every
      later line that is not itself a marker line. */
  function AfterMarker(lines: seq<string>): seq<string> {
    match FirstMarker(lines)
    case None => []
    case Some(i) => DropMarkers(lines[i + 1..])
  }

  /** The read loop: a marker line switches the copying on and is never copied. */
  method KeepAfterMarker(lines: seq<string>) returns (kept: seq<string>)
    ensures kept == AfterMarker(lines)
  {
    var start := false;
    kept := [];
    var i := 0;
    assert lines[..0] == [];
    while i < |lines|
      invariant i <= |lines|
      invariant start <==> FirstMarker(lines[..i]).Some?
      invariant kept == AfterMarker(lines[..i])
    {
      KeepStep(lines, i);
      if IsMarker(lines[i]) {
        start := true;
      } else if start {
        kept := kept + [lines[i]];
      }
      i := i + 1;
    }
    assert lines[..i] == lines;
  }

  /** One turn of the read loop. */
  lemma KeepStep(lines: seq<string>, i: nat)
    requires i < |lines|
    ensures FirstMarker(lines[..i + 1]).Some? <==> FirstMarker(lines[..i]).Some? || IsMarker(lines[i])
    ensures AfterMarker(lines[..i + 1]) ==
      if FirstMarker(lines[..i]).Some? && !IsMarker(lines[i]) then AfterMarker(lines[..i]) + [lines[i]]
      else AfterMarker(lines[..i])
  {
    FirstMarkerExtend(lines, i);
    var a := FirstMarker(lines[..i]);
    if a.Some? {
      DropMarkersExtend(lines, a.value, i);
    } else if IsMarker(lines[i]) {
      assert lines[..i + 1][i + 1..] == [];
    }
  }

  lemma FirstMarkerExtend(lines: seq<string>, i: nat)
    requires i < |lines|
    ensures FirstMarker(lines[..i + 1]) ==
      if FirstMarker(lines[..i]).Some? then FirstMarker(lines[..i])
      else if IsMarker(lines[i]) then Some(i) else None
  {
    var a := FirstMarker(lines[..i]);
    var b := lines[..i + 1];
    var m := if a.Some? then a.value else i;
    forall k | 0 <= k < m && k < |b| ensures !IsMarker(b[k]) {
      assert b[k] == lines[..i][k];
    }
    if a.Some? || IsMarker(lines[i]) {
      assert b[m] == lines[m];
      FirstMarkerIs(b, m);
    } else {
      assert b[i] == lines[i];
    }
  }

  /** The first marker line is the only one with no marker before it. */
  lemma FirstMarkerIs(lines: seq<string>, m: nat)
    requires m < |lines| && IsMarker(lines[m])
    requires forall k :: 0 <= k < m ==> !IsMarker(lines[k])
    ensures FirstMarker(lines) == Some(m)
  {
  }

  lemma DropMarkersExtend(lines: seq<string>, j: nat, i: nat)
    requires j < i < |lines|
    ensures DropMarkers(lines[..i + 1][j + 1..]) ==
      DropMarkers(lines[..i][j + 1..]) + (if IsMarker(lines[i]) then [] else [lines[i]])
  {
    var s := lines[..i + 1][j + 1..];
    assert s[..|s| - 1] == lines[..i][j + 1..];
    assert s[|s| - 1] == lines[i];
  }

  /** DropMarkers keeps exactly the lines without the marker. */
  lemma {:induction false} DropMarkersMember(lines: seq<string>, line: string)
    ensures line in DropMarkers(lines) <==> line in lines && !IsMarker(line)
    decreases |lines|
  {
    if lines != [] {
      var init := lines[..|lines| - 1];
      DropMarkersMember(init, line);
      assert lines == init + [lines[|lines| - 1]];
    }
  }

  /** What the filter keeps: no marker line, and only lines from after the first marker;
      a file without a marker gives nothing. */
  lemma AfterMarkerLines(lines: seq<string>)
    ensures FirstMarker(lines).None? ==> AfterMarker(lines) == []
    ensures forall line :: line in AfterMarker(lines) ==> !IsMarker(line)
    ensures FirstMarker(lines).Some? ==> forall line ::
      line in AfterMarker(lines) <==> line in lines[FirstMarker(lines).value + 1..] && !IsMarker(line)
  {
    if FirstMarker(lines).Some? {
      var rest := lines[FirstMarker(lines).value + 1..];
      forall line ensures line in AfterMarker(lines) <==> line in rest && !IsMarker(line) {
        DropMarkersMember(rest, line);
      }
    }
  }

  // The row transform.

  /** row["支出"] or row["收入"]: the expense cell when it is not empty, else the income cell;
      the value is never negated. */
  function AmountText(d: Dict): (r: Result<string>)
    ensures Get(d, "支出").Some? && Get(d, "支出").value != "" ==> r == Ok(Get(d, "支出").value)
    ensures Get(d, "支出") == Some("") ==> r == Field(d, "收入")
    ensures Get(d, "支出").None? ==> r == Err(MissingField("支出"))
  {
    match Field(d, "支出")
    case Err(e) => Err(e)
    case Ok(out) => if out != "" then Ok(out) else Field(d, "收入")
  }

  /** row.get("商品说明") or row["备注"] or row["名称"]: the first non-empty of the three, the
      last one as a fallback; the first may be absent, the other two must be there when
      reached. */
  function PayeeText(d: Dict): (r: Result<string>)
    ensures Get(d, "商品说明").Some? && Get(d, "商品说明").value != "" ==> r == Ok(Get(d, "商品说明").value)
    ensures (Get(d, "商品说明").None? || Get(d, "商品说明") == Some("")) ==>
      r == (match Field(d, "备注")
            case Err(e) => Err(e)
            case Ok(note) => if note != "" then Ok(note) else Field(d, "名称"))
  {
    var goods := Get(d, "商品说明");
    if goods.Some? && goods.value != "" then Ok(goods.value)
    else
      match Field(d, "备注")
      case Err(e) => Err(e)
      case Ok(note) => if note != "" then Ok(note) else Field(d, "名称")
  }

  /** The comment prefix removed once, and a lone "/" read as nothing. */
  function CleanPayee(p: string): (r: string)
    ensures r != "/"
    ensures StartsWith(p, CommentsPrefix) && p != CommentsPrefix + "/" ==> p == CommentsPrefix + r
    ensures !StartsWith(p, CommentsPrefix) && p != "/" ==> r == p
    ensures p == "/" || p == CommentsPrefix + "/" ==> r == ""
  {
    var q := RemovePrefix(p, CommentsPrefix);
    if q == "/" then "" else q
  }

  /** row.get("账户余额（元）", "").replace(",", "").strip(): the balance text, empty when the
      column is absent. */
  function BalanceText(d: Dict): (r: string)
    ensures Get(d, "账户余额（元）").None? ==> r == ""
    ensures Get(d, "账户余额（元）").Some? ==> r == Strip(Without(Get(d, "账户余额（元）").value, ','))
    ensures ',' !in r
  {
    var raw := match Get(d, "账户余额（元）") case None => "" case Some(v) => v;
    RemoveChar(raw, ',');
    Strip(ReplaceAll(raw, ",", ""))
  }

  /** One record as the loop handles it: the time, the funding channel, the amount and the
      payee are read in that order, and the balance text is offered when it is not empty. */
  function RowStep(d: Dict, account: string, parseTime: string -> Result<ValidDate>): (r: Result<Step>)
    ensures r.Ok? ==>
      r.value.txn.flag == FlagOkay && r.value.txn.tags == Tags && r.value.txn.narration == None &&
      |r.value.txn.postings| == 1 && r.value.txn.postings[0].account == account &&
      r.value.txn.postings[0].units.currency == Currency &&
      r.value.txn.payee.Some? && r.value.txn.payee.value != "/"
    ensures r.Ok? ==>
      Field(d, "时间").Ok? && parseTime(Field(d, "时间").value) == Ok(r.value.txn.date) &&
      AmountText(d).Ok? && D(AmountText(d).value) == Ok(r.value.txn.postings[0].units.number) &&
      PayeeText(d).Ok? && r.value.txn.payee == Some(CleanPayee(PayeeText(d).value))
    ensures r.Ok? ==> (r.value.balance.Some? <==> BalanceText(d) != "")
    ensures r.Ok? && r.value.balance.Some? ==> r.value.balance.value == BalanceText(d)
    ensures Field(d, "时间").Err? ==> r == Err(MissingField("时间"))
  {
    match Field(d, "时间")
    case Err(e) => Err(e)
    case Ok(time) =>
      match parseTime(time)
      case Err(e) => Err(e)
      case Ok(date) =>
        match Field(d, "资金渠道")
        case Err(e) => Err(e)
        case Ok(_) =>
          match AmountText(d)
          case Err(e) => Err(e)
          case Ok(text) =>
            match D(text)
            case Err(e) => Err(e)
            case Ok(amount) =>
              match PayeeText(d)
              case Err(e) => Err(e)
              case Ok(payee) =>
                var balance := BalanceText(d);
                Ok(MakeStep(Transaction(date, FlagOkay, Some(CleanPayee(payee)), None, Tags,
                                        [Posting(account, Amount(amount, Currency))]),
                            if balance != "" then Some(balance) else None))
  }

  function Steps(records: seq<Dict>, account: string, parseTime: string -> Result<ValidDate>)
    : (r: seq<Result<Step>>)
    ensures |r| == |records| && forall k :: 0 <= k < |records| ==> r[k] == RowStep(records[k], account, parseTime)
  {
    seq(|records|, k requires 0 <= k < |records| => RowStep(records[k], account, parseTime))
  }

  /** extract on the decoded records: the directives in the order they were appended. */
  function Extract(records: seq<Dict>, account: string, parseTime: string -> Result<ValidDate>)
    : Result<seq<Directive>>
  {
    Emit(Steps(records, account, parseTime), account, D)
  }

  method ExtractRecords(records: seq<Dict>, account: string, parseTime: string -> Result<ValidDate>)
    returns (r: Result<seq<Directive>>)
    ensures r == Extract(records, account, parseTime)
  {
    r := Run(Steps(records, account, parseTime), account, D);
  }

  /** The returned list holds every record's transaction in file order, and each balance
      comes right before the transaction of the day before it, with no date reported twice. */
  lemma ExtractOrder(records: seq<Dict>, account: string, parseTime: string -> Result<ValidDate>,
                     r: seq<Directive>)
    requires Extract(records, account, parseTime) == Ok(r)
    ensures forall k :: 0 <= k < |records| ==> RowStep(records[k], account, parseTime).Ok?
    ensures |Txns(r)| == |records|
    ensures forall k :: 0 <= k < |records| ==> Txns(r)[k] == RowStep(records[k], account, parseTime).value.txn
    ensures BalancesBefore(r)
  {
    var rows := Steps(records, account, parseTime);
    EmitTxns(rows, account, D, r);
    EmitBalances(rows, account, D, r);
  }

  /** fnmatch(name, "*_ACCLOG.csv"). */
  predicate Identify(path: string) {
    GlobStar(BaseName(path), "", "_ACCLOG.csv")
  }

  /** An export saved as <dir>/<anything>_ACCLOG.csv is recognised. */
  lemma IdentifyNamed(dir: string, stem: string)
    requires '/' !in stem
    ensures Identify(dir + "/" + stem + "_ACCLOG.csv")
  {
    GlobStarNamed(dir, "", stem, "_ACCLOG.csv");
    assert dir + "/" + "" + stem + "_ACCLOG.csv" == dir + "/" + stem + "_ACCLOG.csv";
  }
}

=== FILE: base.dfy ===
/** Option and Result, the errors the importers raise, and the "append in a loop,
    stop at the first exception" pattern that every importer's extract follows. */
module Base {

  datatype Option<+T> = None | Some(value: T)

  /** The exceptions the importers raise, one constructor per distinct failure. */
  datatype Error =
    // int() on a string that is not an integer literal
    | NotAnInteger(text: string)
    // decimal.Decimal() on a string that is not a decimal literal
    | NotADecimal(text: string)
    // datetime.date() with a year, month or day out of range
    | InvalidDate(year: int, month: int, day: int)
    // date + timedelta(days=1) past 9999-12-31
    | DateOverflow
    // datetime.strptime(): the text does not match the format
    | FormatMismatch(text: string)
    // datetime.strptime(): the format matched a proper prefix only
    | UnconvertedData(text: string)
    // parse_mmdd in the CMB credit-card importer
    | EmptyDateString
    | UnexpectedDateFormat(text: string)
    // extract_amount in the CMB credit-card importer
    | NoAmount(text: string)
    // a currency label missing from the caller's currency map; known is sorted
    | UnknownCurrency(currency: string, known: seq<string>)
    // the CMB statement line parser, one per raise
    | UnexpectedLine(line: string)
    | TooFewTokens(line: string)
    | TooFewTrailingTokens(line: string)
    | EmptySummary(line: string)
    | InvalidAmount(line: string)
    | InvalidOriginalAmount(line: string)
    | InvalidLast4(line: string)
    // the CCB statement line parser
    | UnexpectedTransactionLine(line: string)
    | EmptyDescription(line: string)
    // no year and month in the file name
    | NoYearMonth(path: string)
    // list or sheet index out of range (IndexError)
    | MissingCell(index: int)
    // zip(..., strict=True) over rows of different length
    | RowLengthMismatch(header: nat, cells: nat)
    // a decoded row lacks a required column
    | MissingField(name: string)
    // the CCB credit-card e-mail importer: no "YYYY年M月D日" date in a range's text, a
    // subject that does not name the card, no transaction table in the page
    | NoChineseDate(text: string)
    | NotCcbCreditEmail(subject: string)
    | NoTransactionTable
    // the CMB credit-card e-mail importer: no text in the page matches the billing-period
    // pattern, so the cast of the search result to str fails
    | NoDateRange

  datatype Result<+T> = Ok(value: T) | Err(error: Error)

  /** Applies f to every element in order; the first failure wins, as when a Python loop
      raises part way through and the list built so far is thrown away. */
  function MapAll<A, B>(f: A -> Result<B>, xs: seq<A>): Result<seq<B>>
    decreases |xs|
  {
    if xs == [] then Ok([])
    else
      match MapAll(f, xs[..|xs| - 1])
      case Err(e) => Err(e)
      case Ok(done) =>
        match f(xs[|xs| - 1])
        case Err(e) => Err(e)
        case Ok(y) => Ok(done + [y])
  }

  /** A successful MapAll keeps length and order: element k of the result is f of element k. */
  lemma {:induction false} MapAllOk<A, B>(f: A -> Result<B>, xs: seq<A>, ys: seq<B>)
    requires MapAll(f, xs) == Ok(ys)
    ensures |ys| == |xs|
    ensures forall k :: 0 <= k < |xs| ==> f(xs[k]) == Ok(ys[k])
    decreases |xs|
  {
    if xs != [] {
      var init := xs[..|xs| - 1];
      match MapAll(f, init)
      case Err(_) =>
      case Ok(done) =>
        MapAllOk(f, init, done);
        assert ys == done + [f(xs[|xs| - 1]).value];
    }
  }

  /** MapAll fails exactly when some element fails, and then with the error of the first one. */
  lemma {:induction false} MapAllErr<A, B>(f: A -> Result<B>, xs: seq<A>, i: nat)
    requires i < |xs| && f(xs[i]).Err?
    requires forall k :: 0 <= k < i ==> f(xs[k]).Ok?
    ensures MapAll(f, xs) == Err(f(xs[i]).error)
    decreases |xs|
  {
    var init := xs[..|xs| - 1];
    if i < |xs| - 1 {
      MapAllErr(f, init, i);
    } else {
      MapAllAllOk(f, init);
    }
  }

  /** A failed MapAll failed on some element, the first failing one, with its error. */
  lemma MapAllFails<A, B>(f: A -> Result<B>, xs: seq<A>) returns (i: nat)
    requires MapAll(f, xs).Err?
    ensures i < |xs| && f(xs[i]).Err? && forall k :: 0 <= k < i ==> f(xs[k]).Ok?
    ensures MapAll(f, xs) == Err(f(xs[i]).error)
  {
    if forall k :: 0 <= k < |xs| ==> f(xs[k]).Ok? {
      MapAllAllOk(f, xs);
    }
    i := 0;
    while f(xs[i]).Ok?
      invariant i < |xs| && forall k :: 0 <= k < i ==> f(xs[k]).Ok?
      invariant exists e :: i <= e < |xs| && f(xs[e]).Err?
      decreases |xs| - i
    {
      i := i + 1;
    }
    MapAllErr(f, xs, i);
  }

  lemma {:induction false} MapAllAllOk<A, B>(f: A -> Result<B>, xs: seq<A>)
    requires forall k :: 0 <= k < |xs| ==> f(xs[k]).Ok?
    ensures MapAll(f, xs).Ok?
    decreases |xs|
  {
    if xs != [] {
      MapAllAllOk(f, xs[..|xs| - 1]);
    }
  }

  /** The step a loop takes: extending a prefix by one element. */
  lemma MapAllStep<A, B>(f: A -> Result<B>, xs: seq<A>, i: nat)
    requires i < |xs|
    ensures MapAll(f, xs[..i + 1]) ==
      match MapAll(f, xs[..i])
      case Err(e) => Err(e)
      case Ok(done) => match f(xs[i]) case Err(e) => Err(e) case Ok(y) => Ok(done + [y])
  {
    assert xs[..i + 1][..i] == xs[..i];
  }

  /** Once a prefix fails, every longer prefix fails with the same error. */
  lemma {:induction false} MapAllErrSticky<A, B>(f: A -> Result<B>, xs: seq<A>, i: nat)
    requires i <= |xs| && MapAll(f, xs[..i]).Err?
    ensures MapAll(f, xs) == MapAll(f, xs[..i])
    decreases |xs| - i
  {
    if i < |xs| {
      MapAllStep(f, xs, i);
      MapAllErrSticky(f, xs, i + 1);
    } else {
      assert xs[..i] == xs;
    }
  }

  /** A loop that appends f's entry for each element, skips the elements f gives no entry
      for, and stops at the first exception. */
  function Collect<A, B>(f: A -> Result<Option<B>>, xs: seq<A>): (r: Result<seq<B>>)
    ensures r.Ok? ==> |r.value| <= |xs|
    decreases |xs|
  {
    if xs == [] then Ok([])
    else
      match Collect(f, xs[..|xs| - 1])
      case Err(e) => Err(e)
      case Ok(done) =>
        match f(xs[|xs| - 1])
        case Err(e) => Err(e)
        case Ok(None) => Ok(done)
        case Ok(Some(y)) => Ok(done + [y])
  }

  /** The elements f does not skip, in order. */
  function Kept<A, B>(f: A -> Result<Option<B>>, xs: seq<A>): (r: seq<A>)
    ensures forall x :: x in r ==> x in xs && f(x) != Ok(None)
    decreases |xs|
  {
    if xs == [] then []
    else
      var init := Kept(f, xs[..|xs| - 1]);
      if f(xs[|xs| - 1]) == Ok(None) then init else init + [xs[|xs| - 1]]
  }

  /** A loop that finishes has one entry per element not skipped, in order. */
  lemma {:induction false} CollectOk<A, B>(f: A -> Result<Option<B>>, xs: seq<A>, ys: seq<B>)
    requires Collect(f, xs) == Ok(ys)
    ensures |ys| == |Kept(f, xs)|
    ensures forall k :: 0 <= k < |ys| ==> f(Kept(f, xs)[k]) == Ok(Some(ys[k]))
    decreases |xs|
  {
    if xs != [] {
      var init := xs[..|xs| - 1];
      var last := xs[|xs| - 1];
      var done := Collect(f, init).value;
      CollectOk(f, init, done);
      if f(last) != Ok(None) {
        assert ys == done + [f(last).value.value];
        assert Kept(f, xs) == Kept(f, init) + [last];
        forall k | 0 <= k < |ys| ensures f(Kept(f, xs)[k]) == Ok(Some(ys[k])) {
          if k < |done| {
            assert Kept(f, xs)[k] == Kept(f, init)[k] && ys[k] == done[k];
          }
        }
      }
    }
  }

  /** The loop fails exactly at the first element that raises, with that element's error. */
  lemma {:induction false} CollectErr<A, B>(f: A -> Result<Option<B>>, xs: seq<A>, i: nat)
    requires i < |xs| && f(xs[i]).Err?
    requires forall k :: 0 <= k < i ==> f(xs[k]).Ok?
    ensures Collect(f, xs) == Err(f(xs[i]).error)
    decreases |xs|
  {
    var init := xs[..|xs| - 1];
    if i < |xs| - 1 {
      CollectErr(f, init, i);
    } else {
      CollectAllOk(f, init);
    }
  }

  lemma {:induction false} CollectAllOk<A, B>(f: A -> Result<Option<B>>, xs: seq<A>)
    requires forall k :: 0 <= k < |xs| ==> f(xs[k]).Ok?
    ensures Collect(f, xs).Ok?
    decreases |xs|
  {
    if xs != [] {
      CollectAllOk(f, xs[..|xs| - 1]);
    }
  }

  /** Once a prefix fails, the whole loop fails with the same error. */
  lemma {:induction false} CollectSticky<A, B>(f: A -> Result<Option<B>>, xs: seq<A>, i: nat)
    requires i <= |xs| && Collect(f, xs[..i]).Err?
    ensures Collect(f, xs) == Collect(f, xs[..i])
    decreases |xs| - i
  {
    if i < |xs| {
      assert xs[..i + 1][..i] == xs[..i];
      CollectSticky(f, xs, i + 1);
    } else {
      assert xs[..i] == xs;
    }
  }
}

=== FILE: ccb_credit_eml.dfy ===
/** The CCB (China Construction Bank) credit-card e-mail importer: the statement date and
    the billing period read from the page text, the period tag, and one transaction per
    eight-cell row of the transaction table. The page text, the matches of the date-range
    pattern and the cell texts are given; the e-mail and HTML parsing that produce them are
    not part of this model. */
module CcbCreditEml {

  import opened Base
  import opened Text
  import opened Numbers
  import opened Dates
  import opened Ledger
  import CcbCreditPdf

  // The statement date.

  /** The characters \w matches, as far as a statement page needs: ASCII letters, digits and
      the underscore, the Latin-1 letters, and the CJK ideographs. */
  predicate IsWordChar(c: char) {
    ('a' <= c <= 'z') || ('A' <= c <= 'Z') || IsDigit(c) || c == '_' ||
    ('\U{C0}' <= c <= '\U{FF}' && c != '\U{D7}' && c != '\U{F7}') ||
    ('\U{4E00}' <= c <= '\U{9FFF}')
  }

  /** \b\d{4}-\d{2}-\d{2}\b matches at i: a YYYY-MM-DD field with no word character
      directly before or after it. */
  predicate IsoDateAt(h: string, i: nat) {
    i + 10 <= |h| && CcbCreditPdf.IsIsoToken(h[i..i + 10]) &&
    (i == 0 || !IsWordChar(h[i - 1])) && (i + 10 == |h| || !IsWordChar(h[i + 10]))
  }

  /** re.search: the first position at or after `from` where the ISO date pattern matches. */
  function FirstIsoDate(h: string, from: nat): (r: Option<nat>)
    ensures r.Some? ==> from <= r.value && IsoDateAt(h, r.value)
    ensures r.Some? ==> forall j :: from <= j < r.value ==> !IsoDateAt(h, j)
    ensures r.None? ==> forall j :: from <= j ==> !IsoDateAt(h, j)
    decreases |h| - from
  {
    if from + 10 > |h| then None
    else if IsoDateAt(h, from) then Some(from)
    else FirstIsoDate(h, from + 1)
  }

  const StatementMarker := "Statement Date"

  /** The text searched for the statement date: the 300 characters from the first
      "Statement Date" when the phrase occurs, the whole text otherwise. */
  function Haystack(text: string): (h: string)
    ensures Find(text, StatementMarker).None? ==> h == text
    ensures Find(text, StatementMarker).Some? ==> |h| <= 300
  {
    match Find(text, StatementMarker)
    case None => text
    case Some(idx) => Slice(text, idx, idx + 300)
  }

  /** _extract_statement_date: None when the searched text holds no ISO date; otherwise the
      first one, which raises when it is outside the calendar. */
  function StatementDate(text: string): (r: Result<Option<Date>>)
    ensures r == Ok(None) <==> forall i :: !IsoDateAt(Haystack(text), i)
    ensures r.Ok? && r.value.Some? ==> Valid(r.value.value)
    ensures r.Err? ==> r.error.InvalidDate?
  {
    DateIn(Haystack(text))
  }

  /** The first ISO date of h, read as a date. */
  function DateIn(h: string): (r: Result<Option<Date>>)
    ensures r == Ok(None) <==> forall i :: !IsoDateAt(h, i)
    ensures r.Ok? && r.value.Some? ==> Valid(r.value.value)
    ensures r.Err? ==> r.error.InvalidDate?
  {
    match FirstIsoDate(h, 0)
    case None => Ok(None)
    case Some(i) => ReadIsoDate(h[i..i + 10])
  }

  /** parse_date on a matched YYYY-MM-DD field. */
  function ReadIsoDate(t: string): (r: Result<Option<Date>>)
    requires CcbCreditPdf.IsIsoToken(t)
    ensures r.Ok? ==> r.value.Some? && Valid(r.value.value) && FromIso(t) == Ok(r.value.value)
    ensures r.Err? ==> r.error.InvalidDate? && FromIso(t) == Err(r.error)
  {
    CcbCreditPdf.IsoTokenFields(t);
    match FromIso(t)
    case Err(e) => Err(e)
    case Ok(d) => Ok(Some(d))
  }

  /** The date found is the first ISO date of the searched text, read as a date. */
  lemma DateInFirst(h: string, i: nat)
    requires IsoDateAt(h, i)
    requires forall j :: 0 <= j < i ==> !IsoDateAt(h, j)
    ensures var t := h[i..i + 10];
      DateIn(h) == (if FromIso(t).Ok? then Ok(Some(FromIso(t).value)) else Err(FromIso(t).error))
  {
    FirstIsoIs(h, i);
    assert DateIn(h) == ReadIsoDate(h[i..i + 10]);
  }

  lemma FirstIsoIs(h: string, i: nat)
    requires IsoDateAt(h, i)
    requires forall j :: 0 <= j < i ==> !IsoDateAt(h, j)
    ensures FirstIsoDate(h, 0) == Some(i)
  {
  }

  /** The ISO date pattern starts with a digit. */
  lemma NotIsoAt(h: string, j: nat)
    requires j < |h| && !IsDigit(h[j])
    ensures !IsoDateAt(h, j)
  {
    if j + 10 <= |h| {
      assert h[j..j + 10][..4][0] == h[j];
    }
  }

  /** A match after text with no digit in it is the first. */
  lemma DateInAfter(h: string, i: nat)
    requires IsoDateAt(h, i)
    requires forall j :: 0 <= j < i ==> !IsDigit(h[j])
    ensures var t := h[i..i + 10];
      DateIn(h) == (if FromIso(t).Ok? then Ok(Some(FromIso(t).value)) else Err(FromIso(t).error))
  {
    forall j | 0 <= j < i ensures !IsoDateAt(h, j) {
      NotIsoAt(h, j);
    }
    DateInFirst(h, i);
  }

  /** A page whose first "Statement Date" is followed, within the 300 characters searched,
      by the ISO text of a date, with no digit before that text, yields that date. */
  lemma StatementDateOf(d: Date, lead: string, rest: string, text: string)
    requires Valid(d)
    requires text == lead + IsoText(d) + rest
    requires forall j :: 0 <= j < |lead| ==> !IsDigit(lead[j])
    requires Find(lead, StatementMarker).Some? && |lead| + 10 <= Find(lead, StatementMarker).value + 300
    requires !IsWordChar(lead[|lead| - 1])
    requires rest == [] || !IsWordChar(rest[0])
    ensures StatementDate(text) == Ok(Some(d))
  {
    CcbCreditPdf.IsoTextShape(d);
    FromIsoText(d);
    FieldInWindow(lead, IsoText(d), rest, text);
  }

  /** The same for any ISO field: the date found is the field read as a date. */
  lemma FieldInWindow(lead: string, iso: string, rest: string, text: string)
    requires CcbCreditPdf.IsIsoToken(iso)
    requires text == lead + iso + rest
    requires forall j :: 0 <= j < |lead| ==> !IsDigit(lead[j])
    requires Find(lead, StatementMarker).Some? && |lead| + 10 <= Find(lead, StatementMarker).value + 300
    requires !IsWordChar(lead[|lead| - 1])
    requires rest == [] || !IsWordChar(rest[0])
    ensures StatementDate(text) == (if FromIso(iso).Ok? then Ok(Some(FromIso(iso).value)) else Err(FromIso(iso).error))
  {
    var h, i := WindowField(lead, iso, rest, text);
    DateInAfter(h, i);
  }

  /** Where the field sits in the searched text. */
  lemma WindowField(lead: string, iso: string, rest: string, text: string) returns (h: string, i: nat)
    requires CcbCreditPdf.IsIsoToken(iso)
    requires text == lead + iso + rest
    requires forall j :: 0 <= j < |lead| ==> !IsDigit(lead[j])
    requires Find(lead, StatementMarker).Some? && |lead| + 10 <= Find(lead, StatementMarker).value + 300
    requires !IsWordChar(lead[|lead| - 1])
    requires rest == [] || !IsWordChar(rest[0])
    ensures h == Haystack(text) && IsoDateAt(h, i) && h[i..i + 10] == iso
    ensures forall j :: 0 <= j < i ==> !IsDigit(h[j])
  {
    var idx := Find(lead, StatementMarker).value;
    HaystackOf(lead, iso, rest, text);
    h := Haystack(text);
    i := |lead| - idx;
    WindowIso(text, lead, iso, rest, idx, h);
    WindowLead(text, lead, iso, rest, idx, h);
  }

  lemma WindowIso(text: string, lead: string, iso: string, rest: string, idx: nat, h: string)
    requires CcbCreditPdf.IsIsoToken(iso)
    requires text == lead + iso + rest && idx < |lead| && |lead| + 10 <= idx + 300
    requires h == Slice(text, idx, idx + 300)
    requires !IsWordChar(lead[|lead| - 1])
    requires rest == [] || !IsWordChar(rest[0])
    ensures IsoDateAt(h, |lead| - idx) && h[|lead| - idx..|lead| - idx + 10] == iso
  {
    Window(text, lead, iso, rest, idx, h);
    var i := |lead| - idx;
    assert h[i - 1] == lead[|lead| - 1];
    IsoDateBetween(h, i, iso);
  }

  lemma WindowLead(text: string, lead: string, iso: string, rest: string, idx: nat, h: string)
    requires text == lead + iso + rest && |iso| == 10 && idx <= |lead| && |lead| + 10 <= idx + 300
    requires h == Slice(text, idx, idx + 300)
    requires forall j :: 0 <= j < |lead| ==> !IsDigit(lead[j])
    ensures forall j :: 0 <= j < |lead| - idx ==> !IsDigit(h[j])
  {
    Window(text, lead, iso, rest, idx, h);
  }

  /** A field with no word character on either side is a match. */
  lemma IsoDateBetween(h: string, i: nat, iso: string)
    requires CcbCreditPdf.IsIsoToken(iso)
    requires 1 <= i && i + 10 <= |h| && h[i..i + 10] == iso
    requires !IsWordChar(h[i - 1])
    requires i + 10 < |h| ==> !IsWordChar(h[i + 10])
    ensures IsoDateAt(h, i)
  {
  }

  /** When the phrase occurs in a prefix, the search window starts where it does there. */
  lemma HaystackOf(lead: string, iso: string, rest: string, text: string)
    requires text == lead + iso + rest && Find(lead, StatementMarker).Some?
    ensures var idx := Find(lead, StatementMarker).value; Haystack(text) == Slice(text, idx, idx + 300)
    ensures Find(lead, StatementMarker).value < |lead|
  {
    assert text == lead + (iso + rest);
    FindPrefix(lead, iso + rest, StatementMarker);
    assert OccursAt(lead, StatementMarker, Find(lead, StatementMarker).value);
  }

  /** The first occurrence in a prefix is the first occurrence in the whole text. */
  lemma FindPrefix(lead: string, tail: string, sub: string)
    requires Find(lead, sub).Some?
    ensures Find(lead + tail, sub) == Find(lead, sub)
  {
    var text := lead + tail;
    var idx := Find(lead, sub).value;
    var m := |sub|;
    assert text[idx..idx + m] == lead[idx..idx + m];
    assert OccursAt(text, sub, idx);
    forall j | 0 <= j < idx ensures !OccursAt(text, sub, j) {
      assert !OccursAt(lead, sub, j);
      assert text[j..j + m] == lead[j..j + m];
    }
    var r := Find(text, sub);
  }

  /** The window of 300 characters from idx, where lead ends inside it and iso follows. */
  lemma Window(text: string, lead: string, iso: string, rest: string, idx: nat, h: string)
    requires text == lead + iso + rest && |iso| == 10 && idx <= |lead| && |lead| + 10 <= idx + 300
    requires h == Slice(text, idx, idx + 300)
    ensures |lead| - idx + 10 <= |h| && h[|lead| - idx..|lead| - idx + 10] == iso
    ensures forall j :: 0 <= j < |lead| - idx ==> h[j] == lead[idx + j]
    ensures |lead| - idx + 10 < |h| ==> h[|lead| - idx + 10] == rest[0]
  {
    var upto := if idx + 300 < |text| then idx + 300 else |text|;
    assert h == text[idx..upto];
    var i := |lead| - idx;
    forall k | 0 <= k < 10 ensures h[i + k] == iso[k] {
      assert h[i + k] == text[|lead| + k];
    }
  }

  // Chinese dates.

  /** \d{1,2} followed by lit, starting at j: two digits when two digits and then lit follow,
      one when one digit and then lit follow, 0 when neither does. */
  function FieldLen(s: string, j: nat, lit: char): (n: nat)
    requires !IsDigit(lit)
    ensures n <= 2
    ensures n > 0 ==> j + n < |s| && AllDigits(s[j..j + n]) && s[j + n] == lit
  {
    if j + 2 < |s| && IsDigit(s[j]) && IsDigit(s[j + 1]) && s[j + 2] == lit then 2
    else if j + 1 < |s| && IsDigit(s[j]) && s[j + 1] == lit then 1
    else 0
  }

  datatype CnFields = CnFields(year: nat, month: nat, day: nat)

  /** (\d{4})年(\d{1,2})月(\d{1,2})日 matches at i, with these field values. */
  function CnDateAt(s: string, i: nat): (r: Option<CnFields>)
  {
    if i + 5 > |s| || !AllDigits(s[i..i + 4]) || s[i + 4] != '年' then None
    else
      var ml := FieldLen(s, i + 5, '月');
      if ml == 0 then None
      else
        var dl := FieldLen(s, i + 6 + ml, '日');
        if dl == 0 then None
        else Some(CnFields(DigitsValue(s[i..i + 4]), DigitsValue(s[i + 5..i + 5 + ml]),
                           DigitsValue(s[i + 6 + ml..i + 6 + ml + dl])))
  }

  function FirstCnDate(s: string, from: nat): (r: Option<nat>)
    ensures r.Some? ==> from <= r.value && CnDateAt(s, r.value).Some?
    ensures r.Some? ==> forall j :: from <= j < r.value ==> CnDateAt(s, j).None?
    ensures r.None? ==> forall j :: from <= j ==> CnDateAt(s, j).None?
    decreases |s| - from
  {
    if from + 5 > |s| then None
    else if CnDateAt(s, from).Some? then Some(from)
    else FirstCnDate(s, from + 1)
  }

  /** No position of the text holds a Chinese date. */
  ghost predicate NoCnDate(raw: string) {
    forall i :: CnDateAt(raw, i).None?
  }

  /** _parse_cn_date: the first "YYYY年M月D日" in the text, which raises when there is none
      or when it is outside the calendar. */
  function ParseCnDate(raw: string): (r: Result<Date>)
    ensures r.Ok? ==> Valid(r.value)
    ensures r == Err(NoChineseDate(raw)) <==> NoCnDate(raw)
    ensures r.Err? ==> r.error == NoChineseDate(raw) || r.error.InvalidDate?
  {
    match FirstCnDate(raw, 0)
    case None => Err(NoChineseDate(raw))
    case Some(i) =>
      var f := CnDateAt(raw, i).value;
      MakeDate(f.year, f.month, f.day)
  }

  /** A date written "YYYY年MM月DD日". */
  function CnText(d: Date): string
    requires Valid(d)
  {
    ZeroPad(d.year, 4) + "年" + ZeroPad(d.month, 2) + "月" + ZeroPad(d.day, 2) + "日"
  }

  /** Reading the Chinese text of a date gives the date back. */
  lemma ParseCnText(d: Date)
    requires Valid(d)
    ensures ParseCnDate(CnText(d)) == Ok(d)
  {
    PadWidth(d.year, 4);
    PadWidth(d.month, 2);
    PadWidth(d.day, 2);
    var y, m, dd := ZeroPad(d.year, 4), ZeroPad(d.month, 2), ZeroPad(d.day, 2);
    var s := CnText(d);
    assert s[..4] == y && s[5..7] == m && s[8..10] == dd;
    assert s[0..4] == s[..4];
    assert FieldLen(s, 5, '月') == 2;
    assert FieldLen(s, 8, '日') == 2;
    assert CnDateAt(s, 0) == Some(CnFields(d.year, d.month, d.day));
  }

  // The billing period.

  /** One match of the date-range pattern in the page text: where it starts and the texts of
      its start and end dates. */
  datatype RangeMatch = RangeMatch(pos: nat, startText: string, endText: string)

  /** The two dates of a match, the start read first. */
  function ParseRange(m: RangeMatch): (r: Result<(Date, Date)>)
    ensures r.Ok? ==> Valid(r.value.0) && Valid(r.value.1)
    ensures r.Ok? <==> ParseCnDate(m.startText).Ok? && ParseCnDate(m.endText).Ok?
  {
    match ParseCnDate(m.startText)
    case Err(e) => Err(e)
    case Ok(s) =>
      match ParseCnDate(m.endText)
      case Err(e) => Err(e)
      case Ok(e) => Ok((s, e))
  }

  predicate Ordered(p: (Date, Date)) {
    AtOrBefore(p.0, p.1)
  }

  /** The ranges whose start is not after their end, in order. */
  function OrderedOnly(ps: seq<(Date, Date)>): (r: seq<(Date, Date)>)
    ensures forall p :: p in r ==> p in ps && Ordered(p)
    decreases |ps|
  {
    if ps == [] then []
    else
      var last := ps[|ps| - 1];
      OrderedOnly(ps[..|ps| - 1]) + (if Ordered(last) then [last] else [])
  }

  /** The candidates list: every match read in order (the first unreadable date raises),
      keeping the ranges whose start is not after their end. */
  function Candidates(ms: seq<RangeMatch>): (r: Result<seq<(Date, Date)>>)
    ensures r.Ok? <==> forall k :: 0 <= k < |ms| ==> ParseRange(ms[k]).Ok?
    ensures r.Ok? ==> forall p :: p in r.value ==> Ordered(p) && Valid(p.0) && Valid(p.1)
  {
    match MapAll(ParseRange, ms)
    case Err(e) =>
      if forall k :: 0 <= k < |ms| ==> ParseRange(ms[k]).Ok? then
        MapAllAllOk(ParseRange, ms);
        Err(e)
      else Err(e)
    case Ok(ps) =>
      MapAllOk(ParseRange, ms, ps);
      Ok(OrderedOnly(ps))
  }

  /** The ordered ranges are kept, each once and in their order: result i is range idx[i],
      the indices increase, and every ordered range has one. */
  lemma {:induction false} OrderedOnlyIndex(ps: seq<(Date, Date)>) returns (idx: seq<nat>)
    ensures |idx| == |OrderedOnly(ps)|
    ensures forall i :: 0 <= i < |idx| ==> idx[i] < |ps| && OrderedOnly(ps)[i] == ps[idx[i]]
    ensures forall i, j :: 0 <= i < j < |idx| ==> idx[i] < idx[j]
    ensures forall k :: 0 <= k < |ps| && Ordered(ps[k]) ==> k in idx
    decreases |ps|
  {
    if ps == [] {
      idx := [];
    } else {
      var init := ps[..|ps| - 1];
      var last := |ps| - 1;
      var pre := OrderedOnlyIndex(init);
      var kept := if Ordered(ps[last]) then [last] else [];
      idx := pre + kept;
      assert OrderedOnly(ps) == OrderedOnly(init) + (if Ordered(ps[last]) then [ps[last]] else []);
      forall i | 0 <= i < |idx|
        ensures idx[i] < |ps| && OrderedOnly(ps)[i] == ps[idx[i]]
      {
        if i < |pre| {
          assert idx[i] == pre[i] && init[pre[i]] == ps[pre[i]];
        }
      }
      forall k | 0 <= k < |ps| && Ordered(ps[k])
        ensures k in idx
      {
        if k < last {
          assert init[k] == ps[k];
        }
      }
    }
  }

  /** The first unreadable match decides the error, as the loop raises there. */
  lemma CandidatesErr(ms: seq<RangeMatch>, i: nat)
    requires i < |ms| && ParseRange(ms[i]).Err?
    requires forall k :: 0 <= k < i ==> ParseRange(ms[k]).Ok?
    ensures Candidates(ms) == Err(ParseRange(ms[i]).error)
  {
    MapAllErr(ParseRange, ms, i);
  }

  /** Match k is the first whose dates do not read. */
  predicate FirstUnreadable(ms: seq<RangeMatch>, k: nat) {
    k < |ms| && ParseRange(ms[k]).Err? && forall j :: 0 <= j < k ==> ParseRange(ms[j]).Ok?
  }

  /** When the list is not built, the first match whose dates do not read gives the error. */
  lemma CandidatesFails(ms: seq<RangeMatch>)
    requires Candidates(ms).Err?
    ensures exists k: nat :: FirstUnreadable(ms, k) && Candidates(ms).error == ParseRange(ms[k]).error
  {
    var k := MapAllFails(ParseRange, ms);
    assert FirstUnreadable(ms, k);
  }

  /** The candidates are the ordered ranges of the matches, each once and in match order. */
  lemma CandidatesIndex(ms: seq<RangeMatch>) returns (idx: seq<nat>)
    requires Candidates(ms).Ok?
    ensures |idx| == |Candidates(ms).value|
    ensures forall i :: 0 <= i < |idx| ==>
      idx[i] < |ms| && Candidates(ms).value[i] == ParseRange(ms[idx[i]]).value
    ensures forall i, j :: 0 <= i < j < |idx| ==> idx[i] < idx[j]
    ensures forall k :: 0 <= k < |ms| && Ordered(ParseRange(ms[k]).value) ==> k in idx
  {
    var ps := MapAll(ParseRange, ms).value;
    MapAllOk(ParseRange, ms, ps);
    idx := OrderedOnlyIndex(ps);
  }

  /** Whether the range ends on the given date (any end date when none is given). */
  predicate Ends(p: (Date, Date), end: Option<Date>) {
    end.None? || p.1 == end.value
  }

  /** A match that is read, ordered, and ends on the given date. */
  predicate Picks(m: RangeMatch, end: Option<Date>) {
    var p := ParseRange(m);
    p.Ok? && Ordered(p.value) && Ends(p.value, end)
  }

  /** The first ordered range that ends on the date is the first candidate that does. */
  lemma {:induction false} OrderedOnlyFirst(ps: seq<(Date, Date)>, end: Option<Date>, k: nat) returns (i: nat)
    requires k < |ps| && Ordered(ps[k]) && Ends(ps[k], end)
    requires forall j :: 0 <= j < k ==> !(Ordered(ps[j]) && Ends(ps[j], end))
    ensures i < |OrderedOnly(ps)| && OrderedOnly(ps)[i] == ps[k]
    ensures forall j :: 0 <= j < i ==> !Ends(OrderedOnly(ps)[j], end)
    decreases |ps|
  {
    var init := ps[..|ps| - 1];
    if k < |ps| - 1 {
      i := OrderedOnlyFirst(init, end, k);
    } else {
      OrderedOnlyNone(init, end);
      i := |OrderedOnly(init)|;
    }
  }

  lemma OrderedOnlyNone(ps: seq<(Date, Date)>, end: Option<Date>)
    requires forall j :: 0 <= j < |ps| ==> !(Ordered(ps[j]) && Ends(ps[j], end))
    ensures forall j :: 0 <= j < |OrderedOnly(ps)| ==> !Ends(OrderedOnly(ps)[j], end)
  {
    forall j | 0 <= j < |OrderedOnly(ps)| ensures !Ends(OrderedOnly(ps)[j], end) {
      var p := OrderedOnly(ps)[j];
      assert p in OrderedOnly(ps);
    }
  }

  /** The candidates in terms of the matches: the first one that ends on a date comes from
      the first match that is ordered and ends there, and there is none when no match is. */
  lemma CandidatesFirst(ms: seq<RangeMatch>, end: Option<Date>, k: nat) returns (i: nat)
    requires Candidates(ms).Ok? && k < |ms| && Picks(ms[k], end)
    requires forall j :: 0 <= j < k ==> !Picks(ms[j], end)
    ensures i < |Candidates(ms).value| && Candidates(ms).value[i] == ParseRange(ms[k]).value
    ensures forall j :: 0 <= j < i ==> !Ends(Candidates(ms).value[j], end)
  {
    var ps := MapAll(ParseRange, ms).value;
    MapAllOk(ParseRange, ms, ps);
    i := OrderedOnlyFirst(ps, end, k);
  }

  lemma CandidatesNone(ms: seq<RangeMatch>, end: Option<Date>)
    requires Candidates(ms).Ok? && forall j :: 0 <= j < |ms| ==> !Picks(ms[j], end)
    ensures forall j :: 0 <= j < |Candidates(ms).value| ==> !Ends(Candidates(ms).value[j], end)
  {
    var ps := MapAll(ParseRange, ms).value;
    MapAllOk(ParseRange, ms, ps);
    OrderedOnlyNone(ps, end);
  }

  /** The first candidate at or after `from` that ends on d. */
  function EndingAt(c: seq<(Date, Date)>, d: Date, from: nat): (r: Option<nat>)
    ensures r.Some? ==> from <= r.value < |c| && c[r.value].1 == d
    ensures r.Some? ==> forall j :: from <= j < r.value ==> c[j].1 != d
    ensures r.None? ==> forall j :: from <= j < |c| ==> c[j].1 != d
    decreases |c| - from
  {
    if from >= |c| then None
    else if c[from].1 == d then Some(from)
    else EndingAt(c, d, from + 1)
  }

  /** text[max(0, pos - 24):pos]: the 24 characters before a match. */
  function Before24(text: string, pos: nat): string {
    Slice(text, if pos >= 24 then pos - 24 else 0, pos)
  }

  const PreviousMarker := "上一"

  /** A match not preceded within 24 characters by "上一" (the previous period). */
  predicate Plain(text: string, m: RangeMatch) {
    !Contains(Before24(text, m.pos), PreviousMarker)
  }

  /** The first plain match at or after `from`. */
  function FirstPlain(text: string, ms: seq<RangeMatch>, from: nat): (r: Option<nat>)
    ensures r.Some? ==> from <= r.value < |ms| && Plain(text, ms[r.value])
    ensures r.Some? ==> forall j :: from <= j < r.value ==> !Plain(text, ms[j])
    ensures r.None? ==> forall j :: from <= j < |ms| ==> !Plain(text, ms[j])
    decreases |ms| - from
  {
    if from >= |ms| then None
    else if Plain(text, ms[from]) then Some(from)
    else FirstPlain(text, ms, from + 1)
  }

  /** The choice among non-empty candidates: the first one ending on the statement date;
      failing that, the first plain match read again (without comparing its dates); failing
      that, the first candidate. */
  function Choose(text: string, ms: seq<RangeMatch>, c: seq<(Date, Date)>, stmt: Option<Date>)
    : (r: Result<(Date, Date)>)
    requires c != [] && forall p :: p in c ==> Valid(p.0) && Valid(p.1)
    ensures r.Ok? ==> Valid(r.value.0) && Valid(r.value.1)
    ensures stmt.Some? && EndingAt(c, stmt.value, 0).Some? ==> r == Ok(c[EndingAt(c, stmt.value, 0).value])
    ensures !(stmt.Some? && EndingAt(c, stmt.value, 0).Some?) && FirstPlain(text, ms, 0).Some? ==>
      r == ParseRange(ms[FirstPlain(text, ms, 0).value])
    ensures !(stmt.Some? && EndingAt(c, stmt.value, 0).Some?) && FirstPlain(text, ms, 0).None? ==> r == Ok(c[0])
  {
    var hit := if stmt.Some? then EndingAt(c, stmt.value, 0) else None;
    if hit.Some? then
      assert c[hit.value] in c;
      Ok(c[hit.value])
    else
      match FirstPlain(text, ms, 0)
      case Some(k) => ParseRange(ms[k])
      case None =>
        assert c[0] in c;
        Ok(c[0])
  }

  /** _extract_billing_period over the matches of the date-range pattern in the page. */
  function BillingPeriod(text: string, ms: seq<RangeMatch>): (r: Result<Option<(Date, Date)>>)
    ensures r.Ok? && r.value.Some? ==> Valid(r.value.value.0) && Valid(r.value.value.1)
  {
    Decide(text, ms, StatementDate(text), Candidates(ms))
  }

  /** The period once the statement date and the candidates are known: their errors first,
      None without candidates, the choice otherwise. */
  function Decide(text: string, ms: seq<RangeMatch>, stmt: Result<Option<Date>>,
                  cands: Result<seq<(Date, Date)>>): (r: Result<Option<(Date, Date)>>)
    requires cands.Ok? ==> forall p :: p in cands.value ==> Valid(p.0) && Valid(p.1)
    ensures r.Ok? && r.value.Some? ==> Valid(r.value.value.0) && Valid(r.value.value.1)
    ensures stmt.Err? ==> r == Err(stmt.error)
    ensures stmt.Ok? && cands.Err? ==> r == Err(cands.error)
    ensures stmt.Ok? && cands.Ok? ==> (r == Ok(None) <==> cands.value == [])
    ensures stmt.Ok? && cands.Ok? && cands.value != [] ==>
      (r.Ok? <==> Choose(text, ms, cands.value, stmt.value).Ok?) &&
      (r.Ok? ==> r.value == Some(Choose(text, ms, cands.value, stmt.value).value))
  {
    match stmt
    case Err(e) => Err(e)
    case Ok(date) =>
      match cands
      case Err(e) => Err(e)
      case Ok(c) =>
        if c == [] then Ok(None)
        else
          match Choose(text, ms, c, date)
          case Err(e) => Err(e)
          case Ok(p) => Ok(Some(p))
  }

  /** It raises exactly when the statement date or one of the matches' dates does. */
  lemma BillingPeriodRaises(text: string, ms: seq<RangeMatch>)
    ensures BillingPeriod(text, ms).Err? <==>
      StatementDate(text).Err? || exists j :: 0 <= j < |ms| && ParseRange(ms[j]).Err?
  {
    if StatementDate(text).Ok? && Candidates(ms).Ok? && Candidates(ms).value != [] {
      var k := FirstPlain(text, ms, 0);
      if k.Some? {
        assert ParseRange(ms[k.value]).Ok?;
      }
    }
  }

  /** It is None exactly when every match is read and none is ordered. */
  lemma BillingPeriodNone(text: string, ms: seq<RangeMatch>)
    ensures BillingPeriod(text, ms) == Ok(None) <==>
      StatementDate(text).Ok? &&
      forall j :: 0 <= j < |ms| ==> ParseRange(ms[j]).Ok? && !Ordered(ParseRange(ms[j]).value)
  {
    BillingPeriodRaises(text, ms);
    if StatementDate(text).Ok? && Candidates(ms).Ok? {
      CandidatesEmpty(ms);
      assert BillingPeriod(text, ms) == Decide(text, ms, StatementDate(text), Candidates(ms));
    }
  }

  /** No candidate survives exactly when no match reads as an ordered range. */
  lemma CandidatesEmpty(ms: seq<RangeMatch>)
    requires Candidates(ms).Ok?
    ensures Candidates(ms).value == [] <==> forall j :: 0 <= j < |ms| ==> !Picks(ms[j], None)
  {
    if o :| 0 <= o < |ms| && Picks(ms[o], None) {
      var k := FirstPickBy(ms, None, o);
      var i := CandidatesFirst(ms, None, k);
    } else {
      CandidatesNone(ms, None);
      if Candidates(ms).value != [] {
        assert Ends(Candidates(ms).value[0], None);
      }
    }
  }

  /** A match that picks has a first one that does. */
  lemma FirstPickBy(ms: seq<RangeMatch>, end: Option<Date>, o: nat) returns (k: nat)
    requires o < |ms| && Picks(ms[o], end)
    ensures k <= o && Picks(ms[k], end)
    ensures forall j :: 0 <= j < k ==> !Picks(ms[j], end)
  {
    var bs := seq(|ms|, j requires 0 <= j < |ms| => Picks(ms[j], end));
    k := FirstTrue(bs, o);
    forall j | 0 <= j < k
      ensures !Picks(ms[j], end)
    {
      assert !bs[j];
    }
  }

  /** The first true entry of a sequence with a true entry at o. */
  lemma FirstTrue(bs: seq<bool>, o: nat) returns (k: nat)
    requires o < |bs| && bs[o]
    ensures k <= o && bs[k] && forall j :: 0 <= j < k ==> !bs[j]
  {
    k := 0;
    while !bs[k]
      invariant k <= o
      invariant forall j :: 0 <= j < k ==> !bs[j]
      decreases o - k
    {
      k := k + 1;
    }
  }

  /** With a statement date, the period is the first ordered match ending on it. */
  lemma BillingPeriodStatement(text: string, ms: seq<RangeMatch>, d: Date, k: nat)
    requires StatementDate(text) == Ok(Some(d))
    requires forall j :: 0 <= j < |ms| ==> ParseRange(ms[j]).Ok?
    requires k < |ms| && Picks(ms[k], Some(d))
    requires forall j :: 0 <= j < k ==> !Picks(ms[j], Some(d))
    ensures BillingPeriod(text, ms) == Ok(Some(ParseRange(ms[k]).value))
  {
    var c := Candidates(ms).value;
    ChooseStatement(text, ms, c, d, k);
    assert BillingPeriod(text, ms) == Decide(text, ms, Ok(Some(d)), Ok(c));
  }

  lemma ChooseStatement(text: string, ms: seq<RangeMatch>, c: seq<(Date, Date)>, d: Date, k: nat)
    requires Candidates(ms) == Ok(c)
    requires k < |ms| && Picks(ms[k], Some(d))
    requires forall j :: 0 <= j < k ==> !Picks(ms[j], Some(d))
    ensures c != [] && Choose(text, ms, c, Some(d)) == Ok(ParseRange(ms[k]).value)
  {
    var i := CandidatesFirst(ms, Some(d), k);
    EndingAtIs(c, d, i);
  }

  lemma EndingAtIs(c: seq<(Date, Date)>, d: Date, i: nat)
    requires i < |c| && Ends(c[i], Some(d))
    requires forall j :: 0 <= j < i ==> !Ends(c[j], Some(d))
    ensures EndingAt(c, d, 0) == Some(i)
  {
  }

  /** Otherwise, when some match is ordered, it is the first plain match, whether or not
      that one is ordered. */
  lemma BillingPeriodPlain(text: string, ms: seq<RangeMatch>, stmt: Option<Date>, o: nat, k: nat)
    requires StatementDate(text) == Ok(stmt)
    requires forall j :: 0 <= j < |ms| ==> ParseRange(ms[j]).Ok?
    requires o < |ms| && Ordered(ParseRange(ms[o]).value)
    requires stmt.Some? ==> forall j :: 0 <= j < |ms| ==> !Picks(ms[j], stmt)
    requires k < |ms| && Plain(text, ms[k]) && forall j :: 0 <= j < k ==> !Plain(text, ms[j])
    ensures BillingPeriod(text, ms) == Ok(Some(ParseRange(ms[k]).value))
  {
    var c := Candidates(ms).value;
    ChooseOther(text, ms, c, stmt, o);
    ChoosePlain(text, ms, c, stmt, k);
    assert BillingPeriod(text, ms) == Decide(text, ms, Ok(stmt), Ok(c));
  }

  lemma ChoosePlain(text: string, ms: seq<RangeMatch>, c: seq<(Date, Date)>, stmt: Option<Date>, k: nat)
    requires c != [] && forall p :: p in c ==> Valid(p.0) && Valid(p.1)
    requires !(stmt.Some? && EndingAt(c, stmt.value, 0).Some?)
    requires k < |ms| && Plain(text, ms[k]) && forall j :: 0 <= j < k ==> !Plain(text, ms[j])
    ensures Choose(text, ms, c, stmt) == ParseRange(ms[k])
  {
    assert FirstPlain(text, ms, 0) == Some(k);
  }

  lemma ChooseFirst(text: string, ms: seq<RangeMatch>, c: seq<(Date, Date)>, stmt: Option<Date>)
    requires c != [] && forall p :: p in c ==> Valid(p.0) && Valid(p.1)
    requires !(stmt.Some? && EndingAt(c, stmt.value, 0).Some?)
    requires forall j :: 0 <= j < |ms| ==> !Plain(text, ms[j])
    ensures Choose(text, ms, c, stmt) == Ok(c[0])
  {
    assert FirstPlain(text, ms, 0).None?;
  }

  /** Without a candidate ending on the statement date, the choice falls through to the
      matches. */
  lemma ChooseOther(text: string, ms: seq<RangeMatch>, c: seq<(Date, Date)>, stmt: Option<Date>, o: nat)
    requires Candidates(ms) == Ok(c)
    requires o < |ms| && Ordered(ParseRange(ms[o]).value)
    requires stmt.Some? ==> forall j :: 0 <= j < |ms| ==> !Picks(ms[j], stmt)
    ensures c != [] && !(stmt.Some? && EndingAt(c, stmt.value, 0).Some?)
  {
    assert Picks(ms[o], None);
    CandidatesEmpty(ms);
    if stmt.Some? {
      CandidatesNone(ms, stmt);
    }
  }

  /** With no end date to match, the first candidate is the one found. */
  lemma NoEndIsFirst(c: seq<(Date, Date)>, i: nat)
    requires i < |c| && forall j :: 0 <= j < i ==> !Ends(c[j], None)
    ensures i == 0
  {
    assert Ends(c[0], None);
  }

  /** And when every match is preceded by "上一", it is the first ordered match. */
  lemma BillingPeriodFirst(text: string, ms: seq<RangeMatch>, stmt: Option<Date>, k: nat)
    requires StatementDate(text) == Ok(stmt)
    requires forall j :: 0 <= j < |ms| ==> ParseRange(ms[j]).Ok?
    requires k < |ms| && Picks(ms[k], None) && forall j :: 0 <= j < k ==> !Picks(ms[j], None)
    requires stmt.Some? ==> forall j :: 0 <= j < |ms| ==> !Picks(ms[j], stmt)
    requires forall j :: 0 <= j < |ms| ==> !Plain(text, ms[j])
    ensures BillingPeriod(text, ms) == Ok(Some(ParseRange(ms[k]).value))
  {
    var c := Candidates(ms).value;
    ChooseOther(text, ms, c, stmt, k);
    var i := CandidatesFirst(ms, None, k);
    NoEndIsFirst(c, i);
    ChooseFirst(text, ms, c, stmt);
    assert BillingPeriod(text, ms) == Decide(text, ms, Ok(stmt), Ok(c));
  }

  /** _extract_billing_period: the candidates loop, then the search for the statement date's
      range, then the fallback over the matches. */
  method ExtractBillingPeriod(text: string, ms: seq<RangeMatch>) returns (r: Result<Option<(Date, Date)>>)
    ensures r == BillingPeriod(text, ms)
  {
    var stmt := StatementDate(text);
    if stmt.Err? {
      return Err(stmt.error);
    }
    var cands := CollectCandidates(ms);
    assert BillingPeriod(text, ms) == Decide(text, ms, stmt, cands);
    if cands.Err? {
      return Err(cands.error);
    }
    var c := cands.value;
    if c == [] {
      return Ok(None);
    }
    if stmt.value.Some? {
      var hit := FindEnding(c, stmt.value.value);
      if hit.Some? {
        return Ok(Some(c[hit.value]));
      }
    }
    var fallback := Fallback(text, ms);
    if fallback.Some? {
      if fallback.value.Err? {
        return Err(fallback.value.error);
      }
      return Ok(Some(fallback.value.value));
    }
    return Ok(Some(c[0]));
  }

  /** The loop over the matches that reads every range and keeps the ordered ones. */
  method CollectCandidates(ms: seq<RangeMatch>) returns (r: Result<seq<(Date, Date)>>)
    ensures r == Candidates(ms)
  {
    var parsed: seq<(Date, Date)> := [];
    var candidates: seq<(Date, Date)> := [];
    var i := 0;
    while i < |ms|
      invariant i <= |ms|
      invariant MapAll(ParseRange, ms[..i]) == Ok(parsed)
      invariant candidates == OrderedOnly(parsed)
    {
      MapAllStep(ParseRange, ms, i);
      var start := ParseCnDate(ms[i].startText);
      if start.Err? {
        MapAllErrSticky(ParseRange, ms, i + 1);
        return Err(start.error);
      }
      var end := ParseCnDate(ms[i].endText);
      if end.Err? {
        MapAllErrSticky(ParseRange, ms, i + 1);
        return Err(end.error);
      }
      assert (parsed + [(start.value, end.value)])[..|parsed|] == parsed;
      if AtOrBefore(start.value, end.value) {
        candidates := candidates + [(start.value, end.value)];
      }
      parsed := parsed + [(start.value, end.value)];
      i := i + 1;
    }
    assert ms[..|ms|] == ms;
    return Ok(candidates);
  }

  /** The loop over the candidates that looks for the one ending on the statement date. */
  method FindEnding(c: seq<(Date, Date)>, d: Date) returns (hit: Option<nat>)
    ensures hit == EndingAt(c, d, 0)
  {
    var j := 0;
    while j < |c|
      invariant j <= |c|
      invariant EndingAt(c, d, 0) == EndingAt(c, d, j)
    {
      if c[j].1 == d {
        return Some(j);
      }
      j := j + 1;
    }
    return None;
  }

  /** The loop over the matches that reads the first one not preceded by "上一". */
  method Fallback(text: string, ms: seq<RangeMatch>) returns (r: Option<Result<(Date, Date)>>)
    ensures r.None? <==> FirstPlain(text, ms, 0).None?
    ensures r.Some? ==> r.value == ParseRange(ms[FirstPlain(text, ms, 0).value])
  {
    var k := 0;
    while k < |ms|
      invariant k <= |ms|
      invariant FirstPlain(text, ms, 0) == FirstPlain(text, ms, k)
    {
      if Contains(Before24(text, ms[k].pos), PreviousMarker) {
        k := k + 1;
        continue;
      }
      var start := ParseCnDate(ms[k].startText);
      if start.Err? {
        return Some(Err(start.error));
      }
      var end := ParseCnDate(ms[k].endText);
      if end.Err? {
        return Some(Err(end.error));
      }
      return Some(Ok((start.value, end.value)));
    }
    return None;
  }

  // The period tag.

  /** -(\d{4})-(\d{2})\.eml$ matches the file name: it ends in "-YYYY-MM.eml". */
  predicate DatedEmlName(name: string) {
    var n := |name|;
    n >= 12 && name[n - 12] == '-' && AllDigits(name[n - 11..n - 7]) && name[n - 7] == '-' &&
    AllDigits(name[n - 6..n - 4]) && name[n - 4..] == ".eml"
  }

  /** _period_tag_for: the tag of the period's start month; without a period, the tag of the
      year and month in the file name; None when neither is there. */
  function PeriodTagFor(path: string, period: Option<(Date, Date)>): (r: Option<string>)
    requires period.Some? ==> Valid(period.value.0)
    ensures r.None? <==> period.None? && !DatedEmlName(BaseName(path))
  {
    if period.Some? then Some(CcbCreditPdf.PeriodTag(period.value.0.year, period.value.0.month))
    else
      var name := BaseName(path);
      var n := |name|;
      if DatedEmlName(name) then
        Some(CcbCreditPdf.PeriodTag(DigitsValue(name[n - 11..n - 7]), DigitsValue(name[n - 6..n - 4])))
      else None
  }

  /** The tag of a period reads back as the year and month its start date has. */
  lemma PeriodTagOfStart(path: string, p: (Date, Date))
    requires Valid(p.0)
    ensures var t := PeriodTagFor(path, Some(p)).value;
      |t| == 18 && t[..11] == "credit-ccb-" && t[15] == '-' &&
      ParseInt(t[11..15]) == Ok(p.0.year) && ParseInt(t[16..]) == Ok(p.0.month)
  {
    PadWidth(p.0.year, 4);
    PadWidth(p.0.month, 2);
    ParseZeroPad(p.0.year, 4);
    ParseZeroPad(p.0.month, 2);
    TagSlices("credit-ccb-", ZeroPad(p.0.year, 4), ZeroPad(p.0.month, 2));
  }

  /** Where the parts of a tag sit in it. */
  lemma TagSlices(head: string, y: string, m: string)
    requires |head| == 11 && |y| == 4 && |m| == 2
    ensures var t := head + y + "-" + m;
      |t| == 18 && t[..11] == head && t[11..15] == y && t[15] == '-' && t[16..] == m
  {
    var t := head + y + "-" + m;
    assert t[11..15] == y;
    assert t[16..] == m;
  }

  /** Without a period, the tag repeats the file name's year and month digits. */
  lemma PeriodTagOfName(path: string)
    requires DatedEmlName(BaseName(path))
    ensures var name := BaseName(path); var n := |name|;
      PeriodTagFor(path, None) == Some("credit-ccb-" + name[n - 11..n - 7] + "-" + name[n - 6..n - 4])
  {
    var name := BaseName(path);
    var n := |name|;
    ZeroPadDigits(name[n - 11..n - 7]);
    ZeroPadDigits(name[n - 6..n - 4]);
  }

  // The records.

  /** The text of the eight cells of a row. */
  type Cells = c: seq<string> | |c| == 8 witness ["", "", "", "", "", "", "", ""]

  /** The rows the importer reads: those with exactly eight cells, in order. */
  function EightCellRows(rows: seq<seq<string>>): (r: seq<Cells>)
    ensures forall c :: c in r ==> c in rows
    ensures forall k :: 0 <= k < |rows| && |rows[k]| == 8 ==> rows[k] in r
    decreases |rows|
  {
    if rows == [] then []
    else
      var init := rows[..|rows| - 1];
      var last := rows[|rows| - 1];
      assert forall k :: 0 <= k < |rows| - 1 ==> rows[k] == init[k];
      EightCellRows(init) + (if |last| == 8 then [last] else [])
  }

  /** The filter works row by row: two tables read one after the other keep the rows each
      keeps, in order. */
  lemma {:induction false} EightCellRowsConcat(a: seq<seq<string>>, b: seq<seq<string>>)
    ensures EightCellRows(a + b) == EightCellRows(a) + EightCellRows(b)
    decreases |b|
  {
    if b == [] {
      assert a + b == a;
    } else {
      var init := b[..|b| - 1];
      EightCellRowsConcat(a, init);
      assert (a + b)[..|a + b| - 1] == a + init;
    }
  }

  /** One row of the transaction table. */
  datatype Record = Record(tradeDate: Date, description: string, currency: string, amount: Dec)

  const DefaultCurrency := "CNY"

  /** A row's record: the date from the first cell (read first), the description from the
      fourth, the currency from the seventh or "CNY" when it is empty, the amount from the
      eighth. */
  function RowRecord(cells: Cells): (r: Result<Record>)
    ensures r.Ok? <==> FromIso(cells[0]).Ok? && ParseParenAmount(cells[7]).Ok?
    ensures FromIso(cells[0]).Err? ==> r == Err(FromIso(cells[0]).error)
    ensures r.Ok? ==> Valid(r.value.tradeDate) && Ok(r.value.tradeDate) == FromIso(cells[0])
    ensures r.Ok? ==> r.value.description == cells[3] && Ok(r.value.amount) == ParseParenAmount(cells[7])
    ensures r.Ok? ==> r.value.currency == (if cells[6] == "" then DefaultCurrency else cells[6])
  {
    match FromIso(cells[0])
    case Err(e) => Err(e)
    case Ok(date) =>
      var currency := if cells[6] == "" then DefaultCurrency else cells[6];
      match ParseParenAmount(cells[7])
      case Err(e) => Err(e)
      case Ok(amount) => Ok(Record(date, cells[3], currency, amount))
  }

  /** _parse_records: one record per eight-cell row, in order; the first unreadable row
      raises. */
  method ParseRecords(table: seq<seq<string>>) returns (r: Result<seq<Record>>)
    ensures r == MapAll(RowRecord, EightCellRows(table))
  {
    var rows := EightCellRows(table);
    var records := [];
    var i := 0;
    assert rows[..0] == [];
    while i < |rows|
      invariant i <= |rows|
      invariant MapAll(RowRecord, rows[..i]) == Ok(records)
    {
      MapAllStep(RowRecord, rows, i);
      var rec := RowRecord(rows[i]);
      if rec.Err? {
        MapAllErrSticky(RowRecord, rows, i + 1);
        return Err(rec.error);
      }
      records := records + [rec.value];
      i := i + 1;
    }
    assert rows[..|rows|] == rows;
    r := Ok(records);
  }

  // The transactions.

  /** `if period_tag:` — a missing or empty tag gives no tags. */
  function TagSet(tag: Option<string>): (r: set<string>)
    ensures r == {} <==> tag.None? || tag.value == ""
    ensures tag.Some? && tag.value != "" ==> tag.value in r && |r| == 1
  {
    if tag.Some? && tag.value != "" then {tag.value} else {}
  }

  /** A record's transaction: flag "*", the description as payee, no narration, the period
      tag, and one posting of the negated amount in the record's currency. */
  function RecordTxn(rec: Record, account: string, tag: Option<string>): Transaction {
    Transaction(rec.tradeDate, FlagOkay, Some(rec.description), None, TagSet(tag),
                [Posting(account, Amount(rec.amount, rec.currency).Neg())])
  }

  const Issuer := "中国建设银行信用卡"

  /** extract, from the subject, the page text with its range matches, the file path and the
      cell texts of the transaction table (None when the page has no such table). */
  function Extract(subject: string, text: string, ms: seq<RangeMatch>, path: string,
                   table: Option<seq<seq<string>>>, account: string): (r: Result<seq<Transaction>>)
    ensures !Contains(subject, Issuer) ==> r == Err(NotCcbCreditEmail(subject))
    ensures Contains(subject, Issuer) && BillingPeriod(text, ms).Err? ==> r == Err(BillingPeriod(text, ms).error)
    ensures Contains(subject, Issuer) && BillingPeriod(text, ms).Ok? && table.None? ==> r == Err(NoTransactionTable)
  {
    if !Contains(subject, Issuer) then Err(NotCcbCreditEmail(subject))
    else Tagged(BillingPeriod(text, ms), path, table, account)
  }

  /** What follows the billing period: the tag, then the table's records. */
  function Tagged(period: Result<Option<(Date, Date)>>, path: string,
                  table: Option<seq<seq<string>>>, account: string): (r: Result<seq<Transaction>>)
    requires period.Ok? && period.value.Some? ==> Valid(period.value.value.0)
    ensures period.Err? ==> r == Err(period.error)
    ensures period.Ok? && table.None? ==> r == Err(NoTransactionTable)
  {
    match period
    case Err(e) => Err(e)
    case Ok(p) =>
      var tag := PeriodTagFor(path, p);
      if table.None? then Err(NoTransactionTable)
      else Entries(MapAll(RowRecord, EightCellRows(table.value)), account, tag)
  }

  /** One transaction per record, in order, or the first record's error. */
  function Entries(records: Result<seq<Record>>, account: string, tag: Option<string>): (r: Result<seq<Transaction>>)
    ensures r.Ok? <==> records.Ok?
    ensures r.Err? ==> r.error == records.error
    ensures r.Ok? ==> |r.value| == |records.value|
    ensures r.Ok? ==> forall k :: 0 <= k < |r.value| ==> r.value[k] == RecordTxn(records.value[k], account, tag)
  {
    match records
    case Err(e) => Err(e)
    case Ok(rs) => Ok(seq(|rs|, k requires 0 <= k < |rs| => RecordTxn(rs[k], account, tag)))
  }

  method ExtractEmail(subject: string, text: string, ms: seq<RangeMatch>, path: string,
                      table: Option<seq<seq<string>>>, account: string)
    returns (r: Result<seq<Transaction>>)
    ensures r == Extract(subject, text, ms, path, table, account)
  {
    if !Contains(subject, Issuer) {
      return Err(NotCcbCreditEmail(subject));
    }
    var period := ExtractBillingPeriod(text, ms);
    if period.Err? {
      return Err(period.error);
    }
    var tag := PeriodTagFor(path, period.value);
    if table.None? {
      return Err(NoTransactionTable);
    }
    var records := ParseRecords(table.value);
    assert Extract(subject, text, ms, path, table, account) == Entries(records, account, tag);
    if records.Err? {
      return Err(records.error);
    }
    var entries := RecordTxns(records.value, account, tag);
    r := Ok(entries);
  }

  /** The loop that turns the records into transactions, one each, in order. */
  method RecordTxns(records: seq<Record>, account: string, tag: Option<string>)
    returns (entries: seq<Transaction>)
    ensures Entries(Ok(records), account, tag) == Ok(entries)
  {
    entries := [];
    var i := 0;
    while i < |records|
      invariant i <= |records|
      invariant |entries| == i
      invariant forall k :: 0 <= k < i ==> entries[k] == RecordTxn(records[k], account, tag)
    {
      entries := entries + [RecordTxn(records[i], account, tag)];
      i := i + 1;
    }
    assert entries == Entries(Ok(records), account, tag).value;
  }

  /** Each eight-cell row gives one transaction, in order: the row's date, its description
      as payee, the negated amount in the row's currency ("CNY" when the cell is empty), and
      no tag exactly when there is no period and the file name carries no year and month. */
  lemma ExtractTxns(subject: string, text: string, ms: seq<RangeMatch>, path: string,
                    table: seq<seq<string>>, account: string, txns: seq<Transaction>)
    requires Extract(subject, text, ms, path, Some(table), account) == Ok(txns)
    ensures Contains(subject, Issuer) && BillingPeriod(text, ms).Ok?
    ensures |txns| == |EightCellRows(table)|
    ensures forall k :: 0 <= k < |txns| ==> var cells := EightCellRows(table)[k];
      FromIso(cells[0]) == Ok(txns[k].date) && txns[k].payee == Some(cells[3]) &&
      ParseParenAmount(cells[7]).Ok? &&
      txns[k].postings == [Posting(account, Amount(ParseParenAmount(cells[7]).value.Neg(),
                                                   if cells[6] == "" then DefaultCurrency else cells[6]))]
    ensures forall k :: 0 <= k < |txns| ==>
      (txns[k].tags == {} <==> BillingPeriod(text, ms).value.None? && !DatedEmlName(BaseName(path)))
  {
    var period := BillingPeriod(text, ms).value;
    var tag := PeriodTagFor(path, period);
    TaggedTxns(path, table, account, period, tag, txns);
  }

  /** The same, one layer down: the transactions of a table under a known tag. */
  lemma TaggedTxns(path: string, table: seq<seq<string>>, account: string,
                   period: Option<(Date, Date)>, tag: Option<string>, txns: seq<Transaction>)
    requires period.Some? ==> Valid(period.value.0)
    requires tag == PeriodTagFor(path, period)
    requires Tagged(Ok(period), path, Some(table), account) == Ok(txns)
    ensures |txns| == |EightCellRows(table)|
    ensures forall k :: 0 <= k < |txns| ==> var cells := EightCellRows(table)[k];
      FromIso(cells[0]) == Ok(txns[k].date) && txns[k].payee == Some(cells[3]) &&
      ParseParenAmount(cells[7]).Ok? &&
      txns[k].postings == [Posting(account, Amount(ParseParenAmount(cells[7]).value.Neg(),
                                                   if cells[6] == "" then DefaultCurrency else cells[6]))]
    ensures forall k :: 0 <= k < |txns| ==>
      (txns[k].tags == {} <==> period.None? && !DatedEmlName(BaseName(path)))
  {
    var rows := EightCellRows(table);
    assert Tagged(Ok(period), path, Some(table), account) == Entries(MapAll(RowRecord, rows), account, tag);
    var records := MapAll(RowRecord, rows).value;
    MapAllOk(RowRecord, rows, records);
    forall k | 0 <= k < |txns|
      ensures var cells := rows[k];
        FromIso(cells[0]) == Ok(txns[k].date) && txns[k].payee == Some(cells[3]) &&
        ParseParenAmount(cells[7]).Ok? &&
        txns[k].postings == [Posting(account, Amount(ParseParenAmount(cells[7]).value.Neg(),
                                                     if cells[6] == "" then DefaultCurrency else cells[6]))]
      ensures txns[k].tags == {} <==> tag.None?
    {
      RecordTxnOf(rows[k], records[k], account, tag);
    }
  }

  /** A row's transaction carries the row's date, description, negated amount and currency,
      and has no tag exactly when the tag is missing or empty. */
  lemma RecordTxnOf(cells: Cells, rec: Record, account: string, tag: Option<string>)
    requires RowRecord(cells) == Ok(rec)
    ensures var t := RecordTxn(rec, account, tag);
      FromIso(cells[0]) == Ok(t.date) && t.payee == Some(cells[3]) && t.narration.None? &&
      ParseParenAmount(cells[7]).Ok? &&
      t.postings == [Posting(account, Amount(ParseParenAmount(cells[7]).value.Neg(),
                                             if cells[6] == "" then DefaultCurrency else cells[6]))]
    ensures RecordTxn(rec, account, tag).tags == {} <==> tag.None? || tag.value == ""
  {
    assert Amount(rec.amount, rec.currency).Neg() == Amount(rec.amount.Neg(), rec.currency);
  }

  // identify.

  /** Path.suffix: the file name from its last '.', when that dot is neither its first nor its
      last character; "" otherwise. */
  function Suffix(name: string): (r: string)
    ensures r != [] ==> r[0] == '.' && '.' !in r[1..] && |r| < |name| && r == name[|name| - |r|..]
  {
    if '.' !in name then ""
    else
      var i := LastIndexOf(name, '.');
      if 0 < i < |name| - 1 then name[i..] else ""
  }

  /** identify: the suffix is ".eml" in any case and the name holds "中国建设银行信用卡". */
  predicate Identify(path: string) {
    AsciiLower(Suffix(BaseName(path))) == ".eml" && Contains(BaseName(path), Issuer)
  }

  /** A name is identified exactly when it is longer than ".eml", ends in ".eml" in any case
      of its letters, and holds the card's name. */
  lemma IdentifyIff(path: string)
    ensures var name := BaseName(path); var n := |name|;
      Identify(path) <==> n > 4 && AsciiLower(name[n - 4..]) == ".eml" && Contains(name, Issuer)
  {
    var name := BaseName(path);
    var n := |name|;
    if n > 4 && AsciiLower(name[n - 4..]) == ".eml" {
      assert name[n - 4] == '.' by {
        assert LowerChar(name[n - 4..][0]) == '.';
      }
      forall j | n - 4 < j < n ensures name[j] != '.' {
        assert LowerChar(name[n - 4..][j - n + 4]) != '.';
      }
      assert '.' in name;
      var i := LastIndexOf(name, '.');
      assert i == n - 4;
    }
  }
}

=== FILE: ccb_credit_pdf.dfy ===
/** The CCB (China Construction Bank) credit-card PDF importer: the statement's text lines
    are scanned for the transaction table, a table line with the record layout becomes a
    record (other lines are passed over, a few malformed ones raise), and each record
    becomes one transaction tagged with the statement month taken from the file name. */
module CcbCreditPdf {

  import opened Base
  import opened Text
  import opened Numbers
  import opened Dates
  import opened Ledger
  import opened Dicts

  // Line classes.

  const HeaderText: string := "交易日 银行记账日 卡号后四位 交易描述 交易币/金额 结算币/金额"

  /** _is_header_line: the line holds the table's column titles. */
  predicate IsHeaderLine(text: string) {
    Contains(text, HeaderText)
  }

  /** _should_stop: the end-of-statement line. */
  predicate ShouldStop(text: string) {
    StartsWith(text, "*** 结束")
  }

  /** _should_skip: page furniture and summary lines inside the table. */
  predicate ShouldSkip(text: string) {
    text == "承前页" || Contains(text, "接下页") || StartsWith(text, "T-Date P-Date") ||
    StartsWith(text, "[人民币账户]") || Contains(text, "上期账单余额")
  }

  /** DATE_TOKEN: four digits, a hyphen, two digits, a hyphen, two digits and nothing else. */
  predicate IsIsoToken(t: string) {
    |t| == 10 && AllDigits(t[..4]) && t[4] == '-' && AllDigits(t[5..7]) && t[7] == '-' && AllDigits(t[8..])
  }

  /** date.fromisoformat on a DATE_TOKEN reads its three digit fields (the same slices
      FromIso takes) and fails only on a date outside the calendar. */
  lemma IsoTokenFields(t: string)
    requires IsIsoToken(t)
    ensures FromIso(t) == MakeDate(DigitsValue(t[..4]), DigitsValue(t[5..7]), DigitsValue(t[8..]))
    ensures FromIso(t).Err? ==> FromIso(t).error.InvalidDate?
  {
    assert Slice(t, 0, 4) == t[..4] && Slice(t, 5, 7) == t[5..7] && Slice(t, 8, 10) == t[8..];
  }

  /** The ISO text of a date is a DATE_TOKEN that reads back as the date. */
  lemma IsoTextToken(d: Date)
    requires Valid(d)
    ensures IsIsoToken(IsoText(d)) && IsToken(IsoText(d)) && FromIso(IsoText(d)) == Ok(d)
  {
    IsoTextShape(d);
    IsoTokenNoSpace(IsoText(d));
    FromIsoText(d);
  }

  lemma IsoTextShape(d: Date)
    requires Valid(d)
    ensures IsIsoToken(IsoText(d))
  {
    PadWidth(d.year, 4);
    PadWidth(d.month, 2);
    PadWidth(d.day, 2);
    var y, m, dd := ZeroPad(d.year, 4), ZeroPad(d.month, 2), ZeroPad(d.day, 2);
    var s := y + "-" + m + "-" + dd;
    assert s[..4] == y && s[5..7] == m && s[8..] == dd;
  }

  /** A DATE_TOKEN is a token: digits and hyphens only. */
  lemma IsoTokenNoSpace(t: string)
    requires IsIsoToken(t)
    ensures IsToken(t)
  {
    forall k | 0 <= k < |t| ensures !IsSpace(t[k]) {
      if k < 4 {
        assert t[k] == t[..4][k];
      } else if 4 < k < 7 {
        assert t[k] == t[5..7][k - 5];
      } else if 7 < k {
        assert t[k] == t[8..][k - 8];
      }
    }
  }

  // One line.

  /** The fields of a transaction line; raw_line is the line itself. */
  datatype Record = Record(
    tradeDate: Date,
    bookingDate: Date,
    cardLast4: string,
    description: string,
    transCurrency: string,
    transAmount: Dec,
    settlementCurrency: string,
    settlementAmount: Dec,
    rawLine: string)

  /** _parse_record_line: None (the line is not a record) when it has fewer than seven
      tokens, when either of the first two is not a DATE_TOKEN, or when the third is not
      four characters long; raises when a date is outside the calendar, when a record line
      has only seven tokens, or when an amount does not parse. */
  function ParseRecordLine(text: string): (r: Result<Option<Record>>)
    ensures r.Ok? && r.value.Some? ==> r.value.value.rawLine == text
  {
    ReadTokens(Split(text), text)
  }

  /** The checks on the line's tokens. */
  function ReadTokens(tokens: seq<string>, text: string): (r: Result<Option<Record>>)
    ensures r.Ok? && r.value.Some? ==> r.value.value.rawLine == text
  {
    if |tokens| < 7 || !(IsIsoToken(tokens[0]) && IsIsoToken(tokens[1])) then Ok(None)
    else DatedRecord(tokens, text, FromIso(tokens[0]), FromIso(tokens[1]))
  }

  /** The rest of the checks, once the two date tokens have been read. */
  function DatedRecord(tokens: seq<string>, text: string, trade: Result<Date>, booking: Result<Date>)
    : (r: Result<Option<Record>>)
    requires |tokens| >= 7
    ensures r.Ok? && r.value.Some? ==> r.value.value.rawLine == text
    ensures r.Ok? && r.value.Some? ==>
      |tokens| >= 8 && |tokens[2]| == 4 && trade == Ok(r.value.value.tradeDate) && booking == Ok(r.value.value.bookingDate)
    ensures r.Ok? && r.value.Some? ==> var n := |tokens|;
      FieldsRecord(tokens, text, trade.value, booking.value, Strip(Join(" ", tokens[3..n - 4])),
                   ParseParenAmount(tokens[n - 3]), ParseParenAmount(tokens[n - 1])) == r
  {
    if trade.Err? then Err(trade.error)
    else if booking.Err? then Err(booking.error)
    else if |tokens[2]| != 4 then Ok(None)
    else if |tokens| < 8 then Err(UnexpectedTransactionLine(text))
    else
      var n := |tokens|;
      FieldsRecord(tokens, text, trade.value, booking.value, Strip(Join(" ", tokens[3..n - 4])),
                   ParseParenAmount(tokens[n - 3]), ParseParenAmount(tokens[n - 1]))
  }

  /** The description is every token between the card number and the last four, joined by
      single spaces; the transaction amount is read before the settlement amount. */
  function FieldsRecord(tokens: seq<string>, text: string, trade: Date, booking: Date, description: string,
                        trans: Result<Dec>, settlement: Result<Dec>): (r: Result<Option<Record>>)
    requires |tokens| >= 8
    ensures r.Ok? ==> r.value.Some? && r.value.value.rawLine == text
    ensures r.Err? && description != "" && trans.Err? ==> r.error == trans.error
    ensures r.Err? && description != "" && trans.Ok? ==> settlement.Err? && r.error == settlement.error
    ensures r.Ok? ==> var n := |tokens|;
      description != "" && trans.Ok? && settlement.Ok? &&
      r.value.value == Record(trade, booking, tokens[2], description, tokens[n - 4], trans.value,
                              tokens[n - 2], settlement.value, text)
  {
    var n := |tokens|;
    if description == "" then Err(EmptyDescription(text))
    else if trans.Err? then Err(trans.error)
    else if settlement.Err? then Err(settlement.error)
    else Ok(Some(Record(trade, booking, tokens[2], description, tokens[n - 4], trans.value,
                        tokens[n - 2], settlement.value, text)))
  }

  /** The line is passed over rather than read: too few tokens, no leading DATE_TOKENs, or
      two valid dates followed by a third token that is not four characters long. */
  predicate NotARecord(tokens: seq<string>) {
    |tokens| < 7 || !IsIsoToken(tokens[0]) || !IsIsoToken(tokens[1]) ||
    (FromIso(tokens[0]).Ok? && FromIso(tokens[1]).Ok? && |tokens[2]| != 4)
  }

  /** The tokens pass the three checks and their dates are in the calendar. */
  predicate DatedLine(tokens: seq<string>) {
    !NotARecord(tokens) && FromIso(tokens[0]).Ok? && FromIso(tokens[1]).Ok?
  }

  /** A line yields None exactly in the three cases that drop it. */
  lemma RecordLineNone(text: string)
    ensures ParseRecordLine(text) == Ok(None) <==> NotARecord(Split(text))
  {
    ReadTokensNone(Split(text), text);
  }

  lemma ReadTokensNone(tokens: seq<string>, text: string)
    ensures ReadTokens(tokens, text) == Ok(None) <==> NotARecord(tokens)
  {
  }

  /** A line that passes the three checks with only seven tokens raises. */
  lemma RecordLineSeven(text: string)
    requires |Split(text)| == 7 && DatedLine(Split(text))
    ensures ParseRecordLine(text) == Err(UnexpectedTransactionLine(text))
  {
    var tokens := Split(text);
    assert ReadTokens(tokens, text) == DatedRecord(tokens, text, FromIso(tokens[0]), FromIso(tokens[1]));
  }

  /** Every failure is a date outside the calendar, a seven-token record line or an amount
      that is not a decimal; the empty-description raise is never reached, as a line with
      eight tokens or more has at least one description token. */
  lemma RecordLineErrors(text: string)
    requires ParseRecordLine(text).Err?
    ensures var e := ParseRecordLine(text).error;
      e.InvalidDate? || e.NotADecimal? || (e == UnexpectedTransactionLine(text) && |Split(text)| == 7)
  {
    ReadTokensErrors(Split(text), text);
  }

  lemma ReadTokensErrors(tokens: seq<string>, text: string)
    requires AllTokens(tokens) && ReadTokens(tokens, text).Err?
    ensures var e := ReadTokens(tokens, text).error;
      e.InvalidDate? || e.NotADecimal? || (e == UnexpectedTransactionLine(text) && |tokens| == 7)
  {
    var trade, booking := FromIso(tokens[0]), FromIso(tokens[1]);
    IsoTokenFields(tokens[0]);
    IsoTokenFields(tokens[1]);
    assert ReadTokens(tokens, text) == DatedRecord(tokens, text, trade, booking);
    DatedRecordErrors(tokens, text, trade, booking);
  }

  lemma DatedRecordErrors(tokens: seq<string>, text: string, trade: Result<Date>, booking: Result<Date>)
    requires |tokens| >= 7 && AllTokens(tokens) && DatedRecord(tokens, text, trade, booking).Err?
    ensures var e := DatedRecord(tokens, text, trade, booking).error;
      (trade.Err? && e == trade.error) || (booking.Err? && e == booking.error) ||
      e.NotADecimal? || (e == UnexpectedTransactionLine(text) && |tokens| == 7)
  {
    if trade.Ok? && booking.Ok? && |tokens| >= 8 && |tokens[2]| == 4 {
      DescriptionPresent(tokens);
    }
  }

  /** With eight tokens or more, the description is the middle tokens joined, never empty. */
  lemma DescriptionPresent(tokens: seq<string>)
    requires |tokens| >= 8 && AllTokens(tokens)
    ensures Strip(Join(" ", tokens[3..|tokens| - 4])) == Join(" ", tokens[3..|tokens| - 4])
    ensures Join(" ", tokens[3..|tokens| - 4]) != ""
  {
    var middle := tokens[3..|tokens| - 4];
    assert forall t :: t in middle ==> t in tokens;
    StripJoinedTokens(middle);
  }

  /** Where each field of a record comes from, t being the line's tokens. */
  lemma RecordLineFields(text: string, t: seq<string>, rec: Record)
    requires t == Split(text) && ParseRecordLine(text) == Ok(Some(rec))
    ensures |t| >= 8 && DatedLine(t)
    ensures FromIso(t[0]) == Ok(rec.tradeDate) && FromIso(t[1]) == Ok(rec.bookingDate)
    ensures rec.cardLast4 == t[2] && |t[2]| == 4
    ensures rec.description == Join(" ", t[3..|t| - 4])
    ensures rec.transCurrency == t[|t| - 4] && ParseParenAmount(t[|t| - 3]) == Ok(rec.transAmount)
    ensures rec.settlementCurrency == t[|t| - 2] && ParseParenAmount(t[|t| - 1]) == Ok(rec.settlementAmount)
    ensures rec.rawLine == text
  {
    ReadTokensFields(t, text, rec);
  }

  lemma ReadTokensFields(t: seq<string>, text: string, rec: Record)
    requires AllTokens(t) && ReadTokens(t, text) == Ok(Some(rec))
    ensures var n := |t|;
      n >= 8 && DatedLine(t) &&
      FromIso(t[0]) == Ok(rec.tradeDate) && FromIso(t[1]) == Ok(rec.bookingDate) &&
      rec.cardLast4 == t[2] && |t[2]| == 4 &&
      rec.description == Join(" ", t[3..n - 4]) &&
      rec.transCurrency == t[n - 4] && ParseParenAmount(t[n - 3]) == Ok(rec.transAmount) &&
      rec.settlementCurrency == t[n - 2] && ParseParenAmount(t[n - 1]) == Ok(rec.settlementAmount) &&
      rec.rawLine == text
  {
    DescriptionPresent(t);
  }

  /** When both amounts are unreadable, the transaction amount's error is the one raised. */
  lemma RecordLineAmountOrder(text: string, t: seq<string>)
    requires t == Split(text) && |t| >= 8 && DatedLine(t) && ParseParenAmount(t[|t| - 3]).Err?
    ensures ParseRecordLine(text) == Err(ParseParenAmount(t[|t| - 3]).error)
  {
    ReadTokensAmountOrder(t, text);
  }

  lemma ReadTokensAmountOrder(t: seq<string>, text: string)
    requires AllTokens(t) && |t| >= 8 && DatedLine(t)
    requires ParseParenAmount(t[|t| - 3]).Err?
    ensures ReadTokens(t, text) == Err(ParseParenAmount(t[|t| - 3]).error)
  {
    DescriptionPresent(t);
  }

  // The scan over the lines.

  /** How the table scan reads a line. The scan and its lemmas are stated for any reader;
      the importer's is ParseRecordLine. */
  type LineReader = string -> Result<Option<Record>>

  /** A reader whose records remember their own line, as ParseRecordLine's do. */
  ghost predicate KeepsLine(read: LineReader) {
    forall text :: read(text).Ok? && read(text).value.Some? ==> read(text).value.value.rawLine == text
  }

  lemma RecordReaderKeepsLine()
    ensures KeepsLine(ParseRecordLine)
  {
  }

  /** What the loop of _extract_records does with one line. */
  datatype Action = Pass(inTable: bool) | Stop | Fail(error: Error) | Keep(record: Record)

  /** One pass of the loop: before the table only the header matters (and the header line
      itself is not read); in the table a stop line ends the scan, skip lines and lines
      that are not records are passed over, a raise aborts, and a record is appended. */
  function LineAction(text: string, inTable: bool, read: LineReader): (r: Action)
    ensures r.Pass? && !inTable ==> r.inTable == IsHeaderLine(text)
    ensures r.Pass? && inTable ==> r.inTable
    ensures r.Stop? <==> inTable && ShouldStop(text)
    ensures r.Keep? ==> inTable && !ShouldStop(text) && !ShouldSkip(text) && read(text) == Ok(Some(r.record))
    ensures r.Fail? ==> inTable && !ShouldStop(text) && !ShouldSkip(text) && read(text) == Err(r.error)
  {
    if !inTable then Pass(IsHeaderLine(text))
    else if ShouldStop(text) then Stop
    else if ShouldSkip(text) then Pass(true)
    else
      match read(text)
      case Err(e) => Fail(e)
      case Ok(None) => Pass(true)
      case Ok(Some(rec)) => Keep(rec)
  }

  /** _extract_records on the lines from some point on, given whether the header has been
      seen. */
  function Scan(lines: seq<string>, inTable: bool, read: LineReader): Result<seq<Record>>
    decreases |lines|
  {
    if lines == [] then Ok([])
    else
      match LineAction(lines[0], inTable, read)
      case Pass(now) => Scan(lines[1..], now, read)
      case Stop => Ok([])
      case Fail(e) => Err(e)
      case Keep(rec) => Then([rec], Scan(lines[1..], inTable, read))
  }

  /** The records found so far, followed by those of the rest of the scan. */
  function Then(records: seq<Record>, rest: Result<seq<Record>>): Result<seq<Record>> {
    if rest.Err? then rest else Ok(records + rest.value)
  }

  lemma ThenNothing(rest: Result<seq<Record>>)
    ensures Then([], rest) == rest
  {
    if rest.Ok? {
      assert [] + rest.value == rest.value;
    }
  }

  lemma ThenThen(records: seq<Record>, more: seq<Record>, rest: Result<seq<Record>>)
    ensures Then(records, Then(more, rest)) == Then(records + more, rest)
  {
    if rest.Ok? {
      assert records + (more + rest.value) == records + more + rest.value;
    }
  }

  /** _extract_records: the loop, with the header flag as its state. */
  method ExtractRecords(lines: seq<string>) returns (r: Result<seq<Record>>)
    ensures r == Scan(lines, false, ParseRecordLine)
  {
    var read: LineReader := ParseRecordLine;
    var records: seq<Record> := [];
    var inTable := false;
    var i := 0;
    assert lines[0..] == lines;
    ThenNothing(Scan(lines, false, read));
    while i < |lines|
      invariant i <= |lines|
      invariant Scan(lines, false, read) == Then(records, Scan(lines[i..], inTable, read))
    {
      var text := lines[i];
      ScanAt(lines, i, inTable, read);
      if !inTable && IsHeaderLine(text) {
        assert LineAction(text, inTable, read) == Pass(true);
        inTable := true;
        i := i + 1;
        continue;
      }
      if !inTable {
        assert LineAction(text, inTable, read) == Pass(false);
        i := i + 1;
        continue;
      }
      if ShouldStop(text) {
        assert LineAction(text, inTable, read) == Stop;
        assert records + [] == records;
        break;
      }
      if ShouldSkip(text) {
        assert LineAction(text, inTable, read) == Pass(true);
        i := i + 1;
        continue;
      }
      var record := ParseRecordLine(text);
      if record.Err? {
        assert LineAction(text, inTable, read) == Fail(record.error);
        return Err(record.error);
      }
      if record.value.None? {
        assert LineAction(text, inTable, read) == Pass(true);
        i := i + 1;
        continue;
      }
      assert LineAction(text, inTable, read) == Keep(record.value.value);
      ThenThen(records, [record.value.value], Scan(lines[i + 1..], inTable, read));
      records := records + [record.value.value];
      i := i + 1;
    }
    if i == |lines| {
      assert lines[i..] == [];
      assert records + [] == records;
    }
    r := Ok(records);
  }

  /** The scan from line i on, by what line i does. */
  lemma ScanAt(lines: seq<string>, i: nat, inTable: bool, read: LineReader)
    requires i < |lines|
    ensures Scan(lines[i..], inTable, read) ==
      match LineAction(lines[i], inTable, read)
      case Pass(now) => Scan(lines[i + 1..], now, read)
      case Stop => Ok([])
      case Fail(e) => Err(e)
      case Keep(rec) => Then([rec], Scan(lines[i + 1..], inTable, read))
  {
    assert lines[i..][0] == lines[i] && lines[i..][1..] == lines[i + 1..];
  }

  /** Line j is a header line. */
  predicate HeaderAt(lines: seq<string>, j: int)
    requires 0 <= j < |lines|
  {
    IsHeaderLine(lines[j])
  }

  /** The first header line. */
  function FirstHeader(lines: seq<string>): (r: Option<nat>)
    ensures r.Some? ==> r.value < |lines| && HeaderAt(lines, r.value)
    ensures r.Some? ==> forall j :: 0 <= j < r.value ==> !HeaderAt(lines, j)
    ensures r.None? ==> forall j :: 0 <= j < |lines| ==> !HeaderAt(lines, j)
  {
    if lines == [] then None
    else if IsHeaderLine(lines[0]) then Some(0)
    else
      HeaderShift(lines);
      match FirstHeader(lines[1..])
      case None => None
      case Some(i) => Some(i + 1)
  }

  lemma HeaderShift(lines: seq<string>)
    requires lines != []
    ensures forall j :: 0 < j < |lines| ==> HeaderAt(lines[1..], j - 1) == HeaderAt(lines, j)
  {
    forall j | 0 < j < |lines| ensures HeaderAt(lines[1..], j - 1) == HeaderAt(lines, j) {
      assert lines[1..][j - 1] == lines[j];
    }
  }

  /** No line up to and including the first header line is read: the scan is the in-table
      scan of the lines after it, and nothing when there is no header line. */
  lemma {:induction false} ScanFromHeader(lines: seq<string>, read: LineReader)
    ensures FirstHeader(lines).None? ==> Scan(lines, false, read) == Ok([])
    ensures FirstHeader(lines).Some? ==>
      Scan(lines, false, read) == Scan(lines[FirstHeader(lines).value + 1..], true, read)
    decreases |lines|
  {
    if lines != [] && !IsHeaderLine(lines[0]) {
      ScanFromHeader(lines[1..], read);
      match FirstHeader(lines[1..])
      case None =>
      case Some(i) => assert lines[1..][i + 1..] == lines[i + 2..];
    }
  }

  /** A stop line ends the scan for good: whatever follows it is never looked at. */
  lemma {:induction false} ScanStopsAt(lines: seq<string>, i: nat, read: LineReader)
    requires i < |lines| && ShouldStop(lines[i])
    ensures Scan(lines, true, read) == Scan(lines[..i], true, read)
    decreases i
  {
    if i == 0 {
      assert lines[..i] == [];
    } else {
      var rest := lines[..i];
      assert rest[0] == lines[0] && rest[1..] == lines[1..][..i - 1];
      ScanStopsAt(lines[1..], i - 1, read);
    }
  }

  /** A line the table scan passes over: not a stop line, and a skip line or one the reader
      finds is not a record. */
  predicate PassedOver(text: string, read: LineReader) {
    !ShouldStop(text) && (ShouldSkip(text) || read(text) == Ok(None))
  }

  /** Lines passed over never matter, wherever they are: removing one leaves the result of
      the table scan as it is (so a None result never aborts the scan). */
  lemma {:induction false} ScanPassesOver(a: seq<string>, x: string, b: seq<string>, read: LineReader)
    requires PassedOver(x, read)
    ensures Scan(a + [x] + b, true, read) == Scan(a + b, true, read)
    decreases |a|
  {
    if a == [] {
      assert a + [x] + b == [x] + b && ([x] + b)[1..] == b && a + b == b;
    } else {
      assert (a + [x] + b)[0] == a[0] && (a + [x] + b)[1..] == a[1..] + [x] + b;
      assert (a + b)[0] == a[0] && (a + b)[1..] == a[1..] + b;
      ScanPassesOver(a[1..], x, b, read);
    }
  }

  function RawLines(records: seq<Record>): (r: seq<string>)
    ensures |r| == |records| && forall k :: 0 <= k < |records| ==> r[k] == records[k].rawLine
  {
    seq(|records|, k requires 0 <= k < |records| => records[k].rawLine)
  }

  /** Each record is what the reader makes of its own line, a table line that is neither a
      stop nor a skip line. */
  ghost predicate RecordsParsed(records: seq<Record>, read: LineReader) {
    forall k :: 0 <= k < |records| ==>
      !ShouldStop(records[k].rawLine) && !ShouldSkip(records[k].rawLine) &&
      read(records[k].rawLine) == Ok(Some(records[k]))
  }

  lemma {:induction false} ScanRecords(lines: seq<string>, inTable: bool, read: LineReader, records: seq<Record>)
    requires KeepsLine(read)
    requires Scan(lines, inTable, read) == Ok(records)
    ensures RecordsParsed(records, read)
    decreases |lines|
  {
    if lines != [] {
      var a := LineAction(lines[0], inTable, read);
      if a.Pass? {
        ScanRecords(lines[1..], a.inTable, read, records);
      } else if a.Keep? {
        var more := Scan(lines[1..], inTable, read).value;
        assert records == [a.record] + more;
        ScanRecords(lines[1..], inTable, read, more);
        assert a.record.rawLine == lines[0];
      }
    }
  }

  /** The records come in the order of their lines. */
  lemma {:induction false} ScanSubseq(lines: seq<string>, inTable: bool, read: LineReader, records: seq<Record>)
    requires KeepsLine(read)
    requires Scan(lines, inTable, read) == Ok(records)
    ensures IsSubseq(RawLines(records), lines)
    decreases |lines|
  {
    if lines != [] {
      var a := LineAction(lines[0], inTable, read);
      if a.Pass? {
        ScanSubseq(lines[1..], a.inTable, read, records);
      } else if a.Keep? {
        var more := Scan(lines[1..], inTable, read).value;
        assert records == [a.record] + more;
        ScanSubseq(lines[1..], inTable, read, more);
        assert a.record.rawLine == lines[0];
        assert RawLines(records)[1..] == RawLines(more);
      }
    }
  }

  /** The scan fails only with the error of a line that raises. */
  lemma {:induction false} ScanFailsOnlyOnRaise(lines: seq<string>, inTable: bool, read: LineReader)
    requires Scan(lines, inTable, read).Err?
    ensures exists k :: 0 <= k < |lines| && read(lines[k]) == Err(Scan(lines, inTable, read).error)
    decreases |lines|
  {
    match LineAction(lines[0], inTable, read)
    case Pass(now) =>
      ScanFailsOnlyOnRaise(lines[1..], now, read);
      RaiseInTail(lines, read, Scan(lines, inTable, read).error);
    case Fail(e) =>
      assert read(lines[0]) == Err(e);
    case Keep(rec) =>
      ScanFailsOnlyOnRaise(lines[1..], inTable, read);
      RaiseInTail(lines, read, Scan(lines, inTable, read).error);
  }

  lemma RaiseInTail(lines: seq<string>, read: LineReader, e: Error)
    requires lines != []
    requires exists k :: 0 <= k < |lines[1..]| && read(lines[1..][k]) == Err(e)
    ensures exists k :: 0 <= k < |lines| && read(lines[k]) == Err(e)
  {
    var k :| 0 <= k < |lines[1..]| && read(lines[1..][k]) == Err(e);
    assert lines[k + 1] == lines[1..][k];
  }

  /** No line of ls is a stop line. */
  predicate NoStop(ls: seq<string>) {
    forall j :: 0 <= j < |ls| ==> !ShouldStop(ls[j])
  }

  /** A table line that is not skipped and raises makes the whole scan fail, unless a stop
      line comes first. */
  lemma {:induction false} ScanFailsOnRaise(lines: seq<string>, i: nat, read: LineReader)
    requires i < |lines| && !ShouldStop(lines[i]) && !ShouldSkip(lines[i]) && read(lines[i]).Err?
    requires NoStop(lines[..i])
    ensures Scan(lines, true, read).Err?
    decreases i
  {
    var a := LineAction(lines[0], true, read);
    if i == 0 {
      assert a.Fail?;
    } else {
      assert lines[..i][0] == lines[0];
      assert !a.Stop?;
      assert lines[1..][i - 1] == lines[i];
      assert lines[1..][..i - 1] == lines[..i][1..];
      ScanFailsOnRaise(lines[1..], i - 1, read);
    }
  }

  /** What _extract_records returns: records in line order, each the reading of a table line
      after the first header line, and none without a header line. */
  lemma RecordsFound(lines: seq<string>, records: seq<Record>)
    requires Scan(lines, false, ParseRecordLine) == Ok(records)
    ensures RecordsParsed(records, ParseRecordLine)
    ensures FirstHeader(lines).None? ==> records == []
    ensures FirstHeader(lines).Some? ==> IsSubseq(RawLines(records), lines[FirstHeader(lines).value + 1..])
    ensures IsSubseq(RawLines(records), lines)
  {
    RecordReaderKeepsLine();
    ScanFound(lines, ParseRecordLine, records);
  }

  lemma ScanFound(lines: seq<string>, read: LineReader, records: seq<Record>)
    requires KeepsLine(read)
    requires Scan(lines, false, read) == Ok(records)
    ensures RecordsParsed(records, read)
    ensures FirstHeader(lines).None? ==> records == []
    ensures FirstHeader(lines).Some? ==> IsSubseq(RawLines(records), lines[FirstHeader(lines).value + 1..])
    ensures IsSubseq(RawLines(records), lines)
  {
    ScanFromHeader(lines, read);
    if FirstHeader(lines).Some? {
      var h := FirstHeader(lines).value;
      ScanRecords(lines[h + 1..], true, read, records);
      ScanSubseq(lines[h + 1..], true, read, records);
      SubseqOfSuffix(RawLines(records), lines, h + 1);
    }
  }

  // From records to transactions.

  /** The statement file name ends with six digits and ".pdf". */
  predicate StatementName(name: string) {
    |name| >= 10 && AllDigits(name[|name| - 10..|name| - 4]) && EndsWith(name, ".pdf")
  }

  /** The year and month of (\d{4})(\d{2})\.pdf$ in the file name (the only place that
      pattern can match is the end of the name); without a match, extract raises naming
      the path. */
  function YearMonth(path: string): (r: Result<(nat, nat)>)
    ensures r.Ok? <==> StatementName(BaseName(path))
    ensures r.Err? ==> r.error == NoYearMonth(path)
    ensures r.Ok? ==> var name := BaseName(path); var n := |name|;
      r.value.0 < 10000 && r.value.1 < 100 &&
      ZeroPad(r.value.0, 4) == name[n - 10..n - 6] && ZeroPad(r.value.1, 2) == name[n - 6..n - 4]
  {
    var name := BaseName(path);
    var n := |name|;
    if !StatementName(name) then Err(NoYearMonth(path))
    else
      assert name[n - 10..n - 4][..4] == name[n - 10..n - 6];
      assert name[n - 10..n - 4][4..] == name[n - 6..n - 4];
      ZeroPadDigits(name[n - 10..n - 6]);
      ZeroPadDigits(name[n - 6..n - 4]);
      Ok((DigitsValue(name[n - 10..n - 6]), DigitsValue(name[n - 6..n - 4])))
  }

  /** period_tag: "credit-ccb-YYYY-MM". */
  function PeriodTag(year: nat, month: nat): (t: string)
    ensures |t| > 11 && t[..11] == "credit-ccb-"
  {
    var head := "credit-ccb-";
    var t := head + ZeroPad(year, 4) + "-" + ZeroPad(month, 2);
    assert t[..11] == head;
    t
  }

  /** The period tag repeats the file name's six digits, with a hyphen after the year. */
  lemma PeriodTagOfPath(path: string)
    requires YearMonth(path).Ok?
    ensures var name := BaseName(path); var n := |name|; var ym := YearMonth(path).value;
      PeriodTag(ym.0, ym.1) == "credit-ccb-" + name[n - 10..n - 6] + "-" + name[n - 6..n - 4]
  {
  }

  /** The importer's currency map: the one given, or {"CNY": "CNY"} when none (or an empty
      one) is given. */
  function CurrencyMap(given: Dict): (r: Dict)
    ensures given != [] ==> r == given
    ensures given == [] ==> Get(r, "CNY") == Some("CNY") && Keys(r) == ["CNY"]
  {
    if given == [] then [("CNY", "CNY")] else given
  }

  /** A record's transaction: dated by the trade date, flag "*", the description as payee,
      the statement tag, and one posting of minus the settlement amount in the currency the
      map gives for the settlement currency; a currency the map lacks raises, naming the
      known ones in sorted order. */
  function RecordTxn(rec: Record, account: string, tag: string, mapping: Dict): (r: Result<Transaction>)
    ensures r.Ok? <==> rec.settlementCurrency in Keys(mapping)
    ensures r.Err? ==> r.error == UnknownCurrency(rec.settlementCurrency, SortedKeys(mapping))
    ensures r.Ok? ==>
      r.value.date == rec.tradeDate && r.value.flag == FlagOkay && r.value.payee == Some(rec.description) &&
      r.value.narration == None && r.value.tags == {tag} &&
      r.value.postings == [Posting(account, Amount(rec.settlementAmount.Neg(), Get(mapping, rec.settlementCurrency).value))]
  {
    match Get(mapping, rec.settlementCurrency)
    case None => Err(UnknownCurrency(rec.settlementCurrency, SortedKeys(mapping)))
    case Some(currency) =>
      Ok(Transaction(rec.tradeDate, FlagOkay, Some(rec.description), None, {tag},
                     [Posting(account, Amount(rec.settlementAmount.Neg(), currency))]))
  }

  /** A settlement amount printed in parentheses (a repayment or a refund) is posted as the
      positive amount. */
  lemma RecordTxnCredit(text: string, t: seq<string>, rec: Record, v: Dec, account: string, tag: string,
                        mapping: Dict)
    requires t == Split(text) && ParseRecordLine(text) == Ok(Some(rec))
    requires t[|t| - 1] == "(" + Render(v) + ")"
    requires rec.settlementCurrency in Keys(mapping)
    ensures RecordTxn(rec, account, tag, mapping).value.postings[0].units.number == v
  {
    RecordLineFields(text, t, rec);
    ParenAmountRender(v);
    assert v.Neg().Neg() == v;
  }

  /** extract, as a function of the path, the statement's text lines, the account and the
      currency map. */
  function Extract(path: string, lines: seq<string>, account: string, mapping: Dict): Result<seq<Transaction>> {
    match YearMonth(path)
    case Err(e) => Err(e)
    case Ok(ym) =>
      match Scan(lines, false, ParseRecordLine)
      case Err(e) => Err(e)
      case Ok(records) => MapAll(rec => RecordTxn(rec, account, PeriodTag(ym.0, ym.1), mapping), records)
  }

  /** extract: the period from the path, the records from the lines, then one transaction
      per record. */
  method ExtractStatement(path: string, lines: seq<string>, account: string, mapping: Dict)
    returns (r: Result<seq<Transaction>>)
    ensures r == Extract(path, lines, account, mapping)
  {
    var ym := YearMonth(path);
    if ym.Err? {
      return Err(ym.error);
    }
    var records := ExtractRecords(lines);
    if records.Err? {
      return Err(records.error);
    }
    r := RecordTxns(records.value, account, PeriodTag(ym.value.0, ym.value.1), mapping);
  }

  /** The loop over the records: one transaction each, appended in order; the first record
      with an unknown currency raises. */
  method RecordTxns(records: seq<Record>, account: string, tag: string, mapping: Dict)
    returns (r: Result<seq<Transaction>>)
    ensures r == MapAll(rec => RecordTxn(rec, account, tag, mapping), records)
  {
    var f := rec => RecordTxn(rec, account, tag, mapping);
    var results := [];
    var i := 0;
    assert records[..0] == [];
    while i < |records|
      invariant i <= |records|
      invariant MapAll(f, records[..i]) == Ok(results)
    {
      MapAllStep(f, records, i);
      var t := RecordTxn(records[i], account, tag, mapping);
      if t.Err? {
        MapAllErrSticky(f, records, i + 1);
        return Err(t.error);
      }
      results := results + [t.value];
      i := i + 1;
    }
    assert records[..i] == records;
    r := Ok(results);
  }

  /** One transaction per record, in record order, each tagged with the statement period. */
  lemma ExtractTxns(path: string, lines: seq<string>, account: string, mapping: Dict, txns: seq<Transaction>)
    requires Extract(path, lines, account, mapping) == Ok(txns)
    ensures YearMonth(path).Ok? && Scan(lines, false, ParseRecordLine).Ok?
    ensures var ym := YearMonth(path).value; var records := Scan(lines, false, ParseRecordLine).value;
      |txns| == |records| &&
      forall k :: 0 <= k < |records| ==>
        RecordTxn(records[k], account, PeriodTag(ym.0, ym.1), mapping) == Ok(txns[k]) &&
        txns[k].tags == {PeriodTag(ym.0, ym.1)}
  {
    var ym := YearMonth(path).value;
    var records := Scan(lines, false, ParseRecordLine).value;
    MapAllOk(rec => RecordTxn(rec, account, PeriodTag(ym.0, ym.1), mapping), records, txns);
  }

  /** identify: fnmatch(name, "ccb-credit-*.pdf"). */
  predicate Identify(path: string) {
    GlobStar(BaseName(path), "ccb-credit-", ".pdf")
  }

  /** A statement saved as <dir>/ccb-credit-<anything>.pdf is recognised. */
  lemma IdentifyNamed(dir: string, stem: string)
    requires '/' !in stem
    ensures Identify(dir + "/" + "ccb-credit-" + stem + ".pdf")
  {
    GlobStarNamed(dir, "ccb-credit-", stem, ".pdf");
  }
}

=== FILE: ccb_debit.dfy ===
/** The CCB (China Construction Bank) debit-card Excel importer: the sheet's third data row
    is the header, the rows after it are records; the records are read last to first, one
    transaction each, plus one balance per date, and the list is returned in that order. */
module CcbDebit {

  import opened Base
  import opened Text
  import opened Numbers
  import opened Dates
  import opened Ledger
  import opened Dicts
  import opened DailyBalance

  /** df.values[2]: the header row, which a table of fewer rows does not have. */
  function Header(table: seq<seq<string>>): (r: Result<seq<string>>)
    ensures r.Ok? <==> |table| > 2
    ensures r.Ok? ==> r.value == table[2]
    ensures r.Err? ==> r.error == MissingCell(2)
  {
    if |table| > 2 then Ok(table[2]) else Err(MissingCell(2))
  }

  /** df.values[3:]: the rows after the header (none when the table is short). */
  function Body(table: seq<seq<string>>): (r: seq<seq<string>>)
    ensures |table| > 3 ==> r == table[3..]
    ensures |table| <= 3 ==> r == []
  {
    if |table| > 3 then table[3..] else []
  }

  /** The header cells paired with a row's cells. */
  function Pairs(header: seq<string>, row: seq<string>): (r: seq<(string, string)>)
    requires |header| == |row|
    ensures |r| == |row| && forall i :: 0 <= i < |row| ==> r[i] == (header[i], row[i])
  {
    seq(|row|, i requires 0 <= i < |row| => (header[i], row[i]))
  }

  /** {key: value for key, value in zip(header, row, strict=True)}: a row whose length is
      not the header's is an error; a repeated header name keeps its last cell. */
  function ZipRow(header: seq<string>, row: seq<string>): (r: Result<Dict>)
    ensures r.Ok? <==> |header| == |row|
    ensures r.Err? ==> r.error == RowLengthMismatch(|header|, |row|)
    ensures r.Ok? ==> forall k :: k !in header ==> Get(r.value, k) == None
  {
    if |header| != |row| then Err(RowLengthMismatch(|header|, |row|))
    else
      var d := PutAll([], Pairs(header, row));
      assert forall k :: k !in header ==> Get(d, k) == None by {
        forall k | k !in header ensures Get(d, k) == None {
          PutAllGet([], Pairs(header, row), k);
        }
      }
      Ok(d)
  }

  /** Every header name present in a zipped row maps to the row's cell under the last
      column of that name. */
  lemma ZipRowLast(header: seq<string>, row: seq<string>, j: nat)
    requires |header| == |row| && j < |row|
    requires forall i :: j < i < |header| ==> header[i] != header[j]
    ensures Get(ZipRow(header, row).value, header[j]) == Some(row[j])
  {
    var pairs := Pairs(header, row);
    PutAllGet([], pairs, header[j]);
    assert LastWith(pairs, j, header[j]);
  }

  /** The list of records built before the loop: the header, then every body row zipped
      with it, in sheet order. */
  function Records(table: seq<seq<string>>): (r: Result<seq<Dict>>)
    ensures |table| <= 2 ==> r == Err(MissingCell(2))
  {
    match Header(table)
    case Err(e) => Err(e)
    case Ok(header) => MapAll(row => ZipRow(header, row), Body(table))
  }

  /** A header row and equally long body rows give one record per body row. */
  lemma RecordsShape(table: seq<seq<string>>, records: seq<Dict>)
    requires Records(table) == Ok(records)
    ensures |table| > 2 && |records| == |Body(table)|
    ensures forall k :: 0 <= k < |records| ==> |Body(table)[k]| == |table[2]|
    ensures forall k :: 0 <= k < |records| ==> records[k] == ZipRow(table[2], Body(table)[k]).value
  {
    var header := table[2];
    MapAllOk(row => ZipRow(header, row), Body(table), records);
  }

  /** The columns the importer reads. */
  datatype Row = Row(date: string, amount: string, summary: string, balance: string,
                     description: string, posting: string)

  const Columns: set<string> := {"交易日期", "交易金额", "摘要", "账户余额", "交易地点/附言", "对方账号与户名"}

  /** Validation of a record into a Row: every column is required. */
  function Decode(d: Dict): (r: Result<Row>)
    ensures r.Ok? <==> forall name :: name in Columns ==> name in Keys(d)
    ensures r.Ok? ==>
      Get(d, "交易日期") == Some(r.value.date) && Get(d, "交易金额") == Some(r.value.amount) &&
      Get(d, "账户余额") == Some(r.value.balance) && Get(d, "交易地点/附言") == Some(r.value.description)
    ensures r.Err? ==> r.error.MissingField? && r.error.name in Columns && r.error.name !in Keys(d)
  {
    match Field(d, "交易日期")
    case Err(e) => Err(e)
    case Ok(date) =>
      match Field(d, "交易金额")
      case Err(e) => Err(e)
      case Ok(amount) =>
        match Field(d, "摘要")
        case Err(e) => Err(e)
        case Ok(summary) =>
          match Field(d, "账户余额")
          case Err(e) => Err(e)
          case Ok(balance) =>
            match Field(d, "交易地点/附言")
            case Err(e) => Err(e)
            case Ok(description) =>
              match Field(d, "对方账号与户名")
              case Err(e) => Err(e)
              case Ok(posting) => Ok(Row(date, amount, summary, balance, description, posting))
  }

  /** Decimal(s.replace(",", "")): an amount written with thousands separators. */
  function ParseGrouped(s: string): (r: Result<Dec>)
    ensures r == ParseDecimal(Without(s, ','))
    ensures r.Err? ==> r.error == NotADecimal(Without(s, ','))
  {
    RemoveChar(s, ',');
    ParseDecimal(ReplaceAll(s, ",", ""))
  }

  /** A decoded row's transaction (flag "*", the place/remark column as payee, one posting
      of the amount) and its balance cell, which every row offers. The amount is read before
      the date. */
  function RowEntry(row: Row, account: string, currency: string): (r: Result<Step>)
    ensures r.Ok? <==> ParseGrouped(row.amount).Ok? && FromCompact(row.date).Ok?
    ensures ParseGrouped(row.amount).Err? ==> r == Err(ParseGrouped(row.amount).error)
    ensures r.Ok? ==> r.value.balance == Some(row.balance) && Ok(r.value.txn.date) == FromCompact(row.date)
    ensures r.Ok? ==>
      r.value.txn.flag == FlagOkay && r.value.txn.payee == Some(row.description) &&
      r.value.txn.narration == None && r.value.txn.tags == {} &&
      r.value.txn.postings == [Posting(account, Amount(ParseGrouped(row.amount).value, currency))]
  {
    var amount := ParseGrouped(row.amount);
    var date := FromCompact(row.date);
    if amount.Err? then Err(amount.error)
    else if date.Err? then Err(date.error)
    else
      Ok(MakeStep(Transaction(date.value, FlagOkay, Some(row.description), None, {},
                              [Posting(account, Amount(amount.value, currency))]),
                  Some(row.balance)))
  }

  function RowStep(record: Dict, account: string, currency: string): Result<Step> {
    match Decode(record)
    case Err(e) => Err(e)
    case Ok(row) => RowEntry(row, account, currency)
  }

  /** The records' steps in the order the loop visits them: last record first. */
  function Steps(records: seq<Dict>, account: string, currency: string): (r: seq<Result<Step>>)
    ensures |r| == |records|
    ensures forall k :: 0 <= k < |records| ==> r[k] == RowStep(records[|records| - 1 - k], account, currency)
  {
    seq(|records|, k requires 0 <= k < |records| => RowStep(records[|records| - 1 - k], account, currency))
  }

  /** extract on the decoded sheet: the directives in the order they were appended. */
  function Extract(table: seq<seq<string>>, account: string, currency: string): Result<seq<Directive>> {
    match Records(table)
    case Err(e) => Err(e)
    case Ok(records) => Emit(Steps(records, account, currency), account, ParseGrouped)
  }

  method ExtractSheet(table: seq<seq<string>>, account: string, currency: string)
    returns (r: Result<seq<Directive>>)
    ensures r == Extract(table, account, currency)
  {
    var records := Records(table);
    if records.Err? {
      return Err(records.error);
    }
    r := Run(Steps(records.value, account, currency), account, ParseGrouped);
  }

  /** The returned list holds every record's transaction, last sheet row first, and each
      balance comes right before the transaction of the day before it, with no date
      reported twice. */
  lemma ExtractOrder(records: seq<Dict>, account: string, currency: string, r: seq<Directive>)
    requires Emit(Steps(records, account, currency), account, ParseGrouped) == Ok(r)
    ensures forall k :: 0 <= k < |records| ==> RowStep(records[k], account, currency).Ok?
    ensures |Txns(r)| == |records|
    ensures forall k :: 0 <= k < |records| ==>
      Txns(r)[|records| - 1 - k] == RowStep(records[k], account, currency).value.txn
    ensures BalancesBefore(r)
  {
    var rows := Steps(records, account, currency);
    EmitBalances(rows, account, ParseGrouped, r);
    EmitTxnCount(rows, account, ParseGrouped, r);
    forall k | 0 <= k < |records| {
      ExtractOrderAt(records, account, currency, r, k);
    }
  }

  lemma ExtractOrderAt(records: seq<Dict>, account: string, currency: string, r: seq<Directive>, k: nat)
    requires Emit(Steps(records, account, currency), account, ParseGrouped) == Ok(r) && k < |records|
    ensures RowStep(records[k], account, currency).Ok?
    ensures |Txns(r)| == |records| && Txns(r)[|records| - 1 - k] == RowStep(records[k], account, currency).value.txn
  {
    var rows := Steps(records, account, currency);
    assert rows[|records| - 1 - k] == RowStep(records[k], account, currency);
    EmitTxnAt(rows, account, ParseGrouped, r, |records| - 1 - k);
  }

  /** Visiting the rows last to first, the row that reports a date's balance is the last
      sheet row of that date. */
  lemma LastRowOfDate(ss: seq<Step>, j: nat)
    requires j < |ss| && forall i :: 0 <= i < |ss| ==> ss[i].balance.Some?
    ensures FirstOfDate(Reverse(ss), |ss| - 1 - j) <==>
      forall i :: j < i < |ss| ==> ss[i].txn.date != ss[j].txn.date
  {
    var rs := Reverse(ss);
    var k := |ss| - 1 - j;
    if FirstOfDate(rs, k) {
      forall i | j < i < |ss| ensures ss[i].txn.date != ss[j].txn.date {
        assert rs[|ss| - 1 - i] == ss[i];
      }
    }
  }

  /** fnmatch(name.lower(), "hqmx_*.xls"). */
  predicate Identify(path: string) {
    GlobStar(AsciiLower(BaseName(path)), "hqmx_", ".xls")
  }

  /** A sheet saved as <dir>/hqmx_<anything>.xls is recognised whatever the case of its
      prefix and extension, "HQMX_" and ".XLS" included. */
  lemma IdentifyAnyCase(dir: string, prefix: string, stem: string, ext: string)
    requires AsciiLower(prefix) == "hqmx_" && AsciiLower(ext) == ".xls"
    requires '/' !in prefix && '/' !in stem && '/' !in ext
    ensures Identify(dir + "/" + prefix + stem + ext)
  {
    var name := prefix + stem + ext;
    GlobStarNamed(dir, prefix, stem, ext);
    LowerStartsWith(name, prefix);
    LowerEndsWith(name, ext);
  }
}

=== FILE: cmb_credit_eml.dfy ===
/** The CMB (China Merchants Bank) credit-card e-mail importer: the file name test, the
    statement's closing date read from the billing-period text, and one transaction per
    non-empty band of the transaction table. The billing-period text the page search finds
    and the cell texts of each band are given; the e-mail and HTML parsing that produce them
    are not part of this model. */
module CmbCreditEml {

  import opened Base
  import opened Text
  import opened Numbers
  import opened Dates
  import opened Ledger

  /** The words "CMB credit-card electronic statement" every statement file name carries. */
  const Marker: string := "招商银行信用卡电子账单"
  const Currency: string := "CNY"
  /** The description of an instalment ("consumer instalment"), dated by its posting date. */
  const Instalment: string := "消费分期"
  /** The currency signs and the no-break space stripped from an amount cell. */
  const FullWidthYen: char := '\U{FFE5}'
  const Nbsp: char := '\U{A0}'
  const Yen: char := '\U{A5}'

  // Identification.

  predicate Identify(path: string) {
    var name := BaseName(path);
    Contains(name, Marker) && Contains(name, "eml")
  }

  /** A file is identified exactly when its base name holds the marker and "eml" somewhere. */
  lemma IdentifyIff(path: string)
    ensures var name := BaseName(path);
      Identify(path) <==> (exists i :: OccursAt(name, Marker, i)) && (exists j :: OccursAt(name, "eml", j))
  {
    var name := BaseName(path);
    if (exists i :: OccursAt(name, Marker, i)) && (exists j :: OccursAt(name, "eml", j)) {
      var i :| OccursAt(name, Marker, i);
      var j :| OccursAt(name, "eml", j);
      ContainsAt(name, Marker, i);
      ContainsAt(name, "eml", j);
    }
  }

  /** A statement saved as <dir>/<anything>招商银行信用卡电子账单<anything>.eml is identified. */
  lemma IdentifyNamed(dir: string, pre: string, post: string)
    requires '/' !in pre && '/' !in post
    ensures Identify(dir + "/" + pre + Marker + post + ".eml")
  {
    var tail := post + ".eml";
    var name := pre + Marker + tail;
    assert dir + "/" + pre + Marker + post + ".eml" == dir + ['/'] + name;
    assert '/' !in Marker && '/' !in ".eml";
    assert '/' !in name;
    AfterLastOf(dir, '/', name);
    Middle(pre, Marker, tail);
    ContainsAt(name, Marker, |pre|);
    EndsEml(pre + Marker, post);
  }

  lemma EndsEml(head: string, post: string)
    ensures Contains(head + (post + ".eml"), "eml")
  {
    var name := head + (post + ".eml");
    assert name[|name| - 3..] == "eml";
    ContainsAt(name, "eml", |name| - 3);
  }

  lemma Middle(a: string, b: string, c: string)
    ensures OccursAt(a + b + c, b, |a|)
  {
    assert (a + b + c)[|a|..|a| + |b|] == b;
  }

  // The closing date of the billing period.

  /** date_range.split("-")[1].split("(")[0]: the text between the first '-' and the next
      '-' or '(' . The index fails on a text without '-'. */
  function EndDateText(range: string): (r: Result<string>)
    ensures r.Ok? <==> '-' in range
    ensures r.Err? ==> r.error == MissingCell(1)
    ensures r.Ok? ==> '-' !in r.value && '(' !in r.value
  {
    var parts := SplitOn(range, '-');
    if |parts| < 2 then Err(MissingCell(1))
    else
      assert parts[1] in parts;
      Ok(BeforeFirst(parts[1], '('))
  }

  /** A range "start-end" followed by nothing, by another '-' or by a parenthesised note
      yields its end. */
  lemma EndDateTextOf(start: string, end: string, tail: string)
    requires '-' !in start && '-' !in end && '(' !in end
    requires tail == [] || tail[0] == '-' || tail[0] == '('
    ensures EndDateText(start + "-" + end + tail) == Ok(end)
  {
    var rest := end + tail;
    assert start + "-" + end + tail == start + ['-'] + rest;
    SplitOnHead(start, '-', rest);
    SplitOnFirst(rest, '-');
    EndCut(end, tail);
  }

  /** Cutting "<end><tail>" at the first '-' and then at the first '(' leaves the end. */
  lemma EndCut(end: string, tail: string)
    requires '-' !in end && '(' !in end
    requires tail == [] || tail[0] == '-' || tail[0] == '('
    ensures BeforeFirst(BeforeFirst(end + tail, '-'), '(') == end
  {
    var rest := end + tail;
    assert rest[..|end|] == end;
    if tail == [] || tail[0] == '-' {
      BeforeFirstAt(rest, '-', |end|);
      assert end[..|end|] == end;
      BeforeFirstAt(end, '(', |end|);
    } else {
      ParenCut(end, tail);
    }
  }

  lemma ParenCut(end: string, tail: string)
    requires '-' !in end && '(' !in end && tail != [] && tail[0] == '('
    ensures BeforeFirst(BeforeFirst(end + tail, '-'), '(') == end
  {
    var rest := end + tail;
    assert rest[..|end|] == end;
    var u := BeforeFirst(rest, '-');
    var k := if '-' in rest then IndexOf(rest, '-') else |rest|;
    forall j | 0 <= j <= |end| ensures rest[j] != '-' {
      if j < |end| {
        assert rest[j] == end[j];
      }
    }
    BeforeFirstAt(rest, '-', k);
    assert u == rest[..k];
    assert u[..|end|] == end && u[|end|] == '(';
    BeforeFirstAt(u, '(', |end|);
  }

  /** The three '/'-separated fields of a "YYYY/M/D" date: four digits, then one or two
      digits twice. */
  predicate SlashFields(p: seq<string>) {
    |p| == 3 && |p[0]| == 4 && 1 <= |p[1]| <= 2 && 1 <= |p[2]| <= 2 &&
    AllDigits(p[0]) && AllDigits(p[1]) && AllDigits(p[2])
  }

  /** dateutil's parse(...).date() on the "YYYY/M/D" text the billing-period pattern
      matches; other shapes are reported as not matching. */
  function ParseSlashDate(s: string): (r: Result<Date>)
    ensures r.Ok? ==> Valid(r.value)
  {
    var p := SplitOn(Strip(s), '/');
    if !SlashFields(p) then Err(FormatMismatch(s))
    else MakeDate(DigitsValue(p[0]), DigitsValue(p[1]), DigitsValue(p[2]))
  }

  /** Three digit fields joined by '/' are read as year, month and day. */
  lemma SlashDateOf(y: string, m: string, d: string)
    requires SlashFields([y, m, d])
    ensures ParseSlashDate(y + "/" + m + "/" + d) == MakeDate(DigitsValue(y), DigitsValue(m), DigitsValue(d))
  {
    var s := y + "/" + m + "/" + d;
    assert s[0] == y[0] && s[|s| - 1] == d[|d| - 1];
    StripDigitEnds(s);
    NoSlash(y);
    NoSlash(m);
    NoSlash(d);
    SplitThree(y, m, d);
  }

  lemma SplitThree(y: string, m: string, d: string)
    requires '/' !in y && '/' !in m && '/' !in d
    ensures SplitOn(y + "/" + m + "/" + d, '/') == [y, m, d]
  {
    var rest := m + ['/'] + d;
    assert y + "/" + m + "/" + d == y + ['/'] + rest;
    SplitOnHead(y, '/', rest);
    SplitOnHead(m, '/', d);
  }

  lemma NoSlash(s: string)
    requires AllDigits(s)
    ensures '/' !in s
  {
    assert forall k :: 0 <= k < |s| ==> IsDigit(s[k]);
  }

  /** The YYYY/MM/DD text of a date. */
  function SlashText(d: Date): string
    requires Valid(d)
  {
    ZeroPad(d.year, 4) + "/" + ZeroPad(d.month, 2) + "/" + ZeroPad(d.day, 2)
  }

  /** The date parser reads back every date from its YYYY/MM/DD text. */
  lemma ParseSlashText(d: Date)
    requires Valid(d)
    ensures ParseSlashDate(SlashText(d)) == Ok(d)
  {
    assert Pow10(4) == 10000 && Pow10(2) == 100;
    PadWidth(d.year, 4);
    PadWidth(d.month, 2);
    PadWidth(d.day, 2);
    SlashDateOf(ZeroPad(d.year, 4), ZeroPad(d.month, 2), ZeroPad(d.day, 2));
  }

  /** The statement's closing date: the end of the first text in the page the billing-period
      pattern finds (None when no text matches). */
  function TransactionDate(range: Option<string>): (r: Result<Date>)
    ensures range.None? ==> r == Err(NoDateRange)
    ensures r.Ok? ==> Valid(r.value)
  {
    match range
    case None => Err(NoDateRange)
    case Some(text) =>
      match EndDateText(text)
      case Err(e) => Err(e)
      case Ok(end) => ParseSlashDate(end)
  }

  /** "<start>-YYYY/MM/DD" followed by nothing, '-' or '(' closes on that date. */
  lemma TransactionDateOf(start: string, d: Date, tail: string)
    requires Valid(d) && '-' !in start
    requires tail == [] || tail[0] == '-' || tail[0] == '('
    ensures TransactionDate(Some(start + "-" + SlashText(d) + tail)) == Ok(d)
  {
    var t := SlashText(d);
    var y, m, dd := ZeroPad(d.year, 4), ZeroPad(d.month, 2), ZeroPad(d.day, 2);
    forall k | 0 <= k < |t| ensures t[k] != '-' && t[k] != '(' {
      if k < |y| {
        assert t[k] == y[k];
      } else if k == |y| {
      } else if k < |y| + 1 + |m| {
        assert t[k] == m[k - |y| - 1];
      } else if k == |y| + 1 + |m| {
      } else {
        assert t[k] == dd[k - |y| - |m| - 2];
      }
    }
    EndDateTextOf(start, t, tail);
    ParseSlashText(d);
  }

  // One band of the transaction table.

  /** The description cell split at '-': the payee, then the narration's pieces. */
  function Fields(desc: string): seq<string> {
    SplitOn(Strip(desc), '-')
  }

  function Payee(desc: string): string {
    Fields(desc)[0]
  }

  function Narration(desc: string): string {
    Join("-", Fields(desc)[1..])
  }

  /** The payee is the stripped description up to the first '-', the narration everything
      after it; without a '-' the payee is the whole description and the narration empty. */
  lemma DescriptionParts(desc: string)
    ensures '-' !in Payee(desc)
    ensures '-' in Strip(desc) ==> Strip(desc) == Payee(desc) + "-" + Narration(desc)
    ensures '-' !in Strip(desc) ==> Payee(desc) == Strip(desc) && Narration(desc) == ""
  {
    var s := Strip(desc);
    var parts := Fields(desc);
    assert parts[0] in parts;
    JoinSplitOn(s, '-');
    if '-' in s {
      assert |parts| >= 2;
      assert Join("-", parts) == parts[0] + "-" + Join("-", parts[1..]);
    }
  }

  /** A description "<payee>-<narration>" with no '-' in the payee and no surrounding space
      gives back both parts. */
  lemma DescriptionOf(p: string, n: string)
    requires '-' !in p
    requires (p == [] || !IsSpace(p[0])) && (n == [] || !IsSpace(n[|n| - 1]))
    ensures Payee(p + "-" + n) == p && Narration(p + "-" + n) == n
  {
    var s := p + "-" + n;
    assert !IsSpace(s[0]) by {
      if p != [] { assert s[0] == p[0]; }
    }
    assert !IsSpace(s[|s| - 1]) by {
      if n != [] { assert s[|s| - 1] == n[|n| - 1]; }
    }
    assert Strip(s) == s;
    assert s == p + ['-'] + n;
    SplitOnHead(p, '-', n);
    assert Fields(s)[1..] == SplitOn(n, '-');
    JoinSplitOn(n, '-');
  }

  /** The text strptime reads the month and day from: the trade-date cell, or the
      posting-date cell when the trade date is blank or the band is an instalment. */
  function TradeDateText(cells: seq<string>): string
    requires |cells| > 3
  {
    var trade := Strip(cells[1]);
    if trade == "" || Payee(cells[3]) == Instalment then Strip(cells[2]) else trade
  }

  /** The amount cell with the currency signs and no-break spaces removed, then stripped. */
  function CleanPrice(raw: string): string {
    Strip(ReplaceAll(ReplaceAll(ReplaceAll(raw, [FullWidthYen], ""), [Nbsp], ""), [Yen], ""))
  }

  /** A band: None for a band without cells, else its transaction. The checks and reads come
      in the order of the loop body, so a short band fails on the first cell it lacks. */
  function BandTxn(year: nat, cells: seq<string>, account: string): (r: Result<Option<Transaction>>)
    ensures r == Ok(None) <==> cells == []
    ensures 0 < |cells| <= 3 ==> r == Err(MissingCell(3))
    ensures r.Ok? && r.value.Some? ==> |cells| > 4
  {
    if cells == [] then Ok(None)
    else if |cells| <= 3 then Err(MissingCell(3))
    else
      var parts := Fields(cells[3]);
      match Strptime(NatDigits(year) + TradeDateText(cells), "")
      case Err(e) => Err(e)
      case Ok(date) =>
        if |cells| <= 4 then Err(MissingCell(4))
        else
          match D(CleanPrice(cells[4]))
          case Err(e) => Err(e)
          case Ok(amount) =>
            Ok(Some(Transaction(date, FlagOkay, Some(parts[0]), Some(Join("-", parts[1..])), {},
                                [Posting(account, Amount(amount, Currency).Neg())])))
  }

  /** A band's transaction: dated by strptime on the year and the chosen date cell, payee and
      narration from the description, flagged okay, untagged, one posting of the negated
      amount in CNY. */
  lemma BandTxnFields(year: nat, cells: seq<string>, account: string, t: Transaction)
    requires BandTxn(year, cells, account) == Ok(Some(t))
    ensures |cells| > 4
    ensures Strptime(NatDigits(year) + TradeDateText(cells), "") == Ok(t.date)
    ensures t.payee == Some(Payee(cells[3])) && t.narration == Some(Narration(cells[3]))
    ensures t.flag == FlagOkay && t.tags == {}
    ensures D(CleanPrice(cells[4])).Ok?
    ensures t.postings == [Posting(account, Amount(D(CleanPrice(cells[4])).value.Neg(), Currency))]
  {
  }

  /** For a four-digit year, the transaction keeps that year: the month and day cells never
      move it. */
  lemma BandYear(year: nat, cells: seq<string>, account: string, t: Transaction)
    requires 1000 <= year <= 9999
    requires BandTxn(year, cells, account) == Ok(Some(t))
    ensures t.date.year == year
  {
    BandTxnFields(year, cells, account, t);
    var s := NatDigits(year) + TradeDateText(cells);
    FourDigits(year);
    StrptimeYear(s, "");
    assert s[..4] == NatDigits(year);
  }

  /** str(year) of a four-digit year is its zero-padded four-digit text. */
  lemma FourDigits(year: nat)
    requires 1000 <= year <= 9999
    ensures NatDigits(year) == ZeroPad(year, 4) && |NatDigits(year)| == 4
  {
    assert |NatDigits(year / 10 / 10 / 10)| == 1;
    assert |NatDigits(year / 10 / 10)| == 2;
    assert |NatDigits(year / 10)| == 3;
    NatDigitsValue(year);
    ZeroPadDigits(NatDigits(year));
  }

  /** A month and day written MMDD in the chosen date cell give that day of the year. */
  lemma BandDate(year: nat, cells: seq<string>, month: nat, day: nat)
    requires 1000 <= year && |cells| > 3 && Valid(Date(year, month, day))
    requires TradeDateText(cells) == ZeroPad(month, 2) + ZeroPad(day, 2)
    ensures Strptime(NatDigits(year) + TradeDateText(cells), "") == Ok(Date(year, month, day))
  {
    FourDigits(year);
    var d := Date(year, month, day);
    assert NatDigits(year) + TradeDateText(cells) == CompactText(d) + "";
    StrptimeCompactText(d, "");
  }

  /** An instalment is dated by its posting-date cell, whatever its trade-date cell holds. */
  lemma InstalmentDate(year: nat, cells: seq<string>, account: string, month: nat, day: nat, t: Transaction)
    requires 1000 <= year && Valid(Date(year, month, day)) && |cells| > 3
    requires Payee(cells[3]) == Instalment && Strip(cells[2]) == ZeroPad(month, 2) + ZeroPad(day, 2)
    requires BandTxn(year, cells, account) == Ok(Some(t))
    ensures t.date == Date(year, month, day)
  {
    BandTxnFields(year, cells, account, t);
    BandDate(year, cells, month, day);
  }

  /** A band with a trade date that is not an instalment is dated by its trade-date cell. */
  lemma TradeDate(year: nat, cells: seq<string>, account: string, month: nat, day: nat, t: Transaction)
    requires 1000 <= year && Valid(Date(year, month, day)) && |cells| > 3
    requires Payee(cells[3]) != Instalment && Strip(cells[1]) == ZeroPad(month, 2) + ZeroPad(day, 2)
    requires BandTxn(year, cells, account) == Ok(Some(t))
    ensures t.date == Date(year, month, day)
  {
    BandTxnFields(year, cells, account, t);
    BandDate(year, cells, month, day);
  }

  /** Characters the amount cleaning removes. */
  predicate Decoration(s: string) {
    forall k :: 0 <= k < |s| ==> s[k] == FullWidthYen || s[k] == Nbsp || s[k] == Yen
  }

  /** Dropping the three characters in the cleaning order. */
  function Undecorated(s: string): string {
    Without(Without(Without(s, FullWidthYen), Nbsp), Yen)
  }

  lemma UndecoratedConcat(a: string, b: string)
    ensures Undecorated(a + b) == Undecorated(a) + Undecorated(b)
  {
    WithoutConcat(a, b, FullWidthYen);
    WithoutConcat(Without(a, FullWidthYen), Without(b, FullWidthYen), Nbsp);
    WithoutConcat(Without(Without(a, FullWidthYen), Nbsp), Without(Without(b, FullWidthYen), Nbsp), Yen);
  }

  lemma WithoutOne(x: char, c: char)
    ensures Without([x], c) == if x == c then [] else [x]
  {
    assert [x][1..] == [];
  }

  lemma {:induction false} DecorationGone(s: string)
    requires Decoration(s)
    ensures Undecorated(s) == []
    decreases |s|
  {
    if s != [] {
      assert s == [s[0]] + s[1..];
      UndecoratedConcat([s[0]], s[1..]);
      WithoutOne(s[0], FullWidthYen);
      WithoutOne(s[0], Nbsp);
      WithoutOne(s[0], Yen);
      assert Undecorated([s[0]]) == [];
      DecorationGone(s[1..]);
    }
  }

  /** Cleaning removes exactly the three characters, in order, then strips. */
  lemma CleanPriceUndecorated(raw: string)
    ensures CleanPrice(raw) == Strip(Undecorated(raw))
  {
    var a := ReplaceAll(raw, [FullWidthYen], "");
    RemoveChar(raw, FullWidthYen);
    var b := ReplaceAll(a, [Nbsp], "");
    RemoveChar(a, Nbsp);
    RemoveChar(b, Yen);
  }

  /** An amount printed with currency signs or no-break spaces around it reads back as
      itself. */
  lemma CleanPriceOf(pre: string, d: Dec, post: string)
    requires Decoration(pre) && Decoration(post)
    ensures D(CleanPrice(pre + Render(d) + post)) == Ok(d)
  {
    var t := Render(d);
    CleanPriceUndecorated(pre + t + post);
    UndecoratedConcat(pre + t, post);
    UndecoratedConcat(pre, t);
    DecorationGone(pre);
    DecorationGone(post);
    RenderLacks(d, FullWidthYen);
    RenderLacks(d, Nbsp);
    RenderLacks(d, Yen);
    WithoutAbsent(t, FullWidthYen);
    WithoutAbsent(t, Nbsp);
    WithoutAbsent(t, Yen);
    assert Undecorated(pre + t + post) == t;
    RenderEnds(d);
    DRender(d);
  }

  /** A band written from a date, a payee, a narration and an amount reads back as the
      transaction made of them. */
  lemma BandTxnOf(year: nat, cells: seq<string>, account: string, month: nat, day: nat,
                  p: string, n: string, pre: string, amount: Dec, post: string)
    requires 1000 <= year && Valid(Date(year, month, day)) && |cells| > 4
    requires '-' !in p && (p == [] || !IsSpace(p[0])) && (n == [] || !IsSpace(n[|n| - 1]))
    requires cells[3] == p + "-" + n
    requires TradeDateText(cells) == ZeroPad(month, 2) + ZeroPad(day, 2)
    requires Decoration(pre) && Decoration(post) && cells[4] == pre + Render(amount) + post
    ensures BandTxn(year, cells, account) ==
      Ok(Some(Transaction(Date(year, month, day), FlagOkay, Some(p), Some(n), {},
                          [Posting(account, Amount(amount.Neg(), Currency))])))
  {
    BandDate(year, cells, month, day);
    DescriptionOf(p, n);
    CleanPriceOf(pre, amount, post);
  }

  // The loop over the bands.

  /** One pass of the loop body, for the year of the closing date. */
  function BandStep(year: nat, account: string): seq<string> -> Result<Option<Transaction>> {
    cells => BandTxn(year, cells, account)
  }

  /** The bands that have cells, in order. */
  function NonEmpty(bands: seq<seq<string>>): (r: seq<seq<string>>)
    ensures forall b :: b in r ==> b != [] && b in bands
    decreases |bands|
  {
    if bands == [] then []
    else
      var init := NonEmpty(bands[..|bands| - 1]);
      if bands[|bands| - 1] == [] then init else init + [bands[|bands| - 1]]
  }

  /** The loop skips exactly the bands without cells. */
  lemma {:induction false} KeptBands(year: nat, account: string, bands: seq<seq<string>>)
    ensures Kept(BandStep(year, account), bands) == NonEmpty(bands)
    decreases |bands|
  {
    if bands != [] {
      KeptBands(year, account, bands[..|bands| - 1]);
      var last := bands[|bands| - 1];
      assert BandStep(year, account)(last) == Ok(None) <==> last == [];
    }
  }

  /** A successful loop gives one transaction per band with cells, in order. */
  lemma BandsOk(year: nat, bands: seq<seq<string>>, account: string, txns: seq<Transaction>)
    requires Collect(BandStep(year, account), bands) == Ok(txns)
    ensures |txns| == |NonEmpty(bands)|
    ensures forall k :: 0 <= k < |txns| ==> BandTxn(year, NonEmpty(bands)[k], account) == Ok(Some(txns[k]))
  {
    CollectOk(BandStep(year, account), bands, txns);
    KeptBands(year, account, bands);
  }

  /** The importer's extract: the closing date first, then the bands with its year. */
  function Extract(range: Option<string>, bands: seq<seq<string>>, account: string): (r: Result<seq<Transaction>>)
    ensures range.None? ==> r == Err(NoDateRange)
    ensures r.Ok? ==> TransactionDate(range).Ok? && |r.value| <= |bands|
  {
    match TransactionDate(range)
    case Err(e) => Err(e)
    case Ok(end) => Collect(BandStep(end.year, account), bands)
  }

  /** Every transaction carries the closing date's year, whatever its month and day. */
  lemma ExtractYears(range: Option<string>, bands: seq<seq<string>>, account: string, txns: seq<Transaction>)
    requires Extract(range, bands, account) == Ok(txns)
    requires TransactionDate(range).Ok? ==> 1000 <= TransactionDate(range).value.year
    ensures forall k :: 0 <= k < |txns| ==> txns[k].date.year == TransactionDate(range).value.year
  {
    var end := TransactionDate(range).value;
    BandsOk(end.year, bands, account, txns);
    forall k | 0 <= k < |txns| ensures txns[k].date.year == end.year {
      BandYear(end.year, NonEmpty(bands)[k], account, txns[k]);
    }
  }

  /** The loop over the bands with a given body: the transaction of each band appended, the
      bands without cells skipped, the first band that raises ending the loop. */
  method ScanBands(step: seq<string> -> Result<Option<Transaction>>, bands: seq<seq<string>>)
    returns (r: Result<seq<Transaction>>)
    ensures r == Collect(step, bands)
  {
    var entries := [];
    var i := 0;
    while i < |bands|
      invariant i <= |bands|
      invariant Collect(step, bands[..i]) == Ok(entries)
    {
      assert bands[..i + 1][..i] == bands[..i];
      var band := step(bands[i]);
      if band.Err? {
        CollectSticky(step, bands, i + 1);
        return Err(band.error);
      }
      if band.value.Some? {
        entries := entries + [band.value.value];
      }
      i := i + 1;
    }
    assert bands[..i] == bands;
    r := Ok(entries);
  }

  /** The extract: the closing date, then the loop over the bands in its year. */
  method ExtractEmail(range: Option<string>, bands: seq<seq<string>>, account: string)
    returns (r: Result<seq<Transaction>>)
    ensures r == Extract(range, bands, account)
  {
    var end := TransactionDate(range);
    if end.Err? {
      return Err(end.error);
    }
    r := ScanBands(BandStep(end.value.year, account), bands);
  }

  // The year of a band in a statement that spans New Year.

  /** As written, a band whose month and day fall after the closing date's is dated after the
      statement closed: in the period 2023/12/20-2024/01/19 a purchase on "1225" becomes
      2024-12-25. */
  lemma DatedAfterClose(end: Date, cells: seq<string>, account: string, month: nat, day: nat, t: Transaction)
    requires Valid(end) && 1000 <= end.year
    requires Valid(Date(end.year, month, day)) && |cells| > 3
    requires TradeDateText(cells) == ZeroPad(month, 2) + ZeroPad(day, 2)
    requires month > end.month || (month == end.month && day > end.day)
    requires BandTxn(end.year, cells, account) == Ok(Some(t))
    ensures Before(end, t.date)
  {
    BandTxnFields(end.year, cells, account, t);
    BandDate(end.year, cells, month, day);
  }

  /** The band dated in the year that puts it at or before the closing date: the closing
      year, or the year before when the month and day fall after the closing date's. */
  function BandTxnIn(end: Date, cells: seq<string>, account: string): (r: Result<Option<Transaction>>)
    requires Valid(end)
    ensures r == Ok(None) <==> cells == []
  {
    var r := BandTxn(end.year, cells, account);
    if r.Ok? && r.value.Some? && Before(end, r.value.value.date) && end.year > 1 then
      BandTxn(end.year - 1, cells, account)
    else r
  }

  /** Every band dated this way lies within the year that ends on the closing date. */
  lemma BandTxnInPeriod(end: Date, cells: seq<string>, account: string, t: Transaction)
    requires Valid(end) && 1001 <= end.year
    requires BandTxnIn(end, cells, account) == Ok(Some(t))
    ensures AtOrBefore(t.date, end) && end.year - 1 <= t.date.year
  {
    var r := BandTxn(end.year, cells, account);
    if r.Ok? && r.value.Some? && Before(end, r.value.value.date) {
      BandYear(end.year - 1, cells, account, t);
    } else {
      BandYear(end.year, cells, account, t);
    }
  }

  function BandStepIn(end: Date, account: string): seq<string> -> Result<Option<Transaction>>
    requires Valid(end)
  {
    cells => BandTxnIn(end, cells, account)
  }

  /** The extract with each band dated at or before the closing date. */
  function ExtractInPeriod(range: Option<string>, bands: seq<seq<string>>, account: string): (r: Result<seq<Transaction>>)
    ensures range.None? ==> r == Err(NoDateRange)
  {
    match TransactionDate(range)
    case Err(e) => Err(e)
    case Ok(end) => Collect(BandStepIn(end, account), bands)
  }

  /** No transaction of the corrected extract is dated after the statement closed, nor more
      than a year before. */
  lemma ExtractInPeriodDates(range: Option<string>, bands: seq<seq<string>>, account: string, txns: seq<Transaction>)
    requires ExtractInPeriod(range, bands, account) == Ok(txns)
    requires TransactionDate(range).Ok? ==> 1001 <= TransactionDate(range).value.year
    ensures TransactionDate(range).Ok? && |txns| <= |bands|
    ensures forall k :: 0 <= k < |txns| ==>
      AtOrBefore(txns[k].date, TransactionDate(range).value) && TransactionDate(range).value.year - 1 <= txns[k].date.year
  {
    var end := TransactionDate(range).value;
    var f := BandStepIn(end, account);
    CollectOk(f, bands, txns);
    forall k | 0 <= k < |txns|
      ensures AtOrBefore(txns[k].date, end) && end.year - 1 <= txns[k].date.year
    {
      BandTxnInPeriod(end, Kept(f, bands)[k], account, txns[k]);
    }
  }

  /** The corrected extract: the same loop, each band dated at or before the closing date. */
  method ExtractEmailInPeriod(range: Option<string>, bands: seq<seq<string>>, account: string)
    returns (r: Result<seq<Transaction>>)
    ensures r == ExtractInPeriod(range, bands, account)
  {
    var end := TransactionDate(range);
    if end.Err? {
      return Err(end.error);
    }
    r := ScanBands(BandStepIn(end.value, account), bands);
  }
}

=== FILE: cmb_credit_pdf.dfy ===
/** The CMB (China Merchants Bank) credit-card PDF statement importer. The statement's text
    lines are scanned for the transaction table; each table line is split into one or two
    month/day dates, a summary and three fixed trailing fields; every parsed row becomes one
    transaction posting the negated amount. */
module CmbCreditPdf {

  import opened Base
  import opened Text
  import opened Numbers
  import opened Dates
  import opened Ledger
  import opened Dicts

  // Token shapes (the module's regular expressions, as character predicates).

  /** DATE_TOKEN, ^\d{2}/\d{2}$: a month/day token such as "03/15". */
  predicate IsDateToken(t: string) {
    |t| == 5 && IsDigit(t[0]) && IsDigit(t[1]) && t[2] == '/' && IsDigit(t[3]) && IsDigit(t[4])
  }

  predicate DigitsOrCommas(s: string) {
    forall i :: 0 <= i < |s| ==> IsDigit(s[i]) || s[i] == ','
  }

  /** [+-]?\d[\d,]*(?:\.\d+)?: an optional sign, a digit, then digits and commas, then an
      optional fraction of at least one digit. */
  predicate IsNumeral(c: string) {
    var u := if c != [] && (c[0] == '+' || c[0] == '-') then c[1..] else c;
    u != [] && IsDigit(u[0]) &&
    if '.' in u then
      var i := IndexOf(u, '.');
      DigitsOrCommas(u[..i]) && u[i + 1..] != [] && AllDigits(u[i + 1..])
    else DigitsOrCommas(u)
  }

  /** The token without one opening parenthesis at its start and one closing parenthesis at
      its end, where present. */
  function Unwrap(t: string): (r: string)
    ensures |r| <= |t|
    ensures t != [] && t[0] == '(' && t[|t| - 1] == ')' && |t| >= 2 ==> r == t[1..|t| - 1]
  {
    var a := if t != [] && t[0] == '(' then t[1..] else t;
    if a != [] && a[|a| - 1] == ')' then a[..|a| - 1] else a
  }

  /** AMOUNT_TOKEN: a numeral, with an optional "(" before and an optional ")" after it.
      A numeral neither starts with "(" nor ends with ")", so the parentheses are taken
      whenever present, as the regular expression must. */
  predicate IsAmountToken(t: string) {
    IsNumeral(Unwrap(t))
  }

  predicate IsAsciiLetter(c: char) {
    'a' <= c <= 'z' || 'A' <= c <= 'Z'
  }

  /** The token ends with a currency code of k ASCII letters in parentheses, and what comes
      before it is an amount token. */
  predicate CurrencySuffix(t: string, k: nat) {
    k + 2 <= |t| && t[|t| - 1] == ')' && t[|t| - k - 2] == '(' &&
    (forall i :: |t| - k - 1 <= i < |t| - 1 ==> IsAsciiLetter(t[i])) &&
    IsAmountToken(t[..|t| - k - 2])
  }

  /** AMOUNT_TOKEN_WITH_CURRENCY: an amount token, optionally followed by a currency code of
      two to four ASCII letters in parentheses. */
  predicate IsAmountWithCurrency(t: string) {
    IsAmountToken(t) || CurrencySuffix(t, 2) || CurrencySuffix(t, 3) || CurrencySuffix(t, 4)
  }

  /** LAST4_TOKEN, ^\d{4}$. */
  predicate IsLast4(t: string) {
    |t| == 4 && AllDigits(t)
  }

  /** One position of a line pattern: a literal character or \d. */
  datatype Pat = Lit(c: char) | AnyDigit

  function Lits(s: string): (r: seq<Pat>)
    ensures |r| == |s| && forall i :: 0 <= i < |s| ==> r[i] == Lit(s[i])
  {
    seq(|s|, i requires 0 <= i < |s| => Lit(s[i]))
  }

  function DigitPats(n: nat): (r: seq<Pat>)
    ensures |r| == n && forall i :: 0 <= i < n ==> r[i] == AnyDigit
  {
    seq(n, _ => AnyDigit)
  }

  predicate PatAccepts(p: Pat, c: char) {
    match p
    case Lit(x) => c == x
    case AnyDigit => IsDigit(c)
  }

  /** pattern.match(text): the pattern matches at the start of the text. */
  predicate MatchesPrefix(text: string, pat: seq<Pat>) {
    |pat| <= |text| && forall i :: 0 <= i < |pat| ==> PatAccepts(pat[i], text[i])
  }

  /** NON_TXN_PATTERNS: page headings and column captions repeated on every page. */
  function NonTxnPatterns(): seq<seq<Pat>> { [
    Lits("招商银行信用卡对账单（个人消费卡账户 ") + DigitPats(4) + Lits("年") + DigitPats(2) + Lits("月）"),
    Lits("CMB Credit Card Statement (") + DigitPats(4) + Lits(".") + DigitPats(2) + Lits(")"),
    Lits("人民币账户 RMB A/C"),
    Lits("本期账务明细 Transaction Details"),
    Lits("Trans Post Card Number Original Trans"),
    Lits("Date Date (last 4 digits) Amount"),
    Lits("Description RMB Amount"),
    Lits("SOLD POSTED DESCRIPTION RMB AMOUNT CARD NO(Last 4digits) Original Tran Amount")
  ] }

  predicate IsNonTxnLine(text: string) {
    exists i :: 0 <= i < |NonTxnPatterns()| && MatchesPrefix(text, NonTxnPatterns()[i])
  }

  const SectionMarkers: set<string> := {"消费", "分期", "退款", "还款"}
  const Installment: string := "分期"
  const HeaderMarker: string := "交易日 记账日 交易摘要"
  const FullHeader: string := "交易日 记账日 交易摘要 人民币金额 卡号末四位 交易地金额"

  /** The lines that end the table: the totals after it. */
  predicate IsFooter(text: string) {
    StartsWith(text, "本期还款总额") || StartsWith(text, "本期应还金额") ||
    Contains(text, "Current Balance") || Contains(text, "New Balance")
  }

  // Dates.

  /** parse_mmdd: "MM/DD" read in the statement's year, or in the year before when the month
      lies after the statement month (a December purchase on a January statement). */
  function ParseMmdd(s: string, year: int, defaultMonth: int): (r: Result<Date>)
    ensures r.Ok? ==> Valid(r.value)
  {
    var t := Strip(s);
    if t == "" then Err(EmptyDateString)
    else if '/' in t then
      var i := IndexOf(t, '/');
      var m := ParseInt(t[..i]);
      var d := ParseInt(t[i + 1..]);
      if m.Err? then Err(m.error)
      else if d.Err? then Err(d.error)
      else MakeDate(if m.value > defaultMonth then year - 1 else year, m.value, d.value)
    else Err(UnexpectedDateFormat(t))
  }

  /** The stripped text must hold a "/"; the month before it and the day after it are read
      as integers, and the year is the statement's unless the month lies after the
      statement month. */
  lemma ParseMmddSpec(s: string, year: int, defaultMonth: int)
    ensures var r := ParseMmdd(s, year, defaultMonth);
      && (Strip(s) == "" ==> r == Err(EmptyDateString))
      && (Strip(s) != "" && '/' !in Strip(s) ==> r == Err(UnexpectedDateFormat(Strip(s))))
      && (r.Ok? ==> '/' in Strip(s))
      && (r.Err? && '/' in Strip(s) ==> r.error.NotAnInteger? || r.error.InvalidDate?)
    ensures var r := ParseMmdd(s, year, defaultMonth);
      r.Ok? ==>
        var t := Strip(s);
        var i := IndexOf(t, '/');
        && ParseInt(t[..i]) == Ok(r.value.month) && ParseInt(t[i + 1..]) == Ok(r.value.day)
        && r.value.year == if r.value.month > defaultMonth then year - 1 else year
  {
  }

  /** On a month/day token the date is the token's month and day in the inferred year, and
      the parse fails exactly when that is not a calendar date. */
  lemma ParseMmddToken(t: string, year: int, defaultMonth: int)
    requires IsDateToken(t)
    ensures var m, d := DigitsValue(t[..2]), DigitsValue(t[3..]);
      ParseMmdd(t, year, defaultMonth) == MakeDate(if m > defaultMonth then year - 1 else year, m, d)
  {
    DateTokenParts(t);
  }

  lemma DateTokenParts(t: string)
    requires IsDateToken(t)
    ensures Strip(t) == t && '/' in t && IndexOf(t, '/') == 2
    ensures AllDigits(t[..2]) && AllDigits(t[3..])
    ensures ParseInt(t[..2]) == Ok(DigitsValue(t[..2])) && ParseInt(t[3..]) == Ok(DigitsValue(t[3..]))
  {
    assert t[2] == '/' && t[0] != '/' && t[1] != '/';
    StripDigitEnds(t);
    DateTokenDigits(t);
  }

  lemma DateTokenDigits(t: string)
    requires IsDateToken(t)
    ensures AllDigits(t[..2]) && AllDigits(t[3..])
    ensures ParseInt(t[..2]) == Ok(DigitsValue(t[..2])) && ParseInt(t[3..]) == Ok(DigitsValue(t[3..]))
  {
    assert AllDigits(t[..2]) && AllDigits(t[3..]);
    ParseDigits(t[..2]);
    ParseDigits(t[3..]);
  }

  /** parse_date: an integer YYYYMMDD split by floor division and remainder (Python's // and %
      agree with Dafny's / and % for the positive divisors used here). */
  function ParseDate(s: string): (r: Result<Date>)
    ensures ParseInt(s).Err? ==> r == Err(ParseInt(s).error)
    ensures r.Ok? ==> Valid(r.value)
    ensures r.Ok? ==> ParseInt(s) == Ok(NumberOf(r.value))
  {
    var n := ParseInt(s);
    if n.Err? then Err(n.error) else DateOfNumber(n.value)
  }

  /** The number YYYYMMDD of a date. */
  function NumberOf(d: Date): int {
    d.year * 10000 + d.month * 100 + d.day
  }

  /** The date whose YYYYMMDD number is n, if that is a calendar date. */
  function DateOfNumber(n: int): (r: Result<Date>)
    ensures r.Ok? ==> Valid(r.value) && n == NumberOf(r.value)
  {
    var y, m, d := n / 10000, (n / 100) % 100, n % 100;
    DivModParts(n);
    MakeDate(y, m, d)
  }

  lemma DivModParts(n: int)
    ensures n == (n / 10000) * 10000 + ((n / 100) % 100) * 100 + n % 100
  {
    var q := n / 100;
    assert n == q * 100 + n % 100;
    assert q == (q / 100) * 100 + q % 100;
    assert q / 100 == n / 10000;
  }

  /** Splitting a date's number gives the date back. */
  lemma DateOfNumberOf(d: Date)
    requires Valid(d)
    ensures DateOfNumber(NumberOf(d)) == Ok(d)
  {
    SplitDateNumber(d.year, d.month, d.day);
  }

  /** Reading the YYYYMMDD text of a date gives the date back. */
  lemma ParseDateCompact(d: Date)
    requires Valid(d)
    ensures ParseDate(CompactText(d)).Ok? && ParseDate(CompactText(d)).value == d
  {
    CompactValue(d);
    ParseDateNumber(CompactText(d), d);
  }

  lemma ParseDateNumber(s: string, d: Date)
    requires Valid(d)
    requires ParseInt(s).Ok? && ParseInt(s).value == NumberOf(d)
    ensures ParseDate(s).Ok? && ParseDate(s).value == d
  {
    DateOfNumberOf(d);
  }

  lemma CompactValue(d: Date)
    requires Valid(d)
    ensures ParseInt(CompactText(d)).Ok?
    ensures ParseInt(CompactText(d)).value == NumberOf(d)
  {
    PadWidth(d.month, 2);
    PadWidth(d.day, 2);
    var y, m, dd := ZeroPad(d.year, 4), ZeroPad(d.month, 2), ZeroPad(d.day, 2);
    ConcatValue(y, m, dd);
    var s := CompactText(d);
    assert s == y + m + dd;
    ParseDigits(s);
  }

  lemma ParseDigits(s: string)
    requires AllDigits(s) && s != []
    ensures ParseInt(s) == Ok(DigitsValue(s))
  {
  }

  lemma ConcatValue(y: string, m: string, dd: string)
    requires AllDigits(y) && AllDigits(m) && AllDigits(dd) && |m| == 2 && |dd| == 2
    ensures AllDigits(y + m + dd)
    ensures DigitsValue(y + m + dd) == DigitsValue(y) * 10000 + DigitsValue(m) * 100 + DigitsValue(dd)
  {
    DigitsValueConcat(y, m);
    DigitsValueConcat(y + m, dd);
    assert Pow10(2) == 100;
    var a, b, c := DigitsValue(y), DigitsValue(m), DigitsValue(dd);
    assert DigitsValue(y + m) == a * 100 + b;
    assert DigitsValue(y + m + dd) == (a * 100 + b) * 100 + c;
    assert (a * 100 + b) * 100 + c == a * 10000 + b * 100 + c;
  }

  lemma SplitDateNumber(y: int, m: int, d: int)
    requires 0 <= m < 100 && 0 <= d < 100
    ensures var v := y * 10000 + m * 100 + d;
      v / 10000 == y && (v / 100) % 100 == m && v % 100 == d
  {
    var v := y * 10000 + m * 100 + d;
    assert v == (y * 100 + m) * 100 + d;
    assert v / 100 == y * 100 + m;
    assert (y * 100 + m) / 100 == y;
  }

  // One table line.

  /** A parsed table line. */
  datatype Row = Row(tradeDate: Date, bookingDate: Date, summary: string, amount: string,
                     last4: string, amountInLocation: string, section: Option<string>,
                     tradeDateRaw: string, bookingDateRaw: string, rawLine: string)

  /** Where the summary starts: after the booking date when the second token is a month/day
      token, after the trade date otherwise. */
  function SummaryStart(tokens: seq<string>): (idx: nat)
    requires |tokens| >= 2
    ensures idx == 1 || idx == 2
  {
    if IsDateToken(tokens[1]) then 2 else 1
  }

  /** What a line must satisfy to parse: at least five tokens, a month/day first token, a
      non-empty summary, well-formed amount, original-amount and card-number tokens in the
      last three places, and month/day parses of both date tokens. */
  predicate WellFormed(text: string, year: int, month: int) {
    TokensWellFormed(Split(text), year, month)
  }

  predicate TokensWellFormed(tokens: seq<string>, year: int, month: int) {
    var n := |tokens|;
    n >= 5 && IsDateToken(tokens[0]) &&
    var idx := SummaryStart(tokens);
    tokens[idx..n - 3] != [] && FieldsOk(tokens) &&
    ParseMmdd(tokens[0], year, month).Ok? && ParseMmdd(tokens[idx - 1], year, month).Ok?
  }

  /** The last three tokens: an amount, a card number and an original amount. */
  predicate FieldsOk(tokens: seq<string>)
    requires |tokens| >= 3
  {
    var n := |tokens|;
    IsAmountToken(tokens[n - 3]) && IsAmountWithCurrency(tokens[n - 1]) && IsLast4(tokens[n - 2])
  }

  /** The error of the first of the three field checks that fails, in the order the parser
      makes them. */
  function FieldError(tokens: seq<string>, text: string): (r: Option<Error>)
    requires |tokens| >= 3
    ensures r.None? <==> FieldsOk(tokens)
    ensures r.Some? ==> r.value.InvalidAmount? || r.value.InvalidOriginalAmount? || r.value.InvalidLast4?
  {
    var n := |tokens|;
    if !IsAmountToken(tokens[n - 3]) then Some(InvalidAmount(text))
    else if !IsAmountWithCurrency(tokens[n - 1]) then Some(InvalidOriginalAmount(text))
    else if !IsLast4(tokens[n - 2]) then Some(InvalidLast4(text))
    else None
  }

  /** The row's fields are the line's tokens in their places: the dates first, the summary
      tokens joined by single spaces, then amount, card number and original amount. */
  predicate Layout(row: Row, text: string, year: int, month: int, section: Option<string>) {
    row.section == section && row.rawLine == text && TokensLayout(row, Split(text), year, month)
  }

  predicate TokensLayout(row: Row, tokens: seq<string>, year: int, month: int) {
    |tokens| >= 5 && TokenFields(row, tokens) &&
    var idx := SummaryStart(tokens);
    ParseMmdd(tokens[0], year, month).Ok? && ParseMmdd(tokens[0], year, month).value == row.tradeDate &&
    ParseMmdd(tokens[idx - 1], year, month).Ok? && ParseMmdd(tokens[idx - 1], year, month).value == row.bookingDate
  }

  /** The row's text fields are the tokens in their places. */
  predicate TokenFields(row: Row, tokens: seq<string>)
    requires |tokens| >= 5
  {
    var n := |tokens|;
    var idx := SummaryStart(tokens);
    row.tradeDateRaw == tokens[0] && row.bookingDateRaw == tokens[idx - 1] &&
    row.summary == Join(" ", tokens[idx..n - 3]) &&
    row.amount == tokens[n - 3] && row.last4 == tokens[n - 2] &&
    row.amountInLocation == tokens[n - 1]
  }

  /** The checks a candidate line goes through, in order, each with its own error; the first
      that fails raises. */
  function ParseTxnLine(text: string, year: int, month: int, section: Option<string>): (r: Result<Row>)
    ensures r.Ok? <==> WellFormed(text, year, month)
    ensures r.Ok? ==> Layout(r.value, text, year, month, section)
    ensures var tokens := Split(text);
      (tokens == [] || !IsDateToken(tokens[0])) ==> r == Err(UnexpectedLine(text))
    ensures var tokens := Split(text);
      tokens != [] && IsDateToken(tokens[0]) && |tokens| < 5 ==> r == Err(TooFewTokens(text))
    ensures r.Err? ==> !r.error.TooFewTrailingTokens?
  {
    var tokens := Split(text);
    if |tokens| == 0 || !IsDateToken(tokens[0]) then Err(UnexpectedLine(text))
    else if |tokens| < 5 then Err(TooFewTokens(text))
    else ParseTokens(tokens, text, year, month, section)
  }

  /** The checks after the first two. The "too few trailing tokens" check cannot fail: five
      tokens of which at most two are dates leave three for the fixed fields. */
  function ParseTokens(tokens: seq<string>, text: string, year: int, month: int,
                       section: Option<string>): (r: Result<Row>)
    requires |tokens| >= 5 && IsDateToken(tokens[0]) && AllTokens(tokens)
    ensures r.Ok? <==> TokensWellFormed(tokens, year, month)
    ensures r.Ok? ==> TokensLayout(r.value, tokens, year, month)
    ensures r.Ok? ==> r.value.section == section && r.value.rawLine == text
    ensures r.Err? ==> !r.error.TooFewTrailingTokens?
  {
    var n := |tokens|;
    var idx := SummaryStart(tokens);
    if n - idx < 3 then Err(TooFewTrailingTokens(text))
    else
      CheckedRowSpec(tokens, text, year, month, section);
      CheckedRow(tokens, text, year, month, section)
  }

  /** The summary check, then the field checks and the dates. */
  function CheckedRow(tokens: seq<string>, text: string, year: int, month: int,
                      section: Option<string>): (r: Result<Row>)
    requires |tokens| >= 5 && IsDateToken(tokens[0]) && AllTokens(tokens)
    ensures r.Ok? ==> r.value.section == section && r.value.rawLine == text
    ensures r.Err? ==> RowError(r.error)
  {
    var middle := tokens[SummaryStart(tokens)..|tokens| - 3];
    TokenFacts(tokens);
    var summary := Strip(Join(" ", middle));
    var idx := SummaryStart(tokens);
    DateTokensParse(tokens, year, month);
    if summary == "" then Err(EmptySummary(text))
    else FieldsRow(tokens, summary, text, ParseMmdd(tokens[0], year, month),
                   ParseMmdd(tokens[idx - 1], year, month), section)
  }

  /** The checks pass exactly on a well-formed line, and the row then holds its tokens. */
  lemma CheckedRowSpec(tokens: seq<string>, text: string, year: int, month: int, section: Option<string>)
    requires |tokens| >= 5 && IsDateToken(tokens[0]) && AllTokens(tokens)
    ensures var r := CheckedRow(tokens, text, year, month, section);
      (r.Ok? <==> TokensWellFormed(tokens, year, month)) && (r.Ok? ==> TokensLayout(r.value, tokens, year, month))
  {
    TokenFacts(tokens);
  }

  /** The errors the checks after the first two can raise. */
  predicate RowError(e: Error) {
    e.EmptySummary? || e.InvalidAmount? || e.InvalidOriginalAmount? || e.InvalidLast4? || e.InvalidDate?
  }

  /** The three field checks, then the two dates, which have been read. */
  function FieldsRow(tokens: seq<string>, summary: string, text: string, trade: Result<Date>,
                     booking: Result<Date>, section: Option<string>): (r: Result<Row>)
    requires |tokens| >= 5 && IsToken(tokens[|tokens| - 2])
    requires summary == Join(" ", tokens[SummaryStart(tokens)..|tokens| - 3])
    ensures r.Ok? <==> FieldsOk(tokens) && trade.Ok? && booking.Ok?
    ensures r.Ok? ==> TokenFields(r.value, tokens) && r.value.tradeDate == trade.value && r.value.bookingDate == booking.value
    ensures r.Ok? ==> r.value.section == section && r.value.rawLine == text
    ensures r.Err? ==> RowError(r.error) || Err(r.error) == trade || Err(r.error) == booking
  {
    match FieldError(tokens, text)
    case Some(e) => Err(e)
    case None => DatedRow(tokens, summary, text, trade, booking, section)
  }

  /** Both date tokens of a line read as a month and a day; only the calendar check can
      fail. */
  lemma DateTokensParse(tokens: seq<string>, year: int, month: int)
    requires |tokens| >= 5 && IsDateToken(tokens[0]) && IsDateToken(tokens[SummaryStart(tokens) - 1])
    ensures ParseMmdd(tokens[0], year, month).Err? ==> ParseMmdd(tokens[0], year, month).error.InvalidDate?
    ensures var t := tokens[SummaryStart(tokens) - 1];
      ParseMmdd(t, year, month).Err? ==> ParseMmdd(t, year, month).error.InvalidDate?
  {
    ParseMmddToken(tokens[0], year, month);
    ParseMmddToken(tokens[SummaryStart(tokens) - 1], year, month);
  }

  /** On a line of at least five tokens that starts with a date: the booking-date token is
      a date too, the card-number token has no blanks, and stripping the joined summary
      tokens changes nothing. */
  lemma TokenFacts(tokens: seq<string>)
    requires |tokens| >= 5 && IsDateToken(tokens[0]) && AllTokens(tokens)
    ensures IsDateToken(tokens[SummaryStart(tokens) - 1]) && IsToken(tokens[|tokens| - 2])
    ensures var middle := tokens[SummaryStart(tokens)..|tokens| - 3];
      Strip(Join(" ", middle)) == Join(" ", middle) && (Join(" ", middle) == [] <==> middle == [])
  {
    var middle := tokens[SummaryStart(tokens)..|tokens| - 3];
    assert tokens[|tokens| - 2] in tokens;
    assert forall t :: t in middle ==> IsToken(t);
    StripJoinedTokens(middle);
  }

  /** The last step: both month/day tokens have been read, the trade date first, and the
      first of them that failed is the error. */
  function DatedRow(tokens: seq<string>, summary: string, text: string, trade: Result<Date>,
                    booking: Result<Date>, section: Option<string>): (r: Result<Row>)
    requires |tokens| >= 5 && IsToken(tokens[|tokens| - 2])
    requires summary == Join(" ", tokens[SummaryStart(tokens)..|tokens| - 3])
    ensures r.Ok? <==> trade.Ok? && booking.Ok?
    ensures r.Ok? ==> TokenFields(r.value, tokens) && r.value.tradeDate == trade.value && r.value.bookingDate == booking.value
    ensures r.Ok? ==> r.value.section == section && r.value.rawLine == text
    ensures trade.Err? ==> r == Err(trade.error)
    ensures trade.Ok? && booking.Err? ==> r == Err(booking.error)
  {
    if trade.Err? then Err(trade.error)
    else if booking.Err? then Err(booking.error)
    else Ok(MakeRow(tokens, summary, trade.value, booking.value, text, section))
  }

  /** The row of a line whose dates have been read. */
  function MakeRow(tokens: seq<string>, summary: string, trade: Date, booking: Date, text: string,
                   section: Option<string>): (row: Row)
    requires |tokens| >= 5 && IsToken(tokens[|tokens| - 2])
    requires summary == Join(" ", tokens[SummaryStart(tokens)..|tokens| - 3])
    ensures TokenFields(row, tokens)
    ensures row.tradeDate == trade && row.bookingDate == booking
    ensures row.section == section && row.rawLine == text
  {
    var n := |tokens|;
    StripToken(tokens[n - 2]);
    Row(trade, booking, summary, tokens[n - 3], Strip(tokens[n - 2]), tokens[n - 1], section,
        tokens[0], tokens[SummaryStart(tokens) - 1], text)
  }

  /** Without a second date token the booking date is the trade date. */
  lemma BookingDefaultsToTrade(text: string, year: int, month: int, section: Option<string>)
    requires ParseTxnLine(text, year, month, section).Ok?
    requires !IsDateToken(Split(text)[1])
    ensures var row := ParseTxnLine(text, year, month, section).value;
      row.bookingDateRaw == row.tradeDateRaw && row.bookingDate == row.tradeDate
  {
  }

  // The table scan.

  /** How the scan parses a candidate line under the current section. The scan and its
      lemmas are stated for any such parser; the importer's is TxnParser. */
  type LineParser = (string, Option<string>) -> Result<Row>

  function TxnParser(year: int, month: int): LineParser {
    (text: string, section: Option<string>) => ParseTxnLine(text, year, month, section)
  }

  /** A parser whose rows remember their own line and section, as ParseTxnLine's do. */
  ghost predicate KeepsLine(parse: LineParser) {
    forall text, section :: parse(text, section).Ok? ==>
      parse(text, section).value.rawLine == text && parse(text, section).value.section == section
  }

  lemma TxnParserKeepsLine(year: int, month: int)
    ensures KeepsLine(TxnParser(year, month))
  {
    forall text, section | TxnParser(year, month)(text, section).Ok?
      ensures TxnParser(year, month)(text, section).value.rawLine == text
      ensures TxnParser(year, month)(text, section).value.section == section
    {
      ParseTxnLineRaw(text, year, month, section);
    }
  }

  lemma ParseTxnLineRaw(text: string, year: int, month: int, section: Option<string>)
    requires ParseTxnLine(text, year, month, section).Ok?
    ensures ParseTxnLine(text, year, month, section).value.rawLine == text
    ensures ParseTxnLine(text, year, month, section).value.section == section
  {
  }

  /** A line the parser rejects under every section. */
  ghost predicate Rejects(parse: LineParser, text: string) {
    forall s :: parse(text, s).Err?
  }

  /** The importer's parser rejects a line that is not well formed, whatever the section. */
  lemma TxnParserRejects(year: int, month: int, text: string)
    requires !WellFormed(text, year, month)
    ensures Rejects(TxnParser(year, month), text)
  {
  }

  /** A line that the table scan hands to the parser. */
  predicate IsCandidate(text: string) {
    text != "" && !IsFooter(text) && text != FullHeader && !IsNonTxnLine(text) && text !in SectionMarkers
  }

  /** What the scan does with one line. */
  datatype Action = Skip(inTable: bool, section: Option<string>) | Stop | Fail(error: Error) | Take(row: Row)

  /** One pass of the loop of _parse_rows. Empty lines are skipped; before the table only the
      header marker matters; a footer ends the scan; repeated headers, page furniture and
      section markers yield no row (a marker becomes the current section); any other line
      must parse, or the scan fails with its error. */
  function LineAction(text: string, inTable: bool, section: Option<string>, parse: LineParser): (r: Action)
    ensures r.Skip? && inTable ==> r.inTable
    ensures r.Skip? && !inTable ==> r.inTable == Contains(text, HeaderMarker)
    ensures r.Skip? && r.section != section ==> inTable && r.section == Some(text) && text in SectionMarkers
    ensures r.Stop? <==> inTable && text != "" && IsFooter(text)
    ensures r.Take? || r.Fail? <==> inTable && IsCandidate(text)
    ensures r.Take? ==> parse(text, section) == Ok(r.row)
    ensures r.Fail? ==> parse(text, section) == Err(r.error)
  {
    if text == "" then Skip(inTable, section)
    else if !inTable then Skip(Contains(text, HeaderMarker), section)
    else if IsFooter(text) then Stop
    else if text == FullHeader || IsNonTxnLine(text) then Skip(true, section)
    else if text in SectionMarkers then Skip(true, Some(text))
    else
      match parse(text, section)
      case Err(e) => Fail(e)
      case Ok(row) => Take(row)
  }

  /** _parse_rows on the lines from some point on, given whether the table header has been
      seen and the current section. */
  function Scan(lines: seq<string>, inTable: bool, section: Option<string>, parse: LineParser)
    : (r: Result<seq<Row>>)
    decreases |lines|
  {
    if lines == [] then Ok([])
    else
      match LineAction(lines[0], inTable, section, parse)
      case Skip(nowInTable, nowSection) => Scan(lines[1..], nowInTable, nowSection, parse)
      case Stop => Ok([])
      case Fail(e) => Err(e)
      case Take(row) => Then([row], Scan(lines[1..], inTable, section, parse))
  }

  /** The rows found so far, followed by those of the rest of the scan. */
  function Then(rows: seq<Row>, rest: Result<seq<Row>>): Result<seq<Row>> {
    if rest.Err? then rest else Ok(rows + rest.value)
  }

  lemma ThenNothing(rest: Result<seq<Row>>)
    ensures Then([], rest) == rest
  {
    if rest.Ok? {
      assert [] + rest.value == rest.value;
    }
  }

  lemma ThenThen(rows: seq<Row>, more: seq<Row>, rest: Result<seq<Row>>)
    ensures Then(rows, Then(more, rest)) == Then(rows + more, rest)
  {
    if rest.Ok? {
      assert rows + (more + rest.value) == rows + more + rest.value;
    }
  }

  /** _parse_rows: the scan with the importer's parser. */
  method ParseRows(lines: seq<string>, year: int, month: int) returns (r: Result<seq<Row>>)
    ensures r == Scan(lines, false, None, TxnParser(year, month))
  {
    r := ParseRowsWith(lines, TxnParser(year, month));
  }

  /** The loop of _parse_rows, with the header flag and the current section as its state,
      for any line parser. */
  method ParseRowsWith(lines: seq<string>, parse: LineParser) returns (r: Result<seq<Row>>)
    ensures r == Scan(lines, false, None, parse)
  {
    var rows: seq<Row> := [];
    var inTable := false;
    var section: Option<string> := None;
    var i := 0;
    assert lines[0..] == lines;
    ThenNothing(Scan(lines, false, None, parse));
    while i < |lines|
      invariant i <= |lines|
      invariant Scan(lines, false, None, parse) == Then(rows, Scan(lines[i..], inTable, section, parse))
    {
      var text := lines[i];
      ScanAt(lines, i, inTable, section, parse);
      if text == "" {
        assert LineAction(text, inTable, section, parse) == Skip(inTable, section);
      } else if !inTable {
        assert LineAction(text, inTable, section, parse) == Skip(Contains(text, HeaderMarker), section);
        inTable := Contains(text, HeaderMarker);
      } else if IsFooter(text) {
        assert LineAction(text, inTable, section, parse) == Stop;
        assert rows + [] == rows;
        return Ok(rows);
      } else if text == FullHeader || IsNonTxnLine(text) {
        assert LineAction(text, inTable, section, parse) == Skip(true, section);
      } else if text in SectionMarkers {
        assert LineAction(text, inTable, section, parse) == Skip(true, Some(text));
        section := Some(text);
      } else {
        var row := parse(text, section);
        if row.Err? {
          assert LineAction(text, inTable, section, parse) == Fail(row.error);
          return Err(row.error);
        }
        assert LineAction(text, inTable, section, parse) == Take(row.value);
        ThenThen(rows, [row.value], Scan(lines[i + 1..], inTable, section, parse));
        rows := rows + [row.value];
      }
      i := i + 1;
    }
    assert lines[i..] == [];
    assert rows + [] == rows;
    r := Ok(rows);
  }

  // What the scan does.

  /** The scan from line i on, by what line i does. */
  lemma ScanAt(lines: seq<string>, i: nat, inTable: bool, section: Option<string>, parse: LineParser)
    requires i < |lines|
    ensures Scan(lines[i..], inTable, section, parse) ==
      match LineAction(lines[i], inTable, section, parse)
      case Skip(nowInTable, nowSection) => Scan(lines[i + 1..], nowInTable, nowSection, parse)
      case Stop => Ok([])
      case Fail(e) => Err(e)
      case Take(row) => Then([row], Scan(lines[i + 1..], inTable, section, parse))
  {
    assert lines[i..][0] == lines[i] && lines[i..][1..] == lines[i + 1..];
  }

  /** One step of the scan. */
  lemma ScanStep(lines: seq<string>, inTable: bool, section: Option<string>, parse: LineParser)
    requires lines != []
    ensures var a := LineAction(lines[0], inTable, section, parse);
      (a.Skip? ==> Scan(lines, inTable, section, parse) == Scan(lines[1..], a.inTable, a.section, parse)) &&
      (a.Stop? ==> Scan(lines, inTable, section, parse) == Ok([])) &&
      (a.Fail? ==> Scan(lines, inTable, section, parse) == Err(a.error)) &&
      (a.Take? ==> Scan(lines, inTable, section, parse) == Then([a.row], Scan(lines[1..], inTable, section, parse)))
  {
  }

  /** Line j contains the header marker. */
  predicate HeaderAt(lines: seq<string>, j: int)
    requires 0 <= j < |lines|
  {
    Contains(lines[j], HeaderMarker)
  }

  /** The first line that contains the header marker. */
  function FirstHeader(lines: seq<string>): (r: Option<nat>)
    ensures r.Some? ==> r.value < |lines| && HeaderAt(lines, r.value)
    ensures r.Some? ==> forall j :: 0 <= j < r.value ==> !HeaderAt(lines, j)
    ensures r.None? ==> forall j :: 0 <= j < |lines| ==> !HeaderAt(lines, j)
  {
    if lines == [] then None
    else if Contains(lines[0], HeaderMarker) then Some(0)
    else
      HeaderShift(lines);
      match FirstHeader(lines[1..])
      case None => None
      case Some(i) => Some(i + 1)
  }

  lemma HeaderShift(lines: seq<string>)
    requires lines != []
    ensures forall j :: 0 < j < |lines| ==> HeaderAt(lines[1..], j - 1) == HeaderAt(lines, j)
  {
    forall j | 0 < j < |lines| ensures HeaderAt(lines[1..], j - 1) == HeaderAt(lines, j) {
      assert lines[1..][j - 1] == lines[j];
    }
  }

  /** No line before the header, and not the header line itself, yields a row: the scan is
      the in-table scan of the lines after the first header line, and nothing when there is
      no header line. */
  lemma {:induction false} ScanFromHeader(lines: seq<string>, section: Option<string>, parse: LineParser)
    ensures FirstHeader(lines).None? ==> Scan(lines, false, section, parse) == Ok([])
    ensures FirstHeader(lines).Some? ==>
      Scan(lines, false, section, parse) == Scan(lines[FirstHeader(lines).value + 1..], true, section, parse)
    decreases |lines|
  {
    if lines != [] {
      ScanStep(lines, false, section, parse);
      assert Contains(lines[0], HeaderMarker) ==> lines[0] != "";
      if !Contains(lines[0], HeaderMarker) {
        ScanFromHeader(lines[1..], section, parse);
        match FirstHeader(lines[1..])
        case None =>
        case Some(i) => assert lines[1..][i + 1..] == lines[i + 2..];
      }
    }
  }

  /** A footer line ends the table: whatever follows it, also further headers and lines that
      would not parse, is never looked at. */
  lemma {:induction false} ScanStopsAtFooter(lines: seq<string>, i: nat, section: Option<string>,
                                             parse: LineParser)
    requires i < |lines| && IsFooter(lines[i])
    ensures Scan(lines, true, section, parse) == Scan(lines[..i], true, section, parse)
    decreases i
  {
    var rest := lines[..i];
    ScanStep(lines, true, section, parse);
    if i == 0 {
      NotFooterEmpty();
      assert rest == [];
    } else {
      assert rest[0] == lines[0] && rest[1..] == lines[1..][..i - 1];
      ScanStep(rest, true, section, parse);
      var a := LineAction(lines[0], true, section, parse);
      if a.Skip? {
        ScanStopsAtFooter(lines[1..], i - 1, a.section, parse);
      } else if a.Take? {
        ScanStopsAtFooter(lines[1..], i - 1, section, parse);
      }
    }
  }

  lemma NotFooterEmpty()
    ensures !IsFooter("")
  {
    assert !StartsWith("", "本期还款总额") && !StartsWith("", "本期应还金额");
    assert !Contains("", "Current Balance") && !Contains("", "New Balance");
  }

  function RawLines(rows: seq<Row>): (r: seq<string>)
    ensures |r| == |rows| && forall k :: 0 <= k < |rows| ==> r[k] == rows[k].rawLine
  {
    seq(|rows|, k requires 0 <= k < |rows| => rows[k].rawLine)
  }

  /** Each row is what the parser makes of its own line, a candidate line, under its own
      section. */
  ghost predicate RowsParsed(rows: seq<Row>, parse: LineParser) {
    forall k :: 0 <= k < |rows| ==>
      IsCandidate(rows[k].rawLine) && parse(rows[k].rawLine, rows[k].section) == Ok(rows[k])
  }

  /** Every row of a successful scan is the parse of one of the candidate lines, under the
      section in force there. */
  lemma {:induction false} ScanRows(lines: seq<string>, inTable: bool, section: Option<string>,
                                    parse: LineParser, rows: seq<Row>)
    requires KeepsLine(parse)
    requires Scan(lines, inTable, section, parse) == Ok(rows)
    ensures RowsParsed(rows, parse)
    decreases |lines|
  {
    if lines != [] {
      var a := LineAction(lines[0], inTable, section, parse);
      ScanStep(lines, inTable, section, parse);
      if a.Skip? {
        ScanRows(lines[1..], a.inTable, a.section, parse, rows);
      } else if a.Take? {
        var more := Scan(lines[1..], inTable, section, parse).value;
        assert rows == [a.row] + more;
        ScanRows(lines[1..], inTable, section, parse, more);
        assert a.row.rawLine == lines[0] && a.row.section == section;
      }
    }
  }

  /** The rows come in the order of their lines. */
  lemma {:induction false} ScanSubseq(lines: seq<string>, inTable: bool, section: Option<string>,
                                      parse: LineParser, rows: seq<Row>)
    requires KeepsLine(parse)
    requires Scan(lines, inTable, section, parse) == Ok(rows)
    ensures IsSubseq(RawLines(rows), lines)
    decreases |lines|
  {
    if lines != [] {
      var a := LineAction(lines[0], inTable, section, parse);
      ScanStep(lines, inTable, section, parse);
      if a.Skip? {
        ScanSubseq(lines[1..], a.inTable, a.section, parse, rows);
      } else if a.Take? {
        var more := Scan(lines[1..], inTable, section, parse).value;
        assert rows == [a.row] + more;
        ScanSubseq(lines[1..], inTable, section, parse, more);
        assert a.row.rawLine == lines[0];
        assert RawLines(rows)[1..] == RawLines(more);
      }
    }
  }

  /** The section of each row is the one the scan started with or a marker line that
      precedes it. */
  lemma {:induction false} ScanSections(lines: seq<string>, inTable: bool, section: Option<string>,
                                        parse: LineParser, rows: seq<Row>)
    requires KeepsLine(parse)
    requires Scan(lines, inTable, section, parse) == Ok(rows)
    ensures forall k :: 0 <= k < |rows| ==>
      rows[k].section == section ||
      (rows[k].section.Some? && rows[k].section.value in SectionMarkers && rows[k].section.value in lines)
    decreases |lines|
  {
    if lines != [] {
      var a := LineAction(lines[0], inTable, section, parse);
      ScanStep(lines, inTable, section, parse);
      var next := if a.Skip? then a.section else section;
      if a.Skip? || a.Take? {
        var more := Scan(lines[1..], if a.Skip? then a.inTable else inTable, next, parse).value;
        ScanSections(lines[1..], if a.Skip? then a.inTable else inTable, next, parse, more);
        assert a.Take? ==> rows == [a.row] + more;
        assert a.Skip? ==> rows == more;
        forall k | 0 <= k < |rows|
          ensures rows[k].section == section ||
            (rows[k].section.Some? && rows[k].section.value in SectionMarkers && rows[k].section.value in lines)
        {
          if a.Take? && k == 0 {
            assert rows[k].section == section;
          } else {
            var m := if a.Take? then k - 1 else k;
            assert rows[k] == more[m];
            if more[m].section != next {
              var j :| 0 <= j < |lines[1..]| && lines[1..][j] == more[m].section.value;
              assert lines[j + 1] == more[m].section.value;
            }
          }
        }
      }
    }
  }

  /** No line of ls is a footer. */
  predicate NoFooter(ls: seq<string>) {
    forall j :: 0 <= j < |ls| ==> !IsFooter(ls[j])
  }

  /** A line the table scan must parse that no section lets parse makes the whole scan fail,
      unless a footer comes first. */
  lemma {:induction false} ScanFailsOnBadLine(lines: seq<string>, i: nat, section: Option<string>,
                                              parse: LineParser)
    requires i < |lines| && IsCandidate(lines[i]) && Rejects(parse, lines[i])
    requires NoFooter(lines[..i])
    ensures Scan(lines, true, section, parse).Err?
    decreases i
  {
    var a := LineAction(lines[0], true, section, parse);
    ScanStep(lines, true, section, parse);
    if i == 0 {
      assert a.Fail?;
    } else {
      assert lines[1..][i - 1] == lines[i];
      assert lines[..i][0] == lines[0];
      assert lines[1..][..i - 1] == lines[..i][1..];
      if a.Skip? {
        ScanFailsOnBadLine(lines[1..], i - 1, a.section, parse);
      } else if a.Take? {
        ScanFailsOnBadLine(lines[1..], i - 1, section, parse);
      } else {
        assert !a.Stop?;
      }
    }
  }

  /** What the scan from the start returns: rows in line order, each the parse of a
      candidate line after the header, under no section or under a marker line. */
  lemma ScanFound(lines: seq<string>, parse: LineParser, rows: seq<Row>)
    requires KeepsLine(parse)
    requires Scan(lines, false, None, parse) == Ok(rows)
    ensures IsSubseq(RawLines(rows), lines)
    ensures RowsParsed(rows, parse)
    ensures forall k :: 0 <= k < |rows| ==>
      rows[k].section == None || (rows[k].section.value in SectionMarkers && rows[k].section.value in lines)
    ensures FirstHeader(lines).None? ==> rows == []
  {
    ScanFromHeader(lines, None, parse);
    if FirstHeader(lines).Some? {
      var h := FirstHeader(lines).value;
      ScanFromHeaderAt(lines, h, None, parse);
      ScanSubseq(lines[h + 1..], true, None, parse, rows);
      SubseqOfSuffix(RawLines(rows), lines, h + 1);
      ScanRows(lines[h + 1..], true, None, parse, rows);
      SectionsInTail(lines, h, parse, rows);
    }
  }

  lemma SectionsInTail(lines: seq<string>, h: nat, parse: LineParser, rows: seq<Row>)
    requires h < |lines| && KeepsLine(parse)
    requires Scan(lines[h + 1..], true, None, parse) == Ok(rows)
    ensures forall k :: 0 <= k < |rows| ==>
      rows[k].section == None || (rows[k].section.value in SectionMarkers && rows[k].section.value in lines)
  {
    var tail := lines[h + 1..];
    ScanSections(tail, true, None, parse, rows);
    forall k | 0 <= k < |rows| && rows[k].section.Some?
      ensures rows[k].section.value in lines
    {
      InSuffix(lines, h + 1, rows[k].section.value);
    }
  }

  lemma InSuffix(lines: seq<string>, a: nat, x: string)
    requires a <= |lines| && x in lines[a..]
    ensures x in lines
  {
    var j :| 0 <= j < |lines[a..]| && lines[a..][j] == x;
    assert lines[a + j] == x;
  }

  /** After the header, a candidate line that no section lets parse fails the whole scan
      unless a footer comes before it. */
  lemma ScanFails(lines: seq<string>, parse: LineParser, h: nat, i: nat)
    requires FirstHeader(lines) == Some(h) && h < i < |lines|
    requires IsCandidate(lines[i]) && Rejects(parse, lines[i])
    requires NoFooter(lines[h + 1..i])
    ensures Scan(lines, false, None, parse).Err?
  {
    TailFails(lines, h, parse, i);
    ScanFromHeaderAt(lines, h, None, parse);
  }

  lemma TailFails(lines: seq<string>, h: nat, parse: LineParser, i: nat)
    requires h < i < |lines|
    requires IsCandidate(lines[i]) && Rejects(parse, lines[i])
    requires NoFooter(lines[h + 1..i])
    ensures Scan(lines[h + 1..], true, None, parse).Err?
  {
    SliceOfSuffix(lines, h + 1, i);
    ScanFailsOnBadLine(lines[h + 1..], i - h - 1, None, parse);
  }

  lemma SliceOfSuffix(lines: seq<string>, a: nat, b: nat)
    requires a <= b < |lines|
    ensures lines[a..][b - a] == lines[b] && lines[a..][..b - a] == lines[a..b]
  {
  }

  lemma ScanFromHeaderAt(lines: seq<string>, h: nat, section: Option<string>, parse: LineParser)
    requires FirstHeader(lines) == Some(h)
    ensures Scan(lines, false, section, parse) == Scan(lines[h + 1..], true, section, parse)
  {
    ScanFromHeader(lines, section, parse);
  }

  /** What _parse_rows returns: rows in line order, each the ParseTxnLine of a candidate
      line after the header, under no section or under a marker line of the statement. */
  lemma ParseRowsFound(lines: seq<string>, year: int, month: int, rows: seq<Row>)
    requires Scan(lines, false, None, TxnParser(year, month)) == Ok(rows)
    ensures IsSubseq(RawLines(rows), lines)
    ensures forall k :: 0 <= k < |rows| ==>
      IsCandidate(rows[k].rawLine) && ParseTxnLine(rows[k].rawLine, year, month, rows[k].section) == Ok(rows[k])
    ensures forall k :: 0 <= k < |rows| ==>
      rows[k].section == None || (rows[k].section.value in SectionMarkers && rows[k].section.value in lines)
    ensures FirstHeader(lines).None? ==> rows == []
  {
    TxnParserKeepsLine(year, month);
    ScanFound(lines, TxnParser(year, month), rows);
  }

  /** After the header, a candidate line that is not well formed fails the whole statement
      unless a footer comes before it. */
  lemma ParseRowsFails(lines: seq<string>, year: int, month: int, h: nat, i: nat)
    requires FirstHeader(lines) == Some(h) && h < i < |lines|
    requires IsCandidate(lines[i]) && !WellFormed(lines[i], year, month)
    requires NoFooter(lines[h + 1..i])
    ensures Scan(lines, false, None, TxnParser(year, month)).Err?
  {
    TxnParserRejects(year, month, lines[i]);
    ScanFails(lines, TxnParser(year, month), h, i);
  }

  // extract_amount.

  /** A match of [-+]?\d+(?:\.\d+)? starts at p: a digit, or a sign right before a digit. */
  predicate NumberAt(s: string, p: nat) {
    p < |s| && (IsDigit(s[p]) || ((s[p] == '+' || s[p] == '-') && p + 1 < |s| && IsDigit(s[p + 1])))
  }

  /** The number of digits in the run that starts at p. */
  function DigitRun(s: string, p: nat): (n: nat)
    requires p <= |s|
    ensures p + n <= |s| && (forall k :: p <= k < p + n ==> IsDigit(s[k]))
    ensures p + n == |s| || !IsDigit(s[p + n])
    decreases |s| - p
  {
    if p < |s| && IsDigit(s[p]) then 1 + DigitRun(s, p + 1) else 0
  }

  /** Where the match starting at p ends: the sign, every digit of the run, then a point and
      its digit run when at least one digit follows the point. */
  function NumberEnd(s: string, p: nat): (e: nat)
    requires NumberAt(s, p)
    ensures p < e <= |s|
  {
    var q := if IsDigit(s[p]) then p else p + 1;
    var e := q + DigitRun(s, q);
    if e + 1 < |s| && s[e] == '.' && IsDigit(s[e + 1]) then e + 1 + DigitRun(s, e + 1) else e
  }

  /** re.search: the leftmost position at or after `from` where a match starts. */
  function FirstNumber(s: string, from: nat): (r: Option<nat>)
    ensures r.Some? ==> from <= r.value && NumberAt(s, r.value)
    ensures r.Some? ==> forall p: nat :: from <= p < r.value ==> !NumberAt(s, p)
    ensures r.None? ==> forall p: nat :: from <= p ==> !NumberAt(s, p)
    decreases |s| - from
  {
    if from >= |s| then None
    else if NumberAt(s, from) then Some(from)
    else FirstNumber(s, from + 1)
  }

  /** Where the digits of the match starting at p begin: after the sign, if any. */
  function DigitsStart(s: string, p: nat): (q: nat)
    requires NumberAt(s, p)
    ensures q < |s| && IsDigit(s[q]) && q < NumberEnd(s, p) && (q == p || q == p + 1)
  {
    if IsDigit(s[p]) then p else p + 1
  }

  /** The matched text after its sign is an unsigned decimal literal ending in a digit. */
  lemma MatchBody(s: string, p: nat)
    requires NumberAt(s, p)
    ensures var q := DigitsStart(s, p); var e := NumberEnd(s, p);
      IsDecimalBody(s[q..e]) && IsDigit(s[e - 1])
  {
    var e := NumberEnd(s, p);
    var q := DigitsStart(s, p);
    var e1 := q + DigitRun(s, q);
    if e1 == e {
      assert AllDigits(s[q..e]);
    } else {
      var ip, fp := s[q..e1], s[e1 + 1..e];
      assert s[q..e] == ip + "." + fp;
      PointBody(ip, fp);
    }
  }

  /** The matched text is a decimal literal with nothing to strip. */
  lemma MatchIsLiteral(s: string, p: nat)
    requires NumberAt(s, p)
    ensures ParseDecimal(s[p..NumberEnd(s, p)]).Ok?
  {
    var e := NumberEnd(s, p);
    var q := DigitsStart(s, p);
    var body := s[q..e];
    MatchBody(s, p);
    assert IsDigit(body[0]) && IsDigit(body[|body| - 1]);
    if q == p {
      ParsePlainBody(body);
    } else if s[p] == '-' {
      assert s[p..e] == "-" + body;
      ParseNegBody(body);
    } else {
      assert s[p..e] == "+" + body;
      ParsePosBody(body);
    }
  }

  /** raw.split("/")[-1].replace(",", "").strip(): the text after the last slash, without
      thousands separators. */
  function Cleaned(raw: string): (r: string)
    ensures ',' !in r && '/' !in r
  {
    var tail := AfterLast(raw, '/');
    WithoutDrops(tail, ',');
    StripKeeps(Without(tail, ','), ',');
    StripKeeps(Without(tail, ','), '/');
    Strip(Without(tail, ','))
  }

  /** extract_amount: the leftmost number in the cleaned text, negated when the cleaned text
      is in parentheses; no number at all raises. */
  function ExtractAmount(raw: string): (r: Result<Dec>)
    ensures r.Err? <==> forall p: nat :: !NumberAt(Cleaned(raw), p)
    ensures r.Err? ==> r.error == NoAmount(raw)
    ensures r.Ok? ==> var c := Cleaned(raw); var p := FirstNumber(c, 0).value;
      ParseDecimal(c[p..NumberEnd(c, p)]) == Ok(if Parenthesised(c) then r.value.Neg() else r.value)
  {
    var c := Cleaned(raw);
    match FirstNumber(c, 0)
    case None => Err(NoAmount(raw))
    case Some(p) =>
      MatchIsLiteral(c, p);
      var v := ParseDecimal(c[p..NumberEnd(c, p)]).value;
      assert v.Neg().Neg() == v;
      Ok(if Parenthesised(c) then v.Neg() else v)
  }

  /** A plain numeral: digits, or digits, a point and digits. */
  predicate PlainNumeral(n: string) {
    n != [] && IsDigit(n[0]) && IsDigit(n[|n| - 1]) && IsDecimalBody(n)
  }

  /** A plain numeral written at p, followed by neither a digit nor a point, is one whole
      match. */
  lemma NumberSpan(s: string, p: nat, n: string)
    requires PlainNumeral(n) && p + |n| <= |s| && s[p..p + |n|] == n
    requires p + |n| == |s| || (!IsDigit(s[p + |n|]) && s[p + |n|] != '.')
    ensures NumberAt(s, p) && NumberEnd(s, p) == p + |n|
  {
    assert s[p] == n[0];
    if '.' in n {
      var i := IndexOf(n, '.');
      assert AllDigits(n[..i]) && AllDigits(n[i + 1..]);
      assert 0 < i < |n| - 1;
      forall k | p <= k < p + i ensures IsDigit(s[k]) {
        assert s[k] == n[..i][k - p];
      }
      forall k | p + i + 1 <= k < p + |n| ensures IsDigit(s[k]) {
        assert s[k] == n[i + 1..][k - p - i - 1];
      }
      NumberSpanPoint(s, p, i, |n|);
    } else {
      forall k | p <= k < p + |n| ensures IsDigit(s[k]) {
        assert s[k] == n[k - p];
      }
      RunLength(s, p, |n|);
    }
  }

  /** Digits from p to p + i, a point, then digits up to p + len. */
  lemma NumberSpanPoint(s: string, p: nat, i: nat, len: nat)
    requires 0 < i < len - 1 && p + len <= |s| && s[p + i] == '.'
    requires forall k :: p <= k < p + i ==> IsDigit(s[k])
    requires forall k :: p + i + 1 <= k < p + len ==> IsDigit(s[k])
    requires p + len == |s| || (!IsDigit(s[p + len]) && s[p + len] != '.')
    ensures NumberAt(s, p) && NumberEnd(s, p) == p + len
  {
    RunLength(s, p, i);
    RunLength(s, p + i + 1, len - i - 1);
  }

  lemma {:induction false} RunLength(s: string, p: nat, k: nat)
    requires p + k <= |s| && (forall j :: p <= j < p + k ==> IsDigit(s[j]))
    requires p + k == |s| || !IsDigit(s[p + k])
    ensures DigitRun(s, p) == k
    decreases k
  {
    if k > 0 {
      RunLength(s, p + 1, k - 1);
    }
  }

  /** A plain amount, thousands separators allowed, reads as its value; in parentheses it
      reads as the negated value. */
  lemma ExtractPlain(raw: string)
    requires '/' !in raw && PlainNumeral(Without(raw, ','))
    ensures ExtractAmount(raw) == Ok(BodyValue(Without(raw, ',')))
    ensures ExtractAmount("(" + raw + ")") == Ok(BodyValue(Without(raw, ',')).Neg())
  {
    ExtractBare(raw);
    ExtractParenthesised(raw);
  }

  lemma ExtractBare(raw: string)
    requires '/' !in raw && PlainNumeral(Without(raw, ','))
    ensures ExtractAmount(raw) == Ok(BodyValue(Without(raw, ',')))
  {
    CleanedPlain(raw);
    ExtractCleanedBare(raw);
  }

  lemma ExtractParenthesised(raw: string)
    requires '/' !in raw && PlainNumeral(Without(raw, ','))
    ensures ExtractAmount("(" + raw + ")") == Ok(BodyValue(Without(raw, ',')).Neg())
  {
    CleanedParenthesised(raw);
    ExtractCleanedParen("(" + raw + ")", Without(raw, ','));
  }

  /** Without slashes and surrounding whitespace, the cleaned text is the text without its
      commas. */
  lemma CleanedPlain(raw: string)
    requires '/' !in raw && PlainNumeral(Without(raw, ','))
    ensures Cleaned(raw) == Without(raw, ',')
  {
    var n := Without(raw, ',');
    StripDigitEnds(n);
  }

  lemma CleanedParenthesised(raw: string)
    requires '/' !in raw && PlainNumeral(Without(raw, ','))
    ensures Cleaned("(" + raw + ")") == "(" + Without(raw, ',') + ")"
  {
    var w := "(" + raw + ")";
    ParensWithout(raw);
    assert '/' !in w;
    assert AfterLast(w, '/') == w;
    StripParens(Without(raw, ','));
  }

  lemma ParensWithout(raw: string)
    ensures Without("(" + raw + ")", ',') == "(" + Without(raw, ',') + ")"
  {
    WithoutConcat("(" + raw, ")", ',');
    WithoutConcat("(", raw, ',');
    WithoutAbsent("(", ',');
    WithoutAbsent(")", ',');
  }

  /** The amount is the decimal at the leftmost match, negated under parentheses. */
  lemma ExtractAt(raw: string, p: nat, v: Dec)
    requires FirstNumber(Cleaned(raw), 0) == Some(p)
    requires ParseDecimal(Cleaned(raw)[p..NumberEnd(Cleaned(raw), p)]) == Ok(v)
    ensures ExtractAmount(raw) == Ok(if Parenthesised(Cleaned(raw)) then v.Neg() else v)
  {
  }

  /** A cleaned text that is a plain numeral reads as the numeral's value. */
  lemma ExtractCleanedBare(raw: string)
    requires PlainNumeral(Cleaned(raw))
    ensures ExtractAmount(raw) == Ok(BodyValue(Cleaned(raw)))
  {
    var c := Cleaned(raw);
    assert FirstNumber(c, 0) == Some(0) && c[0..NumberEnd(c, 0)] == c by {
      NumberSpan(c, 0, c);
    }
    ParsePlainBody(c);
    assert !Parenthesised(c);
    ExtractAt(raw, 0, BodyValue(c));
  }

  /** A cleaned text that is a plain numeral in parentheses reads as the numeral's value,
      negated. */
  lemma ExtractCleanedParen(raw: string, n: string)
    requires Cleaned(raw) == "(" + n + ")" && PlainNumeral(n)
    ensures ExtractAmount(raw) == Ok(BodyValue(n).Neg())
  {
    ParenMatch(n);
    ParsePlainBody(n);
    ParenthesisedOf(n);
    ExtractAt(raw, 1, BodyValue(n));
  }

  /** In "(n)" the match is n. */
  lemma ParenMatch(n: string)
    requires PlainNumeral(n)
    ensures var c := "(" + n + ")"; FirstNumber(c, 0) == Some(1) && c[1..NumberEnd(c, 1)] == n
  {
    var c := "(" + n + ")";
    assert c[1..1 + |n|] == n;
    assert c[1 + |n|] == ')';
    NumberSpan(c, 1, n);
    assert !NumberAt(c, 0);
  }

  /** Only the text after the last slash counts: "人民币元/1,234.50" reads as "1,234.50". */
  lemma ExtractAfterSlash(head: string, tail: string)
    requires '/' !in tail
    ensures Cleaned(head + "/" + tail) == Cleaned(tail)
    ensures ExtractAmount(head + "/" + tail).Ok? == ExtractAmount(tail).Ok?
    ensures ExtractAmount(tail).Ok? ==> ExtractAmount(head + "/" + tail) == ExtractAmount(tail)
  {
    AfterLastOf(head, '/', tail);
  }

  // normalize_currency.

  /** The importer's currency map: the one given, or {"人民币元": "CNY"} when none (or an
      empty one) is given. */
  function CurrencyMap(given: Dict): (r: Dict)
    ensures given != [] ==> r == given
    ensures given == [] ==> Get(r, "人民币元") == Some("CNY") && Keys(r) == ["人民币元"]
  {
    if given == [] then [("人民币元", "CNY")] else given
  }

  /** normalize_currency: the label before the first slash, stripped, looked up in the map;
      a label the map lacks raises, naming the known labels in sorted order. */
  function NormalizeCurrency(raw: string, mapping: Dict): (r: Result<string>)
    ensures var head := Strip(BeforeFirst(raw, '/'));
      (r.Ok? <==> head in Keys(mapping)) &&
      (r.Ok? ==> Get(mapping, head) == Some(r.value)) &&
      (r.Err? ==> r.error == UnknownCurrency(head, SortedKeys(mapping)))
  {
    var head := Strip(BeforeFirst(raw, '/'));
    match Get(mapping, head)
    case None => Err(UnknownCurrency(head, SortedKeys(mapping)))
    case Some(code) => Ok(code)
  }

  /** Whatever follows the first slash does not matter. */
  lemma NormalizeCurrencyLabel(name: string, rest: string, mapping: Dict)
    requires '/' !in name
    ensures NormalizeCurrency(name + "/" + rest, mapping) == NormalizeCurrency(name, mapping)
  {
    var s := name + "/" + rest;
    assert s[..|name|] == name && s[|name|] == '/';
    IndexOfAt(s, '/', |name|);
    assert BeforeFirst(s, '/') == name;
  }

  // The statement month, from the file path.

  /** (\d{4})-(\d{2}) matches at p. */
  predicate YearMonthAt(path: string, p: nat) {
    p + 7 <= |path| && AllDigits(path[p..p + 4]) && path[p + 4] == '-' && AllDigits(path[p + 5..p + 7])
  }

  /** The rest of .*(\d{4})-(\d{2}).*.pdf after the groups: "pdf" preceded by at least one
      character after the month. */
  predicate PdfAfter(path: string, p: nat) {
    FindFrom(path, "pdf", p + 8).Some?
  }

  /** The greedy leading .* makes the groups the last place, below k, where the rest of
      the pattern can follow. */
  function LastYearMonth(path: string, k: nat): (r: Option<nat>)
    ensures r.Some? ==> r.value < k && YearMonthAt(path, r.value) && PdfAfter(path, r.value)
    ensures r.Some? ==> forall p: nat :: r.value < p < k ==> !(YearMonthAt(path, p) && PdfAfter(path, p))
    ensures r.None? ==> forall p: nat :: p < k ==> !(YearMonthAt(path, p) && PdfAfter(path, p))
  {
    if k == 0 then None
    else if YearMonthAt(path, k - 1) && PdfAfter(path, k - 1) then Some(k - 1)
    else LastYearMonth(path, k - 1)
  }

  /** The year and month extract infers from the path (int() of each group); a path that
      does not match raises. */
  function YearMonth(path: string): (r: Result<(nat, nat)>)
    ensures r.Err? <==> forall p: nat :: !(YearMonthAt(path, p) && PdfAfter(path, p))
    ensures r.Err? ==> r.error == NoYearMonth(path)
    ensures r.Ok? ==> var p := LastYearMonth(path, |path|).value;
      r.value.0 < 10000 && r.value.1 < 100 &&
      ZeroPad(r.value.0, 4) == path[p..p + 4] && ZeroPad(r.value.1, 2) == path[p + 5..p + 7]
  {
    match LastYearMonth(path, |path|)
    case None => Err(NoYearMonth(path))
    case Some(p) =>
      ZeroPadDigits(path[p..p + 4]);
      ZeroPadDigits(path[p + 5..p + 7]);
      Ok((DigitsValue(path[p..p + 4]), DigitsValue(path[p + 5..p + 7])))
  }

  /** period_tag: f"credit-cmb-{year:04d}-{month:02d}". */
  function PeriodTag(year: nat, month: nat): string {
    "credit-cmb-" + ZeroPad(year, 4) + "-" + ZeroPad(month, 2)
  }

  /** The period tag repeats the file name's year and month as written. */
  lemma PeriodTagOfPath(path: string)
    requires YearMonth(path).Ok?
    ensures var p := LastYearMonth(path, |path|).value; var ym := YearMonth(path).value;
      PeriodTag(ym.0, ym.1) == "credit-cmb-" + path[p..p + 4] + "-" + path[p + 5..p + 7]
  {
  }

  // From rows to transactions.

  const InstallmentTag: string := "installment"

  /** One row's transaction: minus the extracted amount in CNY; an installment row is dated
      by its booking date, flagged for review and tagged as an installment. */
  function RowTxn(row: Row, account: string, tag: string): (r: Result<Transaction>)
    ensures r.Ok? <==> ExtractAmount(row.amount).Ok?
    ensures r.Err? ==> r.error == NoAmount(row.amount)
    ensures r.Ok? ==> r.value.payee == Some(row.summary) && r.value.narration == None
    ensures r.Ok? ==> r.value.postings == [Posting(account, Amount(ExtractAmount(row.amount).value.Neg(), "CNY"))]
    ensures r.Ok? && row.section == Some(Installment) ==>
      r.value.date == row.bookingDate && r.value.flag == FlagWarning && r.value.tags == {tag, InstallmentTag}
    ensures r.Ok? && row.section != Some(Installment) ==>
      r.value.date == row.tradeDate && r.value.flag == FlagOkay && r.value.tags == {tag}
  {
    match ExtractAmount(row.amount)
    case Err(e) => Err(e)
    case Ok(v) =>
      var installment := row.section == Some(Installment);
      var date := if installment then row.bookingDate else row.tradeDate;
      var flag := if installment then FlagWarning else FlagOkay;
      var tags := if installment then {tag, InstallmentTag} else {tag};
      Ok(Transaction(date, flag, Some(row.summary), None, tags, [Posting(account, Amount(v.Neg(), "CNY"))]))
  }

  /** A charge written as a plain amount posts its negation. */
  lemma RowTxnCharge(row: Row, account: string, tag: string)
    requires '/' !in row.amount && PlainNumeral(Without(row.amount, ','))
    ensures RowTxn(row, account, tag).Ok?
    ensures RowTxn(row, account, tag).value.postings[0].units.number == BodyValue(Without(row.amount, ',')).Neg()
  {
    ExtractBare(row.amount);
  }

  /** An amount written in parentheses (a refund or a repayment) posts the amount itself. */
  lemma RowTxnCredit(row: Row, account: string, tag: string, n: string)
    requires row.amount == "(" + n + ")" && '/' !in n && PlainNumeral(Without(n, ','))
    ensures RowTxn(row, account, tag).Ok?
    ensures RowTxn(row, account, tag).value.postings[0].units.number == BodyValue(Without(n, ','))
  {
    ExtractParenthesised(n);
    assert BodyValue(Without(n, ',')).Neg().Neg() == BodyValue(Without(n, ','));
  }

  /** extract, as a function of the path and the statement's text lines. */
  function Extract(path: string, lines: seq<string>, account: string): Result<seq<Transaction>> {
    match YearMonth(path)
    case Err(e) => Err(e)
    case Ok(ym) =>
      match Scan(lines, false, None, TxnParser(ym.0, ym.1))
      case Err(e) => Err(e)
      case Ok(rows) => MapAll(row => RowTxn(row, account, PeriodTag(ym.0, ym.1)), rows)
  }

  /** extract: the period from the path, the rows from the lines, then the rows'
      transactions. */
  method ExtractStatement(path: string, lines: seq<string>, account: string)
    returns (r: Result<seq<Transaction>>)
    ensures r == Extract(path, lines, account)
  {
    var ym := YearMonth(path);
    if ym.Err? {
      return Err(ym.error);
    }
    var year, month := ym.value.0, ym.value.1;
    var parsed := ParseRows(lines, year, month);
    if parsed.Err? {
      return Err(parsed.error);
    }
    r := RowTxns(parsed.value, account, PeriodTag(year, month));
  }

  /** The loop over the rows: one transaction per row, appended in order; the first row
      whose amount cannot be read raises. */
  method RowTxns(rows: seq<Row>, account: string, tag: string) returns (r: Result<seq<Transaction>>)
    ensures r == MapAll(row => RowTxn(row, account, tag), rows)
  {
    var f := row => RowTxn(row, account, tag);
    var results := [];
    var i := 0;
    assert rows[..0] == [];
    while i < |rows|
      invariant i <= |rows|
      invariant MapAll(f, rows[..i]) == Ok(results)
    {
      MapAllStep(f, rows, i);
      var t := RowTxn(rows[i], account, tag);
      if t.Err? {
        MapAllErrSticky(f, rows, i + 1);
        return Err(t.error);
      }
      results := results + [t.value];
      i := i + 1;
    }
    assert rows[..i] == rows;
    r := Ok(results);
  }

  /** One transaction per parsed row, in row order, each tagged with the statement period. */
  lemma ExtractTxns(path: string, lines: seq<string>, account: string, txns: seq<Transaction>)
    requires Extract(path, lines, account) == Ok(txns)
    ensures YearMonth(path).Ok?
    ensures var ym := YearMonth(path).value;
      Scan(lines, false, None, TxnParser(ym.0, ym.1)).Ok? &&
      var rows := Scan(lines, false, None, TxnParser(ym.0, ym.1)).value;
      |txns| == |rows| &&
      forall k :: 0 <= k < |rows| ==>
        RowTxn(rows[k], account, PeriodTag(ym.0, ym.1)) == Ok(txns[k]) &&
        PeriodTag(ym.0, ym.1) in txns[k].tags
  {
    var ym := YearMonth(path).value;
    var rows := Scan(lines, false, None, TxnParser(ym.0, ym.1)).value;
    MapAllOk(row => RowTxn(row, account, PeriodTag(ym.0, ym.1)), rows, txns);
  }

  /** identify: the file name starts with "CreditCardReckoning" and ends with ".pdf" in any
      letter case. */
  predicate Identify(path: string) {
    StartsWith(BaseName(path), "CreditCardReckoning") && EndsWith(AsciiLower(BaseName(path)), ".pdf")
  }

  /** A statement saved as <dir>/CreditCardReckoning<anything><ext> is recognised when the
      extension is ".pdf" in any case. */
  lemma IdentifyNamed(dir: string, stem: string, ext: string)
    requires AsciiLower(ext) == ".pdf" && '/' !in stem && '/' !in ext
    ensures Identify(dir + "/" + "CreditCardReckoning" + stem + ext)
  {
    var name := "CreditCardReckoning" + stem + ext;
    GlobStarNamed(dir, "CreditCardReckoning", stem, ext);
    LowerEndsWith(name, ext);
  }
}

=== FILE: cmb_debit.dfy ===
/** The CMB (China Merchants Bank) debit-card CSV importer: decoded CSV records become one
    transaction each, plus one balance per date, and the list is returned newest first. */
module CmbDebit {

  import opened Base
  import opened Text
  import opened Numbers
  import opened Dates
  import opened Ledger
  import opened Dicts
  import opened DailyBalance

  /** lines[7:-3]: the export without its seven preamble lines and three trailer lines. */
  function DropFrame(lines: seq<string>): (r: seq<string>)
    ensures |lines| >= 10 ==> r == lines[7..|lines| - 3]
    ensures |lines| < 10 ==> r == []
    ensures |r| == if |lines| >= 10 then |lines| - 10 else 0
  {
    if |lines| >= 10 then lines[7..|lines| - 3] else []
  }

  /** The columns the importer reads, in the order it validates them. */
  datatype Row = Row(date: string, time: string, income: string, outcome: string,
                     balance: string, typ: string, description: string)

  /** {key: value.strip()} over a record. */
  function StripValues(d: Dict): (r: Dict)
    ensures Keys(r) == Keys(d)
    ensures forall i :: 0 <= i < |d| ==> r[i].1 == Strip(d[i].1)
  {
    var r := seq(|d|, i requires 0 <= i < |d| => (d[i].0, Strip(d[i].1)));
    assert DistinctKeys(r) by {
      forall i, j | 0 <= i < j < |r| ensures r[i].0 != r[j].0 {
        assert r[i].0 == d[i].0 && r[j].0 == d[j].0;
      }
    }
    r
  }

  /** Validation of a record into a Row: every column is required. */
  function Decode(d: Dict): (r: Result<Row>)
    ensures r.Ok? <==> forall name :: name in Columns ==> name in Keys(d)
    ensures r.Ok? ==>
      Get(d, "交易日期") == Some(r.value.date) && Get(d, "收入") == Some(r.value.income) &&
      Get(d, "支出") == Some(r.value.outcome) && Get(d, "余额") == Some(r.value.balance) &&
      Get(d, "交易备注") == Some(r.value.description)
    ensures r.Err? ==> r.error.MissingField? && r.error.name in Columns && r.error.name !in Keys(d)
  {
    match Field(d, "交易日期")
    case Err(e) => Err(e)
    case Ok(date) =>
      match Field(d, "交易时间")
      case Err(e) => Err(e)
      case Ok(time) =>
        match Field(d, "收入")
        case Err(e) => Err(e)
        case Ok(income) =>
          match Field(d, "支出")
          case Err(e) => Err(e)
          case Ok(outcome) =>
            match Field(d, "余额")
            case Err(e) => Err(e)
            case Ok(balance) =>
              match Field(d, "交易类型")
              case Err(e) => Err(e)
              case Ok(typ) =>
                match Field(d, "交易备注")
                case Err(e) => Err(e)
                case Ok(description) => Ok(Row(date, time, income, outcome, balance, typ, description))
  }

  const Columns: set<string> := {"交易日期", "交易时间", "收入", "支出", "余额", "交易类型", "交易备注"}

  /** The signed amount: income when the income column is not empty, otherwise minus the
      outcome. */
  function SignedAmount(row: Row): (r: Result<Dec>)
    ensures row.income != "" ==> r == ParseDecimal(row.income)
    ensures row.income == "" && ParseDecimal(row.outcome).Ok? ==> r == Ok(ParseDecimal(row.outcome).value.Neg())
    ensures row.income == "" && ParseDecimal(row.outcome).Err? ==> r == ParseDecimal(row.outcome)
  {
    if row.income != "" then ParseDecimal(row.income)
    else
      match ParseDecimal(row.outcome)
      case Err(e) => Err(e)
      case Ok(v) => Ok(v.Neg())
  }

  /** A decoded row's transaction (flag "*", the remark as payee, one posting of the signed
      amount) and its balance cell, which every row offers. */
  function RowEntry(row: Row, account: string, currency: string): (r: Result<Step>)
    ensures r.Ok? <==> FromCompact(row.date).Ok? && SignedAmount(row).Ok?
    ensures r.Err? && FromCompact(row.date).Err? ==> r.error == FromCompact(row.date).error
    ensures r.Ok? ==> r.value.balance == Some(row.balance) && Ok(r.value.txn.date) == FromCompact(row.date)
    ensures r.Ok? ==>
      r.value.txn.flag == FlagOkay && r.value.txn.payee == Some(row.description) &&
      r.value.txn.narration == None && r.value.txn.tags == {} &&
      r.value.txn.postings == [Posting(account, Amount(SignedAmount(row).value, currency))]
  {
    var date := FromCompact(row.date);
    var amount := SignedAmount(row);
    if date.Err? then Err(date.error)
    else if amount.Err? then Err(amount.error)
    else
      Ok(MakeStep(Transaction(date.value, FlagOkay, Some(row.description), None, {},
                              [Posting(account, Amount(amount.value, currency))]),
                  Some(row.balance)))
  }

  /** One record, its values stripped, validated and turned into a step. */
  function RowStep(record: Dict, account: string, currency: string): Result<Step> {
    match Decode(StripValues(record))
    case Err(e) => Err(e)
    case Ok(row) => RowEntry(row, account, currency)
  }

  function Steps(records: seq<Dict>, account: string, currency: string): (r: seq<Result<Step>>)
    ensures |r| == |records| && forall k :: 0 <= k < |records| ==> r[k] == RowStep(records[k], account, currency)
  {
    seq(|records|, k requires 0 <= k < |records| => RowStep(records[k], account, currency))
  }

  /** extract: the directives in build order, then reversed. */
  function Extract(records: seq<Dict>, account: string, currency: string): Result<seq<Directive>> {
    match Emit(Steps(records, account, currency), account, ParseDecimal)
    case Err(e) => Err(e)
    case Ok(out) => Ok(Reverse(out))
  }

  method ExtractRecords(records: seq<Dict>, account: string, currency: string)
    returns (r: Result<seq<Directive>>)
    ensures r == Extract(records, account, currency)
  {
    var results := Run(Steps(records, account, currency), account, ParseDecimal);
    if results.Err? {
      return Err(results.error);
    }
    r := Ok(Reverse(results.value));
  }

  /** The returned list holds every record's transaction, newest record first; each balance
      comes right after the transaction of the day before it, and no two balances share a
      date. */
  lemma ExtractOrder(records: seq<Dict>, account: string, currency: string, r: seq<Directive>)
    requires Extract(records, account, currency) == Ok(r)
    ensures forall k :: 0 <= k < |records| ==> RowStep(records[k], account, currency).Ok?
    ensures |Txns(r)| == |records|
    ensures forall k :: 0 <= k < |records| ==>
      Txns(r)[|records| - 1 - k] == RowStep(records[k], account, currency).value.txn
    ensures BalancesAfter(r)
  {
    var rows := Steps(records, account, currency);
    var out := Emit(rows, account, ParseDecimal).value;
    EmitTxns(rows, account, ParseDecimal, out);
    EmitBalances(rows, account, ParseDecimal, out);
    TxnsReverse(out);
    BalancesReversed(out);
  }

  /** Every record offers its balance, so a date's balance comes from its first record. */
  lemma FirstRecordOfDate(ss: seq<Step>, k: nat)
    requires k < |ss| && forall i :: 0 <= i < |ss| ==> ss[i].balance.Some?
    ensures FirstOfDate(ss, k) <==> forall i :: 0 <= i < k ==> ss[i].txn.date != ss[k].txn.date
  {
  }

  /** fnmatch(name, "CMB_*.csv"). */
  predicate Identify(path: string) {
    GlobStar(BaseName(path), "CMB_", ".csv")
  }

  /** An export saved as <dir>/CMB_<anything>.csv is recognised. */
  lemma IdentifyNamed(dir: string, stem: string)
    requires '/' !in stem
    ensures Identify(dir + "/" + "CMB_" + stem + ".csv")
  {
    GlobStarNamed(dir, "CMB_", stem, ".csv");
  }
}

=== FILE: daily_balance.dfy ===
/** The "one balance assertion per date" rule shared by the Alipay, CMB debit and CCB debit
    importers: rows are posted in turn, and the first row of each date that offers a balance
    also posts a Balance directive for that balance, dated the next day (a beancount balance
    holds at the start of its day), just before the row's transaction. The importers keep
    the dates already reported in a dict, day_balance. */
module DailyBalance {

  import opened Base
  import opened Numbers
  import opened Dates
  import opened Ledger

  /** A decoded row: its transaction, and the balance text it offers when it is eligible to
      report one (Alipay skips rows whose balance is blank; the debit importers always
      offer the balance cell). */
  datatype Entry = Entry(txn: Transaction, balance: Option<string>)

  type Step = e: Entry | Valid(e.txn.date)
    witness Entry(Transaction(Date(1, 1, 1), FlagOkay, None, None, {}, []), None)

  /** A step from a transaction on a valid date and the balance cell it offers. */
  function MakeStep(txn: Transaction, balance: Option<string>): (s: Step)
    requires Valid(txn.date)
    ensures s.txn == txn && s.balance == balance
  {
    Entry(txn, balance)
  }

  /** The reported balances are always in CNY, whatever the importer's currency. */
  const BalanceCurrency := "CNY"

  /** The directives one row appends, given the dates already reported. The balance date is
      computed before the balance amount, in the order data.Balance's arguments are
      evaluated. */
  function Piece(st: Step, claimed: set<Date>, account: string, parse: string -> Result<Dec>)
    : (r: Result<seq<Directive>>)
    ensures r.Ok? && (st.balance.None? || st.txn.date in claimed) ==> r.value == [Txn(st.txn)]
    ensures r.Ok? && st.balance.Some? && st.txn.date !in claimed ==>
      |r.value| == 2 && r.value[1] == Txn(st.txn) && r.value[0].Bal? &&
      NextDay(st.txn.date) == Ok(r.value[0].date)
  {
    if st.balance.Some? && st.txn.date !in claimed then
      match NextDay(st.txn.date)
      case Err(e) => Err(e)
      case Ok(next) =>
        match parse(st.balance.value)
        case Err(e) => Err(e)
        case Ok(v) => Ok([Bal(next, account, Amount(v, BalanceCurrency)), Txn(st.txn)])
    else Ok([Txn(st.txn)])
  }

  /** The directives built so far and the dates in day_balance. */
  datatype State = State(out: seq<Directive>, claimed: set<Date>)

  /** One turn of the importers' row loop: a failure so far, a row that failed to decode,
      or a balance that cannot be reported ends the run. */
  function Advance(prev: Result<State>, row: Result<Step>, account: string,
                   parse: string -> Result<Dec>): Result<State>
  {
    match prev
    case Err(e) => Err(e)
    case Ok(s) =>
      match row
      case Err(e) => Err(e)
      case Ok(st) =>
        match Piece(st, s.claimed, account, parse)
        case Err(e) => Err(e)
        case Ok(p) =>
          Ok(State(s.out + p, if st.balance.Some? then s.claimed + {st.txn.date} else s.claimed))
  }

  /** The importers' row loop as a left fold. */
  function Fold(rows: seq<Result<Step>>, account: string, parse: string -> Result<Dec>): Result<State>
    decreases |rows|
  {
    if rows == [] then Ok(State([], {}))
    else Advance(Fold(rows[..|rows| - 1], account, parse), rows[|rows| - 1], account, parse)
  }

  function Emit(rows: seq<Result<Step>>, account: string, parse: string -> Result<Dec>)
    : Result<seq<Directive>>
  {
    match Fold(rows, account, parse)
    case Err(e) => Err(e)
    case Ok(s) => Ok(s.out)
  }

  lemma FoldStep(rows: seq<Result<Step>>, i: nat, account: string, parse: string -> Result<Dec>)
    requires i < |rows|
    ensures Fold(rows[..i + 1], account, parse) == Advance(Fold(rows[..i], account, parse), rows[i], account, parse)
  {
    assert rows[..i + 1][..i] == rows[..i];
  }

  /** Once a prefix of the rows fails, the whole run fails with the same error. */
  lemma {:induction false} FoldSticky(rows: seq<Result<Step>>, i: nat, account: string,
                                      parse: string -> Result<Dec>)
    requires i <= |rows| && Fold(rows[..i], account, parse).Err?
    ensures Fold(rows, account, parse) == Fold(rows[..i], account, parse)
    decreases |rows| - i
  {
    if i < |rows| {
      FoldStep(rows, i, account, parse);
      FoldSticky(rows, i + 1, account, parse);
    } else {
      assert rows[..i] == rows;
    }
  }

  /** The row loop, with the day_balance dict and the results list. */
  method Run(rows: seq<Result<Step>>, account: string, parse: string -> Result<Dec>)
    returns (r: Result<seq<Directive>>)
    ensures r == Emit(rows, account, parse)
  {
    var results: seq<Directive> := [];
    var dayBalance: map<Date, string> := map[];
    var i := 0;
    assert rows[..0] == [] && dayBalance.Keys == {};
    while i < |rows|
      invariant 0 <= i <= |rows|
      invariant Fold(rows[..i], account, parse) == Ok(State(results, dayBalance.Keys))
    {
      FoldStep(rows, i, account, parse);
      if rows[i].Err? {
        FoldSticky(rows, i + 1, account, parse);
        return Err(rows[i].error);
      }
      var piece, next := Row(rows[i].value, dayBalance, account, parse);
      if piece.Err? {
        FoldSticky(rows, i + 1, account, parse);
        return Err(piece.error);
      }
      results := results + piece.value;
      dayBalance := next;
      i := i + 1;
    }
    assert rows[..i] == rows;
    r := Ok(results);
  }

  /** The body of the row loop: the directives the row appends and the new day_balance. */
  method Row(st: Step, dayBalance: map<Date, string>, account: string, parse: string -> Result<Dec>)
    returns (piece: Result<seq<Directive>>, next: map<Date, string>)
    ensures piece == Piece(st, dayBalance.Keys, account, parse)
    ensures next.Keys == if st.balance.Some? then dayBalance.Keys + {st.txn.date} else dayBalance.Keys
    ensures forall d :: d in dayBalance ==> d in next && next[d] == dayBalance[d]
  {
    next := dayBalance;
    if st.balance.Some? && st.txn.date !in dayBalance {
      next := dayBalance[st.txn.date := st.balance.value];
      var day := NextDay(st.txn.date);
      if day.Err? {
        return Err(day.error), next;
      }
      var amount := parse(st.balance.value);
      if amount.Err? {
        return Err(amount.error), next;
      }
      piece := Ok([Bal(day.value, account, Amount(amount.value, BalanceCurrency)), Txn(st.txn)]);
    } else {
      piece := Ok([Txn(st.txn)]);
    }
  }

  // What the output holds.

  /** The transaction of every row is posted, in row order, and a successful run had no
      failing row. */
  lemma {:induction false} EmitTxns(rows: seq<Result<Step>>, account: string,
                                    parse: string -> Result<Dec>, out: seq<Directive>)
    requires Emit(rows, account, parse) == Ok(out)
    ensures forall k :: 0 <= k < |rows| ==> rows[k].Ok?
    ensures Txns(out) == seq(|rows|, k requires 0 <= k < |rows| && rows[k].Ok? => rows[k].value.txn)
    decreases |rows|
  {
    if rows != [] {
      var init := rows[..|rows| - 1];
      var s := Fold(init, account, parse).value;
      var st := rows[|rows| - 1].value;
      var p := Piece(st, s.claimed, account, parse).value;
      EmitTxns(init, account, parse, s.out);
      TxnsAppend(s.out, p);
      assert Txns(p) == [st.txn] by {
        if |p| == 2 {
          assert p == [p[0], p[1]] && Txns(p[1..]) == [st.txn];
        }
      }
    }
  }

  /** One transaction is posted per row. */
  lemma EmitTxnCount(rows: seq<Result<Step>>, account: string, parse: string -> Result<Dec>,
                     out: seq<Directive>)
    requires Emit(rows, account, parse) == Ok(out)
    ensures |Txns(out)| == |rows|
  {
    EmitTxns(rows, account, parse, out);
  }

  /** The transaction posted j-th is the j-th row's. */
  lemma EmitTxnAt(rows: seq<Result<Step>>, account: string, parse: string -> Result<Dec>,
                  out: seq<Directive>, j: nat)
    requires Emit(rows, account, parse) == Ok(out) && j < |rows|
    ensures rows[j].Ok? && |Txns(out)| == |rows| && Txns(out)[j] == rows[j].value.txn
  {
    EmitTxns(rows, account, parse, out);
  }

  /** Each balance is dated the day after the transaction that follows it, and no two
      balances share a date. */
  predicate BalancesWellPlaced(out: seq<Directive>, claimed: set<Date>) {
    (forall i :: 0 <= i < |out| && out[i].Bal? ==>
      i + 1 < |out| && out[i + 1].Txn? && Valid(out[i + 1].txn.date) &&
      out[i + 1].txn.date in claimed && NextDay(out[i + 1].txn.date) == Ok(out[i].date)) &&
    (forall i, j :: 0 <= i < j < |out| && out[i].Bal? && out[j].Bal? ==> out[i].date != out[j].date)
  }

  lemma {:induction false} FoldBalances(rows: seq<Result<Step>>, account: string,
                                        parse: string -> Result<Dec>)
    requires Fold(rows, account, parse).Ok?
    ensures BalancesWellPlaced(Fold(rows, account, parse).value.out, Fold(rows, account, parse).value.claimed)
    decreases |rows|
  {
    if rows != [] {
      var init := rows[..|rows| - 1];
      FoldBalances(init, account, parse);
      var s := Fold(init, account, parse).value;
      var st := rows[|rows| - 1].value;
      var p := Piece(st, s.claimed, account, parse).value;
      var claimed := if st.balance.Some? then s.claimed + {st.txn.date} else s.claimed;
      AppendPiece(s.out, s.claimed, st, p, claimed);
    }
  }

  lemma AppendPiece(out: seq<Directive>, claimed: set<Date>, st: Step, p: seq<Directive>,
                    claimed': set<Date>)
    requires BalancesWellPlaced(out, claimed)
    requires p == [Txn(st.txn)] || (st.balance.Some? && st.txn.date !in claimed &&
      |p| == 2 && p[1] == Txn(st.txn) && p[0].Bal? && NextDay(st.txn.date) == Ok(p[0].date))
    requires claimed' == if st.balance.Some? then claimed + {st.txn.date} else claimed
    ensures BalancesWellPlaced(out + p, claimed')
  {
    var o := out + p;
    forall i | 0 <= i < |o| && o[i].Bal?
      ensures i + 1 < |o| && o[i + 1].Txn? && Valid(o[i + 1].txn.date) &&
        o[i + 1].txn.date in claimed' && NextDay(o[i + 1].txn.date) == Ok(o[i].date)
    {
      if i < |out| {
        assert o[i] == out[i] && o[i + 1] == out[i + 1];
      }
    }
    forall i, j | 0 <= i < j < |o| && o[i].Bal? && o[j].Bal?
      ensures o[i].date != o[j].date
    {
      if j >= |out| {
        assert j == |out| && o[j] == p[0];
        assert o[i] == out[i] && o[i + 1] == out[i + 1];
        NextDayInjective(out[i + 1].txn.date, st.txn.date);
      }
    }
  }

  lemma NextDayInjective(a: Date, b: Date)
    requires Valid(a) && Valid(b) && a != b && NextDay(a).Ok? && NextDay(b).Ok?
    ensures NextDay(a) != NextDay(b)
  {
    if Before(a, b) {
      assert AtOrBefore(NextDay(a).value, b);
    } else {
      assert Before(b, a);
      assert AtOrBefore(NextDay(b).value, a);
    }
  }

  /** The output of a successful run: every balance is dated the day after the transaction
      right after it, and no two balances share a date. */
  lemma EmitBalances(rows: seq<Result<Step>>, account: string, parse: string -> Result<Dec>,
                     out: seq<Directive>)
    requires Emit(rows, account, parse) == Ok(out)
    ensures BalancesBefore(out)
  {
    FoldBalances(rows, account, parse);
  }

  /** Each balance comes right before the transaction of the day before it, and no two
      balances share a date. */
  predicate BalancesBefore(out: seq<Directive>) {
    (forall i :: 0 <= i < |out| && out[i].Bal? ==>
      i + 1 < |out| && out[i + 1].Txn? && Valid(out[i + 1].txn.date) &&
      NextDay(out[i + 1].txn.date) == Ok(out[i].date)) &&
    (forall i, j :: 0 <= i < j < |out| && out[i].Bal? && out[j].Bal? ==> out[i].date != out[j].date)
  }

  /** The same, for a list built in that order and then reversed: each balance comes right
      after the transaction of the day before it. */
  predicate BalancesAfter(out: seq<Directive>) {
    (forall i :: 0 <= i < |out| && out[i].Bal? ==>
      0 < i && out[i - 1].Txn? && Valid(out[i - 1].txn.date) &&
      NextDay(out[i - 1].txn.date) == Ok(out[i].date)) &&
    (forall i, j :: 0 <= i < j < |out| && out[i].Bal? && out[j].Bal? ==> out[i].date != out[j].date)
  }

  lemma BalancesReversed(out: seq<Directive>)
    requires BalancesBefore(out)
    ensures BalancesAfter(Reverse(out))
  {
    var r := Reverse(out);
    forall i | 0 <= i < |r| && r[i].Bal?
      ensures 0 < i && r[i - 1].Txn? && Valid(r[i - 1].txn.date) && NextDay(r[i - 1].txn.date) == Ok(r[i].date)
    {
      assert r[i] == out[|out| - 1 - i];
    }
    forall i, j | 0 <= i < j < |r| && r[i].Bal? && r[j].Bal? ensures r[i].date != r[j].date {
      assert r[i] == out[|out| - 1 - i] && r[j] == out[|out| - 1 - j];
    }
  }

  // Which rows report a balance, and with what amount.

  /** The dates of the rows that offer a balance. */
  function Claimed(ss: seq<Step>): set<Date>
    decreases |ss|
  {
    if ss == [] then {}
    else Claimed(ss[..|ss| - 1]) + (if ss[|ss| - 1].balance.Some? then {ss[|ss| - 1].txn.date} else {})
  }

  lemma {:induction false} ClaimedMember(ss: seq<Step>, d: Date)
    ensures d in Claimed(ss) <==> exists i :: 0 <= i < |ss| && ss[i].balance.Some? && ss[i].txn.date == d
    decreases |ss|
  {
    if ss != [] {
      var init := ss[..|ss| - 1];
      ClaimedMember(init, d);
      if exists i :: 0 <= i < |ss| && ss[i].balance.Some? && ss[i].txn.date == d {
        var i :| 0 <= i < |ss| && ss[i].balance.Some? && ss[i].txn.date == d;
        if i < |ss| - 1 {
          assert init[i] == ss[i];
        }
      }
      if exists i :: 0 <= i < |init| && init[i].balance.Some? && init[i].txn.date == d {
        var i :| 0 <= i < |init| && init[i].balance.Some? && init[i].txn.date == d;
        assert ss[i] == init[i];
      }
    }
  }

  /** Row k is the first row of its date that offers a balance. */
  predicate FirstOfDate(ss: seq<Step>, k: nat)
    requires k < |ss|
  {
    ss[k].balance.Some? &&
    forall i :: 0 <= i < k && ss[i].balance.Some? ==> ss[i].txn.date != ss[k].txn.date
  }

  lemma FirstIffUnclaimed(ss: seq<Step>, k: nat)
    requires k < |ss|
    ensures FirstOfDate(ss, k) <==> ss[k].balance.Some? && ss[k].txn.date !in Claimed(ss[..k])
  {
    ClaimedMember(ss[..k], ss[k].txn.date);
    if exists i :: 0 <= i < k && ss[..k][i].balance.Some? && ss[..k][i].txn.date == ss[k].txn.date {
      var i :| 0 <= i < k && ss[..k][i].balance.Some? && ss[..k][i].txn.date == ss[k].txn.date;
      assert ss[i] == ss[..k][i];
    }
  }

  /** The rows, all decoded successfully. */
  function Oks(ss: seq<Step>): (r: seq<Result<Step>>)
    ensures |r| == |ss| && forall k :: 0 <= k < |ss| ==> r[k] == Ok(ss[k])
  {
    seq(|ss|, k requires 0 <= k < |ss| => Ok(ss[k]))
  }

  /** A balance row can be reported: its date has a next day and its balance text parses. */
  predicate Reportable(ss: seq<Step>, k: nat, parse: string -> Result<Dec>)
    requires k < |ss|
  {
    FirstOfDate(ss, k) ==> ss[k].txn.date != LastDate && parse(ss[k].balance.value).Ok?
  }

  /** Where row k lands in the output: after the earlier rows' transactions and the
      balances of the earlier dates, the balance if the row is the first of its date to
      offer one, then its transaction. */
  predicate Placed(out: seq<Directive>, ss: seq<Step>, k: nat, account: string,
                   parse: string -> Result<Dec>)
    requires k < |ss|
  {
    var p := k + |Claimed(ss[..k])|;
    if FirstOfDate(ss, k) then
      p + 1 < |out| && NextDay(ss[k].txn.date).Ok? && parse(ss[k].balance.value).Ok? &&
      out[p] == Bal(NextDay(ss[k].txn.date).value, account,
                    Amount(parse(ss[k].balance.value).value, BalanceCurrency)) &&
      out[p + 1] == Txn(ss[k].txn)
    else
      p < |out| && out[p] == Txn(ss[k].txn)
  }

  /** On decoded rows the run succeeds exactly when every first-of-date balance can be
      reported; the output then holds one transaction per row plus one balance per date
      with a balance, each row in its place. */
  lemma EmitLayout(ss: seq<Step>, account: string, parse: string -> Result<Dec>)
    ensures Fold(Oks(ss), account, parse).Ok? <==> forall k :: 0 <= k < |ss| ==> Reportable(ss, k, parse)
    ensures Fold(Oks(ss), account, parse).Ok? ==>
      var s := Fold(Oks(ss), account, parse).value;
      |s.out| == |ss| + |Claimed(ss)| &&
      forall k :: 0 <= k < |ss| ==> Placed(s.out, ss, k, account, parse)
  {
    LayoutUpTo(ss, |ss|, account, parse);
    assert Oks(ss)[..|ss|] == Oks(ss) && ss[..|ss|] == ss;
  }

  lemma {:induction false} LayoutUpTo(ss: seq<Step>, n: nat, account: string, parse: string -> Result<Dec>)
    requires n <= |ss|
    ensures Fold(Oks(ss)[..n], account, parse).Ok? <==> forall k :: 0 <= k < n ==> Reportable(ss, k, parse)
    ensures Fold(Oks(ss)[..n], account, parse).Ok? ==>
      var s := Fold(Oks(ss)[..n], account, parse).value;
      s.claimed == Claimed(ss[..n]) &&
      |s.out| == n + |Claimed(ss[..n])| &&
      forall k :: 0 <= k < n ==> Placed(s.out, ss, k, account, parse)
    decreases n
  {
    if n == 0 {
      assert Oks(ss)[..0] == [] && ss[..0] == [];
    } else {
      var m := n - 1;
      LayoutUpTo(ss, m, account, parse);
      FoldStep(Oks(ss), m, account, parse);
      var prev := Fold(Oks(ss)[..m], account, parse);
      if prev.Ok? {
        ReportableNext(ss, m, account, parse);
        ClaimedNext(ss, m);
        if Piece(ss[m], prev.value.claimed, account, parse).Ok? {
          LayoutAdvance(ss, m, prev.value.out, Piece(ss[m], prev.value.claimed, account, parse).value,
                        account, parse);
        }
      }
    }
  }

  /** Row m's piece succeeds exactly when row m is reportable. */
  lemma ReportableNext(ss: seq<Step>, m: nat, account: string, parse: string -> Result<Dec>)
    requires m < |ss|
    ensures Piece(ss[m], Claimed(ss[..m]), account, parse).Ok? <==> Reportable(ss, m, parse)
  {
    FirstIffUnclaimed(ss, m);
  }

  lemma ClaimedNext(ss: seq<Step>, m: nat)
    requires m < |ss|
    ensures Claimed(ss[..m + 1]) == if ss[m].balance.Some? then Claimed(ss[..m]) + {ss[m].txn.date} else Claimed(ss[..m])
    ensures |Claimed(ss[..m + 1])| == |Claimed(ss[..m])| + (if FirstOfDate(ss, m) then 1 else 0)
  {
    assert ss[..m + 1][..m] == ss[..m];
    ClaimedSize(ss[..m + 1]);
    assert FirstOfDate(ss[..m + 1], m) <==> FirstOfDate(ss, m) by {
      assert forall i :: 0 <= i <= m ==> ss[..m + 1][i] == ss[i];
    }
  }

  lemma LayoutAdvance(ss: seq<Step>, m: nat, out: seq<Directive>, p: seq<Directive>, account: string,
                      parse: string -> Result<Dec>)
    requires m < |ss|
    requires |out| == m + |Claimed(ss[..m])|
    requires forall k :: 0 <= k < m ==> Placed(out, ss, k, account, parse)
    requires Piece(ss[m], Claimed(ss[..m]), account, parse) == Ok(p)
    ensures |out + p| == m + 1 + |Claimed(ss[..m + 1])|
    ensures forall k :: 0 <= k < m + 1 ==> Placed(out + p, ss, k, account, parse)
  {
    ClaimedNext(ss, m);
    FirstIffUnclaimed(ss, m);
    forall k | 0 <= k < m + 1 ensures Placed(out + p, ss, k, account, parse) {
      if k < m {
        PlacedExtend(out, p, ss, k, account, parse);
      } else {
        PlacedLast(ss, m, out, p, account, parse);
      }
    }
  }

  lemma PlacedLast(ss: seq<Step>, m: nat, out: seq<Directive>, p: seq<Directive>, account: string,
                   parse: string -> Result<Dec>)
    requires m < |ss| && |out| == m + |Claimed(ss[..m])|
    requires Piece(ss[m], Claimed(ss[..m]), account, parse) == Ok(p)
    ensures Placed(out + p, ss, m, account, parse)
  {
    FirstIffUnclaimed(ss, m);
  }

  lemma ClaimedSize(ss: seq<Step>)
    requires ss != []
    ensures var n := |ss| - 1;
      |Claimed(ss)| == |Claimed(ss[..n])| + (if FirstOfDate(ss, n) then 1 else 0)
  {
    var n := |ss| - 1;
    FirstIffUnclaimed(ss, n);
    var c := Claimed(ss[..n]);
    if FirstOfDate(ss, n) {
      assert Claimed(ss) == c + {ss[n].txn.date};
    } else {
      assert Claimed(ss) == c;
    }
  }

  lemma PlacedExtend(out: seq<Directive>, p: seq<Directive>, ss: seq<Step>, k: nat,
                     account: string, parse: string -> Result<Dec>)
    requires k < |ss| && Placed(out, ss, k, account, parse)
    ensures Placed(out + p, ss, k, account, parse)
  {
  }

  /** The balance a date reports comes from the first row of that date offering one: a row
      whose date was already reported adds only its transaction. */
  lemma LaterRowNoBalance(ss: seq<Step>, i: nat, k: nat)
    requires i < k < |ss| && ss[i].balance.Some? && ss[i].txn.date == ss[k].txn.date
    ensures !FirstOfDate(ss, k)
  {
  }
}

=== FILE: dates.dfy ===
/** Calendar dates as Python's datetime.date has them, and the ways the importers build
    them from text. */
module Dates {

  import opened Base
  import opened Text
  import opened Numbers

  datatype Date = Date(year: int, month: int, day: int)

  predicate IsLeap(y: int) {
    y % 4 == 0 && (y % 100 != 0 || y % 400 == 0)
  }

  function DaysInMonth(y: int, m: int): int
    requires 1 <= m <= 12
  {
    if m == 2 then (if IsLeap(y) then 29 else 28)
    else if m == 4 || m == 6 || m == 9 || m == 11 then 30
    else 31
  }

  /** The dates datetime.date accepts: years 1 to 9999. */
  predicate Valid(d: Date) {
    1 <= d.year <= 9999 && 1 <= d.month <= 12 && 1 <= d.day <= DaysInMonth(d.year, d.month)
  }

  /** A date Python's datetime.date accepts. */
  type ValidDate = d: Date | Valid(d) witness Date(1, 1, 1)

  /** datetime.date(year, month, day): raises ValueError outside the calendar. */
  function MakeDate(y: int, m: int, d: int): (r: Result<Date>)
    ensures r.Ok? <==> Valid(Date(y, m, d))
    ensures r.Ok? ==> r.value == Date(y, m, d)
    ensures r.Err? ==> r.error == InvalidDate(y, m, d)
  {
    if Valid(Date(y, m, d)) then Ok(Date(y, m, d)) else Err(InvalidDate(y, m, d))
  }

  /** Date order (Python compares dates chronologically). */
  predicate Before(a: Date, b: Date) {
    a.year < b.year || (a.year == b.year && (a.month < b.month || (a.month == b.month && a.day < b.day)))
  }

  predicate AtOrBefore(a: Date, b: Date) {
    a == b || Before(a, b)
  }

  const LastDate := Date(9999, 12, 31)

  /** date + timedelta(days=1); OverflowError after 9999-12-31. */
  function NextDay(d: Date): (r: Result<Date>)
    requires Valid(d)
    ensures r.Err? <==> d == LastDate
    ensures r.Err? ==> r.error == DateOverflow
    ensures r.Ok? ==> Valid(r.value) && Before(d, r.value)
    ensures r.Ok? ==> forall x :: Valid(x) && Before(d, x) ==> AtOrBefore(r.value, x)
  {
    if d.day < DaysInMonth(d.year, d.month) then Ok(Date(d.year, d.month, d.day + 1))
    else if d.month < 12 then Ok(Date(d.year, d.month + 1, 1))
    else if d.year < 9999 then Ok(Date(d.year + 1, 1, 1))
    else Err(DateOverflow)
  }

  /** date(int(s[:4]), int(s[4:6]), int(s[6:8])): a compact YYYYMMDD field, cut as Python
      slices cut (short text gives short or empty pieces, which int() rejects). */
  function FromCompact(s: string): (r: Result<Date>)
    ensures r.Ok? ==> Valid(r.value)
  {
    match ParseInt(Slice(s, 0, 4))
    case Err(e) => Err(e)
    case Ok(y) =>
      match ParseInt(Slice(s, 4, 6))
      case Err(e) => Err(e)
      case Ok(m) =>
        match ParseInt(Slice(s, 6, 8))
        case Err(e) => Err(e)
        case Ok(d) => MakeDate(y, m, d)
  }

  lemma DigitField(s: string, a: nat, b: nat)
    requires AllDigits(s) && a < b <= |s|
    ensures AllDigits(s[a..b]) && ParseInt(Slice(s, a, b)) == Ok(DigitsValue(s[a..b]))
  {
    assert Slice(s, a, b) == s[a..b];
  }

  /** On a field of at least eight digits, the date is built from the year, month and day
      digits, and fails exactly when date() would. */
  lemma FromCompactDigits(s: string)
    requires AllDigits(s) && |s| >= 8
    ensures FromCompact(s) == MakeDate(DigitsValue(s[..4]), DigitsValue(s[4..6]), DigitsValue(s[6..8]))
  {
    DigitField(s, 0, 4);
    DigitField(s, 4, 6);
    DigitField(s, 6, 8);
  }

  /** date(int(raw[0:4]), int(raw[5:7]), int(raw[8:10])): an ISO YYYY-MM-DD field. */
  function FromIso(s: string): (r: Result<Date>)
    ensures r.Ok? ==> Valid(r.value)
  {
    match ParseInt(Slice(s, 0, 4))
    case Err(e) => Err(e)
    case Ok(y) =>
      match ParseInt(Slice(s, 5, 7))
      case Err(e) => Err(e)
      case Ok(m) =>
        match ParseInt(Slice(s, 8, 10))
        case Err(e) => Err(e)
        case Ok(d) => MakeDate(y, m, d)
  }

  /** The YYYYMMDD text of a date. */
  function CompactText(d: Date): string
    requires Valid(d)
  {
    ZeroPad(d.year, 4) + ZeroPad(d.month, 2) + ZeroPad(d.day, 2)
  }

  lemma CompactTextShape(d: Date)
    requires Valid(d)
    ensures |CompactText(d)| == 8 && AllDigits(CompactText(d))
  {
    PadWidth(d.year, 4);
    PadWidth(d.month, 2);
    PadWidth(d.day, 2);
  }

  /** The YYYY-MM-DD text of a date (date.isoformat()). */
  function IsoText(d: Date): string
    requires Valid(d)
  {
    ZeroPad(d.year, 4) + "-" + ZeroPad(d.month, 2) + "-" + ZeroPad(d.day, 2)
  }

  lemma PadWidth(n: nat, w: nat)
    requires w > 0 && n < Pow10(w)
    ensures |ZeroPad(n, w)| == w
  {
  }

  /** Slicing the compact text of a date reads the date back. */
  lemma FromCompactText(d: Date)
    requires Valid(d)
    ensures FromCompact(CompactText(d)) == Ok(d)
  {
    PadWidth(d.year, 4);
    PadWidth(d.month, 2);
    PadWidth(d.day, 2);
    var y, m, dd := ZeroPad(d.year, 4), ZeroPad(d.month, 2), ZeroPad(d.day, 2);
    var s := y + m + dd;
    assert s[..4] == y && s[4..6] == m && s[6..8] == dd;
  }

  /** Slicing the ISO text of a date reads the date back. */
  lemma FromIsoText(d: Date)
    requires Valid(d)
    ensures FromIso(IsoText(d)) == Ok(d)
  {
    PadWidth(d.year, 4);
    PadWidth(d.month, 2);
    PadWidth(d.day, 2);
    var y, m, dd := ZeroPad(d.year, 4), ZeroPad(d.month, 2), ZeroPad(d.day, 2);
    var s := y + "-" + m + "-" + dd;
    assert Slice(s, 0, 4) == y && Slice(s, 5, 7) == m && Slice(s, 8, 10) == dd;
    ParseZeroPad(d.year, 4);
    ParseZeroPad(d.month, 2);
    ParseZeroPad(d.day, 2);
  }

  // datetime.strptime with the directives "%Y%m%d" followed by literal text. CPython turns
  // the format into the regular expression
  //   (?P<Y>\d\d\d\d)(?P<m>1[0-2]|0[1-9]|[1-9])(?P<d>3[01]|[12]\d|0[1-9]|[1-9]| [1-9])<literal>
  // compiled case-insensitively, takes the first match at the start of the text in
  // backtracking order, and then raises unless that match spans the whole text.

  /** Length of the month alternative k (0: 1[0-2], 1: 0[1-9], 2: [1-9]) at the start of s;
      0 when it does not match. */
  function MonthLen(s: string, k: nat): (n: nat)
    ensures n <= |s| && (n > 0 ==> AllDigits(s[..n]))
  {
    if k == 0 && |s| >= 2 && s[0] == '1' && '0' <= s[1] <= '2' then 2
    else if k == 1 && |s| >= 2 && s[0] == '0' && '1' <= s[1] <= '9' then 2
    else if k == 2 && |s| >= 1 && '1' <= s[0] <= '9' then 1
    else 0
  }

  /** Length of the day alternative k (0: 3[01], 1: [12]\d, 2: 0[1-9], 3: [1-9], 4: " [1-9]")
      at the start of s; 0 when it does not match. */
  function DayLen(s: string, k: nat): (n: nat)
    ensures n <= |s|
    ensures n > 0 && k != 4 ==> AllDigits(s[..n])
    ensures n > 0 && k == 4 ==> n == 2 && IsDigit(s[1])
  {
    if k == 0 && |s| >= 2 && s[0] == '3' && '0' <= s[1] <= '1' then 2
    else if k == 1 && |s| >= 2 && '1' <= s[0] <= '2' && IsDigit(s[1]) then 2
    else if k == 2 && |s| >= 2 && s[0] == '0' && '1' <= s[1] <= '9' then 2
    else if k == 3 && |s| >= 1 && '1' <= s[0] <= '9' then 1
    else if k == 4 && |s| >= 2 && s[0] == ' ' && '1' <= s[1] <= '9' then 2
    else 0
  }

  function DayValue(s: string, k: nat): nat
    requires DayLen(s, k) > 0
  {
    if k == 4 then DigitValue(s[1]) else DigitsValue(s[..DayLen(s, k)])
  }

  /** A literal of the format, compared case-insensitively on ASCII letters. */
  predicate LiteralAt(s: string, lit: string) {
    |lit| <= |s| && AsciiLower(s[..|lit|]) == AsciiLower(lit)
  }

  datatype MonthDay = MonthDay(month: nat, day: nat, end: nat)

  /** Tries the month alternative km and day alternative kd, then the literal. */
  function TryAlternatives(s: string, lit: string, km: nat, kd: nat): (r: Option<MonthDay>)
    ensures r.Some? ==> r.value.end <= |s|
  {
    var ml := MonthLen(s, km);
    if ml == 0 then None
    else
      var dl := DayLen(s[ml..], kd);
      if dl == 0 || !LiteralAt(s[ml + dl..], lit) then None
      else Some(MonthDay(DigitsValue(s[..ml]), DayValue(s[ml..], kd), ml + dl + |lit|))
  }

  /** The first combination of alternatives, in backtracking order, from combination c on. */
  function FirstMatch(s: string, lit: string, c: nat): (r: Option<MonthDay>)
    ensures r.Some? ==> r.value.end <= |s|
    decreases 15 - c
  {
    if c >= 15 then None
    else
      match TryAlternatives(s, lit, c / 5, c % 5)
      case Some(md) => Some(md)
      case None => FirstMatch(s, lit, c + 1)
  }

  /** datetime.strptime(s, "%Y%m%d" + lit).date(). */
  function Strptime(s: string, lit: string): (r: Result<Date>)
    ensures r.Ok? ==> Valid(r.value)
  {
    if |s| < 4 || !AllDigits(s[..4]) then Err(FormatMismatch(s))
    else
      match FirstMatch(s[4..], lit, 0)
      case None => Err(FormatMismatch(s))
      case Some(md) =>
        if 4 + md.end != |s| then Err(UnconvertedData(s))
        else MakeDate(DigitsValue(s[..4]), md.month, md.day)
  }

  /** strptime takes the year from the first four characters. */
  lemma StrptimeYear(s: string, lit: string)
    requires Strptime(s, lit).Ok?
    ensures |s| >= 4 && AllDigits(s[..4]) && Strptime(s, lit).value.year == DigitsValue(s[..4])
  {
  }

  lemma TwoDigits(n: nat)
    requires n < 100
    ensures ZeroPad(n, 2) == [DigitChar(n / 10), DigitChar(n % 10)]
  {
    assert FixedDigits(n / 10, 1) == [DigitChar(n / 10 % 10)];
  }

  /** The two digits of a month from 1 to 12 are matched by alternative 0 (10 to 12) or
      1 (01 to 09) of %m, and by no alternative tried before it. */
  lemma MonthAlternative(month: nat, t: string) returns (km: nat)
    requires 1 <= month <= 12
    ensures km < 2
    ensures MonthLen(ZeroPad(month, 2) + t, km) == 2
    ensures forall k: nat :: k < km ==> MonthLen(ZeroPad(month, 2) + t, k) == 0
    ensures (ZeroPad(month, 2) + t)[..2] == ZeroPad(month, 2) && (ZeroPad(month, 2) + t)[2..] == t
    ensures DigitsValue(ZeroPad(month, 2)) == month
  {
    TwoDigits(month);
    km := if month >= 10 then 0 else 1;
  }

  /** The two digits of a day from 1 to 31 are matched by alternative 0 (30, 31),
      1 (10 to 29) or 2 (01 to 09) of %d, and by no alternative tried before it. */
  lemma DayAlternative(day: nat, t: string) returns (kd: nat)
    requires 1 <= day <= 31
    ensures kd < 3
    ensures DayLen(ZeroPad(day, 2) + t, kd) == 2
    ensures forall k: nat :: k < kd ==> DayLen(ZeroPad(day, 2) + t, k) == 0
    ensures (ZeroPad(day, 2) + t)[..2] == ZeroPad(day, 2) && (ZeroPad(day, 2) + t)[2..] == t
    ensures DayValue(ZeroPad(day, 2) + t, kd) == day
  {
    TwoDigits(day);
    kd := if day >= 30 then 0 else if day >= 10 then 1 else 2;
  }

  /** A month and day printed with two digits each and followed by the literal are
      matched by the alternatives CPython tries for them. */
  lemma MatchPaddedMonthDay(month: nat, day: nat, lit: string)
    requires 1 <= month <= 12 && 1 <= day <= 31
    ensures FirstMatch(ZeroPad(month, 2) + ZeroPad(day, 2) + lit, lit, 0) ==
      Some(MonthDay(month, day, 4 + |lit|))
  {
    var m, dd := ZeroPad(month, 2), ZeroPad(day, 2);
    var km := MonthAlternative(month, dd + lit);
    var kd := DayAlternative(day, lit);
    MatchFields(m, dd, lit, month, day, km, kd);
  }

  lemma MatchFields(m: string, dd: string, lit: string, month: nat, day: nat, km: nat, kd: nat)
    requires km < 3 && kd < 5
    requires MonthLen(m + (dd + lit), km) == 2
    requires forall k: nat :: k < km ==> MonthLen(m + (dd + lit), k) == 0
    requires (m + (dd + lit))[..2] == m && (m + (dd + lit))[2..] == dd + lit
    requires DigitsValue(m) == month
    requires DayLen(dd + lit, kd) == 2
    requires forall k: nat :: k < kd ==> DayLen(dd + lit, k) == 0
    requires (dd + lit)[2..] == lit
    requires DayValue(dd + lit, kd) == day
    ensures FirstMatch(m + dd + lit, lit, 0) == Some(MonthDay(month, day, 4 + |lit|))
  {
    var s := m + (dd + lit);
    assert s == m + dd + lit;
    TryMatched(s, lit, km, kd);
    FirstMatchAt(s, lit, km, kd);
  }

  lemma TryMatched(s: string, lit: string, km: nat, kd: nat)
    requires MonthLen(s, km) == 2 && DayLen(s[2..], kd) == 2 && s[2..][2..] == lit
    ensures TryAlternatives(s, lit, km, kd) ==
      Some(MonthDay(DigitsValue(s[..2]), DayValue(s[2..], kd), 4 + |lit|))
  {
    assert lit[..|lit|] == lit;
  }

  /** The combination (km, kd) is the one FirstMatch finds when it matches and every
      month alternative before km, and every day alternative before kd, fails. */
  lemma FirstMatchAt(s: string, lit: string, km: nat, kd: nat)
    requires km < 3 && kd < 5 && MonthLen(s, km) > 0
    requires forall k: nat :: k < km ==> MonthLen(s, k) == 0
    requires forall k: nat :: k < kd ==> DayLen(s[MonthLen(s, km)..], k) == 0
    requires TryAlternatives(s, lit, km, kd).Some?
    ensures FirstMatch(s, lit, 0) == TryAlternatives(s, lit, km, kd)
  {
    var c := km * 5 + kd;
    assert c / 5 == km && c % 5 == kd;
    forall c': nat | c' < c
      ensures TryAlternatives(s, lit, c' / 5, c' % 5) == None
    {
      if c' / 5 < km {
        assert MonthLen(s, c' / 5) == 0;
      } else {
        assert c' / 5 == km && c' % 5 < kd;
      }
    }
    FirstMatchSkips(s, lit, 0, c);
  }

  lemma {:induction false} FirstMatchSkips(s: string, lit: string, from: nat, c: nat)
    requires from <= c < 15
    requires forall c' :: from <= c' < c ==> TryAlternatives(s, lit, c' / 5, c' % 5) == None
    requires TryAlternatives(s, lit, c / 5, c % 5).Some?
    ensures FirstMatch(s, lit, from) == TryAlternatives(s, lit, c / 5, c % 5)
    decreases c - from
  {
    if from < c {
      FirstMatchSkips(s, lit, from + 1, c);
    }
  }

  /** strptime reads back the date from its YYYYMMDD text followed by the literal. */
  lemma StrptimeCompactText(d: Date, lit: string)
    requires Valid(d)
    ensures Strptime(CompactText(d) + lit, lit) == Ok(d)
  {
    PadWidth(d.year, 4);
    PadWidth(d.month, 2);
    PadWidth(d.day, 2);
    var y := ZeroPad(d.year, 4);
    var rest := ZeroPad(d.month, 2) + ZeroPad(d.day, 2) + lit;
    var s := CompactText(d) + lit;
    assert s == y + rest;
    assert s[..4] == y && s[4..] == rest;
    MatchPaddedMonthDay(d.month, d.day, lit);
  }
}

=== FILE: dicts.dfy ===
/** Python's dict, which keeps keys in insertion order, as a sequence of key-value pairs
    with distinct keys; and sorted() on its string keys. */
module Dicts {

  import opened Base

  predicate DistinctKeys(d: seq<(string, string)>) {
    forall i, j :: 0 <= i < j < |d| ==> d[i].0 != d[j].0
  }

  type Dict = d: seq<(string, string)> | DistinctKeys(d) witness []

  /** list(d): the keys in insertion order. */
  function Keys(d: Dict): (r: seq<string>)
    ensures |r| == |d| && forall i :: 0 <= i < |d| ==> r[i] == d[i].0
  {
    seq(|d|, i requires 0 <= i < |d| => d[i].0)
  }

  /** d.get(k): the value stored under k, if any. */
  function Get(d: Dict, k: string): (r: Option<string>)
    ensures r.None? <==> k !in Keys(d)
    ensures forall i :: 0 <= i < |d| && d[i].0 == k ==> r == Some(d[i].1)
    decreases |d|
  {
    if d == [] then None
    else if d[|d| - 1].0 == k then Some(d[|d| - 1].1)
    else Get(d[..|d| - 1], k)
  }

  /** A required column of a decoded row; a missing one is a validation error naming it. */
  function Field(d: Dict, name: string): (r: Result<string>)
    ensures r.Ok? <==> name in Keys(d)
    ensures r.Ok? ==> Get(d, name) == Some(r.value)
    ensures r.Err? ==> r.error == MissingField(name)
  {
    match Get(d, name)
    case Some(v) => Ok(v)
    case None => Err(MissingField(name))
  }

  /** d[k] = v: an existing key keeps its place and takes the new value, a new key goes
      last. */
  function Put(d: Dict, k: string, v: string): (r: Dict)
    ensures Get(r, k) == Some(v)
    ensures forall k' :: k' != k ==> Get(r, k') == Get(d, k')
    ensures k in Keys(d) ==> Keys(r) == Keys(d)
    ensures k !in Keys(d) ==> Keys(r) == Keys(d) + [k]
  {
    if k in Keys(d) then
      var i :| 0 <= i < |d| && d[i].0 == k;
      var r := d[i := (k, v)];
      assert Keys(r) == Keys(d);
      r
    else
      var r := d + [(k, v)];
      assert Keys(r) == Keys(d) + [k];
      r
  }

  /** d.update(pairs), and dict(pairs) when d is empty: each pair is stored in turn, so a
      repeated key keeps its first place and its last value. */
  function PutAll(d: Dict, pairs: seq<(string, string)>): (r: Dict)
    decreases |pairs|
  {
    if pairs == [] then d else PutAll(Put(d, pairs[0].0, pairs[0].1), pairs[1..])
  }

  /** No pair after position j has key k. */
  predicate LastWith(pairs: seq<(string, string)>, j: nat, k: string) {
    forall j' :: j < j' < |pairs| ==> pairs[j'].0 != k
  }

  /** After update, a key takes the value of its last pair, and keys not among the pairs
      keep their values. */
  lemma {:induction false} PutAllGet(d: Dict, pairs: seq<(string, string)>, k: string)
    ensures (forall j :: 0 <= j < |pairs| ==> pairs[j].0 != k) ==> Get(PutAll(d, pairs), k) == Get(d, k)
    ensures forall j :: 0 <= j < |pairs| && pairs[j].0 == k && LastWith(pairs, j, k) ==>
      Get(PutAll(d, pairs), k) == Some(pairs[j].1)
    decreases |pairs|
  {
    if pairs != [] {
      var d' := Put(d, pairs[0].0, pairs[0].1);
      PutAllGet(d', pairs[1..], k);
      forall j | 0 <= j < |pairs| && pairs[j].0 == k && LastWith(pairs, j, k)
        ensures Get(PutAll(d, pairs), k) == Some(pairs[j].1)
      {
        if j > 0 {
          assert pairs[1..][j - 1] == pairs[j];
          assert forall j' :: j - 1 < j' < |pairs| - 1 ==> pairs[1..][j'].0 != k by {
            forall j' | j - 1 < j' < |pairs| - 1 ensures pairs[1..][j'].0 != k {
              assert pairs[1..][j'] == pairs[j' + 1];
            }
          }
        } else {
          assert forall j' :: 0 <= j' < |pairs| - 1 ==> pairs[1..][j'].0 != k by {
            forall j' | 0 <= j' < |pairs| - 1 ensures pairs[1..][j'].0 != k {
              assert pairs[1..][j'] == pairs[j' + 1];
            }
          }
        }
      }
      if forall j :: 0 <= j < |pairs| ==> pairs[j].0 != k {
        assert forall j :: 0 <= j < |pairs| - 1 ==> pairs[1..][j].0 != k by {
          forall j | 0 <= j < |pairs| - 1 ensures pairs[1..][j].0 != k {
            assert pairs[1..][j] == pairs[j + 1];
          }
        }
      }
    }
  }

  // Python orders strings by comparing code points in turn; a proper prefix comes first.

  predicate LexLe(a: string, b: string)
    decreases |a|
  {
    a == [] || (b != [] && (a[0] < b[0] || (a[0] == b[0] && LexLe(a[1..], b[1..]))))
  }

  lemma {:induction false} LexLeRefl(a: string)
    ensures LexLe(a, a)
    decreases |a|
  {
    if a != [] {
      LexLeRefl(a[1..]);
    }
  }

  lemma {:induction false} LexLeTotal(a: string, b: string)
    ensures LexLe(a, b) || LexLe(b, a)
    decreases |a|
  {
    if a != [] && b != [] && a[0] == b[0] {
      LexLeTotal(a[1..], b[1..]);
    }
  }

  lemma {:induction false} LexLeTrans(a: string, b: string, c: string)
    requires LexLe(a, b) && LexLe(b, c)
    ensures LexLe(a, c)
    decreases |a|
  {
    if a != [] && a[0] == b[0] && b[0] == c[0] {
      LexLeTrans(a[1..], b[1..], c[1..]);
    }
  }

  lemma {:induction false} LexLeAntisym(a: string, b: string)
    requires LexLe(a, b) && LexLe(b, a)
    ensures a == b
    decreases |a|
  {
    if a != [] {
      LexLeAntisym(a[1..], b[1..]);
      assert a == [a[0]] + a[1..] && b == [b[0]] + b[1..];
    }
  }

  predicate Sorted(s: seq<string>) {
    forall i, j :: 0 <= i < j < |s| ==> LexLe(s[i], s[j])
  }

  /** Inserts x into a sorted list after every element not greater than it. */
  function Insert(x: string, s: seq<string>): (r: seq<string>)
    requires Sorted(s)
    ensures Sorted(r) && multiset(r) == multiset(s) + multiset{x}
    decreases |s|
  {
    if s == [] then [x]
    else if LexLe(s[0], x) then
      var rest := Insert(x, s[1..]);
      assert s == [s[0]] + s[1..];
      InsertHead(s[0], x, s[1..], rest);
      [s[0]] + rest
    else
      LexLeTotal(s[0], x);
      forall j | 0 <= j < |s| ensures LexLe(x, s[j]) {
        if j > 0 { LexLeTrans(x, s[0], s[j]); }
      }
      [x] + s
  }

  lemma InsertHead(h: string, x: string, tail: seq<string>, rest: seq<string>)
    requires Sorted([h] + tail) && LexLe(h, x)
    requires Sorted(rest) && multiset(rest) == multiset(tail) + multiset{x}
    ensures Sorted([h] + rest)
  {
    forall j | 0 <= j < |rest| ensures LexLe(h, rest[j]) {
      assert rest[j] in multiset(rest);
      assert ([h] + tail)[0] == h;
      if rest[j] != x {
        assert rest[j] in multiset(tail);
        var t :| 0 <= t < |tail| && tail[t] == rest[j];
        assert ([h] + tail)[t + 1] == tail[t];
      }
    }
  }

  /** sorted(strings): the same strings in ascending order. */
  function Sort(s: seq<string>): (r: seq<string>)
    ensures Sorted(r) && multiset(r) == multiset(s)
  {
    if s == [] then [] else
      assert s == [s[0]] + s[1..];
      Insert(s[0], Sort(s[1..]))
  }

  /** sorted(d): the keys of a string-keyed dict in ascending order. */
  function SortedKeys(d: Dict): (r: seq<string>)
    ensures Sorted(r) && multiset(r) == multiset(Keys(d))
  {
    Sort(Keys(d))
  }

  /** A sorted list is determined by its elements: sorting is the only order it can have. */
  lemma {:induction false} SortedUnique(a: seq<string>, b: seq<string>)
    requires Sorted(a) && Sorted(b) && multiset(a) == multiset(b)
    ensures a == b
    decreases |a|
  {
    assert |b| == |multiset(b)| == |multiset(a)| == |a|;
    if a != [] {
      SortedSameHead(a, b);
      assert a == [a[0]] + a[1..] && b == [b[0]] + b[1..];
      assert multiset(a[1..]) == multiset(a) - multiset{a[0]};
      assert multiset(b[1..]) == multiset(b) - multiset{b[0]};
      SortedTail(a);
      SortedTail(b);
      SortedUnique(a[1..], b[1..]);
    }
  }

  lemma SortedTail(a: seq<string>)
    requires Sorted(a) && a != []
    ensures Sorted(a[1..])
  {
    forall i, j | 0 <= i < j < |a| - 1 ensures LexLe(a[1..][i], a[1..][j]) {
      assert a[1..][i] == a[i + 1] && a[1..][j] == a[j + 1];
    }
  }

  lemma SortedSameHead(a: seq<string>, b: seq<string>)
    requires Sorted(a) && Sorted(b) && multiset(a) == multiset(b) && a != [] && b != []
    ensures a[0] == b[0]
  {
    assert a[0] in multiset(b) && b[0] in multiset(a);
    var i :| 0 <= i < |b| && b[i] == a[0];
    var j :| 0 <= j < |a| && a[j] == b[0];
    LexLeRefl(a[0]);
    LexLeRefl(b[0]);
    assert LexLe(b[0], b[i]) && LexLe(a[0], a[j]);
    LexLeAntisym(a[0], b[0]);
  }
}

=== FILE: ledger.dfy ===
/** The ledger entries the importers produce: beancount's Amount, Posting, Transaction and
    Balance, with the fields the importers set (metadata, cost, price and links are left
    out; links are always empty). */
module Ledger {

  import opened Base
  import opened Numbers
  import opened Dates

  /** beancount's flags.FLAG_OKAY and flags.FLAG_WARNING. */
  const FlagOkay: char := '*'
  const FlagWarning: char := '!'

  datatype Amount = Amount(number: Dec, currency: string) {
    /** -amount: the number negated, the currency kept. */
    function Neg(): Amount {
      Amount(number.Neg(), currency)
    }
  }

  datatype Posting = Posting(account: string, units: Amount)

  datatype Transaction = Transaction(
    date: Date,
    flag: char,
    payee: Option<string>,
    narration: Option<string>,
    tags: set<string>,
    postings: seq<Posting>)

  datatype Directive =
    | Txn(txn: Transaction)
    | Bal(date: Date, account: string, amount: Amount)

  /** The transactions among the directives, in order. */
  function Txns(ds: seq<Directive>): (r: seq<Transaction>)
    ensures |r| <= |ds|
    ensures (forall k :: 0 <= k < |ds| ==> ds[k].Txn?) ==> |r| == |ds|
  {
    if ds == [] then []
    else (if ds[0].Txn? then [ds[0].txn] else []) + Txns(ds[1..])
  }

  lemma {:induction false} TxnsAppend(a: seq<Directive>, b: seq<Directive>)
    ensures Txns(a + b) == Txns(a) + Txns(b)
    decreases |a|
  {
    if a != [] {
      assert (a + b)[1..] == a[1..] + b;
      TxnsAppend(a[1..], b);
    } else {
      assert a + b == b;
    }
  }

  /** The directives in reverse order (list(reversed(...))). */
  function Reverse<T>(s: seq<T>): (r: seq<T>)
    ensures |r| == |s|
    ensures forall k :: 0 <= k < |s| ==> r[k] == s[|s| - 1 - k]
  {
    if s == [] then [] else Reverse(s[1..]) + [s[0]]
  }

  lemma {:induction false} TxnsReverse(ds: seq<Directive>)
    ensures Txns(Reverse(ds)) == Reverse(Txns(ds))
    decreases |ds|
  {
    if ds != [] {
      TxnsReverse(ds[1..]);
      TxnsAppend(Reverse(ds[1..]), [ds[0]]);
      ReverseAppend(if ds[0].Txn? then [ds[0].txn] else [], Txns(ds[1..]));
      assert Txns([ds[0]]) == if ds[0].Txn? then [ds[0].txn] else [] by {
        assert [ds[0]][1..] == [];
      }
    }
  }

  lemma ReverseAppend<T>(a: seq<T>, b: seq<T>)
    ensures Reverse(a + b) == Reverse(b) + Reverse(a)
  {
    assert |Reverse(a + b)| == |Reverse(b) + Reverse(a)|;
  }
}

=== FILE: numbers.dfy ===
/** Integers and decimal amounts as the importers read and print them: Python's int() and
    decimal.Decimal() on text, beancount's D(), and zero-padded formatting ("{:04d}"). */
module Numbers {

  import opened Base
  import opened Text

  function DigitValue(c: char): (v: nat)
    requires IsDigit(c)
    ensures v < 10
  {
    c as int - '0' as int
  }

  function DigitChar(n: nat): (c: char)
    requires n < 10
    ensures IsDigit(c) && DigitValue(c) == n
  {
    ('0' as int + n) as char
  }

  function Pow10(n: nat): (r: nat)
    ensures r >= 1
  {
    if n == 0 then 1 else 10 * Pow10(n - 1)
  }

  /** The value of a string of ASCII digits, most significant first. */
  function DigitsValue(s: string): (v: nat)
    requires AllDigits(s)
    ensures v < Pow10(|s|)
    decreases |s|
  {
    if s == [] then 0
    else
      var init := DigitsValue(s[..|s| - 1]);
      var d := DigitValue(s[|s| - 1]);
      assert init * 10 + d < Pow10(|s| - 1) * 10 by {
        assert init + 1 <= Pow10(|s| - 1);
        assert (init + 1) * 10 <= Pow10(|s| - 1) * 10;
      }
      init * 10 + d
  }

  lemma DigitsValueAppend(s: string, c: char)
    requires AllDigits(s) && IsDigit(c)
    ensures AllDigits(s + [c]) && DigitsValue(s + [c]) == DigitsValue(s) * 10 + DigitValue(c)
  {
    assert (s + [c])[..|s|] == s;
  }

  /** The value of two digit strings written one after the other. */
  lemma {:induction false} DigitsValueConcat(a: string, b: string)
    requires AllDigits(a) && AllDigits(b)
    ensures AllDigits(a + b) && DigitsValue(a + b) == DigitsValue(a) * Pow10(|b|) + DigitsValue(b)
    decreases |b|
  {
    if b == [] {
      assert a + b == a;
    } else {
      var init, c := b[..|b| - 1], b[|b| - 1];
      DigitsValueConcat(a, init);
      assert a + b == (a + init) + [c];
      assert (a + b)[..|a + b| - 1] == a + init;
      var va, vi, p := DigitsValue(a), DigitsValue(init), Pow10(|init|);
      assert DigitsValue(a + init) == va * p + vi;
      assert DigitsValue(b) == vi * 10 + DigitValue(c);
      assert Pow10(|b|) == p * 10;
      assert DigitsValue(a + b) == (va * p + vi) * 10 + DigitValue(c);
      MulTen(va, p);
    }
  }

  lemma MulTen(x: int, p: int)
    ensures x * (p * 10) == (x * p) * 10
  {
  }

  /** Exactly w digits of n, most significant first: n modulo 10^w. */
  function FixedDigits(n: nat, w: nat): (s: string)
    ensures |s| == w && AllDigits(s)
  {
    if w == 0 then "" else FixedDigits(n / 10, w - 1) + [DigitChar(n % 10)]
  }

  /** Reading back w fixed digits gives n when n has at most w digits. */
  lemma {:induction false} FixedDigitsValue(n: nat, w: nat)
    requires n < Pow10(w)
    ensures DigitsValue(FixedDigits(n, w)) == n
  {
    if w > 0 {
      assert n / 10 < Pow10(w - 1);
      FixedDigitsValue(n / 10, w - 1);
      DigitsValueAppend(FixedDigits(n / 10, w - 1), DigitChar(n % 10));
    }
  }

  /** Writing w digits of the value of a w-digit string gives the string back. */
  lemma {:induction false} DigitsRoundTrip(s: string)
    requires AllDigits(s)
    ensures FixedDigits(DigitsValue(s), |s|) == s
    decreases |s|
  {
    if s != [] {
      var init, c := s[..|s| - 1], s[|s| - 1];
      var v := DigitsValue(init) * 10 + DigitValue(c);
      assert v / 10 == DigitsValue(init) && v % 10 == DigitValue(c);
      DigitsRoundTrip(init);
      assert s == init + [c];
    }
  }

  /** str(n) for a natural number: its digits with no leading zero. */
  function NatDigits(n: nat): (s: string)
    ensures s != []
    ensures |s| == 1 || s[0] != '0'
  {
    if n < 10 then [DigitChar(n)]
    else NatDigits(n / 10) + [DigitChar(n % 10)]
  }

  /** str(n) is made of digits only, and int() reads n back from it. */
  lemma {:induction false} NatDigitsValue(n: nat)
    ensures AllDigits(NatDigits(n)) && DigitsValue(NatDigits(n)) == n
    decreases n
  {
    if n >= 10 {
      NatDigitsValue(n / 10);
      DigitsValueAppend(NatDigits(n / 10), DigitChar(n % 10));
    }
  }

  /** format(n, "0wd") for a natural number n: at least one digit, padded with zeros to at
      least w digits. */
  function ZeroPad(n: nat, w: nat): (s: string)
    ensures s != [] && AllDigits(s) && |s| >= w && DigitsValue(s) == n
  {
    if w > 0 && n < Pow10(w) then
      FixedDigitsValue(n, w);
      FixedDigits(n, w)
    else
      var s := NatDigits(n);
      NatDigitsValue(n);
      if |s| < w then
        PowMonotone(|s|, w);
        s
      else s
  }

  lemma {:induction false} PowMonotone(a: nat, b: nat)
    requires a <= b
    ensures Pow10(a) <= Pow10(b)
    decreases b
  {
    if a < b {
      PowMonotone(a, b - 1);
    }
  }

  /** A w-digit field prints back as itself: "{:04d}" of int("2024") is "2024". */
  lemma ZeroPadDigits(s: string)
    requires AllDigits(s) && s != []
    ensures ZeroPad(DigitsValue(s), |s|) == s
  {
    assert DigitsValue(s) < Pow10(|s|);
    DigitsRoundTrip(s);
  }

  /** Text Python's int() accepts, once stripped: an optional sign and ASCII digits. */
  predicate IsIntLiteral(t: string) {
    if t != [] && (t[0] == '+' || t[0] == '-') then t[1..] != [] && AllDigits(t[1..])
    else t != [] && AllDigits(t)
  }

  /** Python's int(text). */
  function ParseInt(text: string): (r: Result<int>)
    ensures r.Ok? <==> IsIntLiteral(Strip(text))
    ensures r.Err? ==> r.error == NotAnInteger(text)
    ensures AllDigits(text) && text != [] ==> r == Ok(DigitsValue(text))
  {
    var t := Strip(text);
    if t != [] && (t[0] == '+' || t[0] == '-') then
      if t[1..] != [] && AllDigits(t[1..]) then
        var v: int := DigitsValue(t[1..]);
        Ok(if t[0] == '-' then -v else v)
      else Err(NotAnInteger(text))
    else if t != [] && AllDigits(t) then Ok(DigitsValue(t))
    else Err(NotAnInteger(text))
  }

  /** Reading a zero-padded number back gives the number. */
  lemma ParseZeroPad(n: nat, w: nat)
    ensures ParseInt(ZeroPad(n, w)) == Ok(n)
  {
    var s := ZeroPad(n, w);
    assert IsDigit(s[0]) && IsDigit(s[|s| - 1]);
    assert Strip(s) == s;
  }

  /** A decimal amount: the value mant / 10^scale, with the scale the text was written in
      (so "1.00" is Dec(100, 2), as Python's Decimal keeps it). */
  datatype Dec = Dec(mant: int, scale: nat) {
    /** The negated amount; zero, having no sign here, is its own negation. */
    function Neg(): (r: Dec)
      ensures r.mant == -mant && r.scale == scale
    {
      if mant == 0 then this else Dec(-mant, scale)
    }
  }

  /** Numeric equality, the one Python's Decimal == uses. */
  predicate SameValue(a: Dec, b: Dec) {
    a.mant * Pow10(b.scale) == b.mant * Pow10(a.scale)
  }

  /** The unsigned part of a decimal literal: digits with at most one point and at least one
      digit ("12", "12.50", "12.", ".5"). */
  predicate IsDecimalBody(b: string) {
    if '.' in b then
      var i := IndexOf(b, '.');
      AllDigits(b[..i]) && AllDigits(b[i + 1..]) && |b| >= 2
    else b != [] && AllDigits(b)
  }

  predicate IsDecimalLiteral(t: string) {
    if t != [] && (t[0] == '+' || t[0] == '-') then IsDecimalBody(t[1..]) else IsDecimalBody(t)
  }

  function BodyValue(b: string): (d: Dec)
    requires IsDecimalBody(b)
    ensures d.mant >= 0
  {
    if '.' in b then
      var i := IndexOf(b, '.');
      Dec(DigitsValue(b[..i] + b[i + 1..]), |b| - i - 1)
    else Dec(DigitsValue(b), 0)
  }

  /** Python's decimal.Decimal(text) on plain literals; the scale is the number of digits
      after the point. */
  function ParseDecimal(text: string): (r: Result<Dec>)
    ensures r.Ok? <==> IsDecimalLiteral(Strip(text))
    ensures r.Err? ==> r.error == NotADecimal(text)
  {
    var t := Strip(text);
    var signed := t != [] && (t[0] == '+' || t[0] == '-');
    var body := if signed then t[1..] else t;
    if !IsDecimalBody(body) then Err(NotADecimal(text))
    else
      var v := BodyValue(body);
      Ok(if signed && t[0] == '-' then v.Neg() else v)
  }

  /** The digits ds with a point before the last `scale` of them (none when scale is 0). */
  function WithPoint(ds: string, scale: nat): string
    requires scale < |ds|
  {
    if scale == 0 then ds else ds[..|ds| - scale] + "." + ds[|ds| - scale..]
  }

  /** The canonical text of an amount, as str(Decimal) prints it for these values:
      "-12.50", "0.05", "7". */
  function Render(d: Dec): string {
    var a := if d.mant < 0 then -d.mant else d.mant;
    var sign := if d.mant < 0 then "-" else "";
    sign + WithPoint(ZeroPad(a, d.scale + 1), d.scale)
  }


  lemma WithPointBody(ds: string, scale: nat)
    requires AllDigits(ds) && scale < |ds|
    ensures IsDecimalBody(WithPoint(ds, scale))
    ensures BodyValue(WithPoint(ds, scale)) == Dec(DigitsValue(ds), scale)
  {
    if scale == 0 {
      DigitsBody(ds);
    } else {
      var ip, fp := ds[..|ds| - scale], ds[|ds| - scale..];
      assert ip + fp == ds;
      assert WithPoint(ds, scale) == ip + "." + fp;
      PointBody(ip, fp);
    }
  }

  lemma DigitsBody(ds: string)
    requires AllDigits(ds) && ds != []
    ensures IsDecimalBody(ds) && BodyValue(ds) == Dec(DigitsValue(ds), 0)
  {
    assert '.' !in ds;
  }

  lemma PointBody(ip: string, fp: string)
    requires AllDigits(ip) && AllDigits(fp) && ip != []
    ensures var b := ip + "." + fp;
      IsDecimalBody(b) && BodyValue(b) == Dec(DigitsValue(ip + fp), |fp|)
  {
    var b := ip + "." + fp;
    assert '.' !in ip;
    assert b[..|ip|] == ip;
    assert b[|ip| + 1..] == fp;
    IndexOfAt(b, '.', |ip|);
  }

  lemma WithPointEdges(ds: string, scale: nat)
    requires AllDigits(ds) && scale < |ds|
    ensures var b := WithPoint(ds, scale); b != [] && IsDigit(b[0]) && IsDigit(b[|b| - 1])
  {
    if scale > 0 {
      var b := WithPoint(ds, scale);
      assert b[0] == ds[0];
      assert b[|b| - 1] == ds[|ds| - 1];
    }
  }

  lemma ParseBody(body: string)
    requires IsDecimalBody(body) && IsDigit(body[0]) && IsDigit(body[|body| - 1])
    ensures ParseDecimal(body) == Ok(BodyValue(body))
    ensures ParseDecimal("-" + body) == Ok(BodyValue(body).Neg())
  {
    ParsePlainBody(body);
    ParseNegBody(body);
  }

  lemma ParsePlainBody(body: string)
    requires IsDecimalBody(body) && IsDigit(body[0]) && IsDigit(body[|body| - 1])
    ensures ParseDecimal(body) == Ok(BodyValue(body))
  {
    assert Strip(body) == body;
    assert !(body[0] == '+' || body[0] == '-');
  }

  lemma ParseNegBody(body: string)
    requires IsDecimalBody(body) && IsDigit(body[0]) && IsDigit(body[|body| - 1])
    ensures ParseDecimal("-" + body) == Ok(BodyValue(body).Neg())
  {
    var neg := "-" + body;
    assert neg[1..] == body;
    assert neg[0] == '-' && neg[|neg| - 1] == body[|body| - 1];
    assert Strip(neg) == neg;
  }

  lemma ParsePosBody(body: string)
    requires IsDecimalBody(body) && IsDigit(body[0]) && IsDigit(body[|body| - 1])
    ensures ParseDecimal("+" + body) == Ok(BodyValue(body))
  {
    var pos := "+" + body;
    assert pos[1..] == body;
    assert pos[0] == '+' && pos[|pos| - 1] == body[|body| - 1];
    assert Strip(pos) == pos;
  }

  /** The text Render prints, taken apart: an optional minus sign and a body whose value
      is the magnitude. */
  lemma RenderParts(d: Dec) returns (body: string)
    ensures IsDecimalBody(body) && IsDigit(body[0]) && IsDigit(body[|body| - 1])
    ensures BodyValue(body) == Dec(if d.mant < 0 then -d.mant else d.mant, d.scale)
    ensures Render(d) == if d.mant < 0 then "-" + body else body
  {
    var a := if d.mant < 0 then -d.mant else d.mant;
    var ds := ZeroPad(a, d.scale + 1);
    body := WithPoint(ds, d.scale);
    WithPointBody(ds, d.scale);
    WithPointEdges(ds, d.scale);
  }

  /** Decimal() reads back exactly the amount that Render printed. */
  lemma ParseRender(d: Dec)
    ensures ParseDecimal(Render(d)) == Ok(d)
  {
    var body := RenderParts(d);
    ParseBody(body);
  }

  /** Accountants' negative notation: the text starts with "(" and ends with ")" (so it
      has at least two characters, as one character cannot be both). */
  predicate Parenthesised(c: string) {
    |c| >= 2 && c[0] == '(' && c[|c| - 1] == ')'
  }

  lemma ParenthesisedOf(n: string)
    ensures Parenthesised("(" + n + ")")
  {
  }

  /** The amount reader of both CCB credit-card importers: commas dropped, surrounding
      whitespace stripped, then Decimal(); a text in parentheses is the negation of the
      decimal inside them. */
  function ParseParenAmount(raw: string): (r: Result<Dec>)
    ensures r.Err? ==> r.error.NotADecimal?
  {
    ParseCleaned(Strip(Without(raw, ',')))
  }

  function ParseCleaned(c: string): (r: Result<Dec>)
    ensures r.Err? ==> r.error.NotADecimal?
  {
    if Parenthesised(c) then Negated(ParseDecimal(c[1..|c| - 1])) else ParseDecimal(c)
  }

  function Negated(r: Result<Dec>): Result<Dec> {
    if r.Ok? then Ok(r.value.Neg()) else r
  }

  /** Commas never matter: the text reads as it would with them removed. */
  lemma ParenAmountCommas(raw: string)
    ensures ParseParenAmount(raw) == ParseParenAmount(Without(raw, ','))
  {
    WithoutDrops(raw, ',');
    WithoutAbsent(Without(raw, ','), ',');
  }

  /** Wrapping an amount in parentheses negates it, and fails exactly when the bare amount
      fails. */
  lemma ParenAmountNegates(s: string)
    requires !Parenthesised(Strip(Without(s, ',')))
    ensures ParseParenAmount("(" + s + ")").Ok? <==> ParseParenAmount(s).Ok?
    ensures ParseParenAmount(s).Ok? ==> ParseParenAmount("(" + s + ")").value == ParseParenAmount(s).value.Neg()
  {
    var w := Without(s, ',');
    var c := "(" + w + ")";
    ParensCleaned(s);
    assert ParseParenAmount("(" + s + ")") == Negated(ParseDecimal(w));
    ParseStripped(w);
  }

  /** Cleaning "(s)" keeps the parentheses around s's cleaned text. */
  lemma ParensCleaned(s: string)
    ensures var c := "(" + Without(s, ',') + ")";
      Strip(Without("(" + s + ")", ',')) == c && Parenthesised(c) && c[1..|c| - 1] == Without(s, ',')
  {
    var w := Without(s, ',');
    var c := "(" + w + ")";
    WithoutConcat("(" + s, ")", ',');
    WithoutConcat("(", s, ',');
    assert Without("(" + s + ")", ',') == c;
    StripParens(w);
    ParenthesisedOf(w);
  }

  lemma StripParens(w: string)
    ensures Strip("(" + w + ")") == "(" + w + ")"
  {
    var c := "(" + w + ")";
    assert c[0] == '(' && c[|c| - 1] == ')';
  }

  /** Decimal() strips its argument itself, so stripping first changes nothing. */
  lemma ParseStripped(t: string)
    ensures ParseDecimal(Strip(t)) == (if ParseDecimal(t).Ok? then ParseDecimal(t) else Err(NotADecimal(Strip(t))))
  {
    StripTwice(t);
  }

  /** The characters of a decimal body: digits and the point. */
  lemma BodyChars(b: string)
    requires IsDecimalBody(b)
    ensures forall k :: 0 <= k < |b| ==> IsDigit(b[k]) || b[k] == '.'
  {
    if '.' in b {
      var i := IndexOf(b, '.');
      forall k | 0 <= k < |b| ensures IsDigit(b[k]) || b[k] == '.' {
        if k < i {
          assert b[k] == b[..i][k];
        } else if k > i {
          assert b[k] == b[i + 1..][k - i - 1];
        }
      }
    }
  }

  /** Rendered text has no comma, nothing to strip and no parentheses. */
  lemma RenderClean(d: Dec)
    ensures var t := Render(d); Strip(Without(t, ',')) == t && !Parenthesised(t)
  {
    var t := Render(d);
    RenderLacks(d, ',');
    WithoutAbsent(t, ',');
    RenderEnds(d);
  }

  /** Rendered text holds only digits, the point and the minus sign. */
  lemma RenderLacks(d: Dec, c: char)
    requires !IsDigit(c) && c != '.' && c != '-'
    ensures c !in Render(d)
  {
    var body := RenderParts(d);
    BodyChars(body);
    LacksSigned(body, d.mant < 0, c);
  }

  lemma LacksSigned(body: string, neg: bool, c: char)
    requires !IsDigit(c) && c != '.' && c != '-'
    requires forall k :: 0 <= k < |body| ==> IsDigit(body[k]) || body[k] == '.'
    ensures c !in (if neg then "-" + body else body)
  {
    var t := if neg then "-" + body else body;
    forall k | 0 <= k < |t| ensures t[k] != c {
      if neg && k > 0 {
        assert t[k] == body[k - 1];
      }
    }
  }

  lemma RenderEnds(d: Dec)
    ensures var t := Render(d); Strip(t) == t && t[0] != '('
  {
    var body := RenderParts(d);
    if d.mant < 0 {
      SignedEnds(body);
    } else {
      StripDigitEnds(body);
    }
  }

  lemma SignedEnds(body: string)
    requires body != [] && IsDigit(body[|body| - 1])
    ensures Strip("-" + body) == "-" + body
  {
    var t := "-" + body;
    assert t[|t| - 1] == body[|body| - 1];
  }

  /** The amount reader reads back what Render printed, bare or in parentheses. */
  lemma ParenAmountRender(d: Dec)
    ensures ParseParenAmount(Render(d)) == Ok(d)
    ensures ParseParenAmount("(" + Render(d) + ")") == Ok(d.Neg())
  {
    RenderClean(d);
    ParseRender(d);
    ParenAmountNegates(Render(d));
  }

  /** beancount's D(text): the empty string is zero; otherwise commas and spaces are dropped
      and the rest goes to Decimal(). */
  function D(text: string): (r: Result<Dec>)
    ensures text == "" ==> r == Ok(Dec(0, 0))
    ensures text != "" ==> r == ParseDecimal(ReplaceAll(ReplaceAll(text, ",", ""), " ", ""))
  {
    if text == "" then Ok(Dec(0, 0))
    else ParseDecimal(ReplaceAll(ReplaceAll(text, ",", ""), " ", ""))
  }

  /** beancount's D() reads back what Render printed. */
  lemma DRender(d: Dec)
    ensures D(Render(d)) == Ok(d)
  {
    var t := Render(d);
    var body := RenderParts(d);
    assert t != "";
    RenderLacks(d, ',');
    RenderLacks(d, ' ');
    RemoveChar(t, ',');
    WithoutAbsent(t, ',');
    RemoveChar(t, ' ');
    WithoutAbsent(t, ' ');
    assert "," == [','] && " " == [' '];
    ParseRender(d);
  }
}

=== FILE: text.dfy ===
/** The Python `str` operations the importers use, on `seq<char>`. */
module Text {

  import opened Base

  /** The characters Python's str.isspace() accepts; str.split() and str.strip() with no
      argument cut at exactly these. */
  predicate IsSpace(c: char) {
    c == ' ' || ('\t' <= c <= '\r') || ('\U{1C}' <= c <= '\U{1F}') || c == '\U{85}' ||
    c == '\U{A0}' || c == '\U{1680}' || ('\U{2000}' <= c <= '\U{200A}') ||
    c == '\U{2028}' || c == '\U{2029}' || c == '\U{202F}' || c == '\U{205F}' || c == '\U{3000}'
  }

  predicate NoSpace(s: string) {
    forall i :: 0 <= i < |s| ==> !IsSpace(s[i])
  }

  /** A token as str.split() produces it: non-empty, without whitespace. */
  predicate IsToken(t: string) {
    t != [] && NoSpace(t)
  }

  predicate IsDigit(c: char) {
    '0' <= c <= '9'
  }

  predicate AllDigits(s: string) {
    forall i :: 0 <= i < |s| ==> IsDigit(s[i])
  }

  predicate StartsWith(s: string, prefix: string) {
    |prefix| <= |s| && s[..|prefix|] == prefix
  }

  predicate EndsWith(s: string, suffix: string) {
    |suffix| <= |s| && s[|s| - |suffix|..] == suffix
  }

  predicate OccursAt(s: string, sub: string, i: int) {
    0 <= i && i + |sub| <= |s| && s[i..i + |sub|] == sub
  }

  /** str.find: the first index at or after `from` where sub occurs. */
  function FindFrom(s: string, sub: string, from: nat): (r: Option<nat>)
    ensures r.Some? ==> from <= r.value && OccursAt(s, sub, r.value)
    ensures r.Some? ==> forall j :: from <= j < r.value ==> !OccursAt(s, sub, j)
    ensures r.None? ==> forall j :: from <= j ==> !OccursAt(s, sub, j)
    decreases |s| - from
  {
    if from + |sub| > |s| then None
    else if s[from..from + |sub|] == sub then Some(from)
    else FindFrom(s, sub, from + 1)
  }

  function Find(s: string, sub: string): (r: Option<nat>)
    ensures r.Some? ==> OccursAt(s, sub, r.value) && forall j :: 0 <= j < r.value ==> !OccursAt(s, sub, j)
    ensures r.None? ==> forall j :: !OccursAt(s, sub, j)
  {
    FindFrom(s, sub, 0)
  }

  /** Python's `sub in s`. */
  predicate Contains(s: string, sub: string) {
    Find(s, sub).Some?
  }

  lemma ContainsAt(s: string, sub: string, i: int)
    requires OccursAt(s, sub, i)
    ensures Contains(s, sub)
  {
  }

  /** The length of the run of non-whitespace characters that starts s. */
  function WordLength(s: string): (k: nat)
    ensures k <= |s| && NoSpace(s[..k]) && (k == |s| || IsSpace(s[k]))
  {
    if s == [] || IsSpace(s[0]) then 0 else 1 + WordLength(s[1..])
  }

  /** Every element is a token. */
  predicate AllTokens(ts: seq<string>) {
    forall t :: t in ts ==> IsToken(t)
  }

  /** str.split() with no argument: the maximal runs of non-whitespace characters. */
  function Split(s: string): (r: seq<string>)
    ensures AllTokens(r)
    decreases |s|
  {
    if s == [] then []
    else if IsSpace(s[0]) then Split(s[1..])
    else
      var k := WordLength(s);
      [s[..k]] + Split(s[k..])
  }

  /** sep.join(parts). */
  function Join(sep: string, parts: seq<string>): string
    decreases |parts|
  {
    if parts == [] then ""
    else if |parts| == 1 then parts[0]
    else parts[0] + sep + Join(sep, parts[1..])
  }

  lemma WordLengthOfToken(t: string, rest: string)
    requires IsToken(t)
    requires rest == [] || IsSpace(rest[0])
    ensures WordLength(t + rest) == |t|
    decreases |t|
  {
    if |t| > 1 {
      assert (t + rest)[1..] == t[1..] + rest;
      WordLengthOfToken(t[1..], rest);
    }
  }

  /** Splitting undoes joining with single spaces: split() recovers the tokens. */
  lemma {:induction false} SplitJoin(ts: seq<string>)
    requires forall t :: t in ts ==> IsToken(t)
    ensures Split(Join(" ", ts)) == ts
    decreases |ts|
  {
    if |ts| == 1 {
      var t := ts[0];
      WordLengthOfToken(t, []);
      assert t + [] == t;
      assert t[|t|..] == [];
    } else if |ts| > 1 {
      var t, rest := ts[0], Join(" ", ts[1..]);
      var s := t + " " + rest;
      assert s == t + (" " + rest);
      WordLengthOfToken(t, " " + rest);
      assert s[..|t|] == t;
      assert s[|t|..] == " " + rest;
      assert (" " + rest)[1..] == rest;
      SplitJoin(ts[1..]);
      assert ts == [ts[0]] + ts[1..];
    }
  }

  /** Joining tokens with single spaces gives text with no whitespace at either end. */
  lemma {:induction false} JoinTokensEdges(ts: seq<string>)
    requires forall t :: t in ts ==> IsToken(t)
    ensures var j := Join(" ", ts);
      (ts == [] <==> j == []) &&
      (j != [] ==> !IsSpace(j[0]) && !IsSpace(j[|j| - 1]))
    decreases |ts|
  {
    if |ts| == 1 {
      assert ts[0] in ts;
    } else if |ts| > 1 {
      assert ts[0] in ts;
      JoinTokensEdges(ts[1..]);
      var rest := Join(" ", ts[1..]);
      var j := ts[0] + " " + rest;
      assert Join(" ", ts) == j;
      assert j[0] == ts[0][0];
      assert j[|j| - 1] == rest[|rest| - 1];
    }
  }

  /** Stripping tokens joined with single spaces changes nothing; the result is empty
      exactly when there are no tokens. */
  lemma StripJoinedTokens(ts: seq<string>)
    requires forall t :: t in ts ==> IsToken(t)
    ensures Strip(Join(" ", ts)) == Join(" ", ts)
    ensures Join(" ", ts) == [] <==> ts == []
  {
    JoinTokensEdges(ts);
  }

  /** Text that starts and ends with a digit has nothing to strip. */
  lemma StripDigitEnds(s: string)
    requires s != [] && IsDigit(s[0]) && IsDigit(s[|s| - 1])
    ensures Strip(s) == s
  {
  }

  /** A token has nothing to strip. */
  lemma StripToken(t: string)
    requires IsToken(t)
    ensures Strip(t) == t
  {
    assert !IsSpace(t[0]) && !IsSpace(t[|t| - 1]);
  }

  /** The number of whitespace characters s starts with. */
  function LeadingSpaces(s: string): (n: nat)
    ensures n <= |s| && (forall k :: 0 <= k < n ==> IsSpace(s[k])) && (n == |s| || !IsSpace(s[n]))
  {
    if s != [] && IsSpace(s[0]) then 1 + LeadingSpaces(s[1..]) else 0
  }

  /** The number of whitespace characters s ends with. */
  function TrailingSpaces(s: string): (n: nat)
    ensures n <= |s| && (forall k :: |s| - n <= k < |s| ==> IsSpace(s[k]))
    ensures n == |s| || !IsSpace(s[|s| - 1 - n])
  {
    if s != [] && IsSpace(s[|s| - 1]) then 1 + TrailingSpaces(s[..|s| - 1]) else 0
  }

  /** str.strip() with no argument. */
  function Strip(s: string): (r: string)
    ensures r == [] || (!IsSpace(r[0]) && !IsSpace(r[|r| - 1]))
    ensures r == [] <==> forall k :: 0 <= k < |s| ==> IsSpace(s[k])
    ensures (s == [] || (!IsSpace(s[0]) && !IsSpace(s[|s| - 1]))) ==> r == s
  {
    var a := LeadingSpaces(s);
    if a == |s| then []
    else
      var b := |s| - TrailingSpaces(s);
      assert !IsSpace(s[a]);
      s[a..b]
  }

  /** Every character the stripped text keeps comes from the text. */
  lemma StripFrom(s: string)
    ensures forall i :: 0 <= i < |Strip(s)| ==> Strip(s)[i] in s
  {
    if LeadingSpaces(s) < |s| {
      var a, b := LeadingSpaces(s), |s| - TrailingSpaces(s);
      forall i | 0 <= i < |Strip(s)| ensures Strip(s)[i] in s {
        assert Strip(s)[i] == s[a + i];
      }
    }
  }

  /** Stripping twice strips no more than once. */
  lemma StripTwice(s: string)
    ensures Strip(Strip(s)) == Strip(s)
  {
  }

  /** a is a subsequence of b: b with some lines dropped. */
  predicate IsSubseq(a: seq<string>, b: seq<string>)
    decreases |b|
  {
    if a == [] then true
    else if b == [] then false
    else (a[0] == b[0] && IsSubseq(a[1..], b[1..])) || IsSubseq(a, b[1..])
  }

  lemma {:induction false} SubseqOfSuffix(a: seq<string>, b: seq<string>, i: nat)
    requires i <= |b| && IsSubseq(a, b[i..])
    ensures IsSubseq(a, b)
    decreases i
  {
    if i > 0 {
      assert b[i - 1..][1..] == b[i..];
      SubseqOfSuffix(a, b, i - 1);
    }
  }

  /** str.replace(pattern, replacement): every non-overlapping occurrence, scanning left to
      right. The importers only call it with a non-empty pattern. */
  function ReplaceAll(s: string, pattern: string, replacement: string): (r: string)
    requires pattern != []
    decreases |s|
  {
    if s == [] then []
    else if StartsWith(s, pattern) then replacement + ReplaceAll(s[|pattern|..], pattern, replacement)
    else [s[0]] + ReplaceAll(s[1..], pattern, replacement)
  }

  /** str.replace changes nothing in a text without an occurrence of the pattern. */
  lemma {:induction false} ReplaceAbsent(s: string, pattern: string, replacement: string)
    requires pattern != [] && !Contains(s, pattern)
    ensures ReplaceAll(s, pattern, replacement) == s
    decreases |s|
  {
    if s != [] {
      assert !OccursAt(s, pattern, 0);
      if Contains(s[1..], pattern) {
        var j := Find(s[1..], pattern).value;
        assert s[j + 1..j + 1 + |pattern|] == s[1..][j..j + |pattern|];
        ContainsAt(s, pattern, j + 1);
      }
      ReplaceAbsent(s[1..], pattern, replacement);
    }
  }

  /** No copy of the pattern starts inside a, not even one that runs on into a following copy. */
  predicate NoStartIn(a: string, pattern: string) {
    forall i :: 0 <= i < |a| ==> !OccursAt(a + pattern, pattern, i)
  }

  /** str.replace walks past a piece in which no copy starts, then replaces the copy after it. */
  lemma {:induction false} ReplaceAfter(a: string, pattern: string, replacement: string, b: string)
    requires pattern != [] && NoStartIn(a, pattern)
    ensures ReplaceAll(a + pattern + b, pattern, replacement)
         == a + replacement + ReplaceAll(b, pattern, replacement)
    decreases |a|
  {
    var s := a + pattern + b;
    if a == [] {
      assert s == pattern + b;
      assert StartsWith(s, pattern);
      assert s[|pattern|..] == b;
    } else {
      assert (a + pattern)[..|pattern|] == s[..|pattern|];
      assert !OccursAt(a + pattern, pattern, 0);
      assert !StartsWith(s, pattern);
      assert s[1..] == a[1..] + pattern + b;
      forall i | 0 <= i < |a[1..]|
        ensures !OccursAt(a[1..] + pattern, pattern, i)
      {
        assert !OccursAt(a + pattern, pattern, i + 1);
        assert (a + pattern)[i + 1..i + 1 + |pattern|] == (a[1..] + pattern)[i..i + |pattern|];
      }
      ReplaceAfter(a[1..], pattern, replacement, b);
      assert s[0] == a[0];
      assert [a[0]] + a[1..] == a;
    }
  }

  /** "".join(parts) from sep.join(parts) with str.replace(sep, ""): every separator is removed,
      as long as no copy of it starts inside a piece. */
  lemma {:induction false} ReplaceJoined(sep: string, parts: seq<string>)
    requires sep != [] && parts != []
    requires forall k :: 0 <= k < |parts| - 1 ==> NoStartIn(parts[k], sep)
    requires !Contains(parts[|parts| - 1], sep)
    ensures ReplaceAll(Join(sep, parts), sep, "") == Join("", parts)
    decreases |parts|
  {
    if |parts| == 1 {
      ReplaceAbsent(parts[0], sep, "");
    } else {
      var rest := parts[1..];
      assert rest[|rest| - 1] == parts[|parts| - 1];
      assert forall k :: 0 <= k < |rest| - 1 ==> rest[k] == parts[k + 1];
      ReplaceJoined(sep, rest);
      ReplaceAfter(parts[0], sep, "", Join(sep, rest));
      assert Join(sep, parts) == parts[0] + sep + Join(sep, rest);
      assert Join("", parts) == parts[0] + "" + Join("", rest);
    }
  }

  /** Removing a character with str.replace(c, "") leaves no copy of it and keeps every
      other character, in order. */
  lemma {:induction false} RemoveChar(s: string, c: char)
    ensures var r := ReplaceAll(s, [c], "");
      c !in r && r == Without(s, c)
    decreases |s|
  {
    if s != [] {
      RemoveChar(s[1..], c);
    }
  }

  /** Reference definition: s with every c dropped. */
  function Without(s: string, c: char): string {
    if s == [] then [] else (if s[0] == c then [] else [s[0]]) + Without(s[1..], c)
  }

  /** Dropping c from a concatenation drops it from each part. */
  lemma {:induction false} WithoutConcat(a: string, b: string, c: char)
    ensures Without(a + b, c) == Without(a, c) + Without(b, c)
    decreases |a|
  {
    if a == [] {
      assert a + b == b;
    } else {
      assert (a + b)[1..] == a[1..] + b;
      WithoutConcat(a[1..], b, c);
    }
  }

  /** Dropping c leaves no copy of it and adds no other character. */
  lemma {:induction false} WithoutDrops(s: string, c: char)
    ensures c !in Without(s, c)
    ensures forall x :: x in Without(s, c) ==> x in s
    decreases |s|
  {
    if s != [] {
      WithoutDrops(s[1..], c);
    }
  }

  /** Stripping adds no character. */
  lemma StripKeeps(s: string, c: char)
    requires c !in s
    ensures c !in Strip(s)
  {
  }

  /** Text without c is left as it is. */
  lemma {:induction false} WithoutAbsent(s: string, c: char)
    requires c !in s
    ensures Without(s, c) == s
    decreases |s|
  {
    if s != [] {
      assert c !in s[1..];
      WithoutAbsent(s[1..], c);
    }
  }

  /** str.removeprefix. */
  function RemovePrefix(s: string, prefix: string): (r: string)
    ensures StartsWith(s, prefix) ==> s == prefix + r
    ensures !StartsWith(s, prefix) ==> r == s
  {
    if StartsWith(s, prefix) then s[|prefix|..] else s
  }

  /** The number of copies of c that s starts with. */
  function LeadingCount(s: string, c: char): (n: nat)
    ensures n <= |s| && (forall i :: 0 <= i < n ==> s[i] == c) && (n == |s| || s[n] != c)
  {
    if s != [] && s[0] == c then 1 + LeadingCount(s[1..], c) else 0
  }

  /** str.lstrip(c) for one character c. */
  function LStripChar(s: string, c: char): (r: string)
    ensures |r| <= |s| && (r == [] || r[0] != c)
    ensures s == seq(|s| - |r|, _ => c) + r
  {
    var n := LeadingCount(s, c);
    assert s == s[..n] + s[n..];
    assert s[..n] == seq(n, _ => c);
    s[n..]
  }

  /** The first index of c in s. */
  function IndexOf(s: string, c: char): (i: nat)
    requires c in s
    ensures i < |s| && s[i] == c && c !in s[..i]
  {
    if s[0] == c then 0 else 1 + IndexOf(s[1..], c)
  }

  /** str.split(c) for one separator character: the pieces between the copies of c. */
  function SplitOn(s: string, c: char): (r: seq<string>)
    ensures |r| >= 1
    ensures forall p :: p in r ==> c !in p
    decreases |s|
  {
    if c !in s then [s]
    else
      var i := IndexOf(s, c);
      [s[..i]] + SplitOn(s[i + 1..], c)
  }

  lemma SplitOnStep(s: string, c: char)
    requires c in s
    ensures SplitOn(s, c) == [s[..IndexOf(s, c)]] + SplitOn(s[IndexOf(s, c) + 1..], c)
  {
  }

  /** Joining the pieces with the separator gives back the original text. */
  lemma {:induction false} JoinSplitOn(s: string, c: char)
    ensures Join([c], SplitOn(s, c)) == s
    decreases |s|
  {
    if c in s {
      var i := IndexOf(s, c);
      var tail := s[i + 1..];
      JoinSplitOn(tail, c);
      SplitOnStep(s, c);
      JoinCons([c], s[..i], SplitOn(tail, c));
      CutAt(s, i);
    }
  }

  lemma CutAt(s: string, i: nat)
    requires i < |s|
    ensures s == s[..i] + [s[i]] + s[i + 1..]
  {
  }

  /** Joining a first piece onto more pieces puts one separator between them. */
  lemma JoinCons(sep: string, a: string, rest: seq<string>)
    requires rest != []
    ensures Join(sep, [a] + rest) == a + sep + Join(sep, rest)
  {
    assert ([a] + rest)[1..] == rest;
  }

  /** s.split(c, 1)[0]: the text before the first c, or all of s. */
  function BeforeFirst(s: string, c: char): (r: string)
    ensures c !in r
    ensures c in s ==> exists rest :: s == r + [c] + rest
    ensures c !in s ==> r == s
  {
    if c in s then
      var i := IndexOf(s, c);
      assert s == s[..i] + [c] + s[i + 1..];
      s[..i]
    else s
  }

  /** The text before the first c, when c is first found at i (or nowhere, i == |s|). */
  lemma BeforeFirstAt(s: string, c: char, i: nat)
    requires i <= |s| && c !in s[..i] && (i == |s| || s[i] == c)
    ensures BeforeFirst(s, c) == s[..i]
  {
    if i < |s| {
      assert s[..i + 1][..i] == s[..i];
      IndexOfAt(s, c, i);
    } else {
      assert s[..i] == s;
    }
  }

  lemma IndexOfAt(s: string, c: char, i: nat)
    requires i < |s| && s[i] == c && c !in s[..i]
    ensures c in s && IndexOf(s, c) == i
  {
  }

  /** Splitting at c after a piece without c gives that piece, then the pieces of the rest. */
  lemma SplitOnHead(a: string, c: char, b: string)
    requires c !in a
    ensures SplitOn(a + [c] + b, c) == [a] + SplitOn(b, c)
  {
    var s := a + [c] + b;
    assert s[..|a|] == a;
    IndexOfAt(s, c, |a|);
    assert s[|a| + 1..] == b;
  }

  /** The first piece of a split is the text before the first separator. */
  lemma SplitOnFirst(s: string, c: char)
    ensures SplitOn(s, c)[0] == BeforeFirst(s, c)
  {
  }

  /** The last index of c in s. */
  function LastIndexOf(s: string, c: char): (i: nat)
    requires c in s
    ensures i < |s| && s[i] == c && c !in s[i + 1..]
  {
    if s[|s| - 1] == c then |s| - 1
    else
      assert c in s[..|s| - 1] by { var k :| 0 <= k < |s| && s[k] == c; assert s[..|s| - 1][k] == c; }
      LastIndexOf(s[..|s| - 1], c)
  }

  /** s.split(c)[-1]: the text after the last c, or all of s. */
  function AfterLast(s: string, c: char): (r: string)
    ensures c !in r
    ensures c in s ==> |r| < |s| && s == s[..|s| - |r| - 1] + [c] + r
    ensures c !in s ==> r == s
  {
    if c !in s then s
    else
      var i := LastIndexOf(s, c);
      assert s == s[..i] + [c] + s[i + 1..];
      s[i + 1..]
  }

  /** The text after the last c is whatever follows a c with no c after it. */
  lemma AfterLastOf(head: string, c: char, tail: string)
    requires c !in tail
    ensures AfterLast(head + [c] + tail, c) == tail
  {
    var s := head + [c] + tail;
    var i := LastIndexOf(s, c);
    forall j | |head| < j < |s| ensures s[j] != c {
      assert s[j] == tail[j - |head| - 1];
    }
    forall j | i < j < |s| ensures s[j] != c {
      assert s[j] == s[i + 1..][j - i - 1];
    }
    assert s[|head|] == c;
    assert i == |head|;
    assert s[i + 1..] == tail;
  }

  /** Python's s[a:b] for non-negative bounds: clamped to the string, never an error. */
  function Slice(s: string, a: nat, b: nat): (r: string)
    ensures b <= |s| && a <= b ==> r == s[a..b]
    ensures |r| <= |s|
  {
    var lo := if a < |s| then a else |s|;
    var hi := if b < |s| then b else |s|;
    if hi <= lo then [] else s[lo..hi]
  }

  /** str.lower() on ASCII letters; other characters are kept. */
  function AsciiLower(s: string): (r: string)
    ensures |r| == |s|
    ensures forall i :: 0 <= i < |s| ==> r[i] == LowerChar(s[i])
  {
    seq(|s|, i requires 0 <= i < |s| => LowerChar(s[i]))
  }

  function LowerChar(c: char): char {
    if 'A' <= c <= 'Z' then (c as int + 32) as char else c
  }

  /** os.path.basename: the text after the last '/'. */
  function BaseName(path: string): (r: string)
    ensures '/' !in r
  {
    AfterLast(path, '/')
  }

  /** fnmatch with one '*' between a literal prefix and suffix ("CMB_*.csv"). */
  predicate GlobStar(name: string, prefix: string, suffix: string) {
    |prefix| + |suffix| <= |name| && StartsWith(name, prefix) && EndsWith(name, suffix)
  }

  /** A file saved in some directory under a name made of the prefix, anything without a
      '/', and the suffix, matches the pattern. */
  lemma GlobStarNamed(dir: string, prefix: string, middle: string, suffix: string)
    requires '/' !in prefix && '/' !in middle && '/' !in suffix
    ensures BaseName(dir + "/" + prefix + middle + suffix) == prefix + middle + suffix
    ensures GlobStar(BaseName(dir + "/" + prefix + middle + suffix), prefix, suffix)
  {
    var name := prefix + middle + suffix;
    assert dir + "/" + prefix + middle + suffix == dir + ['/'] + name;
    AfterLastOf(dir, '/', name);
    GlobStarOf(prefix, middle, suffix);
  }

  /** A name made of the prefix, anything, and the suffix matches the pattern. */
  lemma GlobStarOf(prefix: string, middle: string, suffix: string)
    ensures GlobStar(prefix + middle + suffix, prefix, suffix)
  {
    var name := prefix + middle + suffix;
    assert name[..|prefix|] == prefix;
    assert name[|name| - |suffix|..] == suffix;
  }

  /** Lower-casing keeps a prefix a prefix, lower-cased. */
  lemma LowerStartsWith(s: string, prefix: string)
    requires StartsWith(s, prefix)
    ensures StartsWith(AsciiLower(s), AsciiLower(prefix))
  {
    var l := AsciiLower(s);
    forall i | 0 <= i < |prefix| ensures l[i] == AsciiLower(prefix)[i] {
      assert s[i] == prefix[i];
    }
    assert l[..|prefix|] == AsciiLower(prefix);
  }

  /** Lower-casing keeps a suffix a suffix, lower-cased. */
  lemma LowerEndsWith(s: string, suffix: string)
    requires EndsWith(s, suffix)
    ensures EndsWith(AsciiLower(s), AsciiLower(suffix))
  {
    var l := AsciiLower(s);
    var k := |s| - |suffix|;
    forall i | 0 <= i < |suffix| ensures l[k + i] == AsciiLower(suffix)[i] {
      assert s[k + i] == s[k..][i] == suffix[i];
    }
    assert l[k..] == AsciiLower(suffix);
  }
}

=== FILE: wechat.dfy ===
/** The WeChat Pay bill CSV importer: each decoded record becomes one transaction, posted to
    the account its payment method names, with a wallet counter-posting for top-ups. */
module Wechat {

  import opened Base
  import opened Text
  import opened Numbers
  import opened Dates
  import opened Ledger
  import opened Dicts

  /** The wallet account an importer built without one uses. */
  const DefaultAccount: string := "Assets:WeChat"
  const Wallet: string := "零钱"
  const NoMethod: string := "/"
  const Fallback: string := "Assets:FIXME"
  const CommentsPrefix: string := "收款方备注:二维码收款付款方留言:"
  const RechargeDone: string := "充值完成"
  const RechargeNarration: string := "微信零钱充值"
  const Tags: set<string> := {"wechat"}
  const Currency: string := "CNY"

  // Account lookup.

  /** Reference definition of the lookup loop: the value of the last key, in dict order,
      that occurs in the payment-method text. */
  function LastMatch(d: seq<(string, string)>, text: string): Option<string>
    decreases |d|
  {
    if d == [] then None
    else if Contains(text, d[|d| - 1].0) then Some(d[|d| - 1].1)
    else LastMatch(d[..|d| - 1], text)
  }

  /** No key of the table occurs in the text. */
  predicate NoKeyIn(d: seq<(string, string)>, text: string) {
    forall j :: 0 <= j < |d| ==> !Contains(text, d[j].0)
  }

  /** The j-th key occurs in the text and no later key does. */
  predicate LastKeyAt(d: seq<(string, string)>, text: string, j: nat) {
    j < |d| && Contains(text, d[j].0) && forall k :: j < k < |d| ==> !Contains(text, d[k].0)
  }

  /** The lookup finds nothing exactly when no key occurs in the text. */
  lemma {:induction false} LastMatchNone(d: seq<(string, string)>, text: string)
    ensures LastMatch(d, text).None? <==> NoKeyIn(d, text)
    decreases |d|
  {
    if d != [] {
      var init := d[..|d| - 1];
      LastMatchNone(init, text);
      if NoKeyIn(init, text) && !Contains(text, d[|d| - 1].0) {
        forall j | 0 <= j < |d| ensures !Contains(text, d[j].0) {
          if j < |d| - 1 {
            assert d[j] == init[j];
          }
        }
      }
      if NoKeyIn(d, text) {
        forall j | 0 <= j < |init| ensures !Contains(text, init[j].0) {
          assert d[j] == init[j];
        }
      }
    }
  }

  /** When the j-th key is the last one occurring in the text, the lookup gives its value. */
  lemma {:induction false} LastMatchAt(d: seq<(string, string)>, text: string, j: nat)
    requires LastKeyAt(d, text, j)
    ensures LastMatch(d, text) == Some(d[j].1)
    decreases |d|
  {
    if j < |d| - 1 {
      var init := d[..|d| - 1];
      assert !Contains(text, d[|d| - 1].0);
      forall k | j < k < |init| ensures !Contains(text, init[k].0) {
        assert init[k] == d[k];
      }
      assert init[j] == d[j];
      LastMatchAt(init, text, j);
    }
  }

  /** The account a payment method resolves to and the flag the row gets: OKAY when some
      key matched, otherwise the placeholder account with the WARNING flag. */
  function Choice(d: Dict, text: string): (r: (string, char))
    ensures LastMatch(d, text).Some? ==> r == (LastMatch(d, text).value, FlagOkay)
    ensures LastMatch(d, text).None? ==> r == (Fallback, FlagWarning)
  {
    match LastMatch(d, text)
    case Some(a) => (a, FlagOkay)
    case None => (Fallback, FlagWarning)
  }

  // The row transform.

  /** The narration: the remark prefix text removed everywhere when the cell starts with it,
      and a lone "/" read as nothing. */
  function CleanNarration(n: string): (r: string)
    ensures r != "/"
    ensures !StartsWith(n, CommentsPrefix) && n != "/" ==> r == n
    ensures n == "/" ==> r == ""
  {
    var m := if StartsWith(n, CommentsPrefix) then ReplaceAll(n, CommentsPrefix, "") else n;
    if m == "/" then "" else m
  }

  /** A remark behind the prefix is kept as written, once the prefix is gone; a lone "/"
      behind it is read as nothing. */
  lemma CleanNarrationPrefixed(g: string)
    requires !Contains(g, CommentsPrefix)
    ensures CleanNarration(CommentsPrefix + g) == if g == "/" then "" else g
  {
    var n := CommentsPrefix + g;
    assert StartsWith(n, CommentsPrefix);
    assert n[|CommentsPrefix|..] == g;
    ReplaceAbsent(g, CommentsPrefix, "");
  }

  /** Every copy of the prefix is removed, not only the leading one: a goods text made of the
      prefix followed by pieces joined with it reads as the pieces run together, provided no
      copy of the prefix starts inside a piece. */
  lemma CleanNarrationJoined(parts: seq<string>)
    requires parts != []
    requires forall k :: 0 <= k < |parts| - 1 ==> NoStartIn(parts[k], CommentsPrefix)
    requires !Contains(parts[|parts| - 1], CommentsPrefix)
    ensures var g := Join("", parts);
      CleanNarration(CommentsPrefix + Join(CommentsPrefix, parts)) == if g == "/" then "" else g
  {
    var rest := Join(CommentsPrefix, parts);
    var n := CommentsPrefix + rest;
    assert n[..|CommentsPrefix|] == CommentsPrefix;
    assert n[|CommentsPrefix|..] == rest;
    ReplaceJoined(CommentsPrefix, parts);
    assert ReplaceAll(n, CommentsPrefix, "") == Join("", parts);
  }

  /** 支出 and "/" are expenses; anything else is income. */
  predicate IsExpense(direction: string) {
    direction == "支出" || direction == NoMethod
  }

  /** The signed amount: D of the cell without its leading "¥" signs, negated for an
      expense. */
  function SignedAmount(cell: string, direction: string): (r: Result<Dec>)
    ensures D(LStripChar(cell, '¥')).Err? ==> r == D(LStripChar(cell, '¥'))
    ensures D(LStripChar(cell, '¥')).Ok? && IsExpense(direction) ==> r == Ok(D(LStripChar(cell, '¥')).value.Neg())
    ensures D(LStripChar(cell, '¥')).Ok? && !IsExpense(direction) ==> r == D(LStripChar(cell, '¥'))
  {
    match D(LStripChar(cell, '¥'))
    case Err(e) => Err(e)
    case Ok(v) => Ok(if IsExpense(direction) then v.Neg() else v)
  }

  /** The transaction built from the cells, once the amount and the account are known. */
  function Build(wallet: string, date: Date, amount: Dec, payee: string, narration: string,
                 choice: (string, char), status: string): (t: Transaction)
    ensures t.date == date && t.flag == choice.1 && t.tags == Tags
    ensures status == RechargeDone ==>
      t.payee == None && t.narration == Some(RechargeNarration) &&
      t.postings == [Posting(wallet, Amount(amount.Neg(), Currency)), Posting(choice.0, Amount(amount, Currency))]
    ensures status != RechargeDone ==>
      t.payee == Some(payee) && t.narration == Some(narration) &&
      t.postings == [Posting(choice.0, Amount(amount, Currency))]
  {
    var posting := Posting(choice.0, Amount(amount, Currency));
    if status == RechargeDone then
      Transaction(date, choice.1, None, Some(RechargeNarration), Tags,
                  [Posting(wallet, Amount(amount.Neg(), Currency))] + [posting])
    else
      Transaction(date, choice.1, Some(payee), Some(narration), Tags, [posting])
  }

  /** One record: the time, the amount and the direction, the payee, the goods, the payment
      method and the status are read in that order. */
  function RowTxn(wallet: string, d: Dict, row: Dict, parseTime: string -> Result<Date>)
    : Result<Transaction>
  {
    match Field(row, "交易时间")
    case Err(e) => Err(e)
    case Ok(time) =>
      match parseTime(time)
      case Err(e) => Err(e)
      case Ok(date) =>
        match Field(row, "金额(元)")
        case Err(e) => Err(e)
        case Ok(cell) =>
          match D(LStripChar(cell, '¥'))
          case Err(e) => Err(e)
          case Ok(value) => RowTail(wallet, d, row, date, value)
  }

  /** The cells read once the date and the amount are known. */
  function RowTail(wallet: string, d: Dict, row: Dict, date: Date, value: Dec): Result<Transaction> {
    match Field(row, "收/支")
    case Err(e) => Err(e)
    case Ok(direction) =>
      match Field(row, "交易对方")
      case Err(e) => Err(e)
      case Ok(payee) =>
        match Field(row, "商品")
        case Err(e) => Err(e)
        case Ok(goods) =>
          match Field(row, "支付方式")
          case Err(e) => Err(e)
          case Ok(payment) =>
            match Field(row, "当前状态")
            case Err(e) => Err(e)
            case Ok(status) =>
              Ok(Build(wallet, date, if IsExpense(direction) then value.Neg() else value, payee,
                       CleanNarration(goods), Choice(d, payment), status))
  }

  /** What a converted record holds: the record's date, the "wechat" tag, the signed amount
      on the matched account (or the placeholder), and for a top-up the wallet posting of
      the opposite amount first. */
  lemma RowTxnShape(wallet: string, d: Dict, row: Dict, parseTime: string -> Result<Date>, t: Transaction)
    requires RowTxn(wallet, d, row, parseTime) == Ok(t)
    ensures Field(row, "交易时间").Ok? && parseTime(Field(row, "交易时间").value) == Ok(t.date)
    ensures Field(row, "金额(元)").Ok? && Field(row, "收/支").Ok?
    ensures SignedAmount(Field(row, "金额(元)").value, Field(row, "收/支").value).Ok?
    ensures Field(row, "支付方式").Ok? && Field(row, "当前状态").Ok? && Field(row, "商品").Ok?
    ensures t.tags == Tags
    ensures t.flag == FlagOkay <==> LastMatch(d, Field(row, "支付方式").value).Some?
    ensures t.postings != [] && t.postings[|t.postings| - 1] ==
      Posting(Choice(d, Field(row, "支付方式").value).0,
              Amount(SignedAmount(Field(row, "金额(元)").value, Field(row, "收/支").value).value, Currency))
    ensures Field(row, "当前状态").value == RechargeDone ==>
      |t.postings| == 2 && t.postings[0] ==
        Posting(wallet, Amount(SignedAmount(Field(row, "金额(元)").value, Field(row, "收/支").value).value.Neg(), Currency))
    ensures Field(row, "当前状态").value != RechargeDone ==>
      |t.postings| == 1 && t.narration == Some(CleanNarration(Field(row, "商品").value))
  {
    var time := Field(row, "交易时间");
    assert time.Ok?;
    var date := parseTime(time.value);
    assert date.Ok?;
    var cell := Field(row, "金额(元)");
    assert cell.Ok?;
    var value := D(LStripChar(cell.value, '¥'));
    assert value.Ok?;
    assert RowTail(wallet, d, row, date.value, value.value) == Ok(t);
    RowTailShape(wallet, d, row, date.value, value.value, t);
  }

  lemma RowTailShape(wallet: string, d: Dict, row: Dict, date: Date, value: Dec, t: Transaction)
    requires RowTail(wallet, d, row, date, value) == Ok(t)
    ensures Field(row, "收/支").Ok? && Field(row, "支付方式").Ok? && Field(row, "当前状态").Ok? && Field(row, "商品").Ok?
    ensures t.date == date && t.tags == Tags
    ensures t.flag == FlagOkay <==> LastMatch(d, Field(row, "支付方式").value).Some?
    ensures var amount := if IsExpense(Field(row, "收/支").value) then value.Neg() else value;
      t.postings != [] && t.postings[|t.postings| - 1] == Posting(Choice(d, Field(row, "支付方式").value).0, Amount(amount, Currency)) &&
      (Field(row, "当前状态").value == RechargeDone ==> |t.postings| == 2 && t.postings[0] == Posting(wallet, Amount(amount.Neg(), Currency))) &&
      (Field(row, "当前状态").value != RechargeDone ==> |t.postings| == 1 && t.narration == Some(CleanNarration(Field(row, "商品").value)))
  {
    var direction := Field(row, "收/支");
    var payee := Field(row, "交易对方");
    var goods := Field(row, "商品");
    var payment := Field(row, "支付方式");
    var status := Field(row, "当前状态");
    assert direction.Ok? && payee.Ok? && goods.Ok? && payment.Ok? && status.Ok?;
    var amount := if IsExpense(direction.value) then value.Neg() else value;
    assert t == Build(wallet, date, amount, payee.value, CleanNarration(goods.value), Choice(d, payment.value), status.value);
  }

  /** Record i is the first record whose conversion raises. */
  predicate FailsFirstAt(wallet: string, d: Dict, rows: seq<Dict>, parseTime: string -> Result<Date>, i: nat) {
    i < |rows| && RowTxn(wallet, d, rows[i], parseTime).Err? &&
    forall k :: 0 <= k < i ==> RowTxn(wallet, d, rows[k], parseTime).Ok?
  }

  /** The lookup loop over the table, in dict order; a later match overrides an earlier
      one. */
  method ChooseAccount(d: Dict, text: string) returns (acct: string, flag: char)
    ensures (acct, flag) == Choice(d, text)
  {
    acct := Fallback;
    flag := FlagWarning;
    var i := 0;
    while i < |d|
      invariant i <= |d|
      invariant (acct, flag) == Choice(d[..i], text)
    {
      assert d[..i + 1][..i] == d[..i];
      if Contains(text, d[i].0) {
        acct := d[i].1;
        flag := FlagOkay;
      }
      i := i + 1;
    }
    assert d[..i] == d;
  }

  /** One record, its cells read in the source's order and the account found by the
      lookup loop. */
  method ConvertRow(wallet: string, d: Dict, row: Dict, parseTime: string -> Result<Date>)
    returns (t: Result<Transaction>)
    ensures t == RowTxn(wallet, d, row, parseTime)
  {
    var time := Field(row, "交易时间");
    if time.Err? { return Err(time.error); }
    var date := parseTime(time.value);
    if date.Err? { return Err(date.error); }
    var cell := Field(row, "金额(元)");
    if cell.Err? { return Err(cell.error); }
    var amount := D(LStripChar(cell.value, '¥'));
    if amount.Err? { return Err(amount.error); }
    var direction := Field(row, "收/支");
    if direction.Err? { return Err(direction.error); }
    var signed := amount.value;
    if IsExpense(direction.value) {
      signed := signed.Neg();
    }
    var payee := Field(row, "交易对方");
    if payee.Err? { return Err(payee.error); }
    var goods := Field(row, "商品");
    if goods.Err? { return Err(goods.error); }
    var payment := Field(row, "支付方式");
    if payment.Err? { return Err(payment.error); }
    var acct, flag := ChooseAccount(d, payment.value);
    var status := Field(row, "当前状态");
    if status.Err? { return Err(status.error); }
    var postings := [Posting(acct, Amount(signed, Currency))];
    var txnPayee := Some(payee.value);
    var narration := CleanNarration(goods.value);
    if status.value == RechargeDone {
      postings := [Posting(wallet, Amount(signed.Neg(), Currency))] + postings;
      narration := RechargeNarration;
      txnPayee := None;
    }
    t := Ok(Transaction(date.value, flag, txnPayee, Some(narration), Tags, postings));
  }

  /** The conversion the row loop applies to each record. */
  function Converter(wallet: string, d: Dict, parseTime: string -> Result<Date>): Dict -> Result<Transaction> {
    (row: Dict) => RowTxn(wallet, d, row, parseTime)
  }

  /** A run through every record gives record k's transaction at k. */
  lemma RowsConverted(wallet: string, d: Dict, rows: seq<Dict>, parseTime: string -> Result<Date>,
                      entries: seq<Transaction>)
    requires MapAll(Converter(wallet, d, parseTime), rows) == Ok(entries)
    ensures |entries| == |rows|
    ensures forall k :: 0 <= k < |rows| ==> RowTxn(wallet, d, rows[k], parseTime) == Ok(entries[k])
  {
    MapAllOk(Converter(wallet, d, parseTime), rows, entries);
  }

  /** A run that converted the records before i and fails on record i stopped at the first
      record that raises. */
  lemma RowsStopped(wallet: string, d: Dict, rows: seq<Dict>, parseTime: string -> Result<Date>,
                    i: nat, entries: seq<Transaction>)
    requires i < |rows| && MapAll(Converter(wallet, d, parseTime), rows[..i]) == Ok(entries)
    requires RowTxn(wallet, d, rows[i], parseTime).Err?
    ensures FailsFirstAt(wallet, d, rows, parseTime, i)
  {
    RowsConverted(wallet, d, rows[..i], parseTime, entries);
    assert forall k :: 0 <= k < i ==> rows[..i][k] == rows[k];
  }

  /** The row loop: one transaction per record, appended in order; the first record that
      raises ends the run with its error. */
  method ConvertRows(wallet: string, d: Dict, rows: seq<Dict>, parseTime: string -> Result<Date>)
    returns (r: Result<seq<Transaction>>)
    ensures r.Ok? ==> |r.value| == |rows|
    ensures r.Ok? ==> forall k :: 0 <= k < |rows| ==> RowTxn(wallet, d, rows[k], parseTime) == Ok(r.value[k])
    ensures r.Err? ==> exists i: nat :: (FailsFirstAt(wallet, d, rows, parseTime, i) &&
                                         r.error == RowTxn(wallet, d, rows[i], parseTime).error)
  {
    var entries := [];
    var i := 0;
    assert rows[..0] == [];
    while i < |rows|
      invariant i <= |rows|
      invariant MapAll(Converter(wallet, d, parseTime), rows[..i]) == Ok(entries)
    {
      MapAllStep(Converter(wallet, d, parseTime), rows, i);
      var t := ConvertRow(wallet, d, rows[i], parseTime);
      if t.Err? {
        RowsStopped(wallet, d, rows, parseTime, i, entries);
        return Err(t.error);
      }
      entries := entries + [t.value];
      i := i + 1;
    }
    assert rows[..i] == rows;
    RowsConverted(wallet, d, rows, parseTime, entries);
    r := Ok(entries);
  }

  /** The importer: the wallet account and the payment-method table. */
  class WechatImporter {
    var account: string
    var accountDict: Dict

    /** account_dict.update({"零钱": account, "/": account}). */
    constructor(account: string, accountDict: Dict)
      ensures this.account == account
      ensures this.accountDict == Put(Put(accountDict, Wallet, account), NoMethod, account)
      ensures WalletMapped()
    {
      this.account := account;
      this.accountDict := Put(Put(accountDict, Wallet, account), NoMethod, account);
    }

    /** The constructor called without an account: the wallet account is "Assets:WeChat". */
    constructor WithDefaultAccount(accountDict: Dict)
      ensures account == DefaultAccount
      ensures this.accountDict == Put(Put(accountDict, Wallet, DefaultAccount), NoMethod, DefaultAccount)
      ensures WalletMapped()
    {
      account := DefaultAccount;
      this.accountDict := Put(Put(accountDict, Wallet, DefaultAccount), NoMethod, DefaultAccount);
    }

    /** The wallet entries always resolve to the wallet account. */
    predicate WalletMapped()
      reads this
    {
      Get(accountDict, Wallet) == Some(account) && Get(accountDict, NoMethod) == Some(account)
    }

    /** extract on the decoded records, with this importer's wallet and table. */
    method Extract(rows: seq<Dict>, parseTime: string -> Result<Date>) returns (r: Result<seq<Transaction>>)
      ensures r.Ok? ==> |r.value| == |rows|
      ensures r.Ok? ==> forall k :: 0 <= k < |rows| ==> RowTxn(account, accountDict, rows[k], parseTime) == Ok(r.value[k])
      ensures r.Err? ==> exists i: nat :: (FailsFirstAt(account, accountDict, rows, parseTime, i) &&
                                           r.error == RowTxn(account, accountDict, rows[i], parseTime).error)
    {
      r := ConvertRows(account, accountDict, rows, parseTime);
    }
  }

  /** The constructor's table maps both wallet keys to the wallet account, overriding the
      caller's entries for them, and keeps every other entry. */
  lemma ConstructorTable(account: string, d: Dict)
    ensures var t := Put(Put(d, Wallet, account), NoMethod, account);
      Get(t, Wallet) == Some(account) && Get(t, NoMethod) == Some(account) &&
      forall k :: k != Wallet && k != NoMethod ==> Get(t, k) == Get(d, k)
  {
  }

  // File names.

  const BillPrefix: string := "微信支付账单("

  /** re.match(r"微信支付账单\(\d{8}-\d{8}\).csv", name): the pattern must match at the start
      of the name; the "." before "csv" is any character but a newline, and the name may go
      on after "csv". */
  predicate Identify(path: string) {
    var name := BaseName(path);
    var p := |BillPrefix|;
    |name| >= p + 22 && name[..p] == BillPrefix &&
    AllDigits(name[p..p + 8]) && name[p + 8] == '-' &&
    AllDigits(name[p + 9..p + 17]) && name[p + 17] == ')' &&
    name[p + 18] != '\n' && name[p + 19..p + 22] == "csv"
  }

  /** The statement date: the text after the last "-" read with "%Y%m%d).csv". */
  function FileDate(path: string): (r: Result<Date>)
    ensures r.Ok? ==> Valid(r.value)
  {
    Strptime(AfterLast(BaseName(path), '-'), ").csv")
  }

  /** The name WeChat gives a bill for a statement period is recognised, and its file date
      is the period's last day. */
  lemma BillName(first: Date, last: Date)
    requires Valid(first) && Valid(last)
    ensures var name := BillPrefix + CompactText(first) + "-" + CompactText(last) + ").csv";
      Identify(name) && FileDate(name) == Ok(last)
  {
    CompactTextShape(first);
    CompactTextShape(last);
    BillNameLayout(CompactText(first), CompactText(last));
    StrptimeCompactText(last, ").csv");
  }

  lemma BillNameLayout(a: string, b: string)
    requires |a| == 8 && |b| == 8 && AllDigits(a) && AllDigits(b)
    ensures var name := BillPrefix + a + "-" + b + ").csv";
      BaseName(name) == name && Identify(name) && AfterLast(name, '-') == b + ").csv"
  {
    var name := BillPrefix + a + "-" + b + ").csv";
    BillNameSplit(a, b);
    BillNameFields(name, a, b);
  }

  lemma BillNameSplit(a: string, b: string)
    requires AllDigits(a) && AllDigits(b)
    ensures var name := BillPrefix + a + "-" + b + ").csv";
      BaseName(name) == name && AfterLast(name, '-') == b + ").csv"
  {
    var tail := b + ").csv";
    var name := BillPrefix + a + "-" + b + ").csv";
    assert '-' !in tail by {
      assert forall i :: 0 <= i < |b| ==> b[i] != '-';
    }
    assert '/' !in name by {
      assert forall i :: 0 <= i < |a| ==> a[i] != '/';
      assert forall i :: 0 <= i < |b| ==> b[i] != '/';
      assert name == BillPrefix + a + ['-'] + b + ").csv";
    }
    assert name == (BillPrefix + a) + ['-'] + tail;
    AfterLastOf(BillPrefix + a, '-', tail);
  }

  lemma BillNameFields(name: string, a: string, b: string)
    requires |a| == 8 && |b| == 8 && AllDigits(a) && AllDigits(b)
    requires name == BillPrefix + a + "-" + b + ").csv" && BaseName(name) == name
    ensures Identify(name)
  {
    var p := |BillPrefix|;
    var tail := b + ").csv";
    var rest := a + "-" + tail;
    assert name == BillPrefix + rest;
    assert rest[..8] == a && rest[8] == '-' && rest[9..] == tail;
    assert name[p..] == rest;
    assert name[p..p + 8] == a;
    assert name[p + 9..] == tail;
    assert name[p + 9..p + 17] == b;
    assert |name| == p + 22 && name[..p] == BillPrefix;
    assert name[p + 17] == ')' && name[p + 18] == '.';
    assert name[p + 19..p + 22] == tail[10..13] == "csv";
  }

  /** A wallet top-up paid from a bank card, as the importer's test writes it. */
  const TopUpRow: seq<(string, string)> :=
    [("交易时间", "2023-08-30 20:46:41"), ("交易类型", "零钱充值"), ("交易对方", "招商银行(1111)"),
     ("商品", "/"), ("收/支", "/"), ("金额(元)", "¥1.00"), ("支付方式", "招商银行(1111)"),
     ("当前状态", "充值完成"), ("交易单号", "233"), ("商户单号", "/"), ("备注", "/")]

  /** The top-up gives one transaction whose postings carry 1 and -1: the wallet gains what
      the card pays. */
  lemma TopUpUnits(wallet: string, d: Dict, parseTime: string -> Result<Date>)
    requires parseTime("2023-08-30 20:46:41") == Ok(Date(2023, 8, 30))
    ensures DistinctKeys(TopUpRow)
    ensures RowTxn(wallet, d, TopUpRow, parseTime).Ok?
    ensures var t := RowTxn(wallet, d, TopUpRow, parseTime).value;
      |t.postings| == 2 && t.postings[0].account == wallet &&
      SameValue(t.postings[0].units.number, Dec(1, 0)) && SameValue(t.postings[1].units.number, Dec(-1, 0)) &&
      t.postings[0].units.currency == Currency && t.postings[1].units.currency == Currency
  {
    TopUpFields();
    TopUpTxn(wallet, d, parseTime);
    var t := Build(wallet, Date(2023, 8, 30), Dec(-100, 2), "招商银行(1111)", "", Choice(d, "招商银行(1111)"), RechargeDone);
    assert t.postings == [Posting(wallet, Amount(Dec(100, 2), Currency)),
                          Posting(Choice(d, "招商银行(1111)").0, Amount(Dec(-100, 2), Currency))];
    assert Pow10(2) == 100;
  }

  lemma TopUpTxn(wallet: string, d: Dict, parseTime: string -> Result<Date>)
    requires parseTime("2023-08-30 20:46:41") == Ok(Date(2023, 8, 30))
    ensures RowTxn(wallet, d, TopUpRow, parseTime) ==
      Ok(Build(wallet, Date(2023, 8, 30), Dec(-100, 2), "招商银行(1111)", "", Choice(d, "招商银行(1111)"), RechargeDone))
  {
    TopUpFields();
    OneYuan();
    TopUpTail(wallet, d);
  }

  lemma TopUpTail(wallet: string, d: Dict)
    ensures RowTail(wallet, d, TopUpRow, Date(2023, 8, 30), Dec(100, 2)) ==
      Ok(Build(wallet, Date(2023, 8, 30), Dec(-100, 2), "招商银行(1111)", "", Choice(d, "招商银行(1111)"), RechargeDone))
  {
    TopUpFields();
    assert IsExpense("/") && CleanNarration("/") == "";
  }

  lemma TopUpFields()
    ensures DistinctKeys(TopUpRow)
    ensures var row: Dict := TopUpRow;
      Field(row, "交易时间") == Ok("2023-08-30 20:46:41") && Field(row, "金额(元)") == Ok("¥1.00") &&
      Field(row, "收/支") == Ok("/") && Field(row, "交易对方") == Ok("招商银行(1111)") &&
      Field(row, "商品") == Ok("/") && Field(row, "支付方式") == Ok("招商银行(1111)") &&
      Field(row, "当前状态") == Ok(RechargeDone)
  {
    var row: Dict := TopUpRow;
    assert row[0].0 == "交易时间" && row[5].0 == "金额(元)" && row[4].0 == "收/支" && row[2].0 == "交易对方";
    assert row[3].0 == "商品" && row[6].0 == "支付方式" && row[7].0 == "当前状态";
  }

  /** "¥1.00" reads as 1.00. */
  lemma OneYuan()
    ensures D(LStripChar("¥1.00", '¥')) == Ok(Dec(100, 2))
  {
    YenStripped();
    OneYuanText();
  }

  lemma YenStripped()
    ensures LStripChar("¥1.00", '¥') == "1.00"
  {
    assert LeadingCount("¥1.00", '¥') == 1;
  }

  lemma OneYuanText()
    ensures D("1.00") == Ok(Dec(100, 2))
  {
    assert ReplaceAll(ReplaceAll("1.00", ",", ""), " ", "") == "1.00";
    OneYuanBody();
    ParsePlainBody("1.00");
  }

  lemma OneYuanBody()
    ensures IsDecimalBody("1.00") && BodyValue("1.00") == Dec(100, 2)
  {
    assert IndexOf("1.00", '.') == 1;
    assert "1.00"[..1] + "1.00"[2..] == "100";
    assert DigitsValue("100") == 100 by {
      assert "100"[..2] == "10" && "10"[..1] == "1" && "1"[..0] == "";
    }
  }
}
